=== FILE: README.md ===
# Grammar compressor core, modelled in Dafny

This project models the core of a small grammar-based compressor. The compressor turns a frame of up to 64 KiB of input bytes into a table of symbols:
- terminals, one per distinct byte;
- pairs, each naming two symbols;
- repeats, each naming one symbol and a count.

It then writes numbers with a variable-length prefix code into a bit stream.

Three parts are modelled:

- **Bit stream** (`src/stream.c`): `Stream` and `Bits`, with the round-trip lemmas in `Frames`.
  - The writer packs bits LSB-first into bytes of a frame of at most `FRAME_MAX` = 65536 bytes.
  - The reader unpacks them.
  - `out_code`/`in_code` write and read fixed-width codes of up to 16 bits.
  - `out_prefix`/`in_prefix` write and read the prefix code. A value of grade *n* is *n* one-bits, a zero bit, then an *n*-bit offset from the base `2^n − 1`.
  - The model states each operation against an abstract view: the sequence of bits written so far, or still to be read. It proves that reading back what was written returns the same values.
- **Symbol table and crunching** (`src/symbol.c`): `Grammar`, `Scan`, `Edits`, `Crunch`, `Runs` and `Sort`.
  - `Grammar` is the state: the symbol table, the frame of positions, the pair records and the live pair list.
  - `scan_base` builds the terminal frame.
  - `scan_pair` counts the pairs at the positions marked as holes.
  - `crunch_pair` replaces every occurrence of one pair with a new symbol.
  - `crunch_word` repeats scan and crunch while some pair occurs twice.
  - `crunch_rep` folds runs of one symbol into repeat symbols.
  - `sym_sort` ranks the symbols by a key.
  - Every crunch is proved to keep the text the frame spells out (`Text`) and the structural invariant `Inv`. Each is also tied to an independent reference:
    - `Replace` for `crunch_pair`;
    - `Fold`/`Unfold` for `crunch_rep`.
- **Circular lists** (`src/list.c`): `CircularList`.
  - The intrusive doubly linked list is a map from nodes to `(prev, next)` links.
  - A predicate `Valid(h, root, xs)` says the ring from `root` holds exactly `xs`.
  - Each list operation is proved to refine the matching edit of the sequence `xs`.

In the grammar part, C pointers become indices:
- a position records its symbol's index in the table and the index of its pair record, if any;
- the hole list becomes a flag on each position, which is always in frame order;
- the pair list is a sequence `live` of record indices in list order.

`malloc` failure, `free` and the printing of statistics are not modelled. The C integer type `uint_t` is 32 bits wide. Its wrap-around is written out (`WrapAdd`, `WrapMul`, `Inc32`, `Dec32`) wherever a count, size or key is computed.

Where the code does something other than a plain reading of its comments would suggest, the model follows the code:
- `log2u` returns the number of significant bits of its argument, with a minimum of 1. It is not the ceiling of the base-2 logarithm (`Stream.Log2u`).
- `SORT_DUP` gives key 0 to every symbol of size 1, and not only to terminals (`Sort.Key`).
- `out_code`/`in_code` with a length of 0 do not stop when `++i` wraps around. The buffer bound is reached first, so the model reports an overflow (`Stream.OutCode`, `Stream.InCode`).

Four C defects are listed under "## Findings". For the three in `src/symbol.c`, a `Variant` parameter picks between the code as written (`AsWritten`) and the evidently intended code (`Corrected`). Undefined behaviour in the as-written code is reported as an error value.

## Model

| member | source | states |
|---|---|---|
| Stream.OutByte | src/stream.c:60-66 | appends the byte to the frame and keeps the pending bits iff the frame is not full; otherwise it fails with an output overflow |
| Stream.OutBit | src/stream.c:80-93 | succeeds exactly when one more bit fits; the bits written grow by exactly that bit |
| Stream.OutBits | src/stream.c:80-93 | writing a bit sequence succeeds iff it fits in the remaining room, and the written bits grow by exactly that sequence |
| Stream.EightBitsMakeOneByte | src/stream.c:80-93 | from a byte-aligned writer with room, eight bits become exactly one new byte whose bits, least significant first, are those eight, and the writer is aligned again |
| Stream.OutPad | src/stream.c:112-128 | a byte-aligned writer is unchanged; otherwise the pending bits are flushed as one byte padded with zero bits in its high end, and the writer is left aligned |
| Stream.OutCode | src/stream.c:133-146 | lengths above 16 are rejected; otherwise the `len` low bits of the code are appended LSB-first iff they fit |
| Stream.OutPrefix | src/stream.c:171-189 | for grades up to 16 the prefix code of the value is appended iff it fits; larger grades are an error |
| Stream.Log2u | src/stream.c:209-214 | the result r is at least 1 and the value is below 2^r; when r > 1 the value is at least 2^(r−1), so r is its bit length |
| Stream.InByte | src/stream.c:69-75 | reads the next byte of the input buffer, or fails with an input overflow past its end |
| Stream.InBit | src/stream.c:96-109 | fails exactly when no bit remains; otherwise it returns the first remaining bit and the reader's remaining bits are the rest |
| Stream.InCode | src/stream.c:149-166 | lengths above 16 are rejected; otherwise the value of the next `len` bits, read LSB-first, is returned iff that many remain, and exactly those bits are consumed |
| Stream.InPrefix | src/stream.c:192-206 | agrees with the reference decoder `PrefixDecode` on the remaining bits: same value, same bits consumed, same error |
| Stream.GradeLoop32NeverEnds | src/stream.c:177-182 | the 32-bit grade loop of `out_prefix` never ends for the value 2^32 − 1, however many steps it is given |
| Stream.GradeLoop32Agrees | src/stream.c:177-182 | for every other 32-bit value the 32-bit grade loop ends with the grade and base of the mathematical prefix code |
| Bits.PrefixDecodeRoundTrip | src/stream.c:171-206 | decoding the prefix code of any value of grade up to 16 gives back the value and consumes exactly its code word, whatever follows |
| Bits.PrefixBitsPrefixFree | src/stream.c:171-189 | no prefix code word is a proper prefix of another, and equal code words come from equal values |
| Frames.CodeRoundTrip | src/stream.c:133-166 | reading `len` bits that `out_code` wrote gives back the code modulo 2^len and leaves exactly the bits that followed |
| Frames.PrefixRoundTrip | src/stream.c:171-206 | reading a prefix code word gives back its value and leaves exactly the bits that followed |
| Frames.PrefixesRoundTrip | src/stream.c:171-206 | reading n prefix code words in a row gives back all n values in order |
| Frames.OutPrefixes | src/stream.c:171-189 | writing a list of values succeeds iff all of them are encodable and their code words fit, and it appends the code words in order |
| Frames.FrameRoundTrip | src/stream.c:33-206 | a frame made by writing prefix codes from an empty writer and padding reads back, from a fresh reader, as the same values |
| CircularList.ListInit | src/list.c:6-10 | the root alone forms a valid empty ring, and no other node changes |
| CircularList.InsertBeforeRefines | src/list.c:13-25 | linking a fresh node before the j-th element of a valid ring gives the valid ring of the sequence with the node inserted at j |
| CircularList.InsertAfterRefines | src/list.c:13-31 | linking a fresh node after the element before position j gives the valid ring of the sequence with the node inserted at j |
| CircularList.AddTailRefines | src/list.c:34-37 | adding at the tail gives the valid ring of the sequence with the node appended |
| CircularList.AddHeadRefines | src/list.c:39-42 | adding at the head gives the valid ring of the sequence with the node prepended |
| CircularList.RemoveRefines | src/list.c:45-51 | unlinking the j-th element gives the valid ring of the sequence without it, and the removed node keeps its own links |
| CircularList.InsertRemoveInverse | src/list.c:21-51 | removing a node just inserted restores every other node's links |
| Grammar.SymAdd | src/symbol.c:44-56 | fails iff the table already holds `SYMBOL_MAX` symbols; otherwise it appends one zeroed symbol and returns its index |
| Grammar.HoleAdd | src/symbol.c:162-167 | marks the position as a hole and changes nothing else about it |
| Grammar.DecPair | src/symbol.c:272-282 | decrements only the given pair's count; when it reaches 0 the live list becomes the old list with that record unlinked and the rest in order, otherwise the list is unchanged; a missing pair is an error |
| Grammar.WithoutSplit | src/list.c:45-51 | unlinking a node that occurs once joins its neighbours: removing `x` from `a + [x] + b` gives `a + b` |
| Scan.BaseUpTo | src/symbol.c:172-214 | after n bytes there are n positions, at most n terminals and no pairs, and every entry of the byte-to-terminal table points into the symbol table |
| Scan.ScanBaseSpec | src/symbol.c:172-214 | the terminal frame spells out the input and satisfies the invariant; position k starts at offset k and holds the terminal of byte k; terminals have distinct codes; every position but the last is a hole |
| Scan.ScanPair | src/symbol.c:219-269 | fails iff the last position is a hole (it has no successor); otherwise it keeps the table and frame length and clears every hole |
| Scan.ScanPairSpec | src/symbol.c:219-269 | each hole gets the pair of its symbol and its successor's; positions that were not holes are untouched; old pair records survive; each new record is live, appended in order, and counted once per hole holding its key |
| Scan.ScanPairInv | src/symbol.c:219-269 | `scan_pair` preserves the invariant, and the holes-exactly-where-unpaired property |
| Crunch.CrunchPairSpec | src/symbol.c:287-374 | with a live pair, a new symbol is made (or `SYMBOL_MAX` is hit); its children are the pair's, its size is the sum of theirs, its base is the first occurrence's, and each child's use count rises by one; every old symbol keeps its repeat count and the new one has 0; the text, invariant and other pair records are kept; the live list is the old one with the released records removed, the rest in order; the pair is released; a non-symmetric pair shrinks the frame by its count |
| Crunch.CrunchPairReplace | src/symbol.c:287-374 | the frame's symbols afterwards are the reference left-to-right `Replace` of every occurrence of the pair with the new symbol |
| Crunch.CrunchPairHoles | src/symbol.c:301-362 | afterwards every position but the last is a hole exactly when it has no pair; in the corrected code the last position is never a hole |
| Crunch.CrunchPairMarksEnd | src/symbol.c:350-357 | when the pair occurs at the second-to-last position, the as-written code marks the new last position as a hole and the corrected code does not |
| Crunch.Best | src/symbol.c:390-413 | the chosen pair is non-symmetric and has the highest count, and it is the first in list order with that count; no pair means count 0 |
| Crunch.WordDone | src/symbol.c:415 | when no non-symmetric pair occurs twice, each position starting two unequal symbols holds a pair record that no other position holds |
| Crunch.WordDoneKeys | src/symbol.c:415 | when, in addition, the live pair records have distinct keys, no two positions start the same two unequal symbols |
| Crunch.CrunchPairNamed | src/symbol.c:310-356 | every hole that `crunch_pair` leaves with a successor holds, or precedes, the symbol it made |
| Crunch.ScanKeysUnique | src/symbol.c:219-269 | `scan_pair` keeps the live pair records' keys distinct when no hole starts the two symbols of a live pair |
| Crunch.CrunchKeys | src/symbol.c:287-374 | after `crunch_pair`, the live keys stay distinct and no hole starts the two symbols of a live pair |
| Crunch.CrunchWord | src/symbol.c:380-419 | the result keeps the text and the invariant and extends the table; every non-symmetric pair now occurs at most once; live pair records have distinct keys, and no two positions start the same two unequal symbols; errors are only `SYMBOL_MAX` or, as written, a hole with no successor |
| Runs.FoldUnfold | src/symbol.c:425-486 | the reference `Fold` of a symbol sequence into runs is undone by `Unfold`, so folding loses nothing |
| Runs.CrunchRepSpec | src/symbol.c:425-486 | the corrected `crunch_rep` fails iff the repeats would pass `SYMBOL_MAX`; otherwise the frame becomes the reference `Fold`, with one repeat symbol per run, each as long as its child, and no runs remain; the child of every run is marked with repeat count 1 and every other old symbol keeps its count; the text and well-formedness are kept |
| Runs.RepFromMarks | src/symbol.c:447-468 | each run folded from position `i` on sets its child's repeat count to 1 and leaves the counts of all other old symbols alone |
| Crunch.CrunchFromRepCounts | src/symbol.c:287-374 | replacing a pair's occurrences leaves every old symbol's repeat count as it was and gives each new symbol a count of 0 |
| Runs.CrunchRepVariants | src/symbol.c:447-470 | the as-written `crunch_rep` either agrees with the corrected one or fails on a missing pair |
| Runs.CrunchRepSame | src/symbol.c:447-470 | when no run reaches the last position, the as-written and corrected `crunch_rep` agree |
| Runs.RunAtEndFails | src/symbol.c:470 | a frame whose only run is at its end makes the as-written `crunch_rep` release a missing pair, while the corrected one succeeds |
| Runs.RunAloneFails | src/symbol.c:447 | run right after `scan_base`, on any input with two equal adjacent bytes, the as-written `crunch_rep` hands a missing pair to `dec_pair` at its first run |
| Sort.Key | src/symbol.c:69-108 | the key fits in 32 bits; a filtered-out symbol has key 0; under `SORT_REP`/`SORT_DUP` a kept symbol's key is its number of uses |
| Sort.Tally | src/symbol.c:69-108 | the count is the number of symbols the filter keeps |
| Sort.Rank | src/symbol.c:35-41 | the order is a permutation of the indices with keys non-increasing along it, the order `qsort` with `sym_comp` produces up to ties |
| Sort.SymSort | src/symbol.c:62-121 | the order is a permutation of the table sorted by non-increasing key; each symbol's `index` is its rank in that order and nothing else about it changes; the count is the number of kept symbols |

## Left out

- Stream.OutPrefix: for the value 2^32 − 1 the C loop never ends. The model returns an error for every grade above 16, and `Stream.GradeLoop32NeverEnds` states the hang.
- Crunch.CrunchWord: as written, `scan_pair` reads the list sentinel as a position when the last position is a hole. That is undefined behaviour in C. The model returns the error `NoSuccessor` instead of guessing what the memory holds. `Crunch.CrunchPairMarksEnd` shows when it happens.
- Runs.CrunchRepVariants: as written, `dec_pair(NULL)` dereferences a null pointer. The model returns the error `NullPair` instead of crashing.
- Grammar.DecPair: for a null pair the C code dereferences the pointer. The model returns an error; only the as-written `crunch_rep` reaches that case.
- Sort.SymSort: `qsort` is not stable, so the C code promises no order among equal keys. The model ranks with a stable insertion sort, and its contract says nothing about ties.
- Sort.Key: filter values other than `SORT_ALL`, `SORT_REP` and `SORT_DUP` are not modelled, because the filter is a three-valued datatype. For any other value the C `switch` sets no key and counts nothing.
- `sym_list` (src/symbol.c:127-159) prints statistics and uses floating-point entropy. It is not modelled.
- `in_frame`/`out_frame` (src/stream.c:33-55) are file I/O. They are modelled only as the start of a reader on a byte sequence (`StartReader`) and the writer's byte sequence.
- The `error()` exit in `sym_add` becomes an error result that every caller passes on. Memory allocation and freeing are not modelled.

## Findings

| source | as written | input that shows it | evidently intended | confidence | as-written member | corrected member |
|---|---|---|---|---|---|---|
| src/stream.c:177 | the grade loop computes `base1 = (base1 << 1) \| 1` in 32 bits; for `val == 0xFFFFFFFF` base1 reaches 0xFFFFFFFF and stays there, so `val >= base1` never fails | `out_prefix(0xFFFFFFFF)` | stop at grade 32, or reject values above the largest encodable one | not executed | Stream.GradeLoop32NeverEnds | Stream.OutPrefix |
| src/symbol.c:355 | `crunch_pair` calls `hole_add(pos)` for the merged position even when it is now the last one; the next `scan_pair` then reads the list sentinel as that position's successor | the frame "abab": crunching (a,b) leaves [S, S] with the last S a hole | mark a merged position as a hole only when a position follows it | not executed | Crunch.CrunchPairMarksEnd | Crunch.CrunchPairHoles |
| src/symbol.c:470 | when a run reaches the end of the frame, `crunch_rep` calls `dec_pair(pos_right->pair)` on the last position, which never has a pair | the frame "xaa" after `scan_base` and `scan_pair` | release the pair only when the position has one | not executed | Runs.RunAtEndFails | Runs.CrunchRepSpec |
| src/symbol.c:447 | `crunch_rep` calls `dec_pair(pos_left->pair)` at the first run it meets; run right after `scan_base`, which leaves every pair `NULL`, that pair is missing | the frame "aa" (any input with two equal adjacent bytes) after `scan_base` alone | release the pair only when the position has one | not executed | Runs.RunAloneFails | Runs.CrunchRepSpec |

=== FILE: bits.dfy ===
/** Abstract view of the bit stream: bytes are read and written
    least-significant bit first, fixed-width codes are little-endian bit
    strings and the prefix code is a unary grade, a stop bit and a binary
    offset from the base of that grade. */
module Bits {
  import opened Common

  /** The byte whose only set bit is bit `i`. */
  function BitMask(i: nat): (r: byte)
    requires i < 8
  {
    if i == 0 then 1 else if i == 1 then 2 else if i == 2 then 4 else if i == 3 then 8
    else if i == 4 then 16 else if i == 5 then 32 else if i == 6 then 64 else 128
  }

  /** `b >> s` for a shift amount below 8. */
  function ShiftDown(b: byte, s: nat): (r: byte)
    requires s < 8
  {
    if s == 0 then b else if s == 1 then b >> 1 else if s == 2 then b >> 2
    else if s == 3 then b >> 3 else if s == 4 then b >> 4 else if s == 5 then b >> 5
    else if s == 6 then b >> 6 else b >> 7
  }

  /** Bit `i` of `b`, counting from the least significant bit. */
  predicate BitOf(b: byte, i: nat)
    requires i < 8
  {
    b & BitMask(i) != 0
  }

  /** The eight bits of a byte in the order they travel on the stream. */
  function ByteBits(b: byte): (r: seq<bool>)
    ensures |r| == 8
    ensures forall i :: 0 <= i < 8 ==> r[i] == BitOf(b, i)
  {
    seq(8, i requires 0 <= i < 8 => BitOf(b, i))
  }

  /** The bits of a byte buffer, byte after byte. */
  function BytesBits(bs: seq<byte>): (r: seq<bool>)
    ensures |r| == 8 * |bs|
  {
    if bs == [] then [] else BytesBits(bs[..|bs| - 1]) + ByteBits(bs[|bs| - 1])
  }

  lemma {:induction false} BytesBitsSnoc(bs: seq<byte>, b: byte)
    ensures BytesBits(bs + [b]) == BytesBits(bs) + ByteBits(b)
  {
    assert (bs + [b])[..|bs + [b]| - 1] == bs;
  }

  function Zeros(n: nat): (r: seq<bool>)
    ensures |r| == n && forall i :: 0 <= i < n ==> !r[i]
  {
    seq(n, i => false)
  }

  function Ones(n: nat): (r: seq<bool>)
    ensures |r| == n && forall i :: 0 <= i < n ==> r[i]
  {
    seq(n, i => true)
  }

  /** The number a bit string denotes when its first bit is the least significant. */
  function LsbValue(bits: seq<bool>): (r: nat)
  {
    if bits == [] then 0 else (if bits[0] then 1 else 0) + 2 * LsbValue(bits[1..])
  }

  /** The `len` low bits of `c`, least significant first. */
  function CodeBits(c: nat, len: nat): (r: seq<bool>)
    ensures |r| == len
  {
    if len == 0 then [] else [c % 2 == 1] + CodeBits(c / 2, len - 1)
  }

  lemma {:induction false} LsbValueBound(bits: seq<bool>)
    ensures LsbValue(bits) < Pow2(|bits|)
  {
    if bits != [] {
      LsbValueBound(bits[1..]);
    }
  }

  lemma {:induction false} LsbValueSnoc(bits: seq<bool>, b: bool)
    ensures LsbValue(bits + [b]) == LsbValue(bits) + (if b then Pow2(|bits|) else 0)
  {
    if bits != [] {
      assert (bits + [b])[1..] == bits[1..] + [b];
      LsbValueSnoc(bits[1..], b);
    } else {
      assert ([] + [b])[1..] == [];
    }
  }

  /** Reading back `len` written bits of `c` gives `c` reduced modulo `2^len`. */
  lemma {:induction false} CodeBitsValue(c: nat, len: nat)
    ensures LsbValue(CodeBits(c, len)) == c % Pow2(len)
  {
    if len > 0 {
      CodeBitsValue(c / 2, len - 1);
      assert CodeBits(c, len)[1..] == CodeBits(c / 2, len - 1);
      ModDouble(c, Pow2(len - 1));
    }
  }

  /** Setting bit `n` of a number below `2^n` appends one bit to its code. */
  lemma {:induction false} CodeBitsTop(c: nat, n: nat, b: bool)
    requires c < Pow2(n)
    ensures CodeBits(c + (if b then Pow2(n) else 0), n + 1) == CodeBits(c, n) + [b]
  {
    if n > 0 {
      var c1 := c + (if b then Pow2(n) else 0);
      assert c1 % 2 == c % 2 && c1 / 2 == c / 2 + (if b then Pow2(n - 1) else 0);
      CodeBitsTop(c / 2, n - 1, b);
    }
  }

  lemma {:induction false} CodeBitsZero(n: nat)
    ensures CodeBits(0, n) == Zeros(n)
  {
    if n > 0 {
      CodeBitsZero(n - 1);
      assert Zeros(n) == [false] + Zeros(n - 1);
    }
  }

  /** Leading zeros, in least-significant-first order, scale the value. */
  lemma {:induction false} LsbValueZeros(k: nat, bits: seq<bool>)
    ensures LsbValue(Zeros(k) + bits) == Pow2(k) * LsbValue(bits)
  {
    if k > 0 {
      assert (Zeros(k) + bits)[1..] == Zeros(k - 1) + bits;
      LsbValueZeros(k - 1, bits);
      assert 2 * (Pow2(k - 1) * LsbValue(bits)) == (2 * Pow2(k - 1)) * LsbValue(bits);
    } else {
      assert Zeros(k) + bits == bits;
    }
  }

  /** Every bit string is the code of its own value. */
  lemma {:induction false} ValueCodeBits(bits: seq<bool>)
    ensures CodeBits(LsbValue(bits), |bits|) == bits
  {
    if bits != [] {
      ValueCodeBits(bits[1..]);
      var v := LsbValue(bits);
      assert v % 2 == 1 <==> bits[0];
      assert v / 2 == LsbValue(bits[1..]);
    }
  }

  /** Bases of the prefix-code grades: 0, 1, 3, 7, 15, ... */
  function GradeBase(p: nat): (r: nat)
  {
    Pow2(p) - 1
  }

  /** The number of significant bits of `n`; 0 for 0. */
  function BitLength(n: nat): (r: nat)
  {
    if n == 0 then 0 else 1 + BitLength(n / 2)
  }

  lemma {:induction false} BitLengthBounds(n: nat)
    requires n >= 1
    ensures BitLength(n) >= 1 && Pow2(BitLength(n) - 1) <= n < Pow2(BitLength(n))
  {
    if n >= 2 {
      BitLengthBounds(n / 2);
    }
  }

  /** The grade of `v`: the least `p` with `v < 2^(p+1) - 1`, that is one
      less than the number of significant bits of `v + 1`. */
  function Grade(v: nat): (r: nat)
  {
    BitLength((v + 1) / 2)
  }

  lemma {:induction false} GradeBounds(v: nat)
    ensures GradeBase(Grade(v)) <= v < GradeBase(Grade(v) + 1)
  {
    BitLengthBounds(v + 1);
    assert BitLength(v + 1) == 1 + Grade(v);
  }

  /** The grade is the only `p` whose range holds `v`. */
  lemma {:induction false} GradeUnique(v: nat, p: nat)
    requires GradeBase(p) <= v < GradeBase(p + 1)
    ensures p == Grade(v)
  {
    GradeBounds(v);
    var g := Grade(v);
    if p < g {
      Pow2Monotone(p + 1, g);
    } else if g < p {
      Pow2Monotone(g + 1, p);
    }
  }

  /** How far `v` lies above the base of its grade. */
  function GradeOffset(v: nat): (r: nat)
  {
    GradeBounds(v);
    v - GradeBase(Grade(v))
  }

  /** The prefix code of `v`: `p` one bits, a zero bit, then `v - (2^p - 1)` in `p` bits. */
  function PrefixBits(v: nat): (r: seq<bool>)
    ensures |r| == 2 * Grade(v) + 1
  {
    Ones(Grade(v)) + [false] + CodeBits(GradeOffset(v), Grade(v))
  }

  /** The prefix code of 0 is the single bit 0. */
  lemma {:induction false} PrefixBitsZero()
    ensures PrefixBits(0) == [false]
  {
    assert Grade(0) == 0;
    assert Ones(0) + [false] + CodeBits(GradeOffset(0), 0) == [false];
  }

  /** The grade of `v` is exactly the length of the leading run of ones. */
  lemma {:induction false} PrefixBitsShape(v: nat)
    ensures forall i :: 0 <= i < Grade(v) ==> PrefixBits(v)[i]
    ensures !PrefixBits(v)[Grade(v)]
  {
    var p := Grade(v);
    var s := PrefixBits(v);
    assert s == Ones(p) + [false] + CodeBits(GradeOffset(v), p);
    assert s[p] == false;
  }

  /** Two different values never share a prefix code word, nor is one code
      word a proper prefix of another. */
  lemma {:induction false} PrefixBitsPrefixFree(v: nat, w: nat, rest: seq<bool>)
    requires PrefixBits(v) == PrefixBits(w) + rest
    ensures v == w && rest == []
  {
    SameGrade(v, w, rest);
    var p := Grade(v);
    assert PrefixBits(v) == PrefixBits(w);
    PrefixTail(v);
    PrefixTail(w);
    OffsetBound(v);
    OffsetBound(w);
    CodeBitsInjective(GradeOffset(v), GradeOffset(w), p);
  }

  /** A code word that extends another has the same leading run of ones. */
  lemma {:induction false} SameGrade(v: nat, w: nat, rest: seq<bool>)
    requires PrefixBits(v) == PrefixBits(w) + rest
    ensures Grade(v) == Grade(w) && rest == []
  {
    var p, q := Grade(v), Grade(w);
    PrefixBitsShape(v);
    PrefixBitsShape(w);
    var m := if p < q then p else q;
    assert PrefixBits(v)[m] == PrefixBits(w)[m];
  }

  lemma {:induction false} PrefixTail(v: nat)
    ensures PrefixBits(v)[Grade(v) + 1..] == CodeBits(GradeOffset(v), Grade(v))
  {
  }

  lemma {:induction false} OffsetBound(v: nat)
    ensures GradeOffset(v) < Pow2(Grade(v))
  {
    GradeBounds(v);
  }

  /** Codes of the same width of numbers below `2^n` differ when the numbers do. */
  lemma {:induction false} CodeBitsInjective(a: nat, b: nat, n: nat)
    requires a < Pow2(n) && b < Pow2(n) && CodeBits(a, n) == CodeBits(b, n)
    ensures a == b
  {
    CodeBitsValue(a, n);
    CodeBitsValue(b, n);
    SmallMod(a, Pow2(n));
    SmallMod(b, Pow2(n));
  }

  /** The length of the run of one bits at the head of `bits`. */
  function LeadingOnes(bits: seq<bool>): (k: nat)
    ensures k <= |bits|
  {
    if bits == [] || !bits[0] then 0 else 1 + LeadingOnes(bits[1..])
  }

  /** The run is made of ones and stops at a zero or at the end. */
  lemma {:induction false} LeadingOnesRun(bits: seq<bool>)
    ensures forall i :: 0 <= i < LeadingOnes(bits) ==> bits[i]
    ensures LeadingOnes(bits) < |bits| ==> !bits[LeadingOnes(bits)]
  {
    if bits != [] && bits[0] {
      LeadingOnesRun(bits[1..]);
    }
  }

  lemma {:induction false} LeadingOnesCons(bits: seq<bool>)
    ensures LeadingOnes([true] + bits) == 1 + LeadingOnes(bits)
  {
    assert ([true] + bits)[1..] == bits;
  }

  lemma {:induction false} LeadingOnesOfCode(p: nat, rest: seq<bool>)
    ensures LeadingOnes(Ones(p) + [false] + rest) == p
  {
    if p > 0 {
      assert (Ones(p) + [false] + rest)[1..] == Ones(p - 1) + [false] + rest;
      LeadingOnesOfCode(p - 1, rest);
    } else {
      assert Ones(p) + [false] + rest == [false] + rest;
    }
  }

  /** What reading one prefix code from `bits` yields, as a value and the
      number of bits consumed, given the 8-bit grade counter and the
      32-bit base of the reader: `k` one bits, a stop bit, then a
      `k mod 256`-bit offset added to `2^k - 1` modulo `2^32`. A counter
      that wraps to 0 yields 0 with no offset; a counter above 16 is a
      code too long; running out of bits is an input overflow. */
  function PrefixDecode(bits: seq<bool>): (r: Result<(nat, nat)>)
    ensures r.Err? ==> r.error == InOverflow || r.error == CodeTooLong
    ensures r.Ok? ==> r.value.0 < UINT_MOD && LeadingOnes(bits) < r.value.1 <= |bits|
  {
    var k := LeadingOnes(bits);
    if k == |bits| then Err(InOverflow)
    else
      var s := k % 256;
      if s == 0 then Ok((0, k + 1))
      else if s > 16 then Err(CodeTooLong)
      else if |bits| < k + 1 + s then Err(InOverflow)
      else Ok((WrapAdd(GradeBase(k) % UINT_MOD, LsbValue(bits[k + 1..k + 1 + s])), k + 1 + s))
  }

  /** Decoding a prefix code word of grade at most 16 gives back its value
      and consumes exactly the word, whatever follows it. */
  lemma {:induction false} PrefixDecodeRoundTrip(v: nat, rest: seq<bool>)
    requires Grade(v) <= 16
    ensures PrefixDecode(PrefixBits(v) + rest) == Ok((v, |PrefixBits(v)|))
  {
    CodeWordParts(v, rest);
    DecodeWord(Grade(v), CodeBits(GradeOffset(v), Grade(v)), rest);
    DecodedValue(v);
  }

  lemma {:induction false} CodeWordParts(v: nat, rest: seq<bool>)
    ensures PrefixBits(v) + rest == Ones(Grade(v)) + [false] + (CodeBits(GradeOffset(v), Grade(v)) + rest)
    ensures |PrefixBits(v)| == Grade(v) + 1 + Grade(v)
  {
    var p, o := Grade(v), GradeOffset(v);
    var x, y := Ones(p), CodeBits(o, p);
    assert PrefixBits(v) == x + [false] + y;
    assert x + [false] + y + rest == x + [false] + (y + rest);
  }

  /** The value the decoder forms from the offset of a small grade is the
      value encoded. */
  lemma {:induction false} DecodedValue(v: nat)
    requires Grade(v) <= 16
    ensures Grade(v) == 0 ==> v == 0
    ensures Grade(v) > 0 ==>
              WrapAdd(GradeBase(Grade(v)) % UINT_MOD, LsbValue(CodeBits(GradeOffset(v), Grade(v)))) == v
  {
    var p, o := Grade(v), GradeOffset(v);
    var b := GradeBase(p);
    SmallGrade(v);
    OffsetValue(v);
    WrapSum(b, o, v);
  }

  /** Decoding `p` ones, a stop bit and a `p`-bit offset, for a grade the
      counter holds without wrapping and a fixed code can carry. */
  lemma {:induction false} DecodeWord(p: nat, code: seq<bool>, rest: seq<bool>)
    requires p <= 16 && |code| == p
    ensures p == 0 ==> PrefixDecode(Ones(p) + [false] + (code + rest)) == Ok((0, 1))
    ensures p > 0 ==> PrefixDecode(Ones(p) + [false] + (code + rest))
                      == Ok((WrapAdd(GradeBase(p) % UINT_MOD, LsbValue(code)), p + 1 + p))
  {
    var bits := Ones(p) + [false] + (code + rest);
    LeadingOnesOfCode(p, code + rest);
    assert bits[p + 1..p + 1 + p] == code;
    assert p % 256 == p;
  }

  lemma {:induction false} WrapSum(a: nat, b: nat, v: nat)
    requires a + b == v < UINT_MOD
    ensures WrapAdd(a % UINT_MOD, b) == v
  {
  }

  /** Values of grade at most 16 lie below `2^17 - 1`. */
  lemma {:induction false} SmallGrade(v: nat)
    requires Grade(v) <= 16
    ensures GradeBase(Grade(v)) < 65536 && v < 131071
    ensures Grade(v) == 0 ==> v == 0
    ensures GradeBase(Grade(v)) + GradeOffset(v) == v
  {
    GradeBounds(v);
    Pow2Monotone(Grade(v) + 1, 17);
    Pow2Add(16, 1);
    Pow2Table();
  }

  lemma {:induction false} OffsetValue(v: nat)
    ensures LsbValue(CodeBits(GradeOffset(v), Grade(v))) == GradeOffset(v)
  {
    CodeBitsValue(GradeOffset(v), Grade(v));
    OffsetBound(v);
    SmallMod(GradeOffset(v), Pow2(Grade(v)));
  }

  lemma {:induction false} SmallMod(a: nat, d: nat)
    requires a < d
    ensures a % d == a
  {
  }
}

=== FILE: common.dfy ===
/** Shared vocabulary of the compressor model: byte and machine-integer types,
    the fixed capacities of the tables, the fatal error kinds and the
    failure-compatible result type that replaces the process-terminating
    `error (1, 0, ...)` calls of the C code. */
module Common {

  /** A byte of a frame (`uchar_t`). */
  type byte = bv8

  /** `uint_t` values (32-bit unsigned). */
  type uint32 = x: nat | x < 0x1_0000_0000

  /** `uchar_t` values used as counters and code lengths. */
  type uint8 = x: nat | x < 0x100

  const UINT_MOD: nat := 0x1_0000_0000

  const UINT_MAX: nat := UINT_MOD - 1

  /** Capacity of the input and output frames (stream.h). */
  const FRAME_MAX: nat := 65536

  /** Capacity of the symbol table (symbol.h). */
  const SYMBOL_MAX: nat := 65536

  /** Number of distinct byte codes (stream.h). */
  const CODE_MAX: nat := 256

  /** The fatal conditions of the source, one per diagnostic message. */
  datatype Error =
    | OutOverflow     // "out overflow"
    | InOverflow      // "in overflow"
    | CodeTooLong     // "code too long"
    | TooManySymbols  // "too many symbols"
    | NullPair        // a NULL pair pointer handed to dec_pair
    | NoSuccessor     // a pair read through the frame's end

  datatype Option<+T> = None | Some(value: T)

  datatype Result<+T> = Ok(value: T) | Err(error: Error) {

    predicate IsFailure() {
      Err?
    }

    function PropagateFailure<U>(): Result<U>
      requires Err?
    {
      Err(error)
    }

    function Extract(): T
      requires Ok?
    {
      value
    }
  }

  /** 32-bit unsigned addition (`uint_t` arithmetic wraps modulo `2^32`). */
  function WrapAdd(a: nat, b: nat): (r: nat)
    ensures r < UINT_MOD
  {
    (a + b) % UINT_MOD
  }

  /** 32-bit unsigned multiplication. */
  function WrapMul(a: nat, b: nat): (r: nat)
    ensures r < UINT_MOD
  {
    (a * b) % UINT_MOD
  }

  /** `x++` on a `uint_t`. */
  function Inc32(x: nat): (r: nat)
    ensures r < UINT_MOD
    ensures x + 1 < UINT_MOD ==> r == x + 1
  {
    WrapAdd(x, 1)
  }

  /** `x--` on a `uint_t`: zero wraps to the largest value. */
  function Dec32(x: nat): (r: nat)
    ensures r < UINT_MOD
    ensures x == 0 ==> r == UINT_MAX
    ensures 0 < x <= UINT_MOD ==> r == x - 1
  {
    if x == 0 then UINT_MAX else (x - 1) % UINT_MOD
  }

  function Pow2(n: nat): (r: nat)
    ensures r >= 1
  {
    if n == 0 then 1 else 2 * Pow2(n - 1)
  }

  lemma {:induction false} Pow2Add(a: nat, b: nat)
    ensures Pow2(a + b) == Pow2(a) * Pow2(b)
  {
    if a > 0 {
      Pow2Add(a - 1, b);
    }
  }

  lemma {:induction false} Pow2Monotone(a: nat, b: nat)
    requires a <= b
    ensures Pow2(a) <= Pow2(b)
  {
    if a < b {
      Pow2Monotone(a, b - 1);
    }
  }

  lemma {:induction false} Pow2Table()
    ensures Pow2(7) == 128 && Pow2(8) == 256 && Pow2(15) == 32768 && Pow2(16) == 65536
    ensures Pow2(32) == UINT_MOD
  {
    Pow2Add(16, 16);
  }

  lemma {:induction false} MulAtLeast(d: nat, x: int)
    requires x >= 1
    ensures d * x >= d
  {
  }

  /** Euclidean division is determined by any quotient and remainder pair. */
  lemma {:induction false} DivModUnique(a: nat, d: nat, q: nat, r: nat)
    requires d > 0 && a == d * q + r && r < d
    ensures a / d == q && a % d == r
  {
    var Q, R := a / d, a % d;
    assert d * Q + R == d * q + r;
    if Q > q {
      MulAtLeast(d, Q - q);
    } else if Q < q {
      MulAtLeast(d, q - Q);
    }
  }

  lemma {:induction false} ModDouble(c: nat, m: nat)
    requires m > 0
    ensures c % (2 * m) == 2 * ((c / 2) % m) + c % 2
  {
    var q := c / 2;
    var k, s := q / m, q % m;
    assert c == 2 * q + c % 2;
    assert q == m * k + s;
    assert c == (2 * m) * k + (2 * s + c % 2) by {
      assert 2 * (m * k) == (2 * m) * k;
    }
    DivModUnique(c, 2 * m, k, 2 * s + c % 2);
  }

  lemma {:induction false} AppendAssoc<T>(a: seq<T>, b: seq<T>, c: seq<T>)
    ensures (a + b) + c == a + (b + c)
  {
  }

  /** `s` written `n` times in a row. */
  function Repeat<T>(s: seq<T>, n: nat): (r: seq<T>)
    ensures |r| == |s| * n
  {
    if n == 0 then [] else Repeat(s, n - 1) + s
  }

  /** Number of occurrences of `x` in `s`. */
  function Occ<T(==)>(s: seq<T>, x: T): (n: nat)
    ensures n <= |s|
  {
    if s == [] then 0 else Occ(s[..|s| - 1], x) + (if s[|s| - 1] == x then 1 else 0)
  }

  lemma {:induction false} OccAppend<T>(a: seq<T>, b: seq<T>, x: T)
    ensures Occ(a + b, x) == Occ(a, x) + Occ(b, x)
  {
    if b == [] {
      assert a + b == a;
    } else {
      assert (a + b)[..|a + b| - 1] == a + b[..|b| - 1];
      OccAppend(a, b[..|b| - 1], x);
    }
  }

  lemma {:induction false} OccSingle<T>(y: T, x: T)
    ensures Occ([y], x) == if y == x then 1 else 0
  {
    assert [y][..0] == [];
  }

  /** The sequences differ only in that index `i` of `s` is replaced by `ys`. */
  lemma {:induction false} OccSplice<T>(s: seq<T>, i: nat, j: nat, ys: seq<T>, x: T)
    requires i <= j <= |s|
    ensures Occ(s[..i] + ys + s[j..], x) == Occ(s, x) - Occ(s[i..j], x) + Occ(ys, x)
  {
    assert s == s[..i] + s[i..j] + s[j..];
    OccAppend(s[..i] + s[i..j], s[j..], x);
    OccAppend(s[..i], s[i..j], x);
    OccAppend(s[..i] + ys, s[j..], x);
    OccAppend(s[..i], ys, x);
  }

  /** The index of the first `x` in `s`, or `|s|` when there is none. */
  function First<T(==)>(s: seq<T>, x: T): (k: nat)
    ensures k <= |s| && (k < |s| ==> s[k] == x)
    ensures forall j :: 0 <= j < k ==> s[j] != x
  {
    if s == [] || s[0] == x then 0 else 1 + First(s[1..], x)
  }

  /** An index holding `x` with no `x` before it is the first. */
  lemma {:induction false} FirstAt<T>(s: seq<T>, x: T, i: nat)
    requires i < |s| && s[i] == x && forall j :: 0 <= j < i ==> s[j] != x
    ensures First(s, x) == i
  {
  }

  /** The handles `a`, `a + 1`, ..., `b - 1`. */
  function Range(a: nat, b: nat): (r: seq<nat>)
    requires a <= b
    ensures |r| == b - a && forall k :: 0 <= k < |r| ==> r[k] == a + k
  {
    seq(b - a, k requires 0 <= k < b - a => a + k)
  }

  /** A sequence without `x` holds no `x`. */
  lemma {:induction false} Occ0<T>(s: seq<T>, x: T)
    requires forall k :: 0 <= k < |s| ==> s[k] != x
    ensures Occ(s, x) == 0
  {
    if s != [] {
      Occ0(s[..|s| - 1], x);
    }
  }

  /** A value found in a sequence occurs at least once. */
  lemma {:induction false} OccFound<T>(s: seq<T>, k: nat)
    requires k < |s|
    ensures Occ(s, s[k]) >= 1
  {
    assert s == s[..k] + [s[k]] + s[k + 1..];
    OccAppend(s[..k] + [s[k]], s[k + 1..], s[k]);
    OccAppend(s[..k], [s[k]], s[k]);
    OccSingle(s[k], s[k]);
  }

  /** Removing the element at `k` takes one occurrence of it away. */
  lemma {:induction false} OccRemove<T>(s: seq<T>, k: nat, x: T)
    requires k < |s|
    ensures Occ(s[..k] + s[k + 1..], x) == Occ(s, x) - (if s[k] == x then 1 else 0)
  {
    assert s[k..k + 1] == [s[k]];
    assert s[..k] + [] + s[k + 1..] == s[..k] + s[k + 1..];
    OccSplice(s, k, k + 1, [], x);
    OccSingle(s[k], x);
  }

  /** The occurrences from `i` on are those at `i` and those after it. */
  lemma {:induction false} OccTail<T>(s: seq<T>, i: nat, x: T)
    requires i < |s|
    ensures Occ(s[i..], x) == (if s[i] == x then 1 else 0) + Occ(s[i + 1..], x)
  {
    assert s[i..] == [s[i]] + s[i + 1..];
    OccAppend([s[i]], s[i + 1..], x);
    OccSingle(s[i], x);
  }

  /** A value found at two indices occurs at least twice. */
  lemma {:induction false} OccPair<T>(s: seq<T>, i: nat, k: nat)
    requires i < k < |s| && s[i] == s[k]
    ensures Occ(s, s[i]) >= 2
  {
    assert s == s[..k] + s[k..];
    OccAppend(s[..k], s[k..], s[i]);
    OccFound(s[..k], i);
    OccFound(s[k..], 0);
  }

  /** A value occurring at most once is found at no other index. */
  lemma {:induction false} OccOnce<T>(s: seq<T>, i: nat)
    requires i < |s| && Occ(s, s[i]) <= 1
    ensures forall k :: 0 <= k < |s| && k != i ==> s[k] != s[i]
  {
    forall k | 0 <= k < |s| && k != i
      ensures s[k] != s[i]
    {
      if s[k] == s[i] {
        if k < i {
          OccPair(s, k, i);
        } else {
          OccPair(s, i, k);
        }
      }
    }
  }
}

=== FILE: crunch.dfy ===
/** `crunch_pair` and `crunch_word`: every occurrence of a pair of adjacent
    symbols is replaced by one new symbol, pair after pair, the most
    frequent first, until no pair of distinct symbols occurs twice. */
module Crunch {
  import opened Common
  import opened Grammar
  import opened Edits
  import opened Scan

  // ---------------------------------------------------------------------------
  // crunch_pair, one occurrence at a time

  /** `hole_add` on the position at `k`. */
  function Mark(g: Grammar, k: nat): (r: Grammar)
    requires k < |g.frame|
    ensures r.syms == g.syms && r.pairs == g.pairs && r.live == g.live
    ensures r.frame == g.frame[k := HoleAdd(g.frame[k])]
  {
    g.(frame := g.frame[k := HoleAdd(g.frame[k])])
  }

  /** Whether the position an occurrence is merged into joins the hole
      list. The code adds it even when it has become the last position,
      which has no successor to pair with; the corrected reading adds it
      only when a successor is left. */
  predicate MarksMerged(v: Variant, i: nat, n: nat)
  {
    v == AsWritten || i + 2 < n
  }

  /** The position before the occurrence loses its pair (one occurrence
      fewer of that pair) and waits for a new one. */
  function ClearPrev(g: Grammar, i: nat): (r: Grammar)
    requires i < |g.frame| && (i > 0 && g.frame[i - 1].pair.Some? ==> g.frame[i - 1].pair.value < |g.pairs|)
    ensures r.syms == g.syms && |r.pairs| == |g.pairs|
    ensures r.frame == if i > 0 && g.frame[i - 1].pair.Some?
                       then g.frame[i - 1 := g.frame[i - 1].(pair := None, hole := true)]
                       else g.frame
  {
    if i > 0 && g.frame[i - 1].pair.Some? then Mark(Unpair(g, i - 1).value, i - 1) else g
  }

  /** The position after the occurrence loses its pair, unless it is the
      last position (which has none). A missing pair there is fatal. */
  function ClearNext(g: Grammar, i: nat): (r: Result<Grammar>)
    requires i + 1 < |g.frame| && (g.frame[i + 1].pair.Some? ==> g.frame[i + 1].pair.value < |g.pairs|)
    ensures r.Err? <==> i + 2 < |g.frame| && g.frame[i + 1].pair.None?
    ensures r.Err? ==> r.error == NullPair
    ensures r.Ok? ==> && r.value.syms == g.syms && |r.value.pairs| == |g.pairs|
                      && r.value.frame == if i + 2 < |g.frame|
                                          then g.frame[i + 1 := g.frame[i + 1].(pair := None)]
                                          else g.frame
  {
    if i + 2 < |g.frame| then Unpair(g, i + 1) else Ok(g)
  }

  /** The symbol standing for the pair: made at its first occurrence (at
      that occurrence's input offset), the same one after. */
  function Place(g: Grammar, l: nat, r: nat, base: nat, sym: Option<nat>): (res: Result<(Grammar, nat)>)
    requires l < |g.syms| && r < |g.syms| && (sym.Some? ==> sym.value < |g.syms|)
    ensures res.Err? <==> sym.None? && |g.syms| >= SYMBOL_MAX
    ensures res.Err? ==> res.error == TooManySymbols
    ensures res.Ok? ==> && res.value.1 < |res.value.0.syms| && |g.syms| <= |res.value.0.syms|
                        && res.value.0.frame == g.frame && res.value.0.pairs == g.pairs
                        && (sym.Some? ==> res.value == (g, sym.value))
                        && (sym.None? ==> res.value.1 == |g.syms| && |res.value.0.syms| == |g.syms| + 1)
    ensures res.Ok? ==> RepCountsNew(g.syms, res.value.0.syms)
  {
    if sym.Some? then Ok((g, sym.value)) else AddPairSymbol(g, l, r, base)
  }

  /** The position at `i` gives up its pair for symbol `s` and its right
      neighbour is removed; the position joins the hole list when
      `MarksMerged` says so. */
  function Settle(g: Grammar, i: nat, s: nat, v: Variant): (r: Grammar)
    requires i + 1 < |g.frame| && s < |g.syms| && g.frame[i].sym < |g.syms| && g.frame[i + 1].sym < |g.syms|
    requires g.frame[i].pair.Some? && g.frame[i].pair.value < |g.pairs|
    ensures |r.syms| == |g.syms| && |r.pairs| == |g.pairs|
    ensures |r.frame| + 1 == |g.frame| && forall k :: 0 <= k < i ==> r.frame[k] == g.frame[k]
    ensures r.frame[i] == Position(g.frame[i].base, s, None, g.frame[i].hole || MarksMerged(v, i, |g.frame|))
    ensures forall k :: i < k < |r.frame| ==> r.frame[k] == g.frame[k + 1]
    ensures RepCountsNew(g.syms, r.syms)
  {
    var g1 := Unpair(g, i).value;
    var g2 := if MarksMerged(v, i, |g.frame|) then Mark(g1, i) else g1;
    var g3 := Relabel(g2, i, s);
    var h := Drop(g3, i + 1);
    assert g3.frame == g.frame[i := g3.frame[i]];
    JoinFrame(g.frame, h.frame, i, g3.frame[i]);
    h
  }

  /** The frame after position `i` is replaced by `x` and the position
      after it is removed. */
  lemma {:induction false} JoinFrame(f: seq<Position>, e: seq<Position>, i: nat, x: Position)
    requires i + 1 < |f| && e == f[i := x][..i + 1] + f[i := x][i + 2..]
    ensures |e| + 1 == |f| && e[i] == x
    ensures forall k :: 0 <= k < i ==> e[k] == f[k]
    ensures forall k :: i < k < |e| ==> e[k] == f[k + 1]
  {
  }

  /** The handles `Merge` follows at position `i` refer to something
      allocated. */
  predicate MergeReady(g: Grammar, p: nat, i: nat)
  {
    && i + 1 < |g.frame| && p < |g.pairs| && g.pairs[p].left < |g.syms| && g.pairs[p].right < |g.syms|
    && g.frame[i].sym < |g.syms| && g.frame[i + 1].sym < |g.syms|
    && (i > 0 && g.frame[i - 1].pair.Some? ==> g.frame[i - 1].pair.value < |g.pairs|)
    && (g.frame[i + 1].pair.Some? ==> g.frame[i + 1].pair.value < |g.pairs|)
  }

  /** The first half of a merge at `i`: the neighbours give up their
      pairs, and the symbol for pair `p` is made unless it exists. */
  function Prep(g: Grammar, p: nat, i: nat, sym: Option<nat>): (r: Result<(Grammar, nat)>)
    requires MergeReady(g, p, i) && g.frame[i].pair == Some(p)
    requires sym.Some? ==> sym.value < |g.syms|
    ensures r.Err? <==> (i + 2 < |g.frame| && g.frame[i + 1].pair.None?) || (sym.None? && |g.syms| >= SYMBOL_MAX)
    ensures r.Err? ==> r.error == if i + 2 < |g.frame| && g.frame[i + 1].pair.None? then NullPair else TooManySymbols
    ensures r.Ok? ==> && |r.value.0.frame| == |g.frame| && |r.value.0.pairs| == |g.pairs|
                      && |g.syms| <= |r.value.0.syms| && r.value.1 < |r.value.0.syms|
                      && r.value.0.frame[i] == g.frame[i] && r.value.0.frame[i + 1].sym == g.frame[i + 1].sym
  {
    var g1 := ClearPrev(g, i);
    match ClearNext(g1, i)
    case Err(e) => Err(e)
    case Ok(g2) => Place(g2, g.pairs[p].left, g.pairs[p].right, g.frame[i].base, sym)
  }

  /** One turn of `crunch_pair` at an occurrence of pair `p` at position
      `i`: the neighbours' pairs are dropped, the symbol for `p` is made if
      this is its first occurrence, and the two positions become one
      holding that symbol. */
  function Merge(g: Grammar, p: nat, i: nat, sym: Option<nat>, v: Variant): (r: Result<(Grammar, nat)>)
    requires MergeReady(g, p, i) && g.frame[i].pair == Some(p)
    requires sym.Some? ==> sym.value < |g.syms|
    ensures r.Err? <==> (i + 2 < |g.frame| && g.frame[i + 1].pair.None?) || (sym.None? && |g.syms| >= SYMBOL_MAX)
    ensures r.Err? ==> r.error == if i + 2 < |g.frame| && g.frame[i + 1].pair.None? then NullPair else TooManySymbols
    ensures r.Ok? ==> |r.value.0.frame| + 1 == |g.frame| && |r.value.0.pairs| == |g.pairs| && r.value.1 < |r.value.0.syms|
  {
    match Prep(g, p, i, sym)
    case Err(e) => Err(e)
    case Ok(r) => Ok((Settle(r.0, i, r.1, v), r.1))
  }

  /** The symbol `crunch_pair` makes at the occurrence of `p` at `i`
      starts at that occurrence's input offset and is as long as its two
      children together, in `uint_t` arithmetic. */
  predicate NewPairSymbol(g: Grammar, p: nat, i: nat, x: Symbol)
    requires MergeReady(g, p, i)
  {
    x.base == g.frame[i].base && x.size == WrapAdd(g.syms[g.pairs[p].left].size, g.syms[g.pairs[p].right].size)
  }

  /** `crunch_pair` from position `i` on, `sym` being the symbol made so
      far. The loop stops at the last position, which starts no pair. */
  function CrunchFrom(g: Grammar, p: nat, i: nat, sym: Option<nat>, v: Variant): (r: Result<(Grammar, Option<nat>)>)
    requires Indexed(g) && p < |g.pairs| && (sym.Some? ==> sym.value < |g.syms|)
    decreases |g.frame| - i
  {
    if i + 1 >= |g.frame| then Ok((g, sym))
    else if g.frame[i].pair != Some(p) then CrunchFrom(g, p, i + 1, sym, v)
    else
      match Merge(g, p, i, sym, v)
      case Err(e) => Err(e)
      case Ok((h, s)) => MergeIndexed(g, p, i, sym, v); CrunchFrom(h, p, i + 1, Some(s), v)
  }

  /** `crunch_pair`: the state after replacing every occurrence of pair
      `p`, and whether the frame shrank. */
  function CrunchPair(g: Grammar, p: nat, v: Variant): (r: Result<(Grammar, bool)>)
    requires Indexed(g) && p < |g.pairs|
  {
    match CrunchFrom(g, p, 0, None, v)
    case Err(e) => Err(e)
    case Ok((h, sym)) => Ok((h, sym.Some?))
  }

  // ---------------------------------------------------------------------------
  // What each part of a merge keeps

  /** Joining the hole list changes neither symbols nor pairs. */
  lemma {:induction false} MarkInv(g: Grammar, k: nat)
    requires k < |g.frame|
    ensures Syms(Mark(g, k).frame) == Syms(g.frame) && Refs(Mark(g, k).frame) == Refs(g.frame)
    ensures Wf(g) ==> Wf(Mark(g, k))
    ensures PairsMatch(g) ==> PairsMatch(Mark(g, k))
  {
    var h := Mark(g, k);
    assert Syms(h.frame) == Syms(g.frame);
    assert Refs(h.frame) == Refs(g.frame);
    if PairsMatch(g) {
      forall j | 0 <= j < |h.frame| && h.frame[j].pair.Some?
        ensures PairAt(h, j)
      {
        assert PairAt(g, j);
      }
    }
  }

  /** Replacing two adjacent symbols by one that stands for both leaves the
      bytes of a symbol sequence as they were. */
  lemma {:induction false} FlatMerge(a: seq<Symbol>, b: seq<Symbol>, fs: seq<nat>, i: nat, s: nat)
    requires Acyclic(a) && Acyclic(b) && Extends(a, b) && InTable(a, fs) && i + 1 < |fs|
    requires s < |b| && b[s].left == Some(fs[i]) && b[s].right == Some(fs[i + 1])
    ensures InTable(b, fs[..i] + [s] + fs[i + 2..])
    ensures Flat(b, fs[..i] + [s] + fs[i + 2..]) == Flat(a, fs)
  {
    var fs' := fs[..i] + [s] + fs[i + 2..];
    FlatStable(a, b, fs);
    FlatThree(b, fs, i, i + 2);
    assert fs[i..i + 2] == [fs[i]] + [fs[i + 1]];
    FlatSingle(b, fs[i]);
    FlatSingle(b, fs[i + 1]);
    FlatAppend(b, [fs[i]], [fs[i + 1]]);
    assert ChildrenBelow(b[s], s);
    assert Expand(b, s) == Expand(b, fs[i]) + Expand(b, fs[i + 1]);
    FlatSingle(b, s);
    FlatAppend(b, fs[..i], [s]);
    FlatAppend(b, fs[..i] + [s], fs[i + 2..]);
  }

  lemma {:induction false} ClearPrevInv(g: Grammar, i: nat)
    requires Inv(g) && i < |g.frame|
    ensures var h := ClearPrev(g, i); Inv(h) && Syms(h.frame) == Syms(g.frame)
  {
    if i > 0 && g.frame[i - 1].pair.Some? {
      UnpairWf(g, i - 1);
      MarkInv(Unpair(g, i - 1).value, i - 1);
    }
  }

  lemma {:induction false} ClearNextInv(g: Grammar, i: nat)
    requires Inv(g) && i + 1 < |g.frame| && (i + 2 < |g.frame| ==> g.frame[i + 1].pair.Some?)
    ensures ClearNext(g, i).Ok?
    ensures var h := ClearNext(g, i).value; Inv(h) && Syms(h.frame) == Syms(g.frame)
  {
    if i + 2 < |g.frame| {
      UnpairWf(g, i + 1);
    }
  }

  lemma {:induction false} PlaceInv(g: Grammar, l: nat, r: nat, base: nat, sym: Option<nat>)
    requires Inv(g) && l < |g.syms| && r < |g.syms| && (sym.Some? ==> sym.value < |g.syms|)
    requires sym.None? ==> |g.syms| < SYMBOL_MAX
    ensures Place(g, l, r, base, sym).Ok?
    ensures var (h, s) := Place(g, l, r, base, sym).value;
            && Inv(h) && Extends(g.syms, h.syms)
            && (sym.None? ==> && h.syms[s].left == Some(l) && h.syms[s].right == Some(r)
                              && h.syms[s].base == base && h.syms[s].size == WrapAdd(g.syms[l].size, g.syms[r].size))
  {
    if sym.None? {
      AddPairSymbolWf(g, l, r, base);
    } else {
      assert Extends(g.syms, g.syms) by {
        forall t | 0 <= t < |g.syms|
          ensures SameDef(g.syms[t], g.syms[t])
        {
        }
      }
    }
  }

  /** The last step of a merge keeps the invariant and puts `s` in place
      of the two symbols at `i` and `i + 1`. */
  lemma {:induction false} SettleInv(g: Grammar, i: nat, s: nat, v: Variant)
    requires Inv(g) && i + 1 < |g.frame| && g.frame[i].pair.Some? && s < |g.syms|
    requires i > 0 ==> g.frame[i - 1].pair.None?
    requires i + 2 < |g.frame| ==> g.frame[i + 1].pair.None?
    requires s != g.frame[i].sym && !IsRepeat(g.syms[s])
    ensures var h, fs := Settle(g, i, s, v), Syms(g.frame);
            && Inv(h) && Extends(g.syms, h.syms) && Syms(h.frame) == fs[..i] + [s] + fs[i + 2..]
  {
    UnpairWf(g, i);
    var g1 := Unpair(g, i).value;
    MarkInv(g1, i);
    var g2 := if MarksMerged(v, i, |g.frame|) then Mark(g1, i) else g1;
    assert g.frame[i + 1].pair.None?;
    JoinInv(g2, i, s);
  }

  /** Relabelling `i` to `s` and removing `i + 1`, neither holding a pair
      nor preceded by one. */
  lemma {:induction false} JoinInv(g: Grammar, i: nat, s: nat)
    requires Inv(g) && i + 1 < |g.frame| && s < |g.syms| && s != g.frame[i].sym && !IsRepeat(g.syms[s])
    requires g.frame[i].pair.None? && g.frame[i + 1].pair.None? && (i > 0 ==> g.frame[i - 1].pair.None?)
    ensures var h, fs := Drop(Relabel(g, i, s), i + 1), Syms(g.frame);
            && Inv(h) && Extends(g.syms, h.syms) && Syms(h.frame) == fs[..i] + [s] + fs[i + 2..]
  {
    var fs := Syms(g.frame);
    RelabelInv(g, i, s);
    var g3 := Relabel(g, i, s);
    DropInv(g3, i + 1);
    SeqJoin(fs, i, s);
    ExtendsTrans(g.syms, g3.syms, Drop(g3, i + 1).syms);
  }

  lemma {:induction false} RelabelInv(g: Grammar, i: nat, s: nat)
    requires Inv(g) && i < |g.frame| && s < |g.syms| && s != g.frame[i].sym && !IsRepeat(g.syms[s])
    requires g.frame[i].pair.None? && (i > 0 ==> g.frame[i - 1].pair.None?)
    ensures var h := Relabel(g, i, s);
            && Inv(h) && Extends(g.syms, h.syms) && Syms(h.frame) == Syms(g.frame)[i := s]
            && h.frame[i].pair.None? && (i > 0 ==> h.frame[i - 1].pair.None?)
  {
    RelabelWf(g, i, s);
    RelabelPairs(g, i, s);
  }

  lemma {:induction false} DropInv(g: Grammar, k: nat)
    requires Inv(g) && 0 < k < |g.frame| && g.frame[k].pair.None? && g.frame[k - 1].pair.None?
    ensures var h := Drop(g, k);
            && Inv(h) && Extends(g.syms, h.syms) && Syms(h.frame) == Syms(g.frame)[..k] + Syms(g.frame)[k + 1..]
  {
    var h := DropWf(g, k);
    DropPairs(g, k);
  }

  lemma {:induction false} SeqJoin<T>(fs: seq<T>, i: nat, s: T)
    requires i + 1 < |fs|
    ensures fs[i := s][..i + 1] + fs[i := s][i + 2..] == fs[..i] + [s] + fs[i + 2..]
  {
  }

  /** Where each position of a merged state comes from. */
  lemma {:induction false} MergeFrame(g: Grammar, p: nat, i: nat, sym: Option<nat>, v: Variant)
    requires MergeReady(g, p, i) && g.frame[i].pair == Some(p) && (sym.Some? ==> sym.value < |g.syms|)
    requires Merge(g, p, i, sym, v).Ok?
    ensures var r := Merge(g, p, i, sym, v).value;
            && (forall k :: 0 <= k < i && k + 1 != i ==> r.0.frame[k] == g.frame[k])
            && (i > 0 ==> r.0.frame[i - 1] == if g.frame[i - 1].pair.Some?
                                              then g.frame[i - 1].(pair := None, hole := true)
                                              else g.frame[i - 1])
            && r.0.frame[i] == Position(g.frame[i].base, r.1, None, g.frame[i].hole || MarksMerged(v, i, |g.frame|))
            && (forall k :: i < k < |r.0.frame| ==> r.0.frame[k] == g.frame[k + 1])
  {
    PrepFrame(g, p, i, sym);
  }

  lemma {:induction false} PrepFrame(g: Grammar, p: nat, i: nat, sym: Option<nat>)
    requires MergeReady(g, p, i) && g.frame[i].pair == Some(p) && (sym.Some? ==> sym.value < |g.syms|)
    requires Prep(g, p, i, sym).Ok?
    ensures var g3 := Prep(g, p, i, sym).value.0;
            && (forall k :: 0 <= k < |g.frame| && k + 1 != i && k != i + 1 ==> g3.frame[k] == g.frame[k])
            && (i > 0 ==> g3.frame[i - 1] == if g.frame[i - 1].pair.Some?
                                            then g.frame[i - 1].(pair := None, hole := true)
                                            else g.frame[i - 1])
  {
    var g1 := ClearPrev(g, i);
    var g2 := ClearNext(g1, i).value;
    assert forall k :: 0 <= k < |g.frame| && k != i + 1 ==> g2.frame[k] == g1.frame[k];
    assert forall k :: 0 <= k < |g.frame| && k + 1 != i ==> g1.frame[k] == g.frame[k];
  }

  /** A merge keeps the pairs it does not count down, and makes no symbol
      but the one it places. */
  lemma {:induction false} MergeKept(g: Grammar, p: nat, i: nat, sym: Option<nat>, v: Variant)
    requires MergeReady(g, p, i) && g.frame[i].pair == Some(p) && (sym.Some? ==> sym.value < |g.syms|)
    requires Merge(g, p, i, sym, v).Ok?
    ensures var r := Merge(g, p, i, sym, v).value; |g.syms| <= |r.0.syms| && PairsKept(g, r.0)
  {
    PrepKept(g, p, i, sym);
    var r3 := Prep(g, p, i, sym).value;
    SettleKept(r3.0, i, r3.1, v);
    PairsKeptTrans(g, r3.0, Settle(r3.0, i, r3.1, v));
  }

  lemma {:induction false} PrepKept(g: Grammar, p: nat, i: nat, sym: Option<nat>)
    requires MergeReady(g, p, i) && g.frame[i].pair == Some(p) && (sym.Some? ==> sym.value < |g.syms|)
    requires Prep(g, p, i, sym).Ok?
    ensures PairsKept(g, Prep(g, p, i, sym).value.0)
  {
    var g1 := ClearPrev(g, i);
    var g2 := ClearNext(g1, i).value;
    if i > 0 && g.frame[i - 1].pair.Some? {
      UnpairKept(g, i - 1);
    } else {
      PairsKeptSelf(g);
    }
    assert PairsKept(g, g1);
    if i + 2 < |g.frame| {
      UnpairKept(g1, i + 1);
    } else {
      PairsKeptSelf(g1);
    }
    assert PairsKept(g1, g2);
    PairsKeptTrans(g, g1, g2);
  }

  lemma {:induction false} SettleKept(g: Grammar, i: nat, s: nat, v: Variant)
    requires i + 1 < |g.frame| && s < |g.syms| && g.frame[i].sym < |g.syms| && g.frame[i + 1].sym < |g.syms|
    requires g.frame[i].pair.Some? && g.frame[i].pair.value < |g.pairs|
    ensures PairsKept(g, Settle(g, i, s, v))
  {
    UnpairKept(g, i);
  }

  /** A merge leaves every handle pointing at something allocated. */
  lemma {:induction false} MergeIndexed(g: Grammar, p: nat, i: nat, sym: Option<nat>, v: Variant)
    requires Indexed(g) && i + 1 < |g.frame| && p < |g.pairs| && g.frame[i].pair == Some(p)
    requires sym.Some? ==> sym.value < |g.syms|
    requires Merge(g, p, i, sym, v).Ok?
    ensures MergeReady(g, p, i) && Indexed(Merge(g, p, i, sym, v).value.0)
  {
    assert Syms(g.frame)[i] == g.frame[i].sym && Syms(g.frame)[i + 1] == g.frame[i + 1].sym;
    MergeFrame(g, p, i, sym, v);
    MergeKept(g, p, i, sym, v);
    var r := Merge(g, p, i, sym, v).value;
    IndexedAfterMerge(g, r.0, i, r.1);
  }

  /** A state whose frame is that of `g` with positions `i` and `i + 1`
      made one, holding `s`, has its handles in range when `g` has. */
  lemma {:induction false} IndexedAfterMerge(g: Grammar, h: Grammar, i: nat, s: nat)
    requires Indexed(g) && PairsKept(g, h) && |g.syms| <= |h.syms| && s < |h.syms|
    requires i + 1 < |g.frame| && |h.frame| + 1 == |g.frame|
    requires forall k :: 0 <= k < i && k + 1 != i ==> h.frame[k] == g.frame[k]
    requires i > 0 ==> h.frame[i - 1] == if g.frame[i - 1].pair.Some?
                                          then g.frame[i - 1].(pair := None, hole := true)
                                          else g.frame[i - 1]
    requires h.frame[i].sym == s && h.frame[i].pair.None?
    requires forall k :: i < k < |h.frame| ==> h.frame[k] == g.frame[k + 1]
    ensures Indexed(h)
  {
    var fs, hs := Syms(g.frame), Syms(h.frame);
    forall k | 0 <= k < |h.frame|
      ensures hs[k] < |h.syms| && (h.frame[k].pair.Some? ==> h.frame[k].pair.value < |h.pairs|)
    {
      if k > i {
        assert fs[k + 1] == g.frame[k + 1].sym;
      } else if k < i {
        assert fs[k] == g.frame[k].sym;
      }
    }
    forall j | 0 <= j < |h.live|
      ensures h.live[j] < |h.pairs|
    {
      assert h.live[j] in g.live;
    }
  }

  /** The first half of a merge keeps the invariant; it leaves the
      position at `i` and its neighbours without pairs to count. */
  lemma {:induction false} PrepInv(g: Grammar, p: nat, i: nat, sym: Option<nat>)
    requires Inv(g) && MergeReady(g, p, i) && g.frame[i].pair == Some(p)
    requires i + 2 < |g.frame| ==> g.frame[i + 1].pair.Some?
    requires sym.None? ==> |g.syms| < SYMBOL_MAX
    requires sym.Some? ==> && g.pairs[p].left < sym.value < |g.syms|
                           && g.syms[sym.value].left == Some(g.pairs[p].left)
                           && g.syms[sym.value].right == Some(g.pairs[p].right)
    ensures Prep(g, p, i, sym).Ok?
    ensures var r := Prep(g, p, i, sym).value;
            && Inv(r.0) && Extends(g.syms, r.0.syms) && Syms(r.0.frame) == Syms(g.frame)
            && r.0.syms[r.1].left == Some(g.pairs[p].left) && r.0.syms[r.1].right == Some(g.pairs[p].right)
            && (sym.Some? ==> r.1 == sym.value && |r.0.syms| == |g.syms|)
            && (sym.None? ==> r.1 == |g.syms| && |r.0.syms| == |g.syms| + 1)
            && (sym.None? ==> NewPairSymbol(g, p, i, r.0.syms[r.1]))
            && (i > 0 ==> r.0.frame[i - 1].pair.None?)
            && (i + 2 < |g.frame| ==> r.0.frame[i + 1].pair.None?)
  {
    var l, r := g.pairs[p].left, g.pairs[p].right;
    ClearPrevInv(g, i);
    var g1 := ClearPrev(g, i);
    ClearNextInv(g1, i);
    var g2 := ClearNext(g1, i).value;
    PlaceInv(g2, l, r, g.frame[i].base, sym);
  }

  /** A merge keeps the invariant, and the symbol it places stands for the
      pair. */
  lemma {:induction false} MergeFacts(g: Grammar, p: nat, i: nat, sym: Option<nat>, v: Variant)
    requires Inv(g) && MergeReady(g, p, i) && g.frame[i].pair == Some(p)
    requires i + 2 < |g.frame| ==> g.frame[i + 1].pair.Some?
    requires sym.None? ==> |g.syms| < SYMBOL_MAX
    requires sym.Some? ==> && g.pairs[p].left < sym.value < |g.syms|
                           && g.syms[sym.value].left == Some(g.pairs[p].left)
                           && g.syms[sym.value].right == Some(g.pairs[p].right)
    ensures Merge(g, p, i, sym, v).Ok?
    ensures var r, fs := Merge(g, p, i, sym, v).value, Syms(g.frame);
            && Inv(r.0) && Extends(g.syms, r.0.syms) && Syms(r.0.frame) == fs[..i] + [r.1] + fs[i + 2..]
            && r.0.syms[r.1].left == Some(g.pairs[p].left) && r.0.syms[r.1].right == Some(g.pairs[p].right)
            && (sym.Some? ==> r.1 == sym.value && |r.0.syms| == |g.syms|)
            && (sym.None? ==> r.1 == |g.syms| && |r.0.syms| == |g.syms| + 1)
            && (sym.None? ==> NewPairSymbol(g, p, i, r.0.syms[r.1]))
  {
    assert PairAt(g, i);
    PrepInv(g, p, i, sym);
    var r3 := Prep(g, p, i, sym).value;
    assert Merge(g, p, i, sym, v) == Ok((Settle(r3.0, i, r3.1, v), r3.1));
    SettleFacts(g, r3.0, i, r3.1, v);
  }

  /** The second half of a merge, from what the first half leaves. */
  lemma {:induction false} SettleFacts(g: Grammar, g3: Grammar, i: nat, s: nat, v: Variant)
    requires Inv(g) && Inv(g3) && Extends(g.syms, g3.syms) && Syms(g3.frame) == Syms(g.frame)
    requires i + 1 < |g.frame| && |g3.frame| == |g.frame| && g3.frame[i].pair.Some?
    requires i > 0 ==> g3.frame[i - 1].pair.None?
    requires i + 2 < |g.frame| ==> g3.frame[i + 1].pair.None?
    requires s < |g3.syms| && g3.frame[i].sym < s && g3.syms[s].right.Some?
    ensures var h, fs := Settle(g3, i, s, v), Syms(g.frame);
            && Inv(h) && Extends(g.syms, h.syms) && Syms(h.frame) == fs[..i] + [s] + fs[i + 2..]
            && h.syms[s].left == g3.syms[s].left && h.syms[s].right == g3.syms[s].right
            && h.syms[s].base == g3.syms[s].base && h.syms[s].size == g3.syms[s].size
  {
    assert Syms(g3.frame)[i] == g3.frame[i].sym;
    SettleInv(g3, i, s, v);
    var h := Settle(g3, i, s, v);
    ExtendsTrans(g.syms, g3.syms, h.syms);
    assert SameDef(g3.syms[s], h.syms[s]);
  }

  /** A merge leaves the bytes of the frame as they were. */
  lemma {:induction false} MergeText(g: Grammar, p: nat, i: nat, sym: Option<nat>, v: Variant)
    requires Inv(g) && MergeReady(g, p, i) && g.frame[i].pair == Some(p)
    requires i + 2 < |g.frame| ==> g.frame[i + 1].pair.Some?
    requires sym.None? ==> |g.syms| < SYMBOL_MAX
    requires sym.Some? ==> && g.pairs[p].left < sym.value < |g.syms|
                           && g.syms[sym.value].left == Some(g.pairs[p].left)
                           && g.syms[sym.value].right == Some(g.pairs[p].right)
    ensures Merge(g, p, i, sym, v).Ok?
    ensures var h := Merge(g, p, i, sym, v).value.0; Inv(h) && Text(h) == Text(g)
  {
    MergeFacts(g, p, i, sym, v);
    var r := Merge(g, p, i, sym, v).value;
    assert PairAt(g, i);
    FlatMerge(g.syms, r.0.syms, Syms(g.frame), i, r.1);
  }

  // ---------------------------------------------------------------------------
  // crunch_pair over the whole frame

  /** Every position but the last has a pair and none waits in the hole
      list: the state `scan_pair` leaves behind. */
  predicate Paired(g: Grammar)
  {
    forall k :: 0 <= k < |g.frame| ==> !g.frame[k].hole && (k + 1 < |g.frame| ==> g.frame[k].pair.Some?)
  }

  /** What `crunch_pair` on pair `p` keeps of the state `g0` it started
      from, `sym` being the symbol made so far: until the first occurrence
      the state is `g0` itself; after it, the table has grown by exactly
      that symbol, which stands for the pair. */
  ghost predicate CrunchState(g0: Grammar, g: Grammar, p: nat, sym: Option<nat>)
  {
    && Inv(g0) && Inv(g) && p < |g0.pairs| && PairsKept(g0, g)
    && Extends(g0.syms, g.syms) && Text(g) == Text(g0)
    && (sym.None? ==> g == g0)
    && (sym.Some? ==> && sym.value == |g0.syms| && |g.syms| == |g0.syms| + 1
                      && g.syms[sym.value].left == Some(g0.pairs[p].left)
                      && g.syms[sym.value].right == Some(g0.pairs[p].right)
                      && g.syms[sym.value].size == WrapAdd(g0.syms[g0.pairs[p].left].size, g0.syms[g0.pairs[p].right].size)
                      && First(Refs(g0.frame), Some(p)) < |g0.frame|
                      && g.syms[sym.value].base == g0.frame[First(Refs(g0.frame), Some(p))].base
                      && |g.frame| < |g0.frame| && g0.pairs[p].count != 0)
  }

  /** The frame while `crunch_pair` stands at position `i`: from `i` on it
      is as `scan_pair` left it; before `i` no position holds `p`, and a
      position waits in the hole list exactly when it lost its pair (the
      code also lists the last position). When the pair's two symbols
      differ, each merge so far removed one position and one occurrence. */
  ghost predicate CrunchFrame(g0: Grammar, g: Grammar, p: nat, i: nat, v: Variant)
    requires p < |g0.pairs|
  {
    && i <= |g.frame| && Ahead(g, i) && Behind(g, p, i, v)
    && (g0.pairs[p].left != g0.pairs[p].right ==>
          |g0.frame| - |g.frame| + Occ(Refs(g.frame)[i..], Some(p)) == Occ(Refs(g0.frame), Some(p)))
  }

  /** From `i` on, the frame is as `scan_pair` left it. */
  ghost predicate Ahead(g: Grammar, i: nat)
  {
    forall k :: i <= k < |g.frame| ==> !g.frame[k].hole && (k + 1 < |g.frame| ==> g.frame[k].pair.Some?)
  }

  /** Before `i`, no position holds `p`, and a position waits in the hole
      list exactly when it has no pair (the code also lists the last). */
  ghost predicate Behind(g: Grammar, p: nat, i: nat, v: Variant)
    requires i <= |g.frame|
  {
    && (forall k :: 0 <= k < i ==> g.frame[k].pair != Some(p))
    && (forall k :: 0 <= k < i ==>
          (g.frame[k].hole <==> g.frame[k].pair.None? && (v == AsWritten || k + 1 < |g.frame|)))
  }

  /** The outcome of `crunch_pair` on pair `p` of `g0`: `p` is found
      nowhere, every position but the last waits in the hole list exactly
      when it has no pair, and when the pair's two symbols differ the frame
      is shorter by the pair's count. */
  ghost predicate Crunched(g0: Grammar, h: Grammar, p: nat, sym: Option<nat>, v: Variant)
  {
    && CrunchState(g0, h, p, sym)
    && Occ(Refs(h.frame), Some(p)) == 0
    && Waiting(h, v)
    && (g0.pairs[p].left != g0.pairs[p].right ==> |h.frame| + g0.pairs[p].count == |g0.frame|)
  }

  /** The hole list after `crunch_pair`: the positions without a pair, the
      last one included when the code lists it. */
  predicate Waiting(g: Grammar, v: Variant)
  {
    && HolesFree(g)
    && (forall k :: 0 <= k && k + 1 < |g.frame| ==> (g.frame[k].hole <==> g.frame[k].pair.None?))
    && (v == Corrected ==> !HoleAtEnd(g))
  }

  lemma {:induction false} IndexedReady(g: Grammar, p: nat, i: nat)
    requires Indexed(g) && i + 1 < |g.frame| && g.frame[i].pair == Some(p)
    ensures MergeReady(g, p, i)
  {
    assert Syms(g.frame)[i] == g.frame[i].sym && Syms(g.frame)[i + 1] == g.frame[i + 1].sym;
  }

  lemma {:induction false} CrunchStart(g: Grammar, p: nat, v: Variant)
    requires Inv(g) && Paired(g) && p < |g.pairs|
    ensures CrunchState(g, g, p, None) && CrunchFrame(g, g, p, 0, v)
  {
    PairsKeptSelf(g);
    assert Refs(g.frame)[0..] == Refs(g.frame);
    assert Extends(g.syms, g.syms) by {
      forall t | 0 <= t < |g.syms|
        ensures SameDef(g.syms[t], g.syms[t])
      {
      }
    }
  }

  /** A position that does not hold `p` is passed over. */
  lemma {:induction false} CrunchSkip(g0: Grammar, g: Grammar, p: nat, i: nat, sym: Option<nat>, v: Variant)
    requires CrunchState(g0, g, p, sym) && CrunchFrame(g0, g, p, i, v)
    requires i + 1 < |g.frame| && g.frame[i].pair != Some(p)
    ensures CrunchFrom(g, p, i, sym, v) == CrunchFrom(g, p, i + 1, sym, v)
    ensures CrunchFrame(g0, g, p, i + 1, v)
    ensures Occ(Refs(g.frame)[i..], Some(p)) == Occ(Refs(g.frame)[i + 1..], Some(p))
  {
    OccTail(Refs(g.frame), i, Some(p));
    CrunchSkipFrame(g0, g, p, i, v);
  }

  lemma {:induction false} CrunchSkipFrame(g0: Grammar, g: Grammar, p: nat, i: nat, v: Variant)
    requires p < |g0.pairs| && CrunchFrame(g0, g, p, i, v)
    requires i + 1 < |g.frame| && g.frame[i].pair != Some(p)
    requires Occ(Refs(g.frame)[i..], Some(p)) == Occ(Refs(g.frame)[i + 1..], Some(p))
    ensures CrunchFrame(g0, g, p, i + 1, v)
  {
    assert !g.frame[i].hole && g.frame[i].pair.Some?;
  }

  /** A merge at an occurrence of `p` succeeds when a symbol can be made,
      and keeps both halves of the loop invariant. */
  lemma {:induction false} CrunchStep(g0: Grammar, g: Grammar, p: nat, i: nat, sym: Option<nat>, v: Variant)
    returns (h: Grammar, s: nat)
    requires CrunchState(g0, g, p, sym) && CrunchFrame(g0, g, p, i, v)
    requires i + 1 < |g.frame| && g.frame[i].pair == Some(p)
    requires sym.None? ==> |g.syms| < SYMBOL_MAX
    ensures MergeReady(g, p, i) && Merge(g, p, i, sym, v) == Ok((h, s))
    ensures CrunchState(g0, h, p, Some(s)) && CrunchFrame(g0, h, p, i + 1, v)
    ensures CrunchFrom(g, p, i, sym, v) == CrunchFrom(h, p, i + 1, Some(s), v)
  {
    IndexedReady(g, p, i);
    assert i + 2 < |g.frame| ==> g.frame[i + 1].pair.Some?;
    FirstAt(Refs(g.frame), Some(p), i);
    h, s := CrunchStepState(g0, g, p, i, sym, v);
    CrunchStepFrame(g0, g, p, i, sym, v, h, s);
    CrunchFromMerge(g, p, i, sym, v, h, s);
  }

  lemma {:induction false} CrunchFromMerge(g: Grammar, p: nat, i: nat, sym: Option<nat>, v: Variant, h: Grammar, s: nat)
    requires Indexed(g) && MergeReady(g, p, i) && g.frame[i].pair == Some(p) && (sym.Some? ==> sym.value < |g.syms|)
    requires Merge(g, p, i, sym, v) == Ok((h, s)) && Indexed(h) && p < |h.pairs| && s < |h.syms|
    ensures CrunchFrom(g, p, i, sym, v) == CrunchFrom(h, p, i + 1, Some(s), v)
  {
  }

  lemma {:induction false} CrunchStepState(g0: Grammar, g: Grammar, p: nat, i: nat, sym: Option<nat>, v: Variant)
    returns (h: Grammar, s: nat)
    requires CrunchState(g0, g, p, sym) && MergeReady(g, p, i) && g.frame[i].pair == Some(p)
    requires i + 2 < |g.frame| ==> g.frame[i + 1].pair.Some?
    requires sym.None? ==> |g.syms| < SYMBOL_MAX
    requires First(Refs(g.frame), Some(p)) == i
    ensures Merge(g, p, i, sym, v) == Ok((h, s)) && CrunchState(g0, h, p, Some(s))
  {
    assert PairAt(g, i);
    MergeText(g, p, i, sym, v);
    MergeFacts(g, p, i, sym, v);
    MergeKept(g, p, i, sym, v);
    var r := Merge(g, p, i, sym, v).value;
    h, s := r.0, r.1;
    CrunchStateStep(g0, g, h, p, i, sym, s);
  }

  lemma {:induction false} CrunchStepFrame(g0: Grammar, g: Grammar, p: nat, i: nat, sym: Option<nat>, v: Variant, h: Grammar, s: nat)
    requires CrunchState(g0, g, p, sym) && CrunchFrame(g0, g, p, i, v)
    requires MergeReady(g, p, i) && g.frame[i].pair == Some(p) && (sym.Some? ==> sym.value < |g.syms|)
    requires Merge(g, p, i, sym, v) == Ok((h, s))
    ensures CrunchFrame(g0, h, p, i + 1, v)
  {
    MergeFrame(g, p, i, sym, v);
    CrunchFrameStep(g0, g, h, p, i, s, v);
  }

  lemma {:induction false} CrunchStateStep(g0: Grammar, g: Grammar, h: Grammar, p: nat, i: nat, sym: Option<nat>, s: nat)
    requires CrunchState(g0, g, p, sym) && MergeReady(g, p, i) && g.frame[i].pair == Some(p)
    requires Inv(h) && Text(h) == Text(g) && Extends(g.syms, h.syms) && PairsKept(g, h) && |h.frame| < |g.frame|
    requires s < |h.syms| && h.syms[s].left == Some(g.pairs[p].left) && h.syms[s].right == Some(g.pairs[p].right)
    requires sym.Some? ==> s == sym.value && |h.syms| == |g.syms|
    requires sym.None? ==> s == |g.syms| && |h.syms| == |g.syms| + 1
    requires sym.None? ==> NewPairSymbol(g, p, i, h.syms[s]) && First(Refs(g.frame), Some(p)) == i
    ensures CrunchState(g0, h, p, Some(s))
  {
    PairsKeptTrans(g0, g, h);
    ExtendsTrans(g0.syms, g.syms, h.syms);
    if sym.None? {
      OccFound(Refs(g0.frame), i);
    }
  }

  lemma {:induction false} CrunchFrameStep(g0: Grammar, g: Grammar, h: Grammar, p: nat, i: nat, s: nat, v: Variant)
    requires p < |g0.pairs| && CrunchFrame(g0, g, p, i, v) && i + 1 < |g.frame| && g.frame[i].pair == Some(p)
    requires g0.pairs[p].left != g0.pairs[p].right ==> g.frame[i + 1].pair != Some(p)
    requires |h.frame| + 1 == |g.frame|
    requires forall k :: 0 <= k < i && k + 1 != i ==> h.frame[k] == g.frame[k]
    requires i > 0 ==> h.frame[i - 1] == if g.frame[i - 1].pair.Some?
                                          then g.frame[i - 1].(pair := None, hole := true)
                                          else g.frame[i - 1]
    requires h.frame[i] == Position(g.frame[i].base, s, None, g.frame[i].hole || MarksMerged(v, i, |g.frame|))
    requires forall k :: i < k < |h.frame| ==> h.frame[k] == g.frame[k + 1]
    ensures CrunchFrame(g0, h, p, i + 1, v)
  {
    AheadStep(g, h, i);
    BehindStep(g, h, p, i, s, v);
    RefsShifted(g.frame, h.frame, i);
    if g0.pairs[p].left != g0.pairs[p].right {
      OccMerged(Refs(g.frame), Refs(h.frame), i, Some(p));
    }
  }

  /** Merging an occurrence at `i` with the position after it removes
      exactly one occurrence from what is left to scan. */
  lemma {:induction false} OccMerged<T>(rs: seq<T>, hs: seq<T>, i: nat, x: T)
    requires i + 1 < |rs| && i + 1 <= |hs| && rs[i] == x && rs[i + 1] != x
    requires hs[i + 1..] == rs[i + 2..]
    ensures Occ(rs[i..], x) == 1 + Occ(hs[i + 1..], x)
  {
    OccTail(rs, i, x);
    OccTail(rs, i + 1, x);
  }

  lemma {:induction false} AheadStep(g: Grammar, h: Grammar, i: nat)
    requires Ahead(g, i) && |h.frame| + 1 == |g.frame|
    requires forall k :: i < k < |h.frame| ==> h.frame[k] == g.frame[k + 1]
    ensures Ahead(h, i + 1)
  {
  }

  /** Past the merged position, the frame is the old one shifted by one. */
  lemma {:induction false} RefsShifted(f: seq<Position>, e: seq<Position>, i: nat)
    requires i + 1 <= |e| && |e| + 1 == |f|
    requires forall k :: i < k < |e| ==> e[k] == f[k + 1]
    ensures Refs(e)[i + 1..] == Refs(f)[i + 2..]
  {
    var es, fs := Refs(e)[i + 1..], Refs(f)[i + 2..];
    assert |es| == |fs|;
    forall k | 0 <= k < |es|
      ensures es[k] == fs[k]
    {
      assert e[i + 1 + k] == f[i + 2 + k];
    }
  }

  lemma {:induction false} BehindStep(g: Grammar, h: Grammar, p: nat, i: nat, s: nat, v: Variant)
    requires i + 1 < |g.frame| && Behind(g, p, i, v) && Ahead(g, i) && g.frame[i].pair == Some(p)
    requires |h.frame| + 1 == |g.frame|
    requires forall k :: 0 <= k < i && k + 1 != i ==> h.frame[k] == g.frame[k]
    requires i > 0 ==> h.frame[i - 1] == if g.frame[i - 1].pair.Some?
                                          then g.frame[i - 1].(pair := None, hole := true)
                                          else g.frame[i - 1]
    requires h.frame[i] == Position(g.frame[i].base, s, None, g.frame[i].hole || MarksMerged(v, i, |g.frame|))
    ensures Behind(h, p, i + 1, v)
  {
  }

  /** At the last position the loop is over. */
  lemma {:induction false} CrunchDone(g0: Grammar, g: Grammar, p: nat, i: nat, sym: Option<nat>, v: Variant)
    requires CrunchState(g0, g, p, sym) && CrunchFrame(g0, g, p, i, v) && i + 1 >= |g.frame|
    ensures CrunchFrom(g, p, i, sym, v) == Ok((g, sym))
    ensures Occ(Refs(g.frame)[i..], Some(p)) == 0
    ensures Crunched(g0, g, p, sym, v)
  {
    CrunchDoneOcc(g, p, i);
    DoneWaiting(g, p, i, v);
  }

  /** At the last position the hole list is complete. */
  lemma {:induction false} DoneWaiting(g: Grammar, p: nat, i: nat, v: Variant)
    requires i <= |g.frame| && i + 1 >= |g.frame| && Ahead(g, i) && Behind(g, p, i, v)
    ensures Waiting(g, v)
  {
  }

  /** At the last position no occurrence of `p` is left: the last
      position starts no pair. */
  lemma {:induction false} CrunchDoneOcc(g: Grammar, p: nat, i: nat)
    requires PairsMatch(g) && i <= |g.frame| && i + 1 >= |g.frame|
    requires forall k :: 0 <= k < i ==> g.frame[k].pair != Some(p)
    ensures Occ(Refs(g.frame), Some(p)) == 0 && Occ(Refs(g.frame)[i..], Some(p)) == 0
  {
    var rs := Refs(g.frame);
    assert forall k :: 0 <= k < |rs| ==> rs[k] != Some(p);
    Occ0(rs, Some(p));
    Occ0(rs[i..], Some(p));
  }

  /** `crunch_pair` from position `i`: it fails only for want of room for
      the new symbol, and otherwise ends in a crunched state. */
  lemma {:induction false} CrunchFromSpec(g0: Grammar, g: Grammar, p: nat, i: nat, sym: Option<nat>, v: Variant)
    requires CrunchState(g0, g, p, sym) && CrunchFrame(g0, g, p, i, v)
    ensures Indexed(g) && p < |g.pairs| && (sym.Some? ==> sym.value < |g.syms|)
    ensures var r := CrunchFrom(g, p, i, sym, v);
            && (r.Err? <==> sym.None? && |g.syms| >= SYMBOL_MAX && Occ(Refs(g.frame)[i..], Some(p)) != 0)
            && (r.Err? ==> r.error == TooManySymbols)
            && (r.Ok? ==> Crunched(g0, r.value.0, p, r.value.1, v))
    decreases |g.frame| - i
  {
    if i + 1 >= |g.frame| {
      CrunchDone(g0, g, p, i, sym, v);
    } else if g.frame[i].pair != Some(p) {
      CrunchSkip(g0, g, p, i, sym, v);
      CrunchFromSpec(g0, g, p, i + 1, sym, v);
    } else if sym.None? && |g.syms| >= SYMBOL_MAX {
      CrunchFull(g, p, i, sym, v);
    } else {
      var h, s := CrunchStep(g0, g, p, i, sym, v);
      CrunchFromSpec(g0, h, p, i + 1, Some(s), v);
    }
  }

  /** An occurrence found with the symbol table full is fatal. */
  lemma {:induction false} CrunchFull(g: Grammar, p: nat, i: nat, sym: Option<nat>, v: Variant)
    requires Indexed(g) && Ahead(g, i) && p < |g.pairs|
    requires i + 1 < |g.frame| && g.frame[i].pair == Some(p) && sym.None? && |g.syms| >= SYMBOL_MAX
    ensures CrunchFrom(g, p, i, sym, v) == Err(TooManySymbols)
    ensures Occ(Refs(g.frame)[i..], Some(p)) != 0
  {
    IndexedReady(g, p, i);
    assert i + 2 < |g.frame| ==> g.frame[i + 1].pair.Some?;
    OccTail(Refs(g.frame), i, Some(p));
  }

  /** `crunch_pair` on a state `scan_pair` has just produced: it fails only
      when the pair occurs and the symbol table is full. Otherwise the
      frame spells the same bytes, the pair occurs nowhere any more and
      leaves the pair list, the frame shrinks exactly when the pair
      occurred (by its count when its two symbols differ), and one symbol
      standing for the pair is made. */
  lemma {:induction false} CrunchPairSpec(g: Grammar, p: nat, v: Variant)
    requires Inv(g) && Paired(g) && p < |g.pairs|
    ensures CrunchPair(g, p, v).Err? <==> g.pairs[p].count != 0 && |g.syms| >= SYMBOL_MAX
    ensures CrunchPair(g, p, v).Err? ==> CrunchPair(g, p, v).error == TooManySymbols
    ensures CrunchPair(g, p, v).Ok? ==>
              var h, shrink := CrunchPair(g, p, v).value.0, CrunchPair(g, p, v).value.1;
              && Inv(h) && Text(h) == Text(g) && Extends(g.syms, h.syms) && PairsKept(g, h)
              && RepCountsNew(g.syms, h.syms)
              && (shrink <==> g.pairs[p].count != 0) && (shrink <==> |h.frame| < |g.frame|)
              && (!shrink ==> h == g)
              && (shrink ==> && |h.syms| == |g.syms| + 1
                             && h.syms[|g.syms|].left == Some(g.pairs[p].left)
                             && h.syms[|g.syms|].right == Some(g.pairs[p].right))
              && (shrink ==> PairMade(g, h, p))
              && h.pairs[p].count == 0 && p !in h.live
              && (g.pairs[p].left != g.pairs[p].right ==> |h.frame| + g.pairs[p].count == |g.frame|)
  {
    CrunchStart(g, p, v);
    CrunchFromSpec(g, g, p, 0, None, v);
    CrunchFromRepCounts(g, p, 0, None, v);
    assert Refs(g.frame)[0..] == Refs(g.frame);
    var r := CrunchFrom(g, p, 0, None, v);
    if r.Ok? && r.value.1.Some? {
      CrunchMade(g, r.value.0, p);
    }
  }

  /** The symbol `crunch_pair` made for pair `p` of `g`, the last of the
      table of `h`: it starts at the input offset of the first position
      holding the pair and is as long as its children together (in
      `uint_t` arithmetic), and each child counts one more use. */
  ghost predicate PairMade(g: Grammar, h: Grammar, p: nat)
    requires Wf(g) && p < |g.pairs| && |h.syms| == |g.syms| + 1
  {
    var l, r, x := g.pairs[p].left, g.pairs[p].right, h.syms[|g.syms|];
    && x.size == WrapAdd(g.syms[l].size, g.syms[r].size)
    && First(Refs(g.frame), Some(p)) < |g.frame|
    && x.base == g.frame[First(Refs(g.frame), Some(p))].base
    && forall t :: 0 <= t < |g.syms| ==>
         h.syms[t].symCount == g.syms[t].symCount + (if t == l then 1 else 0) + (if t == r then 1 else 0)
  }

  lemma {:induction false} CrunchMade(g: Grammar, h: Grammar, p: nat)
    requires CrunchState(g, h, p, Some(|g.syms|))
    ensures Wf(g) && PairMade(g, h, p)
  {
    PairCounts(g.syms, h.syms, g.pairs[p].left, g.pairs[p].right);
  }

  // ---------------------------------------------------------------------------
  // crunch_pair against a reference

  /** The frame `crunch_pair` makes from the symbols `fs` and pair handles
      `rs`, read left to right: a position holding `p`, but not the last,
      becomes `s` together with the position after it. */
  function Replace(fs: seq<nat>, rs: seq<Option<nat>>, p: nat, s: nat): (r: seq<nat>)
    requires |fs| == |rs|
    ensures |r| <= |fs|
  {
    if |fs| < 2 then fs
    else if rs[0] == Some(p) then [s] + Replace(fs[2..], rs[2..], p, s)
    else [fs[0]] + Replace(fs[1..], rs[1..], p, s)
  }

  /** The loop's progress against `Replace`: the positions before `i` are
      final, and those from `i` on are still to be read. */
  ghost predicate ReplacedSoFar(g0: Grammar, g: Grammar, p: nat, i: nat)
  {
    && i <= |g.frame|
    && Replace(Syms(g0.frame), Refs(g0.frame), p, |g0.syms|)
         == Syms(g.frame)[..i] + Replace(Syms(g.frame)[i..], Refs(g.frame)[i..], p, |g0.syms|)
  }

  /** `crunch_pair` on a state `scan_pair` has just produced puts the new
      symbol in place of every position holding the pair, scanning left to
      right, and keeps every other position's symbol. */
  lemma {:induction false} CrunchPairReplace(g: Grammar, p: nat, v: Variant)
    requires Inv(g) && Paired(g) && p < |g.pairs|
    ensures CrunchPair(g, p, v).Ok? ==>
              Syms(CrunchPair(g, p, v).value.0.frame) == Replace(Syms(g.frame), Refs(g.frame), p, |g.syms|)
  {
    CrunchStart(g, p, v);
    assert Syms(g.frame)[..0] == [] && Syms(g.frame)[0..] == Syms(g.frame) && Refs(g.frame)[0..] == Refs(g.frame);
    CrunchFromReplace(g, g, p, 0, None, v);
  }

  lemma {:induction false} CrunchFromReplace(g0: Grammar, g: Grammar, p: nat, i: nat, sym: Option<nat>, v: Variant)
    requires CrunchState(g0, g, p, sym) && CrunchFrame(g0, g, p, i, v) && ReplacedSoFar(g0, g, p, i)
    ensures Indexed(g) && p < |g.pairs| && (sym.Some? ==> sym.value < |g.syms|)
    ensures var r := CrunchFrom(g, p, i, sym, v);
            r.Ok? ==> Syms(r.value.0.frame) == Replace(Syms(g0.frame), Refs(g0.frame), p, |g0.syms|)
    decreases |g.frame| - i
  {
    if i + 1 >= |g.frame| {
      CrunchDone(g0, g, p, i, sym, v);
      ReplacedDone(g0, g, p, i);
    } else if g.frame[i].pair != Some(p) {
      CrunchSkip(g0, g, p, i, sym, v);
      ReplacedSkip(g0, g, p, i);
      CrunchFromReplace(g0, g, p, i + 1, sym, v);
    } else if sym.None? && |g.syms| >= SYMBOL_MAX {
      CrunchFull(g, p, i, sym, v);
    } else {
      var h, t := CrunchStep(g0, g, p, i, sym, v);
      MergeShifted(g, p, i, sym, v, h, t);
      ReplacedMerge(g0, g, h, p, i);
      CrunchFromReplace(g0, h, p, i + 1, Some(t), v);
    }
  }

  lemma {:induction false} ReplacedDone(g0: Grammar, g: Grammar, p: nat, i: nat)
    requires ReplacedSoFar(g0, g, p, i) && i + 1 >= |g.frame|
    ensures Syms(g.frame) == Replace(Syms(g0.frame), Refs(g0.frame), p, |g0.syms|)
  {
    var fs := Syms(g.frame);
    assert fs[..i] + fs[i..] == fs;
  }

  lemma {:induction false} ReplacedSkip(g0: Grammar, g: Grammar, p: nat, i: nat)
    requires ReplacedSoFar(g0, g, p, i) && i + 1 < |g.frame| && g.frame[i].pair != Some(p)
    ensures ReplacedSoFar(g0, g, p, i + 1)
  {
    var fs, rs, s := Syms(g.frame), Refs(g.frame), |g0.syms|;
    ReplaceSkip(fs, rs, p, s, i);
    assert fs[..i + 1] == fs[..i] + [fs[i]];
    AppendAssoc(fs[..i], [fs[i]], Replace(fs[i + 1..], rs[i + 1..], p, s));
  }

  lemma {:induction false} ReplacedMerge(g0: Grammar, g: Grammar, h: Grammar, p: nat, i: nat)
    requires ReplacedSoFar(g0, g, p, i) && i + 1 < |g.frame| && g.frame[i].pair == Some(p)
    requires i + 1 <= |h.frame| && Syms(h.frame)[..i + 1] == Syms(g.frame)[..i] + [|g0.syms|]
    requires Syms(h.frame)[i + 1..] == Syms(g.frame)[i + 2..] && Refs(h.frame)[i + 1..] == Refs(g.frame)[i + 2..]
    ensures ReplacedSoFar(g0, h, p, i + 1)
  {
    var fs, rs, s := Syms(g.frame), Refs(g.frame), |g0.syms|;
    ReplaceMerge(fs, rs, p, s, i);
    AppendAssoc(fs[..i], [s], Replace(fs[i + 2..], rs[i + 2..], p, s));
  }

  /** The frame after a merge at `i`, against the frame before it. */
  lemma {:induction false} MergeShifted(g: Grammar, p: nat, i: nat, sym: Option<nat>, v: Variant, h: Grammar, t: nat)
    requires MergeReady(g, p, i) && g.frame[i].pair == Some(p) && (sym.Some? ==> sym.value < |g.syms|)
    requires Merge(g, p, i, sym, v) == Ok((h, t))
    ensures i + 1 <= |h.frame| && Syms(h.frame)[..i + 1] == Syms(g.frame)[..i] + [t]
    ensures Syms(h.frame)[i + 1..] == Syms(g.frame)[i + 2..] && Refs(h.frame)[i + 1..] == Refs(g.frame)[i + 2..]
  {
    MergeFrame(g, p, i, sym, v);
    MergedSyms(g.frame, h.frame, i, t);
    RefsShifted(g.frame, h.frame, i);
  }

  /** `Replace` past a position not holding `p`. */
  lemma {:induction false} ReplaceSkip(fs: seq<nat>, rs: seq<Option<nat>>, p: nat, s: nat, i: nat)
    requires |fs| == |rs| && i + 1 < |fs| && rs[i] != Some(p)
    ensures Replace(fs[i..], rs[i..], p, s) == [fs[i]] + Replace(fs[i + 1..], rs[i + 1..], p, s)
  {
    assert fs[i..][1..] == fs[i + 1..] && rs[i..][1..] == rs[i + 1..];
  }

  /** `Replace` at a position holding `p`. */
  lemma {:induction false} ReplaceMerge(fs: seq<nat>, rs: seq<Option<nat>>, p: nat, s: nat, i: nat)
    requires |fs| == |rs| && i + 1 < |fs| && rs[i] == Some(p)
    ensures Replace(fs[i..], rs[i..], p, s) == [s] + Replace(fs[i + 2..], rs[i + 2..], p, s)
  {
    assert fs[i..][2..] == fs[i + 2..] && rs[i..][2..] == rs[i + 2..];
  }

  /** The symbols of a frame in which `i` and `i + 1` became one position
      holding `s`. */
  lemma {:induction false} MergedSyms(f: seq<Position>, e: seq<Position>, i: nat, s: nat)
    requires i + 1 < |f| && |e| + 1 == |f| && e[i].sym == s
    requires forall k :: 0 <= k < i && k + 1 != i ==> e[k] == f[k]
    requires i > 0 ==> e[i - 1].sym == f[i - 1].sym
    requires forall k :: i < k < |e| ==> e[k] == f[k + 1]
    ensures Syms(e)[..i + 1] == Syms(f)[..i] + [s] && Syms(e)[i + 1..] == Syms(f)[i + 2..]
  {
    var es, fs := Syms(e), Syms(f);
    assert forall k :: 0 <= k < i ==> es[k] == fs[k];
    var a, b := es[i + 1..], fs[i + 2..];
    assert |a| == |b|;
    forall k | 0 <= k < |a|
      ensures a[k] == b[k]
    {
      assert e[i + 1 + k] == f[i + 2 + k];
    }
  }

  /** After `crunch_pair` the positions that lost their pair, and only
      they, wait in the hole list; the corrected reading keeps the last
      position out of it. */
  lemma {:induction false} CrunchPairHoles(g: Grammar, p: nat, v: Variant)
    requires Inv(g) && Paired(g) && p < |g.pairs|
    ensures CrunchPair(g, p, v).Ok? ==> Waiting(CrunchPair(g, p, v).value.0, v)
    ensures CrunchPair(g, p, v).Ok? && v == Corrected ==> HoleIff(CrunchPair(g, p, v).value.0)
  {
    CrunchStart(g, p, v);
    CrunchFromSpec(g, g, p, 0, None, v);
    var r := CrunchFrom(g, p, 0, None, v);
    if r.Ok? {
      var h := r.value.0;
      CrunchedWaiting(g, h, p, r.value.1, v);
      assert CrunchPair(g, p, v).value.0 == h;
      if v == Corrected {
        WaitingIff(h, v);
      }
    }
  }

  lemma {:induction false} CrunchedWaiting(g0: Grammar, h: Grammar, p: nat, sym: Option<nat>, v: Variant)
    requires Crunched(g0, h, p, sym, v)
    ensures Waiting(h, v) && PairsMatch(h)
  {
  }

  /** The code as written puts the last position in the hole list when
      the pair's last occurrence ends the frame (its two symbols being
      different, that occurrence is merged): `scan_pair` would then look
      for a successor the position does not have. The corrected reading
      never does so (`CrunchPairHoles`). */
  lemma {:induction false} CrunchPairMarksEnd(g: Grammar, p: nat)
    requires Inv(g) && Paired(g) && p < |g.pairs| && g.pairs[p].left != g.pairs[p].right
    requires 2 <= |g.frame| && g.frame[|g.frame| - 2].pair == Some(p)
    ensures CrunchPair(g, p, AsWritten).Ok? ==> HoleAtEnd(CrunchPair(g, p, AsWritten).value.0)
    ensures CrunchPair(g, p, Corrected).Ok? ==> !HoleAtEnd(CrunchPair(g, p, Corrected).value.0)
  {
    CrunchStart(g, p, AsWritten);
    CrunchFromMarksEnd(g, g, p, 0, None);
    CrunchPairHoles(g, p, Corrected);
  }

  /** The position before the last holds pair `p`. */
  ghost predicate EndsWith(g: Grammar, p: nat)
  {
    2 <= |g.frame| && Refs(g.frame)[|g.frame| - 2] == Some(p)
  }

  lemma {:induction false} CrunchFromMarksEnd(g0: Grammar, g: Grammar, p: nat, i: nat, sym: Option<nat>)
    requires CrunchState(g0, g, p, sym) && CrunchFrame(g0, g, p, i, AsWritten)
    requires g0.pairs[p].left != g0.pairs[p].right && i + 2 <= |g.frame| && EndsWith(g, p)
    ensures Indexed(g) && p < |g.pairs| && (sym.Some? ==> sym.value < |g.syms|)
    ensures CrunchFrom(g, p, i, sym, AsWritten).Ok? ==> HoleAtEnd(CrunchFrom(g, p, i, sym, AsWritten).value.0)
    decreases |g.frame| - i
  {
    var n := |g.frame|;
    if g.frame[i].pair != Some(p) {
      assert i + 2 != n;
      CrunchSkip(g0, g, p, i, sym, AsWritten);
      CrunchFromMarksEnd(g0, g, p, i + 1, sym);
    } else if sym.None? && |g.syms| >= SYMBOL_MAX {
      CrunchFull(g, p, i, sym, AsWritten);
    } else if i + 2 == n {
      MarksEndFinal(g0, g, p, i, sym);
    } else {
      var h, t := MarksEndMerge(g0, g, p, i, sym);
      CrunchFromMarksEnd(g0, h, p, i + 1, Some(t));
    }
  }

  /** A merge short of the occurrence ending the frame. */
  lemma {:induction false} MarksEndMerge(g0: Grammar, g: Grammar, p: nat, i: nat, sym: Option<nat>)
    returns (h: Grammar, t: nat)
    requires CrunchState(g0, g, p, sym) && CrunchFrame(g0, g, p, i, AsWritten)
    requires g0.pairs[p].left != g0.pairs[p].right && i + 2 < |g.frame| && EndsWith(g, p)
    requires g.frame[i].pair == Some(p) && (sym.None? ==> |g.syms| < SYMBOL_MAX)
    ensures CrunchState(g0, h, p, Some(t)) && CrunchFrame(g0, h, p, i + 1, AsWritten)
    ensures |h.frame| < |g.frame| && i + 3 <= |h.frame| && EndsWith(h, p)
    ensures CrunchFrom(g, p, i, sym, AsWritten) == CrunchFrom(h, p, i + 1, Some(t), AsWritten)
  {
    NotNeighbours(g, p, i, i + 1);
    h, t := CrunchStep(g0, g, p, i, sym, AsWritten);
    MergeShifted(g, p, i, sym, AsWritten, h, t);
    EndShifted(g, h, p, i);
  }

  /** The occurrence ending the frame is merged, and `crunch_pair` stops
      there with the merged position in the hole list. */
  lemma {:induction false} MarksEndFinal(g0: Grammar, g: Grammar, p: nat, i: nat, sym: Option<nat>)
    requires CrunchState(g0, g, p, sym) && CrunchFrame(g0, g, p, i, AsWritten)
    requires i + 2 == |g.frame| && g.frame[i].pair == Some(p) && (sym.None? ==> |g.syms| < SYMBOL_MAX)
    ensures CrunchFrom(g, p, i, sym, AsWritten).Ok? && HoleAtEnd(CrunchFrom(g, p, i, sym, AsWritten).value.0)
  {
    var h, s := CrunchStep(g0, g, p, i, sym, AsWritten);
    MarksEndLast(g, p, i, sym, h, s);
  }

  /** The merge of the occurrence ending the frame: the merged position
      is the last and, as the code has it, waits in the hole list. */
  lemma {:induction false} MarksEndLast(g: Grammar, p: nat, i: nat, sym: Option<nat>, h: Grammar, s: nat)
    requires MergeReady(g, p, i) && g.frame[i].pair == Some(p) && (sym.Some? ==> sym.value < |g.syms|)
    requires Merge(g, p, i, sym, AsWritten) == Ok((h, s)) && i + 2 == |g.frame|
    ensures i + 1 == |h.frame| && HoleAtEnd(h)
  {
    MergeFrame(g, p, i, sym, AsWritten);
  }

  /** A merge at `i`, short of the occurrence ending the frame, leaves that
      occurrence ending the frame. */
  lemma {:induction false} EndShifted(g: Grammar, h: Grammar, p: nat, i: nat)
    requires EndsWith(g, p) && i + 2 < |g.frame| && g.frame[i + 1].pair != Some(p)
    requires i + 1 <= |h.frame| && Refs(h.frame)[i + 1..] == Refs(g.frame)[i + 2..]
    ensures i + 3 <= |h.frame| && EndsWith(h, p)
  {
    var a, b := Refs(g.frame), Refs(h.frame);
    assert |b| + 1 == |a|;
    assert b[|b| - 2] == b[i + 1..][|b| - 2 - (i + 1)];
  }

  /** Two occurrences of a pair of distinct symbols are never neighbours. */
  lemma {:induction false} NotNeighbours(g: Grammar, p: nat, i: nat, j: nat)
    requires PairsMatch(g) && p < |g.pairs| && g.pairs[p].left != g.pairs[p].right
    requires i + 1 == j && j < |g.frame| && g.frame[i].pair == Some(p)
    ensures g.frame[j].pair != Some(p)
  {
    assert PairAt(g, i);
    assert g.frame[j].pair.Some? ==> PairAt(g, j);
  }

  /** A state whose hole list is as `crunch_pair` leaves it, with no hole
      at the end, keeps the hole discipline. */
  lemma {:induction false} WaitingIff(g: Grammar, v: Variant)
    requires PairsMatch(g) && Waiting(g, v) && !HoleAtEnd(g)
    ensures HoleIff(g)
  {
  }

  /** `scan_pair` on a state keeping the hole discipline succeeds and leaves
      every position but the last paired, the frame as it was. */
  lemma {:induction false} ScanPaired(g: Grammar)
    requires Inv(g) && HoleIff(g)
    ensures ScanPair(g).Ok?
    ensures var h := ScanPair(g).value; Inv(h) && Paired(h) && HoleIff(h) && Text(h) == Text(g)
  {
    assert HolesFree(g) && !HoleAtEnd(g);
    ScanPairInv(g);
    ScanPairSpec(g);
  }

  // ---------------------------------------------------------------------------
  // The holes crunch_pair leaves

  /** Every hole with a successor starts, or comes just before, symbol `s`. */
  predicate NamedHoles(g: Grammar, s: nat)
  {
    forall k :: 0 <= k && k + 1 < |g.frame| && g.frame[k].hole ==>
      g.frame[k].sym == s || g.frame[k + 1].sym == s
  }

  /** The symbol a merge places: the one made so far, or the next free one. */
  lemma {:induction false} MergeSymbol(g: Grammar, p: nat, i: nat, sym: Option<nat>, v: Variant)
    requires MergeReady(g, p, i) && g.frame[i].pair == Some(p) && (sym.Some? ==> sym.value < |g.syms|)
    requires Merge(g, p, i, sym, v).Ok?
    ensures Merge(g, p, i, sym, v).value.1 == if sym.Some? then sym.value else |g.syms|
  {
    var g1 := ClearPrev(g, i);
    var g2 := ClearNext(g1, i).value;
    assert g2.syms == g.syms;
  }

  /** A merge at `i` placing `s` keeps `NamedHoles` for `s`: the holes it
      makes are the merged position and the one before it. */
  lemma {:induction false} NamedMerge(g: Grammar, p: nat, i: nat, sym: Option<nat>, v: Variant, s: nat)
    requires MergeReady(g, p, i) && g.frame[i].pair == Some(p) && (sym.Some? ==> sym.value < |g.syms|)
    requires Merge(g, p, i, sym, v).Ok? && Merge(g, p, i, sym, v).value.1 == s && NamedHoles(g, s)
    ensures NamedHoles(Merge(g, p, i, sym, v).value.0, s)
  {
    MergeFrame(g, p, i, sym, v);
    var h := Merge(g, p, i, sym, v).value.0;
    NamedShift(g.frame, h.frame, i, s);
  }

  /** The frame side of `NamedMerge`. */
  lemma {:induction false} NamedShift(f: seq<Position>, f': seq<Position>, i: nat, s: nat)
    requires i + 1 < |f| && |f'| + 1 == |f|
    requires forall k :: 0 <= k && k + 1 < |f| && f[k].hole ==> f[k].sym == s || f[k + 1].sym == s
    requires forall k :: 0 <= k < i && k + 1 != i ==> f'[k] == f[k]
    requires i > 0 ==> f'[i - 1].sym == f[i - 1].sym && (f'[i - 1].hole ==> f[i - 1].hole || f[i - 1].pair.Some?)
    requires f'[i].sym == s
    requires forall k :: i < k < |f'| ==> f'[k] == f[k + 1]
    ensures forall k :: 0 <= k && k + 1 < |f'| && f'[k].hole ==> f'[k].sym == s || f'[k + 1].sym == s
  {
    forall k | 0 <= k && k + 1 < |f'| && f'[k].hole
      ensures f'[k].sym == s || f'[k + 1].sym == s
    {
      if k + 1 < i {
        assert f'[k] == f[k] && f'[k + 1].sym == f[k + 1].sym;
      } else if i < k {
        assert f'[k] == f[k + 1] && f'[k + 1] == f[k + 2];
      }
    }
  }

  /** A merge keeps every `repCount`: the symbol it may make has none. */
  lemma {:induction false} MergeRepCounts(g: Grammar, p: nat, i: nat, sym: Option<nat>, v: Variant)
    requires MergeReady(g, p, i) && g.frame[i].pair == Some(p) && (sym.Some? ==> sym.value < |g.syms|)
    requires Merge(g, p, i, sym, v).Ok?
    ensures RepCountsNew(g.syms, Merge(g, p, i, sym, v).value.0.syms)
  {
    var g1 := ClearPrev(g, i);
    var g2 := ClearNext(g1, i).value;
    var r := Prep(g, p, i, sym).value;
    assert g2.syms == g.syms;
    RepCountsNewTrans(g.syms, r.0.syms, Settle(r.0, i, r.1, v).syms);
  }

  /** `crunch_pair` from position `i` on keeps every `repCount`. */
  lemma {:induction false} CrunchFromRepCounts(g: Grammar, p: nat, i: nat, sym: Option<nat>, v: Variant)
    requires Indexed(g) && p < |g.pairs| && (sym.Some? ==> sym.value < |g.syms|)
    ensures CrunchFrom(g, p, i, sym, v).Ok? ==> RepCountsNew(g.syms, CrunchFrom(g, p, i, sym, v).value.0.syms)
    decreases |g.frame| - i
  {
    if i + 1 < |g.frame| {
      if g.frame[i].pair != Some(p) {
        CrunchFromRepCounts(g, p, i + 1, sym, v);
      } else {
        IndexedReady(g, p, i);
        match Merge(g, p, i, sym, v)
        case Err(_) =>
        case Ok((h, t)) =>
          MergeIndexed(g, p, i, sym, v);
          MergeRepCounts(g, p, i, sym, v);
          CrunchFromRepCounts(h, p, i + 1, Some(t), v);
          if CrunchFrom(h, p, i + 1, Some(t), v).Ok? {
            RepCountsNewTrans(g.syms, h.syms, CrunchFrom(h, p, i + 1, Some(t), v).value.0.syms);
          }
      }
    } else {
      assert RepCountsNew(g.syms, g.syms);
    }
  }

  lemma {:induction false} CrunchFromNamed(g: Grammar, p: nat, i: nat, sym: Option<nat>, v: Variant, s: nat)
    requires Indexed(g) && p < |g.pairs| && NamedHoles(g, s)
    requires sym.Some? ==> sym.value == s && s < |g.syms|
    requires sym.None? ==> s == |g.syms|
    ensures CrunchFrom(g, p, i, sym, v).Ok? ==> NamedHoles(CrunchFrom(g, p, i, sym, v).value.0, s)
    decreases |g.frame| - i
  {
    if i + 1 < |g.frame| {
      if g.frame[i].pair != Some(p) {
        CrunchFromNamed(g, p, i + 1, sym, v, s);
      } else {
        IndexedReady(g, p, i);
        match Merge(g, p, i, sym, v)
        case Err(_) =>
        case Ok((h, t)) =>
          MergeIndexed(g, p, i, sym, v);
          MergeSymbol(g, p, i, sym, v);
          NamedMerge(g, p, i, sym, v, s);
          CrunchFromNamed(h, p, i + 1, Some(t), v, s);
      }
    }
  }

  /** Every hole `crunch_pair` leaves with a successor starts, or comes
      just before, the symbol it made: the pair of symbols such a hole
      starts is new. */
  lemma {:induction false} CrunchPairNamed(g: Grammar, p: nat, v: Variant)
    requires Indexed(g) && Paired(g) && p < |g.pairs|
    ensures CrunchPair(g, p, v).Ok? ==> NamedHoles(CrunchPair(g, p, v).value.0, |g.syms|)
  {
    CrunchFromNamed(g, p, 0, None, v, |g.syms|);
  }

  // ---------------------------------------------------------------------------
  // Live pairs have distinct keys

  /** No two pairs on the pair list stand for the same two symbols. */
  predicate KeysUnique(g: Grammar)
  {
    forall q, q' :: 0 <= q < q' < |g.pairs| && q in g.live && q' in g.live ==>
      Key(g.pairs[q]) != Key(g.pairs[q'])
  }

  /** No hole starts the two symbols of a pair on the pair list. */
  predicate HoleKeysNew(g: Grammar)
  {
    forall k, q :: 0 <= k && k + 1 < |g.frame| && g.frame[k].hole && 0 <= q < |g.pairs| && q in g.live ==>
      Key(g.pairs[q]) != KeyAt(g.frame, k)
  }

  /** A pair `scan_pair` made was made for some hole of the state before. */
  lemma {:induction false} FreshHole(g: Grammar, q: nat) returns (k: nat)
    requires Indexed(g) && |g.frame| <= FRAME_MAX && HolesFree(g) && !HoleAtEnd(g)
    requires ScanPair(g).Ok? && Fresh(g, ScanPair(g).value, q)
    ensures k + 1 < |g.frame| && g.frame[k].hole
    ensures KeyAt(g.frame, k) == Key(ScanPair(g).value.pairs[q])
  {
    ScanPairSpec(g);
    var ks, x := HoleKeys(g.frame), Some(Key(ScanPair(g).value.pairs[q]));
    k := First(ks, x);
    if k == |ks| {
      Occ0(ks, x);
    }
  }

  /** `scan_pair` keeps the keys of the pair list distinct when no hole
      starts the symbols of a pair already on it. */
  lemma {:induction false} ScanKeysUnique(g: Grammar)
    requires Indexed(g) && |g.frame| <= FRAME_MAX && HolesFree(g) && !HoleAtEnd(g)
    requires KeysUnique(g) && HoleKeysNew(g)
    ensures ScanPair(g).Ok? && KeysUnique(ScanPair(g).value)
  {
    ScanPairSpec(g);
    var h := ScanPair(g).value;
    forall q, q' | 0 <= q < q' < |h.pairs| && q in h.live && q' in h.live
      ensures Key(h.pairs[q]) != Key(h.pairs[q'])
    {
      var n := |g.pairs|;
      if q' < n {
        assert q in g.live && q' in g.live;
        assert h.pairs[q] == g.pairs[q] && h.pairs[q'] == g.pairs[q'];
      } else if q < n {
        assert q in g.live && h.pairs[q] == g.pairs[q];
        var k := FreshHole(g, q');
      } else {
        assert Fresh(g, h, q) && Fresh(g, h, q');
      }
    }
  }

  /** After `crunch_pair` the keys of the pair list stay distinct, and no
      hole starts the symbols of a pair on it, since every hole names the
      new symbol and no pair on the list does. */
  lemma {:induction false} CrunchKeys(g: Grammar, p: nat, v: Variant)
    requires Inv(g) && Paired(g) && p < |g.pairs| && KeysUnique(g)
    ensures CrunchPair(g, p, v).Ok? ==> KeysUnique(CrunchPair(g, p, v).value.0) && HoleKeysNew(CrunchPair(g, p, v).value.0)
  {
    CrunchPairSpec(g, p, v);
    CrunchPairNamed(g, p, v);
    if CrunchPair(g, p, v).Ok? {
      KeysKept(g, CrunchPair(g, p, v).value.0);
    }
  }

  /** The pair records kept, with every hole naming a symbol no record
      names, keep the keys distinct and apart from the holes' keys. */
  lemma {:induction false} KeysKept(g: Grammar, h: Grammar)
    requires Indexed(g) && KeysUnique(g) && PairsKept(g, h) && NamedHoles(h, |g.syms|)
    ensures KeysUnique(h) && HoleKeysNew(h)
  {
    forall k, q | 0 <= k && k + 1 < |h.frame| && h.frame[k].hole && 0 <= q < |h.pairs| && q in h.live
      ensures Key(h.pairs[q]) != KeyAt(h.frame, k)
    {
      assert h.pairs[q].left < |g.syms| && h.pairs[q].right < |g.syms|;
    }
    forall q, q' | 0 <= q < q' < |h.pairs| && q in h.live && q' in h.live
      ensures Key(h.pairs[q]) != Key(h.pairs[q'])
    {
      assert q in g.live && q' in g.live;
    }
  }

  /** Two indices holding the same value make two occurrences of it. */
  lemma {:induction false} OccTwo<T>(s: seq<T>, k: nat, k': nat)
    ensures k < k' < |s| && s[k] == s[k'] ==> Occ(s, s[k]) >= 2
  {
    if k < k' < |s| && s[k] == s[k'] {
      assert s == s[..k'] + s[k'..];
      OccAppend(s[..k'], s[k'..], s[k]);
      OccFound(s[..k'], k);
      OccFound(s[k'..], 0);
    }
  }

  // ---------------------------------------------------------------------------
  // crunch_word

  /** A pair of one symbol twice (`crunch_word` skips those). */
  predicate Symmetric(x: Pair)
  {
    x.left == x.right
  }

  /** The walk over the pair list for the most frequent pair of two
      distinct symbols: the list index of the first one with the highest
      count, and that count; none, and zero, when every such pair has a
      zero count. */
  function Best(pairs: seq<Pair>, live: seq<nat>): (r: (Option<nat>, nat))
    requires forall j :: 0 <= j < |live| ==> live[j] < |pairs|
    ensures r.0.None? <==> r.1 == 0
    ensures forall j :: 0 <= j < |live| && !Symmetric(pairs[live[j]]) ==> pairs[live[j]].count <= r.1
    ensures r.0.Some? ==> && r.0.value < |live| && !Symmetric(pairs[live[r.0.value]])
                          && pairs[live[r.0.value]].count == r.1
                          && forall j :: 0 <= j < r.0.value && !Symmetric(pairs[live[j]]) ==> pairs[live[j]].count < r.1
  {
    if live == [] then (None, 0)
    else
      var r := Best(pairs, live[..|live| - 1]);
      var x := pairs[live[|live| - 1]];
      if !Symmetric(x) && x.count > r.1 then (Some(|live| - 1), x.count) else r
  }

  /** A paired state in which no pair of distinct symbols on the pair list
      counts two: every position starting two distinct symbols holds a pair
      found there alone. */
  lemma {:induction false} WordDone(g: Grammar)
    requires Inv(g) && Paired(g)
    requires forall j :: 0 <= j < |g.live| && !Symmetric(g.pairs[g.live[j]]) ==> g.pairs[g.live[j]].count < 2
    ensures forall k :: 0 <= k && k + 1 < |g.frame| && g.frame[k].sym != g.frame[k + 1].sym ==>
              Occ(Refs(g.frame), g.frame[k].pair) == 1
  {
    var rs := Refs(g.frame);
    forall k | 0 <= k && k + 1 < |g.frame| && g.frame[k].sym != g.frame[k + 1].sym
      ensures Occ(rs, g.frame[k].pair) == 1
    {
      var q := g.frame[k].pair.value;
      assert PairAt(g, k);
      OccFound(rs, k);
      assert q in g.live;
      var j :| 0 <= j < |g.live| && g.live[j] == q;
    }
  }

  /** The same state with distinct keys on the pair list: no two positions
      start the same two distinct symbols. */
  lemma {:induction false} WordDoneKeys(g: Grammar)
    requires Inv(g) && Paired(g) && KeysUnique(g)
    requires forall j :: 0 <= j < |g.live| && !Symmetric(g.pairs[g.live[j]]) ==> g.pairs[g.live[j]].count < 2
    ensures forall k, k' :: 0 <= k < k' && k' + 1 < |g.frame| && g.frame[k].sym != g.frame[k + 1].sym ==>
              KeyAt(g.frame, k) != KeyAt(g.frame, k')
  {
    forall k, k' | 0 <= k < k' && k' + 1 < |g.frame| && g.frame[k].sym != g.frame[k + 1].sym
      ensures KeyAt(g.frame, k) != KeyAt(g.frame, k')
    {
      KeysApart(g, k, k');
    }
  }

  /** One pair of positions of `WordDoneKeys`: equal keys would mean either
      two live records with one key or one record found twice. */
  lemma {:induction false} KeysApart(g: Grammar, k: nat, k': nat)
    requires Indexed(g) && PairsMatch(g) && Paired(g) && Counted(g) && KeysUnique(g)
    requires forall j :: 0 <= j < |g.live| && !Symmetric(g.pairs[g.live[j]]) ==> g.pairs[g.live[j]].count < 2
    requires k < k' && k' + 1 < |g.frame| && g.frame[k].sym != g.frame[k + 1].sym
    ensures KeyAt(g.frame, k) != KeyAt(g.frame, k')
  {
    var rs := Refs(g.frame);
    var q, q' := g.frame[k].pair.value, g.frame[k'].pair.value;
    assert PairAt(g, k) && PairAt(g, k');
    assert !Symmetric(g.pairs[q]);
    OccFound(rs, k);
    OccFound(rs, k');
    assert q in g.live && q' in g.live;
    var j :| 0 <= j < |g.live| && g.live[j] == q;
    assert Occ(rs, Some(q)) < 2;
    OccTwo(rs, k, k');
    assert q != q';
  }

  /** `crunch_word`: pairs of distinct symbols are crunched, the most
      frequent first, until none occurs twice. The pair list starts empty,
      as `scan_base` leaves it. */
  method CrunchWord(g0: Grammar, v: Variant) returns (r: Result<Grammar>)
    requires Inv(g0) && HoleIff(g0) && g0.live == []
    ensures r.Err? ==> r.error == TooManySymbols || (v == AsWritten && r.error == NoSuccessor)
    ensures r.Ok? ==> && Inv(r.value) && Text(r.value) == Text(g0) && Extends(g0.syms, r.value.syms)
                      && Paired(r.value)
                      && forall j :: 0 <= j < |r.value.live| && !Symmetric(r.value.pairs[r.value.live[j]]) ==>
                           r.value.pairs[r.value.live[j]].count < 2
    ensures r.Ok? ==> forall k :: 0 <= k && k + 1 < |r.value.frame| && r.value.frame[k].sym != r.value.frame[k + 1].sym ==>
                        Occ(Refs(r.value.frame), r.value.frame[k].pair) == 1
    ensures r.Ok? ==> KeysUnique(r.value)
    ensures r.Ok? ==> forall k, k' :: 0 <= k < k' && k' + 1 < |r.value.frame| && r.value.frame[k].sym != r.value.frame[k + 1].sym ==>
                        KeyAt(r.value.frame, k) != KeyAt(r.value.frame, k')
  {
    var g := g0;
    assert Extends(g0.syms, g0.syms) by {
      forall t | 0 <= t < |g0.syms|
        ensures SameDef(g0.syms[t], g0.syms[t])
      {
      }
    }
    while true
      invariant Inv(g) && Waiting(g, v) && Text(g) == Text(g0) && Extends(g0.syms, g.syms)
      invariant KeysUnique(g) && HoleKeysNew(g)
      decreases |g.frame|
    {
      if HoleAtEnd(g) {
        return Err(NoSuccessor);
      }
      WaitingIff(g, v);
      ScanPaired(g);
      ScanKeysUnique(g);
      var h := ScanPair(g).value;
      var best := Best(h.pairs, h.live);
      if best.1 < 2 {
        WordDone(h);
        WordDoneKeys(h);
        return Ok(h);
      }
      var p := h.live[best.0.value];
      CrunchPairSpec(h, p, v);
      CrunchPairHoles(h, p, v);
      CrunchKeys(h, p, v);
      match CrunchPair(h, p, v)
      case Err(e) =>
        return Err(e);
      case Ok((h', shrink)) =>
        if !shrink {
          assert false;
          return Ok(h');
        }
        ExtendsTrans(g0.syms, h.syms, h'.syms);
        g := h';
    }
  }
}

=== FILE: edits.dfy ===
/** The elementary edits `crunch_pair` and `crunch_rep` make to the grammar
    state, each with the part of the invariant it keeps. Reordering them
    against the C code is harmless: they touch different fields, or add and
    subtract on different counters. */
module Edits {
  import opened Common
  import opened Grammar

  /** `dec_pair (pos->pair); pos->pair = NULL;` for the position at `k`. A
      null pair is fatal. */
  function Unpair(g: Grammar, k: nat): (r: Result<Grammar>)
    requires k < |g.frame| && (g.frame[k].pair.Some? ==> g.frame[k].pair.value < |g.pairs|)
    ensures r.Err? <==> g.frame[k].pair.None?
    ensures r.Err? ==> r.error == NullPair
    ensures r.Ok? ==> && r.value.syms == g.syms && |r.value.pairs| == |g.pairs|
                      && r.value.frame == g.frame[k := g.frame[k].(pair := None)]
  {
    match DecPair(g, g.frame[k].pair)
    case Err(e) => Err(e)
    case Ok(h) => Ok(h.(frame := h.frame[k := h.frame[k].(pair := None)]))
  }

  /** `h` has the pairs of `g`, and no pair joined the pair list: the list
      is the old one with some records taken off, the rest in order. */
  predicate PairsKept(g: Grammar, h: Grammar)
  {
    && |h.pairs| == |g.pairs|
    && (forall q :: 0 <= q < |g.pairs| ==> h.pairs[q].left == g.pairs[q].left && h.pairs[q].right == g.pairs[q].right)
    && (forall j :: 0 <= j < |h.live| ==> h.live[j] in g.live)
    && h.live == Retained(g.live, h.live)
  }

  lemma {:induction false} PairsKeptSelf(g: Grammar)
    ensures PairsKept(g, g)
  {
    RetainedAll(g.live, g.live);
  }

  lemma {:induction false} PairsKeptTrans(a: Grammar, b: Grammar, c: Grammar)
    requires PairsKept(a, b) && PairsKept(b, c)
    ensures PairsKept(a, c)
  {
    forall j | 0 <= j < |c.live|
      ensures c.live[j] in a.live
    {
      var x := c.live[j];
      assert x in b.live;
      var j' :| 0 <= j' < |b.live| && b.live[j'] == x;
    }
    forall y | y in c.live
      ensures y in b.live
    {
      var j :| 0 <= j < |c.live| && c.live[j] == y;
    }
    RetainedTrans(a.live, b.live, c.live);
  }

  /** `dec_pair` changes a count and may take a pair off the list, nothing
      more. */
  lemma {:induction false} UnpairKept(g: Grammar, k: nat)
    requires k < |g.frame| && (g.frame[k].pair.Some? ==> g.frame[k].pair.value < |g.pairs|)
    ensures Unpair(g, k).Ok? ==> PairsKept(g, Unpair(g, k).value)
  {
    if g.frame[k].pair.Some? {
      var p := g.frame[k].pair.value;
      var h := Unpair(g, k).value;
      forall j | 0 <= j < |h.live|
        ensures h.live[j] in g.live
      {
        assert h.live[j] in h.live;
      }
      if h.live == g.live {
        RetainedAll(g.live, g.live);
      } else {
        assert h.live == Without(g.live, p);
        RetainedWithout(g.live, h.live, p);
      }
    }
  }

  /** Dropping one reference to a pair keeps every count honest. */
  lemma {:induction false} UnpairWf(g: Grammar, k: nat)
    requires Wf(g) && k < |g.frame| && g.frame[k].pair.Some?
    ensures Unpair(g, k).Ok?
    ensures var h := Unpair(g, k).value;
            && Wf(h) && Syms(h.frame) == Syms(g.frame)
            && (PairsMatch(g) ==> PairsMatch(h)) && (HolesFree(g) ==> HolesFree(h))
  {
    var P := g.frame[k].pair.value;
    var d := DecPair(g, g.frame[k].pair).value;
    DecPairIndexed(g, g.frame[k].pair);
    var h := Unpair(g, k).value;
    var rs := Refs(g.frame);
    assert Refs(h.frame) == rs[k := None];
    OccFound(rs, k);
    forall p | 0 <= p < |h.pairs|
      ensures h.pairs[p].count == Occ(Refs(h.frame), Some(p))
      ensures p in h.live <==> h.pairs[p].count != 0
    {
      OccUpdate(rs, k, None, Some(p));
    }
    assert Syms(h.frame) == Syms(g.frame);
  }

  /** Bumping `symCount` of a child: it names at most two children per
      symbol, so the counter stays far from wrapping. */
  function Use(syms: seq<Symbol>, t: nat): (r: seq<Symbol>)
    requires t < |syms|
    ensures |r| == |syms| && forall u :: 0 <= u < |syms| && u != t ==> r[u] == syms[u]
    ensures r[t] == syms[t].(symCount := Inc32(syms[t].symCount))
  {
    syms[t := syms[t].(symCount := Inc32(syms[t].symCount))]
  }

  /** The new symbol `crunch_pair` makes for pair `(l, r)` found first at
      input offset `base`: its size is the sum of its children's sizes (in
      `uint_t` arithmetic), and each child counts one more use. */
  function AddPairSymbol(g: Grammar, l: nat, r: nat, base: nat): (res: Result<(Grammar, nat)>)
    requires l < |g.syms| && r < |g.syms|
    ensures res.Err? <==> |g.syms| >= SYMBOL_MAX
    ensures res.Err? ==> res.error == TooManySymbols
    ensures res.Ok? ==> && res.value.1 == |g.syms| && |res.value.0.syms| == |g.syms| + 1
                        && res.value.0.frame == g.frame && res.value.0.pairs == g.pairs && res.value.0.live == g.live
    ensures res.Ok? ==> RepCountsNew(g.syms, res.value.0.syms)
  {
    match SymAdd(g.syms)
    case Err(e) => Err(e)
    case Ok((syms, s)) =>
      var x := syms[s].(base := base, size := WrapAdd(g.syms[l].size, g.syms[r].size), left := Some(l), right := Some(r));
      Ok((g.(syms := Use(Use(syms[s := x], l), r)), s))
  }

  /** The repeat symbol `crunch_rep` makes for a run of `l` starting at input
      offset `base`: one copy so far, the size of one copy; `l` is marked as
      repeated and counts one more use. */
  function AddRepeat(g: Grammar, l: nat, base: nat): (res: Result<(Grammar, nat)>)
    requires l < |g.syms|
    ensures res.Err? <==> |g.syms| >= SYMBOL_MAX
    ensures res.Err? ==> res.error == TooManySymbols
    ensures res.Ok? ==> && res.value.1 == |g.syms| && |res.value.0.syms| == |g.syms| + 1
                        && res.value.0.frame == g.frame && res.value.0.pairs == g.pairs && res.value.0.live == g.live
    ensures res.Ok? ==> && res.value.0.syms[l].repCount == 1 && res.value.0.syms[res.value.1].repCount == 1
                        && forall t :: 0 <= t < |g.syms| && t != l ==> res.value.0.syms[t].repCount == g.syms[t].repCount
  {
    match SymAdd(g.syms)
    case Err(e) => Err(e)
    case Ok((syms, s)) =>
      var x := syms[s].(repCount := 1, base := base, size := g.syms[l].size, left := Some(l));
      var syms2 := syms[s := x];
      Ok((g.(syms := Use(syms2[l := syms2[l].(repCount := 1)], l)), s))
  }

  /** `pos->sym = s` with the moves of `pos_count` that go with it. */
  function Relabel(g: Grammar, k: nat, s: nat): (r: Grammar)
    requires k < |g.frame| && g.frame[k].sym < |g.syms| && s < |g.syms|
    ensures r.pairs == g.pairs && r.live == g.live && |r.syms| == |g.syms| && RepCountsNew(g.syms, r.syms)
    ensures r.frame == g.frame[k := g.frame[k].(sym := s)]
  {
    var t := g.frame[k].sym;
    var syms := g.syms[t := g.syms[t].(posCount := Dec32(g.syms[t].posCount))];
    g.(syms := syms[s := syms[s].(posCount := Inc32(syms[s].posCount))], frame := g.frame[k := g.frame[k].(sym := s)])
  }

  /** Unlinking and freeing the position at `k`: the frame shifts left and
      its symbol covers one position fewer. */
  function Drop(g: Grammar, k: nat): (r: Grammar)
    requires k < |g.frame| && g.frame[k].sym < |g.syms|
    ensures r.pairs == g.pairs && r.live == g.live && |r.syms| == |g.syms| && RepCountsNew(g.syms, r.syms)
    ensures r.frame == g.frame[..k] + g.frame[k + 1..]
  {
    var t := g.frame[k].sym;
    g.(syms := g.syms[t := g.syms[t].(posCount := Dec32(g.syms[t].posCount))], frame := g.frame[..k] + g.frame[k + 1..])
  }

  /** The symbol table after `AddPairSymbol`: the old definitions, then the
      pair `(l, r)`. */
  lemma {:induction false} AddPairSymbolSyms(g: Grammar, l: nat, r: nat, base: nat)
    requires Acyclic(g.syms) && l < |g.syms| && r < |g.syms| && |g.syms| < SYMBOL_MAX
    ensures var (h, s) := AddPairSymbol(g, l, r, base).value;
            && Extends(g.syms, h.syms) && Acyclic(h.syms)
            && h.syms[s].left == Some(l) && h.syms[s].right == Some(r) && !IsRepeat(h.syms[s])
            && h.syms[s].posCount == 0 && h.syms[s].symCount == 0 && h.syms[s].base == base
            && Expand(h.syms, s) == Expand(g.syms, l) + Expand(g.syms, r)
            && (forall t :: 0 <= t < |g.syms| ==> h.syms[t].posCount == g.syms[t].posCount)
            && (forall t :: 0 <= t < |g.syms| && g.syms[t].symCount + 2 < UINT_MOD ==>
                  h.syms[t].symCount == g.syms[t].symCount + (if t == l then 1 else 0) + (if t == r then 1 else 0))
  {
    var (h, s) := AddPairSymbol(g, l, r, base).value;
    var n := |g.syms|;
    assert s == n;
    assert Extends(g.syms, h.syms) by {
      forall t | 0 <= t < n
        ensures SameDef(g.syms[t], h.syms[t])
      {
      }
    }
    assert Acyclic(h.syms) by {
      forall t | 0 <= t < |h.syms|
        ensures ChildrenBelow(h.syms[t], t)
      {
        if t < n {
          assert SameDef(g.syms[t], h.syms[t]) && ChildrenBelow(g.syms[t], t);
        }
      }
    }
    ExpandStable(g.syms, h.syms, l);
    ExpandStable(g.syms, h.syms, r);
  }

  /** A symbol appended to the table: the children's use counts grow by
      its child list and it is found nowhere yet. */
  lemma {:induction false} TreeCountsAppend(a: seq<Symbol>, b: seq<Symbol>)
    requires TreeCounts(a) && Acyclic(a) && Extends(a, b) && |b| == |a| + 1 && ChildrenBelow(b[|a|], |a|)
    requires forall t :: 0 <= t < |a| ==> b[t].symCount == a[t].symCount + Occ(ChildList(b[|a|]), t)
    requires b[|a|].symCount == 0
    ensures TreeCounts(b)
  {
    var n := |a|;
    ChildrenAppend(a, b);
    ChildrenBound(a);
    TreeCountsJoin(a, b, Children(a), ChildList(b[n]));
  }

  /** Between two tables that keep their use counts, a symbol appended
      raises each child's count by its uses in that symbol. */
  lemma {:induction false} UsesAppend(a: seq<Symbol>, b: seq<Symbol>)
    requires TreeCounts(a) && TreeCounts(b) && Extends(a, b) && |b| == |a| + 1
    ensures forall t :: 0 <= t < |a| ==> b[t].symCount == a[t].symCount + Occ(ChildList(b[|a|]), t)
  {
    ChildrenAppend(a, b);
    forall t | 0 <= t < |a|
      ensures b[t].symCount == a[t].symCount + Occ(ChildList(b[|a|]), t)
    {
      OccAppend(Children(a), ChildList(b[|a|]), t);
    }
  }

  /** The child list of a table one longer than `a` that keeps `a`'s
      definitions: `a`'s child list, then that of the new symbol. */
  lemma {:induction false} ChildrenAppend(a: seq<Symbol>, b: seq<Symbol>)
    requires Extends(a, b) && |b| == |a| + 1
    ensures Children(b) == Children(a) + ChildList(b[|a|])
  {
    var n := |a|;
    assert Extends(a, b[..n]) by {
      forall t | 0 <= t < n
        ensures SameDef(a[t], b[..n][t])
      {
        assert SameDef(a[t], b[t]);
      }
    }
    ChildrenStable(a, b[..n]);
  }

  lemma {:induction false} TreeCountsJoin(a: seq<Symbol>, b: seq<Symbol>, cs: seq<nat>, extra: seq<nat>)
    requires |b| == |a| + 1 && Children(b) == cs + extra && extra == ChildList(b[|a|])
    requires forall t :: 0 <= t < |a| ==> a[t].symCount == Occ(cs, t)
    requires forall t :: 0 <= t < |a| ==> b[t].symCount == a[t].symCount + Occ(extra, t)
    requires b[|a|].symCount == 0 && ChildrenBelow(b[|a|], |a|)
    requires forall j :: 0 <= j < |cs| ==> cs[j] < |a|
    ensures TreeCounts(b)
  {
    var n := |a|;
    forall t | 0 <= t < |b|
      ensures b[t].symCount == Occ(Children(b), t)
    {
      OccAppend(cs, extra, t);
      if t == n {
        Occ0(cs, n);
        Occ0(extra, n);
      }
    }
  }

  /** A symbol appended to the table, found nowhere, keeps the frame's
      counts and repeats as they were. */
  lemma {:induction false} FrameCountsAppend(a: seq<Symbol>, b: seq<Symbol>, fs: seq<nat>)
    requires CountsMatch(a, fs) && RepeatsOnce(a, fs) && InTable(a, fs) && Extends(a, b) && |b| == |a| + 1
    requires forall t :: 0 <= t < |b| ==> b[t].posCount == if t < |a| then a[t].posCount else 0
    ensures CountsMatch(b, fs) && RepeatsOnce(b, fs)
  {
    Occ0(fs, |a|);
    forall t | 0 <= t < |a|
      ensures IsRepeat(b[t]) ==> IsRepeat(a[t])
    {
      assert SameDef(a[t], b[t]);
    }
  }

  /** A pair symbol appended to the table raises the use count of each of
      its children by one (by two when they are the same symbol). */
  lemma {:induction false} PairCounts(a: seq<Symbol>, b: seq<Symbol>, l: nat, r: nat)
    requires TreeCounts(a) && TreeCounts(b) && Extends(a, b) && |b| == |a| + 1
    requires b[|a|].left == Some(l) && b[|a|].right == Some(r)
    ensures forall t :: 0 <= t < |a| ==>
      b[t].symCount == a[t].symCount + (if t == l then 1 else 0) + (if t == r then 1 else 0)
  {
    UsesAppend(a, b);
    forall t | 0 <= t < |a|
      ensures b[t].symCount == a[t].symCount + (if t == l then 1 else 0) + (if t == r then 1 else 0)
    {
      assert b[t].symCount == a[t].symCount + Occ(ChildList(b[|a|]), t);
      PairChildren(b[|a|], l, r, t);
    }
  }

  lemma {:induction false} PairChildren(x: Symbol, l: nat, r: nat, t: nat)
    requires x.left == Some(l) && x.right == Some(r)
    ensures Occ(ChildList(x), t) == (if t == l then 1 else 0) + (if t == r then 1 else 0)
  {
    assert ChildList(x) == [l] + [r];
    OccAppend([l], [r], t);
    OccSingle(l, t);
    OccSingle(r, t);
  }

  /** Adding a pair symbol keeps the invariant; the new symbol stands for
      its two children side by side. */
  lemma {:induction false} AddPairSymbolWf(g: Grammar, l: nat, r: nat, base: nat)
    requires Wf(g) && l < |g.syms| && r < |g.syms| && |g.syms| < SYMBOL_MAX
    ensures AddPairSymbol(g, l, r, base).Ok?
    ensures var (h, s) := AddPairSymbol(g, l, r, base).value;
            && Wf(h) && Extends(g.syms, h.syms) && (PairsMatch(g) ==> PairsMatch(h))
            && h.syms[s].left == Some(l) && h.syms[s].right == Some(r) && h.syms[s].base == base
            && h.syms[s].size == WrapAdd(g.syms[l].size, g.syms[r].size)
            && Expand(h.syms, s) == Expand(g.syms, l) + Expand(g.syms, r)
  {
    var (h, s) := AddPairSymbol(g, l, r, base).value;
    AddPairSymbolSyms(g, l, r, base);
    ChildrenLength(g.syms);
    forall t | 0 <= t < |g.syms|
      ensures h.syms[t].symCount == g.syms[t].symCount + Occ(ChildList(h.syms[s]), t)
    {
      assert g.syms[t].symCount == Occ(Children(g.syms), t);
      PairChildren(h.syms[s], l, r, t);
    }
    TreeCountsAppend(g.syms, h.syms);
    FrameCountsAppend(g.syms, h.syms, Syms(g.frame));
    assert Indexed(h);
  }

  /** The symbol table after `AddRepeat`: the old definitions, then the
      repeat of `l`. */
  lemma {:induction false} AddRepeatSyms(g: Grammar, l: nat, base: nat)
    requires Acyclic(g.syms) && l < |g.syms| && |g.syms| < SYMBOL_MAX && !IsRepeat(g.syms[l])
    ensures var (h, s) := AddRepeat(g, l, base).value;
            && Extends(g.syms, h.syms) && Acyclic(h.syms)
            && IsRepeat(h.syms[s]) && h.syms[s].left == Some(l) && h.syms[s].repCount == 1
            && h.syms[s].base == base && h.syms[s].posCount == 0 && h.syms[s].symCount == 0
            && Expand(h.syms, s) == Expand(g.syms, l)
            && (forall t :: 0 <= t < |g.syms| ==> h.syms[t].posCount == g.syms[t].posCount)
            && (forall t :: 0 <= t < |g.syms| && g.syms[t].symCount + 1 < UINT_MOD ==>
                  h.syms[t].symCount == g.syms[t].symCount + (if t == l then 1 else 0))
  {
    var (h, s) := AddRepeat(g, l, base).value;
    var n := |g.syms|;
    assert s == n;
    assert Extends(g.syms, h.syms) by {
      forall t | 0 <= t < n
        ensures SameDef(g.syms[t], h.syms[t])
      {
      }
    }
    assert Acyclic(h.syms) by {
      forall t | 0 <= t < |h.syms|
        ensures ChildrenBelow(h.syms[t], t)
      {
        if t < n {
          assert SameDef(g.syms[t], h.syms[t]) && ChildrenBelow(g.syms[t], t);
        }
      }
    }
    ExpandStable(g.syms, h.syms, l);
    assert Expand(h.syms, s) == Repeat(Expand(h.syms, l), 1);
    assert Repeat(Expand(h.syms, l), 0) == [];
  }

  /** Adding a repeat symbol keeps the invariant; with its one copy it
      stands for what its child stands for. */
  lemma {:induction false} AddRepeatWf(g: Grammar, l: nat, base: nat)
    requires Wf(g) && l < |g.syms| && |g.syms| < SYMBOL_MAX && !IsRepeat(g.syms[l])
    ensures AddRepeat(g, l, base).Ok?
    ensures var (h, s) := AddRepeat(g, l, base).value;
            && Wf(h) && Extends(g.syms, h.syms) && (PairsMatch(g) ==> PairsMatch(h))
            && IsRepeat(h.syms[s]) && h.syms[s].left == Some(l) && h.syms[s].repCount == 1
            && h.syms[s].base == base && h.syms[s].size == g.syms[l].size && h.syms[s].posCount == 0
            && Expand(h.syms, s) == Expand(g.syms, l)
  {
    var (h, s) := AddRepeat(g, l, base).value;
    AddRepeatSyms(g, l, base);
    ChildrenLength(g.syms);
    forall t | 0 <= t < |g.syms|
      ensures h.syms[t].symCount == g.syms[t].symCount + Occ(ChildList(h.syms[s]), t)
    {
      assert g.syms[t].symCount == Occ(Children(g.syms), t);
      assert ChildList(h.syms[s]) == [l];
      OccSingle(l, t);
    }
    TreeCountsAppend(g.syms, h.syms);
    FrameCountsAppend(g.syms, h.syms, Syms(g.frame));
    assert Indexed(h);
  }

  /** The table after a relabel or a drop holds the same definitions and
      uses as before. */
  lemma {:induction false} CountersOnly(g: Grammar, h: Grammar)
    requires Wf(g) && |h.syms| == |g.syms| && h.pairs == g.pairs && h.live == g.live
    requires forall t :: 0 <= t < |g.syms| ==> h.syms[t] == g.syms[t].(posCount := h.syms[t].posCount)
    requires CountsMatch(h.syms, Syms(h.frame)) && RepeatsOnce(h.syms, Syms(h.frame)) && InTable(h.syms, Syms(h.frame))
    requires |h.frame| <= |g.frame|
    requires forall k :: 0 <= k < |h.frame| && h.frame[k].pair.Some? ==> h.frame[k].pair.value < |h.pairs|
    requires forall p :: 0 <= p < |g.pairs| ==> Occ(Refs(h.frame), Some(p)) == Occ(Refs(g.frame), Some(p))
    ensures Wf(h) && Extends(g.syms, h.syms)
  {
    assert Extends(g.syms, h.syms) by {
      forall t | 0 <= t < |g.syms|
        ensures SameDef(g.syms[t], h.syms[t])
      {
        assert h.syms[t] == g.syms[t].(posCount := h.syms[t].posCount);
      }
    }
    AcyclicStable(g.syms, h.syms);
    ChildrenStable(g.syms, h.syms);
    forall t | 0 <= t < |h.syms|
      ensures h.syms[t].symCount == Occ(Children(h.syms), t)
    {
      assert h.syms[t] == g.syms[t].(posCount := h.syms[t].posCount);
    }
  }

  lemma {:induction false} RelabelCounts(g: Grammar, k: nat, s: nat)
    requires Wf(g) && k < |g.frame| && s < |g.syms| && s != g.frame[k].sym
    requires IsRepeat(g.syms[s]) ==> Occ<int>(Syms(g.frame), s) == 0
    ensures var h, fs := Relabel(g, k, s), Syms(g.frame)[k := s];
            CountsMatch(h.syms, fs) && RepeatsOnce(h.syms, fs) && InTable(h.syms, fs)
  {
    var h := Relabel(g, k, s);
    var fs := Syms(g.frame);
    OccFound(fs, k);
    forall t | 0 <= t < |h.syms|
      ensures h.syms[t].posCount == Occ(fs[k := s], t)
      ensures IsRepeat(h.syms[t]) ==> Occ(fs[k := s], t) <= 1
    {
      OccUpdate(fs, k, s, t);
      assert IsRepeat(h.syms[t]) == IsRepeat(g.syms[t]);
      if t == s {
        assert fs[k] != s;
        assert IsRepeat(g.syms[s]) ==> Occ<int>(fs, s) == 0;
        assert IsRepeat(h.syms[t]) ==> Occ(fs[k := s], t) == 1;
      } else {
        assert IsRepeat(g.syms[t]) ==> Occ(fs, t) <= 1;
      }
    }
  }

  /** Relabelling a position keeps the invariant, provided a repeat symbol
      moves only to its first position. */
  lemma {:induction false} RelabelWf(g: Grammar, k: nat, s: nat)
    requires Wf(g) && k < |g.frame| && s < |g.syms| && s != g.frame[k].sym
    requires IsRepeat(g.syms[s]) ==> Occ<int>(Syms(g.frame), s) == 0
    ensures var h := Relabel(g, k, s);
            && Wf(h) && Extends(g.syms, h.syms) && Syms(h.frame) == Syms(g.frame)[k := s]
            && Refs(h.frame) == Refs(g.frame) && (HolesFree(g) ==> HolesFree(h))
  {
    var h := Relabel(g, k, s);
    assert Syms(h.frame) == Syms(g.frame)[k := s];
    assert Refs(h.frame) == Refs(g.frame);
    RelabelCounts(g, k, s);
    CountersOnly(g, h);
  }

  lemma {:induction false} RelabelPairs(g: Grammar, k: nat, s: nat)
    requires Indexed(g) && PairsMatch(g) && k < |g.frame| && s < |g.syms|
    requires g.frame[k].pair.None? && (k > 0 ==> g.frame[k - 1].pair.None?)
    ensures PairsMatch(Relabel(g, k, s))
  {
    var h := Relabel(g, k, s);
    forall j | 0 <= j < |h.frame| && h.frame[j].pair.Some?
      ensures PairAt(h, j)
    {
      assert PairAt(g, j);
    }
  }

  lemma {:induction false} DropCounts(g: Grammar, k: nat)
    requires Wf(g) && k < |g.frame|
    ensures var h, fs := Drop(g, k), Syms(g.frame)[..k] + Syms(g.frame)[k + 1..];
            CountsMatch(h.syms, fs) && RepeatsOnce(h.syms, fs) && InTable(h.syms, fs)
  {
    var h := Drop(g, k);
    var fs := Syms(g.frame);
    var fs' := fs[..k] + fs[k + 1..];
    OccFound(fs, k);
    forall t | 0 <= t < |h.syms|
      ensures h.syms[t].posCount == Occ(fs', t)
      ensures IsRepeat(h.syms[t]) ==> Occ(fs', t) <= 1
    {
      OccRemove(fs, k, t);
      assert IsRepeat(h.syms[t]) == IsRepeat(g.syms[t]);
      assert IsRepeat(g.syms[t]) ==> Occ(fs, t) <= 1;
    }
    assert InTable(h.syms, fs') by {
      forall j | 0 <= j < |fs'|
        ensures fs'[j] < |h.syms|
      {
        assert fs'[j] == if j < k then fs[j] else fs[j + 1];
      }
    }
  }

  /** Removing a position without a pair finds every pair as often. */
  lemma {:induction false} RefsRemove(rs: seq<Option<nat>>, k: nat)
    requires k < |rs| && rs[k].None?
    ensures forall p: nat :: Occ(rs[..k] + rs[k + 1..], Some(p)) == Occ(rs, Some(p))
  {
    forall p: nat
      ensures Occ(rs[..k] + rs[k + 1..], Some(p)) == Occ(rs, Some(p))
    {
      OccRemove(rs, k, Some(p));
    }
  }

  /** Dropping a position without a pair keeps the invariant. */
  lemma {:induction false} DropWf(g: Grammar, k: nat) returns (h: Grammar)
    requires Wf(g) && k < |g.frame| && g.frame[k].pair.None?
    ensures h == Drop(g, k)
    ensures Wf(h) && Extends(g.syms, h.syms) && (HolesFree(g) ==> HolesFree(h))
    ensures Syms(h.frame) == Syms(g.frame)[..k] + Syms(g.frame)[k + 1..]
  {
    h := Drop(g, k);
    FrameRemove(g.frame, k);
    DropCounts(g, k);
    RefsRemove(Refs(g.frame), k);
    CountersOnly(g, h);
    if HolesFree(g) {
      HolesFreeRemove(g, h, k);
    }
  }

  lemma {:induction false} HolesFreeRemove(g: Grammar, h: Grammar, k: nat)
    requires HolesFree(g) && k < |g.frame| && h.frame == g.frame[..k] + g.frame[k + 1..]
    ensures HolesFree(h)
  {
    forall j | 0 <= j < |h.frame| && h.frame[j].hole
      ensures h.frame[j].pair.None?
    {
      assert h.frame[j] == if j < k then g.frame[j] else g.frame[j + 1];
    }
  }

  /** Removing a position removes its symbol and its pair handle. */
  lemma {:induction false} FrameRemove(f: seq<Position>, k: nat)
    requires k < |f|
    ensures Syms(f[..k] + f[k + 1..]) == Syms(f)[..k] + Syms(f)[k + 1..]
    ensures Refs(f[..k] + f[k + 1..]) == Refs(f)[..k] + Refs(f)[k + 1..]
  {
    var e := f[..k] + f[k + 1..];
    assert forall j :: 0 <= j < |e| ==> e[j] == if j < k then f[j] else f[j + 1];
  }

  lemma {:induction false} DropPairs(g: Grammar, k: nat)
    requires Indexed(g) && PairsMatch(g) && k < |g.frame|
    requires g.frame[k].pair.None? && (k > 0 ==> g.frame[k - 1].pair.None?)
    ensures PairsMatch(Drop(g, k))
  {
    var h := Drop(g, k);
    assert forall j :: 0 <= j < |h.frame| ==> h.frame[j] == if j < k then g.frame[j] else g.frame[j + 1];
    forall j | 0 <= j < |h.frame| && h.frame[j].pair.Some?
      ensures PairAt(h, j)
    {
      if j < k {
        assert PairAt(g, j);
      } else {
        assert PairAt(g, j + 1);
      }
    }
  }
}

=== FILE: fold.dfy ===
/** `crunch_rep`: every maximal run of two or more positions holding the
    same symbol becomes one position holding a new repeat symbol, whose
    child is the run's symbol and whose `repCount` is the run's length. */
module Runs {
  import opened Common
  import opened Grammar
  import opened Edits
  import Scan

  // ---------------------------------------------------------------------------
  // The operation

  /** Every position's symbol and pair handle refer to allocated records. */
  predicate Held(g: Grammar)
  {
    forall k :: 0 <= k < |g.frame| ==>
      g.frame[k].sym < |g.syms| && (g.frame[k].pair.Some? ==> g.frame[k].pair.value < |g.pairs|)
  }

  /** `dec_pair (pos->pair); pos->pair = NULL;` as `crunch_rep` does it. The
      code hands a missing pair to `dec_pair`, which is fatal; the corrected
      reading leaves a position without a pair alone. */
  function Release(g: Grammar, k: nat, v: Variant): (r: Result<Grammar>)
    requires k < |g.frame| && (g.frame[k].pair.Some? ==> g.frame[k].pair.value < |g.pairs|)
    ensures r.Err? <==> v == AsWritten && g.frame[k].pair.None?
    ensures r.Err? ==> r.error == NullPair
    ensures r.Ok? ==> && r.value.syms == g.syms && |r.value.pairs| == |g.pairs|
                      && r.value.frame == g.frame[k := g.frame[k].(pair := None)]
  {
    if v == AsWritten || g.frame[k].pair.Some? then Unpair(g, k) else Ok(g)
  }

  /** The start of a run at `i`: the position gives up its pair and takes a
      new repeat symbol of its old symbol, with one copy so far. */
  function Open(g: Grammar, i: nat, v: Variant): (r: Result<(Grammar, nat)>)
    requires i < |g.frame| && Held(g)
    ensures r.Err? <==> (v == AsWritten && g.frame[i].pair.None?) || |g.syms| >= SYMBOL_MAX
    ensures r.Err? ==> r.error == if v == AsWritten && g.frame[i].pair.None? then NullPair else TooManySymbols
    ensures r.Ok? ==> && r.value.1 == |g.syms| && |r.value.0.syms| == |g.syms| + 1 && |r.value.0.pairs| == |g.pairs|
                      && r.value.0.frame == g.frame[i := g.frame[i].(sym := r.value.1, pair := None)]
    ensures r.Ok? ==> && r.value.0.syms[g.frame[i].sym].repCount == 1
                      && forall t :: 0 <= t < |g.syms| && t != g.frame[i].sym ==> r.value.0.syms[t].repCount == g.syms[t].repCount
  {
    match Release(g, i, v)
    case Err(e) => Err(e)
    case Ok(g1) =>
      match AddRepeat(g1, g.frame[i].sym, g.frame[i].base)
      case Err(e) => Err(e)
      case Ok((g2, s)) => Ok((Relabel(g2, i, s), s))
  }

  /** `sym_rep->rep_count++`. */
  function Bump(g: Grammar, r: nat): (h: Grammar)
    requires r < |g.syms|
    ensures h.frame == g.frame && h.pairs == g.pairs && h.live == g.live && |h.syms| == |g.syms|
    ensures forall t :: 0 <= t < |g.syms| && t != r ==> h.syms[t] == g.syms[t]
    ensures h.syms[r] == g.syms[r].(repCount := Inc32(g.syms[r].repCount))
  {
    g.(syms := g.syms[r := g.syms[r].(repCount := Inc32(g.syms[r].repCount))])
  }

  /** The inner loop of `crunch_rep`: while the position after `i` holds
      `l`, one more copy goes to the repeat `r` at `i`, and that position
      gives up its pair and is removed. */
  function Absorb(g: Grammar, i: nat, r: nat, l: nat, v: Variant): (res: Result<Grammar>)
    requires i < |g.frame| && r < |g.syms| && Held(g)
    ensures res.Ok? ==> && Held(res.value) && i < |res.value.frame| <= |g.frame|
                        && |res.value.syms| == |g.syms| && |res.value.pairs| == |g.pairs|
    ensures res.Ok? ==> forall t :: 0 <= t < |g.syms| && t != r ==> res.value.syms[t].repCount == g.syms[t].repCount
    decreases |g.frame|
  {
    if i + 1 >= |g.frame| || g.frame[i + 1].sym != l then Ok(g)
    else
      match Release(Bump(g, r), i + 1, v)
      case Err(e) => Err(e)
      case Ok(g1) => Absorb(Drop(g1, i + 1), i, r, l, v)
  }

  /** `crunch_rep` from position `i` on. The outer loop stops at the last
      position, which starts no run. */
  function RepFrom(g: Grammar, i: nat, v: Variant): (r: Result<Grammar>)
    requires Held(g)
    decreases |g.frame| - i
  {
    if i + 1 >= |g.frame| then Ok(g)
    else if g.frame[i + 1].sym != g.frame[i].sym then RepFrom(g, i + 1, v)
    else
      match Open(g, i, v)
      case Err(e) => Err(e)
      case Ok((g1, s)) =>
        match Absorb(g1, i, s, g.frame[i].sym, v)
        case Err(e) => Err(e)
        case Ok(g2) => RepFrom(g2, i + 1, v)
  }

  /** `crunch_rep`. */
  function CrunchRep(g: Grammar, v: Variant): (r: Result<Grammar>)
    requires Held(g)
  {
    RepFrom(g, 0, v)
  }

  // ---------------------------------------------------------------------------
  // Reference definition on symbol sequences

  /** How many elements at the head of `s` equal `x`. */
  function Lead(s: seq<nat>, x: nat): (n: nat)
    ensures n <= |s|
  {
    if s == [] || s[0] != x then 0 else 1 + Lead(s[1..], x)
  }

  /** `Lead` counts exactly the copies of `x` heading `s`. */
  lemma {:induction false} LeadSpec(s: seq<nat>, x: nat)
    ensures forall k :: 0 <= k < Lead(s, x) ==> s[k] == x
    ensures Lead(s, x) < |s| ==> s[Lead(s, x)] != x
    decreases |s|
  {
    if s != [] && s[0] == x {
      LeadSpec(s[1..], x);
      forall k | 0 <= k < Lead(s, x)
        ensures s[k] == x
      {
        if k > 0 {
          assert s[k] == s[1..][k - 1];
        }
      }
    }
  }

  /** `fs` with each maximal run of two or more equal symbols replaced by one
      new symbol, the new symbols numbered from `next` on; with the child and
      the length of each run so replaced, in order. */
  function Fold(fs: seq<nat>, next: nat): (r: (seq<nat>, seq<(nat, nat)>))
    decreases |fs|
  {
    if fs == [] then ([], [])
    else
      var n: nat := 1 + Lead(fs[1..], fs[0]);
      if n == 1 then
        var t := Fold(fs[1..], next);
        ([fs[0]] + t.0, t.1)
      else
        var t := Fold(fs[n..], next + 1);
        ([next] + t.0, [(fs[0], n)] + t.1)
  }

  /** Each new symbol of `out` written back as the run it replaced. */
  function Unfold(out: seq<nat>, reps: seq<(nat, nat)>, next: nat): (fs: seq<nat>)
    decreases |out|
  {
    if out == [] then []
    else if reps != [] && out[0] == next then Repeat([reps[0].0], reps[0].1) + Unfold(out[1..], reps[1..], next + 1)
    else [out[0]] + Unfold(out[1..], reps, next)
  }

  /** No two neighbours of `fs` are equal. */
  predicate NoRuns(fs: seq<nat>)
  {
    forall k :: 0 <= k && k + 1 < |fs| ==> fs[k] != fs[k + 1]
  }

  /** Every element of `fs` is below `n`. */
  predicate Below(fs: seq<nat>, n: nat)
  {
    forall k :: 0 <= k < |fs| ==> fs[k] < n
  }

  lemma {:induction false} RepeatRun(s: seq<nat>, x: nat, n: nat)
    requires n <= |s| && forall k :: 0 <= k < n ==> s[k] == x
    ensures Repeat([x], n) == s[..n]
  {
    if n > 0 {
      RepeatRun(s, x, n - 1);
      assert s[..n] == s[..n - 1] + [x];
    }
  }

  /** The head of a folded sequence: the first symbol, or the first new
      symbol when the first run is longer than one. */
  lemma {:induction false} FoldHead(fs: seq<nat>, next: nat)
    requires fs != []
    ensures var out := Fold(fs, next).0;
            out != [] && out[0] == if |fs| > 1 && fs[1] == fs[0] then next else fs[0]
  {
  }

  /** Folding bounds its symbols by the new ones it hands out. */
  lemma {:induction false} FoldBelow(fs: seq<nat>, next: nat)
    requires Below(fs, next)
    ensures var r := Fold(fs, next); Below(r.0, next + |r.1|)
    decreases |fs|
  {
    if fs != [] {
      var n: nat := 1 + Lead(fs[1..], fs[0]);
      if n == 1 {
        FoldBelow(fs[1..], next);
      } else {
        FoldBelow(fs[n..], next + 1);
      }
    }
  }

  /** Unfolding a fold gives the sequence back. */
  lemma {:induction false} FoldUnfold(fs: seq<nat>, next: nat)
    requires Below(fs, next)
    ensures Unfold(Fold(fs, next).0, Fold(fs, next).1, next) == fs
    decreases |fs|
  {
    if fs != [] {
      var n: nat := 1 + Lead(fs[1..], fs[0]);
      if n == 1 {
        FoldUnfold(fs[1..], next);
        UnfoldSingle(fs, next);
      } else {
        FoldUnfold(fs[n..], next + 1);
        UnfoldRun(fs, next, n);
      }
    }
  }

  lemma {:induction false} UnfoldSingle(fs: seq<nat>, next: nat)
    requires Below(fs, next) && fs != [] && Lead(fs[1..], fs[0]) == 0
    requires Unfold(Fold(fs[1..], next).0, Fold(fs[1..], next).1, next) == fs[1..]
    ensures Unfold(Fold(fs, next).0, Fold(fs, next).1, next) == fs
  {
    var t := Fold(fs[1..], next);
    assert Fold(fs, next) == ([fs[0]] + t.0, t.1);
    assert ([fs[0]] + t.0)[1..] == t.0;
    assert fs == [fs[0]] + fs[1..];
  }

  lemma {:induction false} UnfoldRun(fs: seq<nat>, next: nat, n: nat)
    requires Below(fs, next) && fs != [] && n == 1 + Lead(fs[1..], fs[0]) && n > 1
    requires Unfold(Fold(fs[n..], next + 1).0, Fold(fs[n..], next + 1).1, next + 1) == fs[n..]
    ensures Unfold(Fold(fs, next).0, Fold(fs, next).1, next) == fs
  {
    assert fs[1..][0] == fs[1];
    FoldRunHead(fs, next, n);
    var t := Fold(fs[n..], next + 1);
    UnfoldNew([next] + t.0, [(fs[0], n)] + t.1, next);
    LeadRun(fs, n);
    assert fs == fs[..n] + fs[n..];
  }

  /** Unfolding at a new symbol writes its run back. */
  lemma {:induction false} UnfoldNew(out: seq<nat>, reps: seq<(nat, nat)>, next: nat)
    requires out != [] && reps != [] && out[0] == next
    ensures Unfold(out, reps, next) == Repeat([reps[0].0], reps[0].1) + Unfold(out[1..], reps[1..], next + 1)
  {
  }

  /** The first run of `fs`, of length `n`, is `n` copies of its head. */
  lemma {:induction false} LeadRun(fs: seq<nat>, n: nat)
    requires fs != [] && n == 1 + Lead(fs[1..], fs[0])
    ensures Repeat([fs[0]], n) == fs[..n]
  {
    LeadSpec(fs[1..], fs[0]);
    forall k | 0 <= k < n
      ensures fs[k] == fs[0]
    {
      if k > 0 {
        assert fs[k] == fs[1..][k - 1];
      }
    }
    RepeatRun(fs, fs[0], n);
  }

  /** A folded sequence has no run left. */
  lemma {:induction false} FoldNoRuns(fs: seq<nat>, next: nat)
    requires Below(fs, next)
    ensures NoRuns(Fold(fs, next).0)
    decreases |fs|
  {
    if fs != [] {
      var n: nat := 1 + Lead(fs[1..], fs[0]);
      if n == 1 {
        var rest := fs[1..];
        FoldSingleHead(fs, next);
        FoldNoRuns(rest, next);
        if rest != [] {
          FoldHead(rest, next);
          assert rest[0] == fs[1];
        }
        NoRunsCons(fs[0], Fold(rest, next).0);
      } else {
        var rest := fs[n..];
        assert fs[1..][0] == fs[1];
        FoldRunHead(fs, next, n);
        FoldNoRuns(rest, next + 1);
        if rest != [] {
          FoldHead(rest, next + 1);
        }
        NoRunsCons(next, Fold(rest, next + 1).0);
      }
    }
  }

  /** `Fold` at the head of a sequence whose first symbol stands alone. */
  lemma {:induction false} FoldSingleHead(t: seq<nat>, next: nat)
    requires t != [] && (|t| == 1 || t[1] != t[0])
    ensures Lead(t[1..], t[0]) == 0
    ensures Fold(t, next) == ([t[0]] + Fold(t[1..], next).0, Fold(t[1..], next).1)
  {
    if |t| > 1 {
      assert t[1..][0] == t[1];
    }
  }

  /** Putting a symbol before a sequence without runs makes no run unless it
      equals the old head. */
  lemma {:induction false} NoRunsCons(x: nat, t: seq<nat>)
    requires NoRuns(t) && (t != [] ==> t[0] != x)
    ensures NoRuns([x] + t)
  {
    var u := [x] + t;
    forall k | 0 <= k && k + 1 < |u|
      ensures u[k] != u[k + 1]
    {
      if k > 0 {
        assert u[k] == t[k - 1] && u[k + 1] == t[k];
      }
    }
  }

  /** A sequence without runs folds to itself, with no repeat made. */
  lemma {:induction false} FoldNoRunsSame(fs: seq<nat>, next: nat)
    requires NoRuns(fs)
    ensures Fold(fs, next) == (fs, [])
    decreases |fs|
  {
    if fs != [] {
      assert NoRuns(fs[1..]) by {
        forall k | 0 <= k && k + 1 < |fs[1..]|
          ensures fs[1..][k] != fs[1..][k + 1]
        {
          assert fs[1..][k] == fs[k + 1] && fs[1..][k + 1] == fs[k + 2];
        }
      }
      FoldNoRunsSame(fs[1..], next);
      assert fs == [fs[0]] + fs[1..];
    }
  }

  /** Every run folding replaces is at least two long. */
  lemma {:induction false} FoldReps(fs: seq<nat>, next: nat)
    ensures forall j :: 0 <= j < |Fold(fs, next).1| ==> Fold(fs, next).1[j].1 >= 2
    decreases |fs|
  {
    if fs != [] {
      var n: nat := 1 + Lead(fs[1..], fs[0]);
      if n == 1 {
        FoldReps(fs[1..], next);
      } else {
        FoldReps(fs[n..], next + 1);
      }
    }
  }

  /** One step of `Fold` at index `i` of a sequence. */
  lemma {:induction false} FoldAt(fs: seq<nat>, i: nat, next: nat)
    requires i < |fs|
    ensures var n: nat := 1 + Lead(fs[i + 1..], fs[i]);
            && i + n <= |fs|
            && Fold(fs[i..], next) == if n == 1 then ([fs[i]] + Fold(fs[i + 1..], next).0, Fold(fs[i + 1..], next).1)
                                      else ([next] + Fold(fs[i + n..], next + 1).0, [(fs[i], n)] + Fold(fs[i + n..], next + 1).1)
  {
    var t := fs[i..];
    assert t[0] == fs[i] && t[1..] == fs[i + 1..];
    var n: nat := 1 + Lead(fs[i + 1..], fs[i]);
    assert t[n..] == fs[i + n..];
  }

  // ---------------------------------------------------------------------------
  // What each step keeps

  /** The symbols from `base` on are the repeats `reps` describes, in order,
      each as long as one copy of its child. */
  ghost predicate RepsAre(syms: seq<Symbol>, base: nat, reps: seq<(nat, nat)>)
  {
    && |syms| == base + |reps|
    && forall j :: 0 <= j < |reps| ==> RepIs(syms, base + j, reps[j])
  }

  /** Symbol `k` repeats `x.0` exactly `x.1` times. */
  ghost predicate RepIs(syms: seq<Symbol>, k: nat, x: (nat, nat))
  {
    && k < |syms| && x.0 < |syms|
    && IsRepeat(syms[k]) && syms[k].left == Some(x.0) && syms[k].repCount == x.1 && syms[k].size == syms[x.0].size
  }

  /** Tables with the same children everywhere name the same children. */
  lemma {:induction false} ChildrenShape(a: seq<Symbol>, b: seq<Symbol>)
    requires |a| == |b| && forall t :: 0 <= t < |a| ==> a[t].left == b[t].left && a[t].right == b[t].right
    ensures Children(a) == Children(b)
  {
    if a != [] {
      var n := |a| - 1;
      ChildrenShape(a[..n], b[..n]);
      assert ChildList(a[n]) == ChildList(b[n]);
    }
  }

  lemma {:induction false} ExtendsSelf(a: seq<Symbol>)
    ensures Extends(a, a)
  {
    forall t | 0 <= t < |a|
      ensures SameDef(a[t], a[t])
    {
    }
  }

  /** A table extends each of its prefixes, and the prefix is acyclic. */
  lemma {:induction false} ExtendsPrefix(a: seq<Symbol>, n: nat)
    requires n <= |a|
    ensures Extends(a[..n], a)
    ensures Acyclic(a) ==> Acyclic(a[..n])
  {
    forall t | 0 <= t < n
      ensures SameDef(a[..n][t], a[t])
    {
    }
    if Acyclic(a) {
      forall t | 0 <= t < n
        ensures ChildrenBelow(a[..n][t], t)
      {
        assert a[..n][t] == a[t] && ChildrenBelow(a[t], t);
      }
    }
  }

  /** Counting one more copy of a repeat keeps the invariant. */
  lemma {:induction false} BumpWf(g: Grammar, r: nat)
    requires Wf(g) && r < |g.syms|
    ensures Wf(Bump(g, r))
  {
    var h := Bump(g, r);
    ChildrenShape(g.syms, h.syms);
    assert Acyclic(h.syms) by {
      forall t | 0 <= t < |h.syms|
        ensures ChildrenBelow(h.syms[t], t)
      {
        assert ChildrenBelow(g.syms[t], t);
      }
    }
    assert TreeCounts(h.syms) by {
      forall t | 0 <= t < |h.syms|
        ensures h.syms[t].symCount == Occ(Children(h.syms), t)
      {
        assert g.syms[t].symCount == Occ(Children(g.syms), t);
      }
    }
    assert RepeatsOnce(h.syms, Syms(h.frame)) by {
      forall t | 0 <= t < |h.syms| && IsRepeat(h.syms[t])
        ensures Occ(Syms(h.frame), t) <= 1
      {
        assert IsRepeat(g.syms[t]);
      }
    }
  }

  /** Putting `s` in place of `fs[i]`, where both stand for the same bytes,
      leaves the bytes as they were. */
  lemma {:induction false} FlatSwap(a: seq<Symbol>, b: seq<Symbol>, fs: seq<nat>, i: nat, s: nat)
    requires Acyclic(a) && Acyclic(b) && Extends(a, b) && InTable(a, fs) && i < |fs|
    requires s < |b| && Expand(b, s) == Expand(a, fs[i])
    ensures InTable(b, fs[i := s]) && Flat(b, fs[i := s]) == Flat(a, fs)
  {
    var fs' := fs[i := s];
    FlatStable(a, b, fs);
    ExpandStable(a, b, fs[i]);
    assert InTable(b, fs');
    FlatThree(b, fs, i, i + 1);
    FlatThree(b, fs', i, i + 1);
    assert fs'[..i] == fs[..i] && fs'[i + 1..] == fs[i + 1..];
    assert fs[i..i + 1] == [fs[i]] && fs'[i..i + 1] == [s];
    FlatSingle(b, fs[i]);
    FlatSingle(b, s);
  }

  /** Giving up a pair, when there is one, keeps the invariant. */
  lemma {:induction false} ReleaseWf(g: Grammar, k: nat) returns (h: Grammar)
    requires Wf(g) && k < |g.frame|
    ensures Release(g, k, Corrected) == Ok(h) && h.syms == g.syms && h.frame == g.frame[k := g.frame[k].(pair := None)]
    ensures Wf(h) && Syms(h.frame) == Syms(g.frame) && (HolesFree(g) ==> HolesFree(h))
  {
    if g.frame[k].pair.Some? {
      UnpairWf(g, k);
    }
    h := Release(g, k, Corrected).value;
  }

  /** A position relabelled to a new repeat of its own symbol keeps the
      invariant and the bytes. */
  lemma {:induction false} RepeatSwap(g1: Grammar, i: nat)
    requires Wf(g1) && i < |g1.frame| && |g1.syms| < SYMBOL_MAX && !IsRepeat(g1.syms[g1.frame[i].sym])
    ensures var l := g1.frame[i].sym;
            var (g2, s) := AddRepeat(g1, l, g1.frame[i].base).value;
            var h := Relabel(g2, i, s);
            && Wf(h) && Text(h) == Text(g1) && Extends(g1.syms, h.syms)
            && IsRepeat(h.syms[s]) && h.syms[s].left == Some(l) && h.syms[s].repCount == 1
            && h.syms[s].base == g1.frame[i].base && h.syms[s].size == g1.syms[l].size
            && Syms(h.frame) == Syms(g1.frame)[i := s]
  {
    var fs := Syms(g1.frame);
    var l := g1.frame[i].sym;
    AddRepeatWf(g1, l, g1.frame[i].base);
    var (g2, s) := AddRepeat(g1, l, g1.frame[i].base).value;
    assert g2.syms[s].posCount == Occ<int>(Syms(g2.frame), s);
    RelabelWf(g2, i, s);
    var h := Relabel(g2, i, s);
    ExtendsTrans(g1.syms, g2.syms, h.syms);
    assert SameDef(g2.syms[s], h.syms[s]);
    AddRepeatExpand(g1, g2, l, s);
    ExpandStable(g2.syms, h.syms, s);
    ExpandStable(g1.syms, h.syms, l);
    FlatSwap(g1.syms, h.syms, fs, i, s);
  }

  /** The start of a run keeps the invariant and the bytes; the new repeat
      holds one copy of the run's symbol. */
  lemma {:induction false} OpenSpec(g: Grammar, i: nat)
    requires Wf(g) && i + 1 < |g.frame| && g.frame[i + 1].sym == g.frame[i].sym && |g.syms| < SYMBOL_MAX
    ensures Held(g) && Open(g, i, Corrected).Ok?
    ensures var (h, s) := Open(g, i, Corrected).value;
            && Wf(h) && Text(h) == Text(g) && Extends(g.syms, h.syms) && s == |g.syms|
            && IsRepeat(h.syms[s]) && h.syms[s].left == Some(g.frame[i].sym) && h.syms[s].repCount == 1
            && h.syms[s].base == g.frame[i].base && h.syms[s].size == g.syms[g.frame[i].sym].size
            && Syms(h.frame) == Syms(g.frame)[i := s]
  {
    var fs := Syms(g.frame);
    assert fs[i] == g.frame[i].sym && fs[i + 1] == g.frame[i].sym;
    OccPair<int>(fs, i, i + 1);
    var g1 := ReleaseWf(g, i);
    RepeatSwap(g1, i);
  }

  lemma {:induction false} AddRepeatExpand(g1: Grammar, g2: Grammar, l: nat, s: nat)
    requires Acyclic(g1.syms) && Acyclic(g2.syms) && l < |g1.syms| && s < |g2.syms| && Extends(g1.syms, g2.syms)
    requires Expand(g2.syms, s) == Expand(g1.syms, l)
    ensures Expand(g2.syms, s) == Expand(g2.syms, l)
  {
    ExpandStable(g1.syms, g2.syms, l);
  }

  /** Position `i` holds the repeat `r` of `l`, the last symbol of the table,
      with room in its 32-bit counter for every remaining position. */
  ghost predicate RunAt(g: Grammar, i: nat, r: nat, l: nat)
  {
    && Wf(g) && i < |g.frame| && r + 1 == |g.syms| && g.frame[i].sym == r
    && IsRepeat(g.syms[r]) && g.syms[r].left == Some(l)
    && g.syms[r].repCount >= 1 && g.syms[r].repCount + |g.frame| < UINT_MOD
  }

  /** Bytes of a sequence whose two ends use only the symbols of a prefix
      `p` of the table. */
  lemma {:induction false} FlatAround(a: seq<Symbol>, p: seq<Symbol>, fs: seq<nat>, i: nat, j: nat)
    requires Acyclic(a) && Acyclic(p) && Extends(p, a) && InTable(a, fs) && i <= j <= |fs|
    requires InTable(p, fs[..i]) && InTable(p, fs[j..])
    ensures InTable(a, fs[i..j])
    ensures Flat(a, fs) == Flat(p, fs[..i]) + Flat(a, fs[i..j]) + Flat(p, fs[j..])
  {
    FlatThree(a, fs, i, j);
    FlatStable(p, a, fs[..i]);
    FlatStable(p, a, fs[j..]);
  }

  /** The repeat at `i`, counted once more, covers the copy of its child that
      followed it. */
  lemma {:induction false} RunFlat(a: seq<Symbol>, b: seq<Symbol>, fs: seq<nat>, i: nat, r: nat, l: nat)
    requires Acyclic(a) && Acyclic(b) && r + 1 == |a| == |b| && Extends(a[..r], b) && InTable(a, fs)
    requires i + 1 < |fs| && fs[i] == r && fs[i + 1] == l && l < r
    requires InTable(a[..r], fs[..i]) && InTable(a[..r], fs[i + 2..])
    requires IsRepeat(a[r]) && IsRepeat(b[r]) && a[r].left == Some(l) && b[r].left == Some(l)
    requires b[r].repCount == a[r].repCount + 1
    ensures InTable(b, fs[..i + 1] + fs[i + 2..]) && Flat(b, fs[..i + 1] + fs[i + 2..]) == Flat(a, fs)
  {
    var p := a[..r];
    ExtendsPrefix(a, r);
    var fs' := fs[..i + 1] + fs[i + 2..];
    assert fs'[..i] == fs[..i] && fs'[i..i + 1] == [r] && fs'[i + 1..] == fs[i + 2..];
    assert InTable(b, fs') by {
      forall k | 0 <= k < |fs'|
        ensures fs'[k] < |b|
      {
        if k <= i {
          assert fs'[k] == fs[k];
        } else {
          assert fs'[k] == fs[k + 1];
        }
      }
    }
    FlatAround(a, p, fs, i, i + 2);
    FlatAround(b, p, fs', i, i + 1);
    RunMiddle(a, b, p, fs, i, r, l);
  }

  lemma {:induction false} RunMiddle(a: seq<Symbol>, b: seq<Symbol>, p: seq<Symbol>, fs: seq<nat>, i: nat, r: nat, l: nat)
    requires Acyclic(a) && Acyclic(b) && Acyclic(p) && r + 1 == |a| == |b| && p == a[..r] && Extends(p, a) && Extends(p, b)
    requires i + 1 < |fs| && fs[i] == r && fs[i + 1] == l && l < r
    requires IsRepeat(a[r]) && IsRepeat(b[r]) && a[r].left == Some(l) && b[r].left == Some(l)
    requires b[r].repCount == a[r].repCount + 1
    ensures InTable(a, fs[i..i + 2]) && Flat(a, fs[i..i + 2]) == Flat(b, [r])
  {
    ExpandStable(p, a, l);
    ExpandStable(p, b, l);
    var c := a[r].repCount;
    assert Expand(a, r) == Repeat(Expand(a, l), c);
    assert Expand(b, r) == Repeat(Expand(b, l), c) + Expand(b, l);
    assert fs[i..i + 2] == [r] + [l];
    FlatAppend(a, [r], [l]);
    FlatSingle(a, r);
    FlatSingle(a, l);
    FlatSingle(b, r);
  }

  /** `h` is `g` after the inner loop at `i` absorbed the next `m` copies of
      `l` into the repeat `r`, with the bytes unchanged. */
  ghost predicate Absorbed(g: Grammar, h: Grammar, i: nat, r: nat, l: nat, m: nat)
  {
    && r < |g.syms| && Acyclic(g.syms) && InTable(g.syms, Syms(g.frame))
    && RunAt(h, i, r, l) && Text(h) == Text(g) && Extends(g.syms[..r], h.syms)
    && h.syms[r].repCount == g.syms[r].repCount + m && h.syms[r].size == g.syms[r].size
    && AbsorbedFrame(g, h, i, m)
  }

  /** The frame side of `Absorbed`: the `m` positions after `i` are gone. */
  ghost predicate AbsorbedFrame(g: Grammar, h: Grammar, i: nat, m: nat)
  {
    && i < |g.frame| && i + 1 + m <= |g.frame|
    && Syms(h.frame) == Syms(g.frame)[..i + 1] + Syms(g.frame)[i + 1 + m..]
  }

  /** The first half of one absorption: the run's count goes up and the
      copy after it loses its pair, leaving the table below `r` alone. */
  lemma {:induction false} AbsorbBump(g: Grammar, i: nat, r: nat, l: nat) returns (g2: Grammar)
    requires RunAt(g, i, r, l) && i + 1 < |g.frame| && g.frame[i + 1].sym == l
    ensures Release(Bump(g, r), i + 1, Corrected).Ok? && g2 == Release(Bump(g, r), i + 1, Corrected).value
    ensures Wf(g2) && g2.frame[i + 1].pair.None? && g2.frame[i] == g.frame[i]
    ensures Syms(g2.frame) == Syms(g.frame) && |g2.syms| == |g.syms|
    ensures Extends(g.syms[..r], g2.syms)
    ensures g2.syms[r] == g.syms[r].(repCount := g.syms[r].repCount + 1)
  {
    var g1 := Bump(g, r);
    BumpWf(g, r);
    g2 := ReleaseWf(g1, i + 1);
    assert Extends(g.syms[..r], g2.syms) by {
      forall t | 0 <= t < r
        ensures SameDef(g.syms[..r][t], g2.syms[t])
      {
        assert g2.syms[t] == g.syms[t];
      }
    }
  }

  /** One absorption keeps the run open at `i` and takes the copy after it
      out of the frame. */
  lemma {:induction false} AbsorbStep(g: Grammar, i: nat, r: nat, l: nat)
    requires RunAt(g, i, r, l) && i + 1 < |g.frame| && g.frame[i + 1].sym == l
    ensures Release(Bump(g, r), i + 1, Corrected).Ok?
    ensures var h := Drop(Release(Bump(g, r), i + 1, Corrected).value, i + 1);
            && RunAt(h, i, r, l) && Extends(g.syms[..r], h.syms)
            && h.syms[r].repCount == g.syms[r].repCount + 1 && h.syms[r].size == g.syms[r].size
            && Syms(h.frame) == Syms(g.frame)[..i + 1] + Syms(g.frame)[i + 2..]
  {
    var g2 := AbsorbBump(g, i, r, l);
    assert ChildrenBelow(g.syms[r], r);
    var h := DropRun(g2, i, r, l);
    ExtendsTrans(g.syms[..r], g2.syms, h.syms);
  }

  /** The second half of one absorption: dropping the copy after the run
      keeps the run open. */
  lemma {:induction false} DropRun(g2: Grammar, i: nat, r: nat, l: nat) returns (h: Grammar)
    requires Wf(g2) && i + 1 < |g2.frame| && g2.frame[i + 1].pair.None? && l < r && r + 1 == |g2.syms|
    requires g2.frame[i].sym == r && g2.frame[i + 1].sym == l
    requires IsRepeat(g2.syms[r]) && g2.syms[r].left == Some(l)
    requires g2.syms[r].repCount >= 1 && g2.syms[r].repCount + |g2.frame| <= UINT_MOD
    ensures h == Drop(g2, i + 1) && RunAt(h, i, r, l) && Extends(g2.syms, h.syms) && h.syms[r] == g2.syms[r]
    ensures Syms(h.frame) == Syms(g2.frame)[..i + 1] + Syms(g2.frame)[i + 2..]
  {
    h := DropWf(g2, i + 1);
  }


  /** One pass of the inner loop keeps the bytes. */
  lemma {:induction false} AbsorbText(g: Grammar, h: Grammar, i: nat, r: nat, l: nat)
    requires RunAt(g, i, r, l) && RunAt(h, i, r, l) && i + 1 < |g.frame| && g.frame[i + 1].sym == l
    requires Extends(g.syms[..r], h.syms) && h.syms[r].repCount == g.syms[r].repCount + 1
    requires h.syms[r].size == g.syms[r].size
    requires Syms(h.frame) == Syms(g.frame)[..i + 1] + Syms(g.frame)[i + 2..]
    ensures Absorbed(g, h, i, r, l, 1)
  {
    var fs := Syms(g.frame);
    assert fs[i] == r && fs[i + 1] == l;
    OccOnce<int>(fs, i);
    assert l < r by {
      assert ChildrenBelow(g.syms[r], r);
    }
    assert forall k :: 0 <= k < |fs| && k != i ==> fs[k] < r;
    assert InTable(g.syms[..r], fs[..i]);
    assert InTable(g.syms[..r], fs[i + 2..]);
    RunFlat(g.syms, h.syms, fs, i, r, l);
  }

  /** Nothing absorbed: the state is its own result. */
  lemma {:induction false} AbsorbedNone(g: Grammar, i: nat, r: nat, l: nat)
    requires RunAt(g, i, r, l)
    ensures Absorbed(g, g, i, r, l, 0)
    ensures i + 1 >= |g.frame| || g.frame[i + 1].sym != l ==>
              Held(g) && Absorb(g, i, r, l, Corrected) == Ok(g) && Lead(Syms(g.frame)[i + 1..], l) == 0
  {
    var fs := Syms(g.frame);
    if i + 1 < |fs| {
      assert fs[i + 1..][0] == fs[i + 1];
    }
    assert fs[..i + 1] + fs[i + 1..] == fs;
    ExtendsPrefix(g.syms, r);
  }

  /** One pass followed by `m` more absorbs `m + 1` copies. */
  lemma {:induction false} AbsorbedJoin(g: Grammar, h1: Grammar, h: Grammar, i: nat, r: nat, l: nat, m: nat)
    requires Absorbed(g, h1, i, r, l, 1) && Absorbed(h1, h, i, r, l, m)
    ensures Absorbed(g, h, i, r, l, m + 1)
  {
    AbsorbedFrameJoin(g, h1, h, i, m);
    ExtendsCut(g.syms, h1.syms, r);
    ExtendsTrans(g.syms[..r], h1.syms[..r], h.syms);
  }

  lemma {:induction false} AbsorbedFrameJoin(g: Grammar, h1: Grammar, h: Grammar, i: nat, m: nat)
    requires AbsorbedFrame(g, h1, i, 1) && AbsorbedFrame(h1, h, i, m)
    ensures AbsorbedFrame(g, h, i, m + 1)
  {
    var fs, fs1 := Syms(g.frame), Syms(h1.frame);
    assert fs1[..i + 1] == fs[..i + 1] && fs1[i + 1..] == fs[i + 2..];
    assert fs1[i + 1 + m..] == fs[i + 2 + m..];
  }

  /** The run after `i` is one longer than the run after the copy at `i + 1`. */
  lemma {:induction false} LeadSkip(fs: seq<nat>, i: nat, l: nat)
    requires i + 1 < |fs| && fs[i + 1] == l
    ensures Lead(fs[i + 1..], l) == 1 + Lead((fs[..i + 1] + fs[i + 2..])[i + 1..], l)
  {
    assert (fs[..i + 1] + fs[i + 2..])[i + 1..] == fs[i + 2..] == fs[i + 1..][1..];
  }

  /** The inner loop of the corrected `crunch_rep` absorbs exactly the copies
      of `l` that follow `i`, counts them in the repeat and keeps the bytes. */
  lemma {:induction false} AbsorbSpec(g: Grammar, i: nat, r: nat, l: nat)
    requires RunAt(g, i, r, l)
    ensures Held(g) && Absorb(g, i, r, l, Corrected).Ok?
    ensures Absorbed(g, Absorb(g, i, r, l, Corrected).value, i, r, l, Lead(Syms(g.frame)[i + 1..], l))
    decreases |g.frame|
  {
    if i + 1 >= |g.frame| || g.frame[i + 1].sym != l {
      AbsorbStop(g, i, r, l);
    } else {
      var h1 := AbsorbNext(g, i, r, l);
      AbsorbSpec(h1, i, r, l);
      var h, m := Absorb(h1, i, r, l, Corrected).value, Lead(Syms(h1.frame)[i + 1..], l);
      AbsorbedJoin(g, h1, h, i, r, l, m);
      assert Absorb(g, i, r, l, Corrected).value == h && Lead(Syms(g.frame)[i + 1..], l) == m + 1;
    }
  }

  /** The stop case of `AbsorbSpec`: no copy of `l` follows the run. */
  lemma {:induction false} AbsorbStop(g: Grammar, i: nat, r: nat, l: nat)
    requires RunAt(g, i, r, l) && (i + 1 >= |g.frame| || g.frame[i + 1].sym != l)
    ensures Held(g) && Absorb(g, i, r, l, Corrected) == Ok(g)
    ensures Absorbed(g, g, i, r, l, Lead(Syms(g.frame)[i + 1..], l))
  {
    AbsorbedNone(g, i, r, l);
  }

  /** The state after one pass of the inner loop, from which the loop goes on. */
  lemma {:induction false} AbsorbNext(g: Grammar, i: nat, r: nat, l: nat) returns (h1: Grammar)
    requires RunAt(g, i, r, l) && i + 1 < |g.frame| && g.frame[i + 1].sym == l
    ensures Absorbed(g, h1, i, r, l, 1) && |h1.frame| < |g.frame|
    ensures Held(g) && Held(h1) && Absorb(g, i, r, l, Corrected) == Absorb(h1, i, r, l, Corrected)
    ensures Lead(Syms(g.frame)[i + 1..], l) == 1 + Lead(Syms(h1.frame)[i + 1..], l)
  {
    AbsorbStep(g, i, r, l);
    h1 := Drop(Release(Bump(g, r), i + 1, Corrected).value, i + 1);
    AbsorbText(g, h1, i, r, l);
    LeadSkip(Syms(g.frame), i, l);
  }

  // ---------------------------------------------------------------------------
  // The outer loop against the reference

  /** `hs` and the table `hsyms` are what folding the runs of `fs` from `i`
      on gives, with the new repeats numbered from `next`. */
  ghost predicate FoldedSeqs(fs: seq<nat>, next: nat, hs: seq<nat>, hsyms: seq<Symbol>, i: nat)
  {
    && i <= |fs|
    && hs == fs[..i] + Fold(fs[i..], next).0
    && RepsAre(hsyms, next, Fold(fs[i..], next).1)
  }

  /** `h` is `g` with the runs from `i` on folded as `Fold` says, the bytes
      and the existing definitions unchanged. */
  ghost predicate Folded(g: Grammar, h: Grammar, i: nat)
  {
    Kept(g, h) && FoldedSeqs(Syms(g.frame), |g.syms|, Syms(h.frame), h.syms, i)
  }

  /** `h` is well formed, spells the bytes of `g` and keeps its definitions. */
  ghost predicate Kept(g: Grammar, h: Grammar)
  {
    Acyclic(g.syms) && InTable(g.syms, Syms(g.frame)) && Wf(h) && Text(h) == Text(g) && Extends(g.syms, h.syms)
  }

  /** What the corrected `crunch_rep` from `i` on promises: it fails, for lack
      of room in the table, exactly when the repeats `Fold` finds would not
      fit, and otherwise folds them. */
  ghost predicate RepOutcome(g: Grammar, i: nat, r: Result<Grammar>)
  {
    RepFails(g, i, r) && (r.Ok? ==> Folded(g, r.value, i))
  }

  /** The failure half of `RepOutcome`. */
  predicate RepFails(g: Grammar, i: nat, r: Result<Grammar>)
  {
    && i <= |g.frame|
    && (r.Err? <==> |g.syms| + |Fold(Syms(g.frame)[i..], |g.syms|).1| > SYMBOL_MAX)
    && (r.Err? ==> r.error == TooManySymbols)
  }

  /** `g2` is `g` after the run at `i`, of length `n`, became the new repeat
      `|g.syms|`: the frame side. */
  ghost predicate RanFrame(g: Grammar, g2: Grammar, i: nat, n: nat)
  {
    && i < |g.frame| && i + n <= |g.frame| && i < |g2.frame| && |g2.syms| == |g.syms| + 1
    && Syms(g2.frame)[..i + 1] == Syms(g.frame)[..i] + [|g.syms|]
    && Syms(g2.frame)[i + 1..] == Syms(g.frame)[i + n..]
  }

  /** The table side of the same step: the bytes and the old definitions are
      kept and the new repeat is `n` copies of the run's symbol. */
  ghost predicate RanTable(g: Grammar, g2: Grammar, i: nat, n: nat)
  {
    && i < |g.frame| && |g2.syms| == |g.syms| + 1
    && Acyclic(g.syms) && InTable(g.syms, Syms(g.frame)) && Acyclic(g2.syms) && InTable(g2.syms, Syms(g2.frame))
    && Text(g2) == Text(g) && Extends(g.syms, g2.syms)
    && IsRepeat(g2.syms[|g.syms|]) && g2.syms[|g.syms|].left == Some(g.frame[i].sym)
    && g2.syms[|g.syms|].repCount == n && g2.syms[|g.syms|].size == g.syms[g.frame[i].sym].size
  }

  /** A position starting no run stays as it is. */
  lemma {:induction false} SkipSeqs(fs: seq<nat>, next: nat, hs: seq<nat>, hsyms: seq<Symbol>, i: nat)
    requires i + 1 < |fs| && fs[i + 1] != fs[i] && FoldedSeqs(fs, next, hs, hsyms, i + 1)
    ensures FoldedSeqs(fs, next, hs, hsyms, i)
    ensures Fold(fs[i..], next).1 == Fold(fs[i + 1..], next).1
  {
    FoldAt(fs, i, next);
    assert fs[i + 1..][0] == fs[i + 1];
    assert fs[..i + 1] == fs[..i] + [fs[i]];
  }

  /** A run of length `n` at `i` becomes the repeat `next`. */
  lemma {:induction false} RunSeqs(fs: seq<nat>, next: nat, fs2: seq<nat>, next2: nat, hs: seq<nat>, hsyms: seq<Symbol>, i: nat, l: nat, n: nat)
    requires i + 1 < |fs| && fs[i] == l && fs[i + 1] == l && n == 1 + Lead(fs[i + 1..], l) && i + 1 <= |fs2|
    requires fs2[..i + 1] == fs[..i] + [next] && fs2[i + 1..] == fs[i + n..] && next2 == next + 1
    requires FoldedSeqs(fs2, next2, hs, hsyms, i + 1)
    requires IsRepeat(hsyms[next]) && hsyms[next].left == Some(l) && hsyms[next].repCount == n
    requires l < |hsyms| && hsyms[next].size == hsyms[l].size
    ensures FoldedSeqs(fs, next, hs, hsyms, i)
    ensures |Fold(fs[i..], next).1| == 1 + |Fold(fs2[i + 1..], next + 1).1|
  {
    FoldAtRun(fs, i, next, n);
    var F2 := Fold(fs2[i + 1..], next + 1);
    var tail := fs[i + n..];
    assert tail == fs2[i + 1..];
    assert Fold(fs[i..], next) == ([next] + F2.0, [(fs[i], n)] + F2.1);
    assert hs == (fs[..i] + [next]) + F2.0;
    AppendAssoc(fs[..i], [next], F2.0);
    RepsCons(hsyms, next, (fs[i], n), F2.1);
  }

  /** The repeat `next` in front of the repeats after it. */
  lemma {:induction false} RepsCons(hsyms: seq<Symbol>, next: nat, x: (nat, nat), reps: seq<(nat, nat)>)
    requires RepsAre(hsyms, next + 1, reps) && next < |hsyms|
    requires IsRepeat(hsyms[next]) && hsyms[next].left == Some(x.0) && hsyms[next].repCount == x.1
    requires x.0 < |hsyms| && hsyms[next].size == hsyms[x.0].size
    ensures RepsAre(hsyms, next, [x] + reps)
  {
    var all := [x] + reps;
    assert |hsyms| == next + |all|;
    forall j | 0 <= j < |all|
      ensures RepIs(hsyms, next + j, all[j])
    {
      if j == 0 {
        assert all[0] == x;
      } else {
        assert all[j] == reps[j - 1] && next + j == (next + 1) + (j - 1);
      }
    }
  }

  /** `FoldAt` at a run. */
  lemma {:induction false} FoldAtRun(fs: seq<nat>, i: nat, next: nat, n: nat)
    requires i + 1 < |fs| && fs[i + 1] == fs[i] && n == 1 + Lead(fs[i + 1..], fs[i])
    ensures 2 <= n && i + n <= |fs|
    ensures Fold(fs[i..], next) == ([next] + Fold(fs[i + n..], next + 1).0, [(fs[i], n)] + Fold(fs[i + n..], next + 1).1)
  {
    var t := fs[i..];
    assert t[0] == fs[i] && t[1..] == fs[i + 1..] && t[1] == fs[i + 1];
    FoldRunHead(t, next, n);
    assert t[n..] == fs[i + n..];
  }

  /** `Fold` at the head of a sequence that opens with a run of `n`. */
  lemma {:induction false} FoldRunHead(t: seq<nat>, next: nat, n: nat)
    requires 1 < |t| && t[1] == t[0] && n == 1 + Lead(t[1..], t[0])
    ensures 2 <= n <= |t|
    ensures Fold(t, next) == ([next] + Fold(t[n..], next + 1).0, [(t[0], n)] + Fold(t[n..], next + 1).1)
  {
    assert t[1..][0] == t[1];
  }

  /** A run has at least two positions. */
  lemma {:induction false} RunLong(fs: seq<nat>, i: nat, next: nat)
    requires i + 1 < |fs| && fs[i + 1] == fs[i]
    ensures 1 + Lead(fs[i + 1..], fs[i]) >= 2
    ensures |Fold(fs[i..], next).1| >= 1
  {
    assert fs[i + 1..][0] == fs[i + 1];
    FoldAt(fs, i, next);
  }

  /** From the last position on there is nothing to fold. */
  lemma {:induction false} FoldedStop(g: Grammar, i: nat)
    requires Wf(g) && i <= |g.frame| && i + 1 >= |g.frame|
    ensures Held(g) && RepOutcome(g, i, RepFrom(g, i, Corrected))
  {
    var fs := Syms(g.frame);
    if i < |fs| {
      assert fs[i..][1..] == [];
    }
    assert fs[..i] + fs[i..] == fs;
    ExtendsSelf(g.syms);
  }

  /** A position starting no run joined with the rest of the outer loop. */
  lemma {:induction false} FoldedSkip(g: Grammar, i: nat)
    requires Wf(g) && i + 1 < |g.frame| && g.frame[i + 1].sym != g.frame[i].sym
    requires RepOutcome(g, i + 1, RepFrom(g, i + 1, Corrected))
    ensures Held(g) && RepOutcome(g, i, RepFrom(g, i, Corrected))
  {
    var fs := Syms(g.frame);
    var r := RepFrom(g, i + 1, Corrected);
    assert RepFrom(g, i, Corrected) == r;
    FoldAt(fs, i, |g.syms|);
    assert fs[i + 1..][0] == fs[i + 1];
    if r.Ok? {
      SkipSeqs(fs, |g.syms|, Syms(r.value.frame), r.value.syms, i);
    }
  }

  /** A run with no room left for its repeat is fatal. */
  lemma {:induction false} FoldedFull(g: Grammar, i: nat)
    requires Wf(g) && i + 1 < |g.frame| && g.frame[i + 1].sym == g.frame[i].sym && |g.syms| >= SYMBOL_MAX
    ensures Held(g) && RepOutcome(g, i, RepFrom(g, i, Corrected))
  {
    RunLong(Syms(g.frame), i, |g.syms|);
  }

  /** A run step joined with the rest of the outer loop. */
  lemma {:induction false} FoldedRun(g: Grammar, g2: Grammar, i: nat, r: Result<Grammar>)
    requires i + 1 < |g.frame| && g.frame[i + 1].sym == g.frame[i].sym
    requires RanFrame(g, g2, i, 1 + Lead(Syms(g.frame)[i + 1..], g.frame[i].sym))
    requires RanTable(g, g2, i, 1 + Lead(Syms(g.frame)[i + 1..], g.frame[i].sym))
    requires RepOutcome(g2, i + 1, r)
    ensures RepOutcome(g, i, r)
  {
    var n := 1 + Lead(Syms(g.frame)[i + 1..], g.frame[i].sym);
    assert Syms(g.frame)[i + 1] == Syms(g.frame)[i];
    FoldedRunFails(g, g2, i, n, r);
    if r.Ok? {
      FoldedRunOk(g, g2, r.value, i, n);
    }
  }


  lemma {:induction false} FoldedRunFails(g: Grammar, g2: Grammar, i: nat, n: nat, r: Result<Grammar>)
    requires i + 1 < |g.frame| && i + 1 <= |g2.frame| && |g2.syms| == |g.syms| + 1
    requires Syms(g.frame)[i + 1] == Syms(g.frame)[i] && n == 1 + Lead(Syms(g.frame)[i + 1..], Syms(g.frame)[i])
    requires Syms(g2.frame)[i + 1..] == Syms(g.frame)[i + n..]
    requires RepFails(g2, i + 1, r)
    ensures RepFails(g, i, r)
  {
    RunCount(Syms(g.frame), |g.syms|, Syms(g2.frame), i, n);
  }

  lemma {:induction false} FoldedRunOk(g: Grammar, g2: Grammar, h: Grammar, i: nat, n: nat)
    requires i + 1 < |g.frame| && g.frame[i + 1].sym == g.frame[i].sym
    requires n == 1 + Lead(Syms(g.frame)[i + 1..], g.frame[i].sym) && RanFrame(g, g2, i, n) && RanTable(g, g2, i, n)
    requires Folded(g2, h, i + 1)
    ensures Folded(g, h, i)
  {
    FoldedRunKept(g, g2, h, i, n);
    var fs := Syms(g.frame);
    assert fs[i] == g.frame[i].sym && fs[i + 1] == fs[i];
    RunSeqs(fs, |g.syms|, Syms(g2.frame), |g2.syms|, Syms(h.frame), h.syms, i, g.frame[i].sym, n);
  }

  lemma {:induction false} FoldedRunKept(g: Grammar, g2: Grammar, h: Grammar, i: nat, n: nat)
    requires RanTable(g, g2, i, n) && Kept(g2, h)
    ensures Kept(g, h)
    ensures IsRepeat(h.syms[|g.syms|]) && h.syms[|g.syms|].left == Some(g.frame[i].sym) && h.syms[|g.syms|].repCount == n
    ensures g.frame[i].sym < |g.syms| && h.syms[|g.syms|].size == h.syms[g.frame[i].sym].size
  {
    ExtendsTrans(g.syms, g2.syms, h.syms);
    assert SameDef(g2.syms[|g.syms|], h.syms[|g.syms|]);
  }


  /** A run step leaves one repeat fewer to make. */
  lemma {:induction false} RunCount(fs: seq<nat>, next: nat, fs2: seq<nat>, i: nat, n: nat)
    requires i + 1 < |fs| && fs[i + 1] == fs[i] && n == 1 + Lead(fs[i + 1..], fs[i]) && i + 1 <= |fs2|
    requires fs2[i + 1..] == fs[i + n..]
    ensures |Fold(fs[i..], next).1| == 1 + |Fold(fs2[i + 1..], next + 1).1|
  {
    FoldAtRun(fs, i, next, n);
    var tail := fs[i + n..];
    assert tail == fs2[i + 1..];
  }

  /** The two halves of a concatenation. */
  lemma {:induction false} SplitAt<T>(a: seq<T>, b: seq<T>)
    ensures (a + b)[..|a|] == a && (a + b)[|a|..] == b
  {
  }

  /** The corrected `crunch_rep` at a run: one step of the outer loop. */
  lemma {:induction false} RepRun(g: Grammar, i: nat) returns (g2: Grammar)
    requires Wf(g) && i + 1 < |g.frame| && g.frame[i + 1].sym == g.frame[i].sym && |g.syms| < SYMBOL_MAX
    ensures RanFrame(g, g2, i, 1 + Lead(Syms(g.frame)[i + 1..], g.frame[i].sym))
    ensures RanTable(g, g2, i, 1 + Lead(Syms(g.frame)[i + 1..], g.frame[i].sym))
    ensures Held(g) && Held(g2) && RepFrom(g, i, Corrected) == RepFrom(g2, i + 1, Corrected)
    ensures Wf(g2) && |g2.frame| <= |g.frame|
    ensures forall t :: 0 <= t < |g.syms| ==> g2.syms[t].repCount == if t == g.frame[i].sym then 1 else g.syms[t].repCount
  {
    var l := g.frame[i].sym;
    OpenSpec(g, i);
    var (g1, s) := Open(g, i, Corrected).value;
    assert RunAt(g1, i, s, l);
    AbsorbSpec(g1, i, s, l);
    g2 := Absorb(g1, i, s, l, Corrected).value;
    RanJoinFrame(g, g1, g2, i, s);
    RanJoinTable(g, g1, g2, i, s);
  }

  /** The run's start and its inner loop together make one run step. */
  lemma {:induction false} RanJoinFrame(g: Grammar, g1: Grammar, g2: Grammar, i: nat, s: nat)
    requires i + 1 < |g.frame| && s == |g.syms| && |g1.syms| == s + 1 && |g2.syms| == s + 1
    requires Syms(g1.frame) == Syms(g.frame)[i := s]
    requires AbsorbedFrame(g1, g2, i, Lead(Syms(g1.frame)[i + 1..], g.frame[i].sym))
    ensures RanFrame(g, g2, i, 1 + Lead(Syms(g.frame)[i + 1..], g.frame[i].sym))
  {
    var l := g.frame[i].sym;
    RanSeqs(Syms(g.frame), Syms(g1.frame), Syms(g2.frame), i, s, l, Lead(Syms(g1.frame)[i + 1..], l));
  }

  lemma {:induction false} RanJoinTable(g: Grammar, g1: Grammar, g2: Grammar, i: nat, s: nat)
    requires Acyclic(g.syms) && InTable(g.syms, Syms(g.frame)) && i + 1 < |g.frame| && s == |g.syms|
    requires Acyclic(g1.syms) && InTable(g1.syms, Syms(g1.frame)) && Text(g1) == Text(g) && Extends(g.syms, g1.syms) && |g1.syms| == s + 1
    requires Syms(g1.frame) == Syms(g.frame)[i := s]
    requires Absorbed(g1, g2, i, s, g.frame[i].sym, Lead(Syms(g1.frame)[i + 1..], g.frame[i].sym))
    requires g1.syms[s].repCount == 1 && g1.syms[s].size == g.syms[g.frame[i].sym].size
    ensures RanTable(g, g2, i, 1 + Lead(Syms(g.frame)[i + 1..], g.frame[i].sym))
  {
    var fs, fs1 := Syms(g.frame), Syms(g1.frame);
    var after := fs[i + 1..];
    assert fs1[i + 1..] == after;
    assert Extends(g.syms, g1.syms[..s]);
    ExtendsTrans(g.syms, g1.syms[..s], g2.syms);
  }

  /** The frame after a run step, on symbol sequences. */
  lemma {:induction false} RanSeqs(fs: seq<nat>, fs1: seq<nat>, fs2: seq<nat>, i: nat, s: nat, l: nat, m: nat)
    requires i + 1 < |fs| && fs1 == fs[i := s] && m == Lead(fs1[i + 1..], l) && i + 1 + m <= |fs1|
    requires fs2 == fs1[..i + 1] + fs1[i + 1 + m..]
    ensures m == Lead(fs[i + 1..], l) && i + 1 <= |fs2|
    ensures fs2[..i + 1] == fs[..i] + [s] && fs2[i + 1..] == fs[i + 1 + m..]
  {
    assert fs1[i + 1..] == fs[i + 1..];
    var A, B := fs1[..i + 1], fs1[i + 1 + m..];
    SplitAt(A, B);
    assert A == fs[..i] + [s];
    assert B == fs[i + 1 + m..];
  }

  /** The corrected `crunch_rep` from position `i` on folds exactly the runs
      `Fold` finds there. */
  lemma {:induction false} RepFromSpec(g: Grammar, i: nat)
    requires Wf(g) && i <= |g.frame|
    ensures Held(g) && RepOutcome(g, i, RepFrom(g, i, Corrected))
    decreases |g.frame| - i
  {
    if i + 1 >= |g.frame| {
      FoldedStop(g, i);
    } else if g.frame[i + 1].sym != g.frame[i].sym {
      RepFromSpec(g, i + 1);
      FoldedSkip(g, i);
    } else if |g.syms| >= SYMBOL_MAX {
      FoldedFull(g, i);
    } else {
      var g2 := RepRun(g, i);
      RepFromSpec(g2, i + 1);
      FoldedRun(g, g2, i, RepFrom(g2, i + 1, Corrected));
    }
  }

  /** The symbols whose runs `reps` records, in order. */
  function RunChildren(reps: seq<(nat, nat)>): (cs: seq<nat>)
    ensures |cs| == |reps| && forall j :: 0 <= j < |reps| ==> cs[j] == reps[j].0
  {
    if reps == [] then [] else [reps[0].0] + RunChildren(reps[1..])
  }

  /** `b` keeps the `repCount` of every symbol of `a` but the children of
      `reps`, which are marked as repeated. */
  ghost predicate RunsMarked(a: seq<Symbol>, b: seq<Symbol>, reps: seq<(nat, nat)>)
  {
    |a| <= |b| && forall t :: 0 <= t < |a| ==> b[t].repCount == if t in RunChildren(reps) then 1 else a[t].repCount
  }

  /** The child of every run `Fold` replaces is a symbol of the input. */
  lemma {:induction false} FoldChildren(fs: seq<nat>, next: nat)
    ensures forall j :: 0 <= j < |Fold(fs, next).1| ==> Fold(fs, next).1[j].0 in fs
    decreases |fs|
  {
    if fs != [] {
      var n: nat := 1 + Lead(fs[1..], fs[0]);
      if n == 1 {
        FoldChildren(fs[1..], next);
        assert forall y :: y in fs[1..] ==> y in fs;
      } else {
        FoldChildren(fs[n..], next + 1);
        assert forall y :: y in fs[n..] ==> y in fs;
      }
    }
  }

  /** A run of `l` marked in front of the runs marked after it. */
  lemma {:induction false} RunsMarkedCons(a: seq<Symbol>, b: seq<Symbol>, c: seq<Symbol>, x: (nat, nat), reps: seq<(nat, nat)>)
    requires |a| <= |b| && forall t :: 0 <= t < |a| ==> b[t].repCount == if t == x.0 then 1 else a[t].repCount
    requires RunsMarked(b, c, reps)
    ensures RunsMarked(a, c, [x] + reps)
  {
    var all := [x] + reps;
    assert all[1..] == reps;
    forall t | 0 <= t < |a|
      ensures c[t].repCount == if t in RunChildren(all) then 1 else a[t].repCount
    {
      assert t in RunChildren(all) <==> t == x.0 || t in RunChildren(reps);
    }
  }

  /** What the corrected `crunch_rep` from `i` on promises about
      `repCount`: the child of every run it folds is marked as repeated, and
      no other symbol of `g` changes. */
  ghost predicate MarkOutcome(g: Grammar, i: nat, r: Result<Grammar>)
    requires i <= |g.frame|
  {
    r.Ok? ==> RunsMarked(g.syms, r.value.syms, Fold(Syms(g.frame)[i..], |g.syms|).1)
  }

  lemma {:induction false} RepFromMarks(g: Grammar, i: nat)
    requires Wf(g) && i <= |g.frame|
    ensures Held(g) && MarkOutcome(g, i, RepFrom(g, i, Corrected))
    decreases |g.frame| - i
  {
    if i + 1 >= |g.frame| {
      MarksStop(g, i);
    } else if g.frame[i + 1].sym != g.frame[i].sym {
      RepFromMarks(g, i + 1);
      MarksSkip(g, i, RepFrom(g, i + 1, Corrected));
    } else if |g.syms| < SYMBOL_MAX {
      var g2 := RepRun(g, i);
      RepFromMarks(g2, i + 1);
      MarksRun(g, g2, i, RepFrom(g2, i + 1, Corrected));
    } else {
      FoldedFull(g, i);
    }
  }

  lemma {:induction false} MarksStop(g: Grammar, i: nat)
    requires Held(g) && i <= |g.frame| && i + 1 >= |g.frame|
    ensures MarkOutcome(g, i, RepFrom(g, i, Corrected))
  {
    FoldTail(Syms(g.frame), i, |g.syms|);
  }

  lemma {:induction false} MarksSkip(g: Grammar, i: nat, r: Result<Grammar>)
    requires i + 1 < |g.frame| && g.frame[i + 1].sym != g.frame[i].sym && MarkOutcome(g, i + 1, r)
    ensures MarkOutcome(g, i, r)
  {
    var fs := Syms(g.frame);
    FoldSkip(fs, i, |g.syms|);
  }

  lemma {:induction false} MarksRun(g: Grammar, g2: Grammar, i: nat, r: Result<Grammar>)
    requires i + 1 < |g.frame| && g.frame[i + 1].sym == g.frame[i].sym
    requires RanFrame(g, g2, i, 1 + Lead(Syms(g.frame)[i + 1..], g.frame[i].sym))
    requires forall t :: 0 <= t < |g.syms| ==> g2.syms[t].repCount == if t == g.frame[i].sym then 1 else g.syms[t].repCount
    requires MarkOutcome(g2, i + 1, r)
    ensures MarkOutcome(g, i, r)
  {
    var fs, fs2 := Syms(g.frame), Syms(g2.frame);
    var l := g.frame[i].sym;
    var n := 1 + Lead(fs[i + 1..], l);
    assert fs[i] == l && fs[i + 1] == l;
    assert |g2.syms| == |g.syms| + 1 && fs2[i + 1..] == fs[i + n..];
    var rest := Fold(fs2[i + 1..], |g.syms| + 1).1;
    FoldRun(fs, fs2, i, n, |g.syms|);
    if r.Ok? {
      MarksJoin(g.syms, g2.syms, r.value.syms, l, n, rest);
    }
  }

  /** `MarksRun` on the tables alone. */
  lemma {:induction false} MarksJoin(a: seq<Symbol>, b: seq<Symbol>, c: seq<Symbol>, l: nat, n: nat, rest: seq<(nat, nat)>)
    requires |a| <= |b| && forall t :: 0 <= t < |a| ==> b[t].repCount == if t == l then 1 else a[t].repCount
    requires RunsMarked(b, c, rest)
    ensures RunsMarked(a, c, [(l, n)] + rest)
  {
    RunsMarkedCons(a, b, c, (l, n), rest);
  }

  /** From the last position on, `Fold` finds no run. */
  lemma {:induction false} FoldTail(fs: seq<nat>, i: nat, next: nat)
    requires i <= |fs| && i + 1 >= |fs|
    ensures Fold(fs[i..], next).1 == []
  {
    if i < |fs| {
      FoldAt(fs, i, next);
      assert fs[i + 1..] == [];
    } else {
      assert fs[i..] == [];
    }
  }

  /** A position starting no run adds no run to `Fold`. */
  lemma {:induction false} FoldSkip(fs: seq<nat>, i: nat, next: nat)
    requires i + 1 < |fs| && fs[i + 1] != fs[i]
    ensures Fold(fs[i..], next).1 == Fold(fs[i + 1..], next).1
  {
    FoldAt(fs, i, next);
    assert fs[i + 1..][0] == fs[i + 1];
  }

  /** A run of `n` at `i` heads the runs `Fold` finds in what follows it. */
  lemma {:induction false} FoldRun(fs: seq<nat>, fs2: seq<nat>, i: nat, n: nat, next: nat)
    requires i + 1 < |fs| && fs[i + 1] == fs[i] && n == 1 + Lead(fs[i + 1..], fs[i])
    requires i + 1 <= |fs2| && fs2[i + 1..] == fs[i + n..]
    ensures Fold(fs[i..], next).1 == [(fs[i], n)] + Fold(fs2[i + 1..], next + 1).1
  {
    FoldAtRun(fs, i, next, n);
  }

  /** The corrected `crunch_rep` on a well-formed grammar: the frame becomes
      `Fold` of the old frame, with the new repeats appended to the table in
      frame order, the bytes unchanged and no run left. */
  lemma {:induction false} CrunchRepSpec(g: Grammar)
    requires Wf(g)
    ensures Held(g)
    ensures var r, F := CrunchRep(g, Corrected), Fold(Syms(g.frame), |g.syms|);
            && (r.Err? <==> |g.syms| + |F.1| > SYMBOL_MAX)
            && (r.Err? ==> r.error == TooManySymbols)
            && (r.Ok? ==> && Wf(r.value) && Text(r.value) == Text(g) && Extends(g.syms, r.value.syms)
                          && Syms(r.value.frame) == F.0 && RepsAre(r.value.syms, |g.syms|, F.1)
                          && NoRuns(Syms(r.value.frame)))
    ensures var r, F := CrunchRep(g, Corrected), Fold(Syms(g.frame), |g.syms|);
            r.Ok? ==> && (forall j :: 0 <= j < |F.1| ==> F.1[j].0 < |g.syms| && r.value.syms[F.1[j].0].repCount == 1)
                      && (forall t :: 0 <= t < |g.syms| && t !in RunChildren(F.1) ==> r.value.syms[t].repCount == g.syms[t].repCount)
  {
    var fs := Syms(g.frame);
    RepFromMarks(g, 0);
    FoldChildren(fs, |g.syms|);
    RepFromSpec(g, 0);
    assert fs[0..] == fs && fs[..0] + Fold(fs, |g.syms|).0 == Fold(fs, |g.syms|).0;
    assert Below(fs, |g.syms|);
    FoldNoRuns(fs, |g.syms|);
  }

  // ---------------------------------------------------------------------------
  // The code as written

  /** As written, releasing a position differs from the corrected reading
      only by failing on a missing pair. */
  lemma {:induction false} ReleaseVariants(g: Grammar, k: nat)
    requires k < |g.frame| && (g.frame[k].pair.Some? ==> g.frame[k].pair.value < |g.pairs|)
    ensures Release(g, k, AsWritten) == Release(g, k, Corrected) || Release(g, k, AsWritten) == Err(NullPair)
    ensures g.frame[k].pair.Some? ==> Release(g, k, AsWritten) == Release(g, k, Corrected)
  {
  }

  lemma {:induction false} OpenVariants(g: Grammar, i: nat)
    requires i < |g.frame| && Held(g)
    ensures Open(g, i, AsWritten) == Open(g, i, Corrected) || Open(g, i, AsWritten) == Err(NullPair)
    ensures g.frame[i].pair.Some? ==> Open(g, i, AsWritten) == Open(g, i, Corrected)
  {
    ReleaseVariants(g, i);
  }

  lemma {:induction false} AbsorbVariants(g: Grammar, i: nat, r: nat, l: nat)
    requires i < |g.frame| && r < |g.syms| && Held(g)
    ensures Absorb(g, i, r, l, AsWritten) == Absorb(g, i, r, l, Corrected) || Absorb(g, i, r, l, AsWritten) == Err(NullPair)
    decreases |g.frame|
  {
    if i + 1 < |g.frame| && g.frame[i + 1].sym == l {
      ReleaseVariants(Bump(g, r), i + 1);
      match Release(Bump(g, r), i + 1, AsWritten)
      case Err(_) =>
      case Ok(g1) =>
        AbsorbVariants(Drop(g1, i + 1), i, r, l);
    }
  }

  /** Wherever the code as written gets through `crunch_rep`, it ends where
      the corrected reading does; otherwise it fails on a missing pair. */
  lemma {:induction false} RepFromVariants(g: Grammar, i: nat)
    requires Held(g)
    ensures RepFrom(g, i, AsWritten) == RepFrom(g, i, Corrected) || RepFrom(g, i, AsWritten) == Err(NullPair)
    decreases |g.frame| - i
  {
    if i + 1 < |g.frame| {
      if g.frame[i + 1].sym != g.frame[i].sym {
        RepFromVariants(g, i + 1);
      } else {
        OpenVariants(g, i);
        match Open(g, i, AsWritten)
        case Err(_) =>
        case Ok((g1, s)) =>
          AbsorbVariants(g1, i, s, g.frame[i].sym);
          match Absorb(g1, i, s, g.frame[i].sym, AsWritten)
          case Err(_) =>
          case Ok(g2) =>
            RepFromVariants(g2, i + 1);
      }
    }
  }

  lemma {:induction false} CrunchRepVariants(g: Grammar)
    requires Held(g)
    ensures CrunchRep(g, AsWritten) == CrunchRep(g, Corrected) || CrunchRep(g, AsWritten) == Err(NullPair)
  {
    RepFromVariants(g, 0);
  }

  /** From `i` on every position but the last holds a pair, and no run
      reaches the last position. */
  predicate NoRunAtEnd(g: Grammar, i: nat)
  {
    && (forall k :: i <= k && k + 1 < |g.frame| ==> g.frame[k].pair.Some?)
    && (i + 2 <= |g.frame| ==> g.frame[|g.frame| - 2].sym != g.frame[|g.frame| - 1].sym)
  }

  /** The inner loop's view of `NoRunAtEnd`, the run's head at `i` having
      already become the repeat: the run of `l` after `i` stops short of the
      last position. */
  predicate AbsorbSafe(g: Grammar, i: nat, l: nat)
  {
    && (forall k :: i < k && k + 1 < |g.frame| ==> g.frame[k].pair.Some?)
    && (i + 2 < |g.frame| ==> g.frame[|g.frame| - 2].sym != g.frame[|g.frame| - 1].sym)
    && (i + 2 == |g.frame| ==> g.frame[i + 1].sym != l)
  }

  /** Removing the run's next copy keeps `AbsorbSafe`; that copy is not
      the last position, so it holds a pair. */
  lemma {:induction false} AbsorbSafeDrop(g: Grammar, h: Grammar, i: nat, l: nat)
    requires i + 1 < |g.frame| && g.frame[i + 1].sym == l && AbsorbSafe(g, i, l)
    requires h.frame == g.frame[i + 1 := g.frame[i + 1].(pair := None)][..i + 1] + g.frame[i + 2..]
    ensures i + 2 < |g.frame| && g.frame[i + 1].pair.Some? && AbsorbSafe(h, i, l)
  {
    forall k | i < k && k + 1 < |h.frame|
      ensures h.frame[k].pair.Some?
    {
      assert h.frame[k] == g.frame[k + 1];
    }
  }

  lemma {:induction false} AbsorbSafeStop(g: Grammar, i: nat, l: nat)
    requires AbsorbSafe(g, i, l) && (i + 1 >= |g.frame| || g.frame[i + 1].sym != l)
    ensures NoRunAtEnd(g, i + 1)
  {
  }

  lemma {:induction false} AbsorbSame(g: Grammar, i: nat, r: nat, l: nat)
    requires i < |g.frame| && r < |g.syms| && Held(g) && AbsorbSafe(g, i, l)
    ensures Absorb(g, i, r, l, AsWritten) == Absorb(g, i, r, l, Corrected)
    ensures Absorb(g, i, r, l, Corrected).Ok? ==> NoRunAtEnd(Absorb(g, i, r, l, Corrected).value, i + 1)
    decreases |g.frame|
  {
    if i + 1 < |g.frame| && g.frame[i + 1].sym == l {
      var b := Bump(g, r);
      var g1 := Release(b, i + 1, Corrected).value;
      var h := Drop(g1, i + 1);
      AbsorbSafeDrop(g, h, i, l);
      ReleaseVariants(b, i + 1);
      AbsorbSame(h, i, r, l);
    } else {
      AbsorbSafeStop(g, i, l);
    }
  }

  /** Where every position but the last holds a pair, as `scan_pair` leaves
      them, and no run reaches the last position, the code as written and
      the corrected reading agree. */
  lemma {:induction false} RepFromSame(g: Grammar, i: nat)
    requires Held(g) && NoRunAtEnd(g, i)
    ensures RepFrom(g, i, AsWritten) == RepFrom(g, i, Corrected)
    decreases |g.frame| - i
  {
    if i + 1 < |g.frame| {
      if g.frame[i + 1].sym != g.frame[i].sym {
        RepFromSame(g, i + 1);
      } else {
        OpenVariants(g, i);
        match Open(g, i, Corrected)
        case Err(_) =>
        case Ok((g1, s)) =>
          var l := g.frame[i].sym;
          assert g1.frame == g.frame[i := g.frame[i].(sym := s, pair := None)];
          AbsorbSame(g1, i, s, l);
          match Absorb(g1, i, s, l, Corrected)
          case Err(_) =>
          case Ok(g2) =>
            RepFromSame(g2, i + 1);
      }
    }
  }

  lemma {:induction false} CrunchRepSame(g: Grammar)
    requires Held(g) && NoRunAtEnd(g, 0)
    ensures CrunchRep(g, AsWritten) == CrunchRep(g, Corrected)
  {
    RepFromSame(g, 0);
  }

  /** A frame without runs from `i` up to its last two positions: the outer
      loop walks past them. */
  lemma {:induction false} RepFromWalk(g: Grammar, i: nat, v: Variant)
    requires Held(g) && i + 2 <= |g.frame|
    requires forall k :: i <= k && k + 2 < |g.frame| ==> g.frame[k].sym != g.frame[k + 1].sym
    ensures RepFrom(g, i, v) == RepFrom(g, |g.frame| - 2, v)
    decreases |g.frame| - i
  {
    if i + 2 < |g.frame| {
      RepFromWalk(g, i + 1, v);
    }
  }

  /** The failure the code as written meets: a frame whose only run is its
      last two positions, the last without a pair as `scan_pair` leaves
      it. The code hands that missing pair to `dec_pair`; the corrected
      reading folds the run. */
  lemma {:induction false} RunAtEndFails(g: Grammar)
    requires Held(g) && 2 <= |g.frame| && |g.syms| < SYMBOL_MAX
    requires g.frame[|g.frame| - 2].sym == g.frame[|g.frame| - 1].sym
    requires g.frame[|g.frame| - 2].pair.Some? && g.frame[|g.frame| - 1].pair.None?
    requires forall k :: 0 <= k && k + 2 < |g.frame| ==> g.frame[k].sym != g.frame[k + 1].sym
    ensures CrunchRep(g, AsWritten) == Err(NullPair)
    ensures CrunchRep(g, Corrected).Ok?
  {
    var n := |g.frame|;
    RepFromWalk(g, 0, AsWritten);
    RepFromWalk(g, 0, Corrected);
    var l := g.frame[n - 2].sym;
    OpenVariants(g, n - 2);
    var (g1, s) := Open(g, n - 2, Corrected).value;
    assert g1.frame == g.frame[n - 2 := g.frame[n - 2].(sym := s, pair := None)];
    assert Release(Bump(g1, s), n - 1, AsWritten) == Err(NullPair);
    var g2 := Release(Bump(g1, s), n - 1, Corrected).value;
    assert Absorb(Drop(g2, n - 1), n - 2, s, l, Corrected).Ok?;
  }

  /** With no position holding a pair, the first run met makes the code
      as written hand a missing pair to `dec_pair`. */
  lemma {:induction false} RepFromUnpaired(g: Grammar, i: nat, k: nat)
    requires Held(g) && forall t :: 0 <= t < |g.frame| ==> g.frame[t].pair.None?
    requires i <= k && k + 1 < |g.frame| && g.frame[k].sym == g.frame[k + 1].sym
    ensures RepFrom(g, i, AsWritten) == Err(NullPair)
    decreases |g.frame| - i
  {
    if g.frame[i + 1].sym != g.frame[i].sym {
      RepFromUnpaired(g, i + 1, k);
    }
  }

  /** The failure the code as written meets when `crunch_rep` runs right
      after `scan_base`, which leaves every position without a pair: any
      input with two equal adjacent bytes reaches `dec_pair` with no pair
      at its first run, while the corrected reading folds that run. */
  lemma {:induction false} RunAloneFails(data: seq<uint8>, k: nat)
    requires |data| <= FRAME_MAX && k + 1 < |data| && data[k] == data[k + 1]
    ensures Held(Scan.ScanBase(data))
    ensures CrunchRep(Scan.ScanBase(data), AsWritten) == Err(NullPair)
  {
    Scan.ScanBaseSpec(data);
    var g := Scan.ScanBase(data);
    assert g.frame[k].sym == g.frame[k + 1].sym by {
      var s, s' := g.frame[k].sym, g.frame[k + 1].sym;
      assert g.syms[s].code == g.syms[s'].code;
    }
    RepFromUnpaired(g, 0, k);
  }
}

=== FILE: frames.dfy ===
/** Round trips through a frame: what the writer of stream.c puts into
    `frame_out`, padded with `out_pad`, is what the reader of stream.c takes
    back out of `frame_in` when that frame is loaded. */
module Frames {
  import opened Common
  import opened Bits
  import opened Stream

  // ---------------------------------------------------------------------------
  // From a padded writer to a fresh reader

  /** A freshly loaded frame reads as its bytes, then as zeros up to the
      end of the `FRAME_MAX`-byte buffer. */
  lemma {:induction false} StartReaderBits(frame: seq<byte>)
    requires |frame| <= FRAME_MAX
    ensures ReaderOk(StartReader(frame))
    ensures Remaining(StartReader(frame)) == BytesBits(frame) + Zeros(8 * (FRAME_MAX - |frame|))
  {
    var r := StartReader(frame);
    RemainingView(r);
    assert LowBits(0, 0) == [];
    BufferBitsTail(frame, 0);
    assert frame[0..] == frame;
  }

  /** The bits of the buffer from byte `p` on. */
  lemma {:induction false} BufferBitsTail(frame: seq<byte>, p: nat)
    requires p <= |frame| <= FRAME_MAX
    ensures BufferBits(frame, p) == BytesBits(frame[p..]) + Zeros(8 * (FRAME_MAX - |frame|))
    decreases |frame| - p
  {
    if p == |frame| {
      BufferBitsZero(frame, p);
      assert frame[p..] == [];
    } else {
      BufferBitsTail(frame, p + 1);
      var x, y, z := ByteBits(frame[p]), BytesBits(frame[p + 1..]), Zeros(8 * (FRAME_MAX - |frame|));
      assert BufferBits(frame, p) == x + (y + z);
      AppendAssoc(x, y, z);
      BytesBitsCons(frame[p], frame[p + 1..]);
      assert [frame[p]] + frame[p + 1..] == frame[p..];
    }
  }

  /** Past the loaded bytes the buffer reads as zeros. */
  lemma {:induction false} BufferBitsZero(frame: seq<byte>, p: nat)
    requires |frame| <= p
    ensures BufferBits(frame, p) == Zeros(if p < FRAME_MAX then 8 * (FRAME_MAX - p) else 0)
    decreases FRAME_MAX - p
  {
    if p < FRAME_MAX {
      BufferBitsZero(frame, p + 1);
      ZeroByte();
      var n := if p + 1 < FRAME_MAX then 8 * (FRAME_MAX - p - 1) else 0;
      assert Zeros(8) + Zeros(n) == Zeros(8 * (FRAME_MAX - p));
    }
  }

  lemma {:induction false} ZeroByte()
    ensures ByteBits(0) == Zeros(8)
  {
    forall i | 0 <= i < 8
      ensures ByteBits(0)[i] == false
    {
      BitOfZero(i);
    }
  }

  lemma {:induction false} BitOfZero(i: nat)
    requires i < 8
    ensures !BitOf(0, i)
  {
  }

  lemma {:induction false} BytesBitsCons(b: byte, bs: seq<byte>)
    ensures BytesBits([b] + bs) == ByteBits(b) + BytesBits(bs)
    decreases |bs|
  {
    if bs == [] {
      assert [b] + bs == [] + [b];
      BytesBitsSnoc([], b);
    } else {
      var init, last := bs[..|bs| - 1], bs[|bs| - 1];
      assert bs == init + [last];
      assert [b] + bs == ([b] + init) + [last];
      BytesBitsSnoc([b] + init, last);
      BytesBitsCons(b, init);
      BytesBitsSnoc(init, last);
      AppendAssoc(ByteBits(b), BytesBits(init), ByteBits(last));
    }
  }

  /** After `out_pad` the frame holds every bit written, and a reader
      loaded with it delivers those bits followed only by zeros. */
  lemma {:induction false} PaddedFrameReads(w: Writer)
    requires WriterOk(w) && OutPad(w).Ok?
    ensures var frame := OutPad(w).value.frameOut;
            && ReaderOk(StartReader(frame))
            && Remaining(StartReader(frame)) == Written(w) + Zeros(8 * FRAME_MAX - |Written(w)|)
  {
    var w1 := OutPad(w).value;
    var frame := w1.frameOut;
    StartReaderBits(frame);
    assert Pending(w1) == [];
    assert Written(w1) == BytesBits(frame);
    var n, m := PadLength(w), 8 * (FRAME_MAX - |frame|);
    assert Zeros(n) + Zeros(m) == Zeros(n + m);
  }

  // ---------------------------------------------------------------------------
  // Fixed and prefixed codes read back

  /** `in_code (len)` after `out_code (c, len)` gives back the `len` low
      bits of `c` and leaves what followed. */
  lemma {:induction false} CodeRoundTrip(r: Reader, c: nat, len: uint8, rest: seq<bool>)
    requires ReaderOk(r) && 1 <= len <= 16
    requires Remaining(r) == CodeBits(c, len) + rest
    ensures InCode(r, len).Ok?
    ensures InCode(r, len).value.0 == c % Pow2(len)
    ensures Remaining(InCode(r, len).value.1) == rest
  {
    var res := InCode(r, len);
    var bits := Remaining(r);
    assert bits[..len] == CodeBits(c, len);
    CodeBitsValue(c, len);
    Cancel(bits, CodeBits(c, len), rest, Remaining(res.value.1));
  }

  /** `in_prefix` after `out_prefix (v)` gives back `v` and leaves what
      followed, for every grade a fixed code can carry. */
  lemma {:induction false} PrefixRoundTrip(r: Reader, v: nat, rest: seq<bool>) returns (r1: Reader)
    requires ReaderOk(r) && Grade(v) <= 16
    requires Remaining(r) == PrefixBits(v) + rest
    ensures InPrefix(r) == Ok((v, r1))
    ensures ReaderOk(r1) && Remaining(r1) == rest
  {
    var res := InPrefix(r);
    PrefixDecodeRoundTrip(v, rest);
    assert PrefixReadPost(r, res);
    Cancel(Remaining(r), PrefixBits(v), rest, Remaining(res.value.1));
    r1 := res.value.1;
  }

  lemma {:induction false} Cancel<T>(s: seq<T>, a: seq<T>, b: seq<T>, c: seq<T>)
    requires s == a + b && s == s[..|a|] + c
    ensures c == b
  {
    assert c == s[|a|..];
  }

  // ---------------------------------------------------------------------------
  // Sequences of prefixed codes

  /** The prefix codes of `vals`, one after another. */
  function PrefixStream(vals: seq<uint32>): (r: seq<bool>)
    decreases |vals|
  {
    if vals == [] then [] else PrefixBits(vals[0]) + PrefixStream(vals[1..])
  }

  lemma {:induction false} PrefixStreamCons(vals: seq<uint32>)
    requires vals != []
    ensures PrefixStream(vals) == PrefixBits(vals[0]) + PrefixStream(vals[1..])
  {
  }

  /** Every value has a grade a fixed code can carry. */
  predicate Encodable(vals: seq<uint32>)
  {
    forall i :: 0 <= i < |vals| ==> Grade(vals[i]) <= 16
  }

  /** `out_prefix` on each value in turn, stopping at the first error. */
  function OutPrefixes(w: Writer, vals: seq<uint32>): (r: Result<Writer>)
    requires WriterOk(w)
    ensures Encodable(vals) ==> (r.Ok? <==> |PrefixStream(vals)| <= Room(w))
    ensures Encodable(vals) && r.Ok? ==> WriterOk(r.value) && Written(r.value) == Written(w) + PrefixStream(vals)
    ensures !Encodable(vals) ==> r.Err?
    ensures r.Err? ==> r.error == OutOverflow || r.error == CodeTooLong
    decreases |vals|
  {
    if vals == [] then Ok(w)
    else
      var r1 := OutPrefix(w, vals[0]);
      if r1.Err? then
        PrefixesFailFirst(w, vals);
        Err(r1.error)
      else
        GradeOfUint(vals[0]);
        var r := OutPrefixes(r1.value, vals[1..]);
        PrefixesStep(w, vals, r1.value, r);
        r
  }

  lemma {:induction false} PrefixesFailFirst(w: Writer, vals: seq<uint32>)
    requires WriterOk(w) && vals != [] && OutPrefix(w, vals[0]).Err?
    ensures Encodable(vals) ==> |PrefixStream(vals)| > Room(w)
  {
    EncodableCons(vals);
  }

  lemma {:induction false} PrefixesStep(w: Writer, vals: seq<uint32>, w1: Writer, r: Result<Writer>)
    requires WriterOk(w) && vals != [] && Grade(vals[0]) <= 16
    requires OutPrefix(w, vals[0]) == Ok(w1) && WriterOk(w1)
    requires Encodable(vals[1..]) ==> (r.Ok? <==> |PrefixStream(vals[1..])| <= Room(w1))
    requires Encodable(vals[1..]) && r.Ok? ==> WriterOk(r.value) && Written(r.value) == Written(w1) + PrefixStream(vals[1..])
    requires !Encodable(vals[1..]) ==> r.Err?
    ensures Encodable(vals) ==> (r.Ok? <==> |PrefixStream(vals)| <= Room(w))
    ensures Encodable(vals) && r.Ok? ==> WriterOk(r.value) && Written(r.value) == Written(w) + PrefixStream(vals)
    ensures !Encodable(vals) ==> r.Err?
  {
    EncodableCons(vals);
    var x, y := PrefixBits(vals[0]), PrefixStream(vals[1..]);
    PrefixStreamCons(vals);
    if Encodable(vals) && r.Ok? {
      var a, b, c := Written(w), Written(w1), Written(r.value);
      assert b == a + x;
      assert c == b + y;
      AppendAssoc(a, x, y);
    }
  }

  lemma {:induction false} EncodableCons(vals: seq<uint32>)
    requires vals != []
    ensures Encodable(vals) <==> Grade(vals[0]) <= 16 && Encodable(vals[1..])
  {
    if Grade(vals[0]) <= 16 && Encodable(vals[1..]) {
      forall i | 0 <= i < |vals|
        ensures Grade(vals[i]) <= 16
      {
        if i > 0 {
          assert vals[i] == vals[1..][i - 1];
        }
      }
    }
  }

  /** `in_prefix` called `n` times, stopping at the first error. */
  function InPrefixes(r: Reader, n: nat): (res: Result<(seq<nat>, Reader)>)
    requires ReaderOk(r)
    ensures res.Ok? ==> |res.value.0| == n && ReaderOk(res.value.1)
    decreases n, 0
  {
    if n == 0 then Ok(([], r)) else ThenPrefixes(InPrefix(r), n - 1)
  }

  /** The rest of `InPrefixes` once the first read has given `first`. */
  function ThenPrefixes(first: Result<(nat, Reader)>, m: nat): (res: Result<(seq<nat>, Reader)>)
    requires first.Ok? ==> ReaderOk(first.value.1)
    ensures res.Ok? ==> first.Ok? && |res.value.0| == m + 1 && res.value.0[0] == first.value.0
    ensures res.Ok? ==> ReaderOk(res.value.1)
    decreases m, 1
  {
    match first
    case Err(e) => Err(e)
    case Ok(p) =>
      match InPrefixes(p.1, m)
      case Err(e) => Err(e)
      case Ok(more) => Ok(([p.0] + more.0, more.1))
  }

  /** Reading as many prefixed codes as were written gives the values back
      and leaves what followed them. */
  lemma {:induction false} PrefixesRoundTrip(r: Reader, vals: seq<uint32>, rest: seq<bool>)
    requires ReaderOk(r) && Encodable(vals)
    requires Remaining(r) == PrefixStream(vals) + rest
    ensures InPrefixes(r, |vals|).Ok?
    ensures InPrefixes(r, |vals|).value.0 == vals
    ensures Remaining(InPrefixes(r, |vals|).value.1) == rest
    decreases |vals|
  {
    if vals == [] {
      assert PrefixStream(vals) == [];
      assert Remaining(r) == rest;
    } else {
      var v, tail := vals[0], vals[1..];
      EncodableCons(vals);
      PrefixStreamCons(vals);
      AppendAssoc(PrefixBits(v), PrefixStream(tail), rest);
      var r1 := PrefixRoundTrip(r, v, PrefixStream(tail) + rest);
      PrefixesRoundTrip(r1, tail, rest);
      var more := InPrefixes(r1, |tail|).value;
      InPrefixesStep(r, |vals|, |tail|, v, r1, more.0, more.1);
      HeadTail(vals);
    }
  }

  /** One step of `InPrefixes`: a value read, then the rest. */
  lemma {:induction false} InPrefixesStep(r: Reader, n: nat, m: nat, v: nat, r1: Reader, vs: seq<nat>, r2: Reader)
    requires ReaderOk(r) && n == m + 1 && InPrefix(r) == Ok((v, r1))
    requires InPrefixes(r1, m) == Ok((vs, r2))
    ensures InPrefixes(r, n) == Ok(([v] + vs, r2))
  {
    InPrefixesUnfold(r, n, m);
    ThenPrefixesOk(v, r1, m, vs, r2);
  }

  lemma {:induction false} InPrefixesUnfold(r: Reader, n: nat, m: nat)
    requires ReaderOk(r) && n == m + 1
    ensures InPrefixes(r, n) == ThenPrefixes(InPrefix(r), m)
  {
  }

  lemma {:induction false} ThenPrefixesOk(v: nat, r1: Reader, m: nat, vs: seq<nat>, r2: Reader)
    requires ReaderOk(r1) && InPrefixes(r1, m) == Ok((vs, r2))
    ensures ThenPrefixes(Ok((v, r1)), m) == Ok(([v] + vs, r2))
  {
  }

  lemma {:induction false} HeadTail<T>(s: seq<T>)
    requires s != []
    ensures [s[0]] + s[1..] == s
  {
  }

  /** A frame filled with `out_prefix` calls from an empty writer and
      closed by `out_pad` reads back, through `in_prefix`, the values
      written, in order. */
  lemma {:induction false} FrameRoundTrip(vals: seq<uint32>, w: Writer, frame: seq<byte>)
    requires Encodable(vals)
    requires OutPrefixes(EmptyWriter, vals) == Ok(w)
    requires OutPad(w).Ok? && OutPad(w).value.frameOut == frame
    ensures ReaderOk(StartReader(frame))
    ensures InPrefixes(StartReader(frame), |vals|).Ok?
    ensures InPrefixes(StartReader(frame), |vals|).value.0 == vals
  {
    assert Written(EmptyWriter) == [] by {
      assert Pending(EmptyWriter) == [];
    }
    PaddedFrameReads(w);
    PrefixesRoundTrip(StartReader(frame), vals, Zeros(8 * FRAME_MAX - |Written(w)|));
  }
}

=== FILE: grammar.dfy ===
/** The grammar state of symbol.c. The C code keeps symbols, positions,
    pairs and holes in intrusive lists; here the symbol table is an
    append-only sequence addressed by index, the frame is the sequence of
    positions in list order, pairs live in an arena with the pair list kept
    as the sequence of their handles, and a hole is a flag on its position
    (holes are always added, and drained, in frame order). */
module Grammar {
  import opened Common

  /** A `symbol_t`: its counters and its definition. Children are indices
      of earlier symbols. */
  datatype Symbol = Symbol(
    posCount: nat,      // positions of the frame holding the symbol
    symCount: nat,      // uses as a child of other symbols
    repCount: nat,      // run length of a repeat; 1 marks a repeated child
    code: uint8,         // the byte of a terminal
    base: nat,          // input offset of the first occurrence
    size: nat,          // size in bytes (of one copy, for a repeat)
    left: Option<nat>,  // left child, or the repeated child
    right: Option<nat>, // right child of a pair symbol
    index: nat)         // rank given by `sym_sort`

  /** The zero-filled record `sym_add` allocates. */
  const Blank: Symbol := Symbol(0, 0, 0, 0, 0, 0, None, None, 0)

  /** A repeat symbol: one child, repeated `repCount` times. */
  predicate IsRepeat(x: Symbol)
  {
    x.left.Some? && x.right.None?
  }

  /** A `position_t`: an offset of the input, the symbol now covering it,
      the pair starting there and whether it waits in the hole list. */
  datatype Position = Position(base: nat, sym: nat, pair: Option<nat>, hole: bool)

  /** A `pair_t`: an ordered pair of symbols and its occurrence count. */
  datatype Pair = Pair(count: nat, left: nat, right: nat)

  /** The whole state: symbol table, frame, pair arena and the pair list. */
  datatype Grammar = Grammar(syms: seq<Symbol>, frame: seq<Position>, pairs: seq<Pair>, live: seq<nat>)

  /** Which of the two readings of the code a crunch follows: the source as
      it stands, or with the guards its own invariants call for. */
  datatype Variant = AsWritten | Corrected

  // ---------------------------------------------------------------------------
  // Expansion

  predicate ChildrenBelow(x: Symbol, s: nat)
  {
    (x.left.Some? ==> x.left.value < s) && (x.right.Some? ==> x.right.value < s)
  }

  /** Every symbol is defined from earlier ones. */
  predicate Acyclic(syms: seq<Symbol>)
  {
    forall s :: 0 <= s < |syms| ==> ChildrenBelow(syms[s], s)
  }

  /** A terminal: a symbol with no children. */
  predicate IsTerminal(x: Symbol)
  {
    x.left.None? && x.right.None?
  }

  predicate AllTerminals(syms: seq<Symbol>)
  {
    forall s :: 0 <= s < |syms| ==> IsTerminal(syms[s])
  }

  lemma {:induction false} TerminalsAcyclic(syms: seq<Symbol>)
    requires AllTerminals(syms)
    ensures Acyclic(syms)
  {
    forall s | 0 <= s < |syms|
      ensures ChildrenBelow(syms[s], s)
    {
      assert IsTerminal(syms[s]);
    }
  }

  /** The bytes symbol `s` stands for. */
  function Expand(syms: seq<Symbol>, s: nat): (r: seq<uint8>)
    requires Acyclic(syms) && s < |syms|
    decreases s
  {
    var x := syms[s];
    assert ChildrenBelow(x, s);
    match x.left
    case None => [x.code]
    case Some(l) =>
      match x.right
      case Some(r) => Expand(syms, l) + Expand(syms, r)
      case None => Repeat(Expand(syms, l), x.repCount)
  }

  /** `y` has the definition of `x`, first offset and size included; the
      counters and the rank may differ. */
  predicate SameDef(x: Symbol, y: Symbol)
  {
    && x.code == y.code && x.left == y.left && x.right == y.right && x.base == y.base && x.size == y.size
    && (IsRepeat(x) ==> x.repCount == y.repCount)
  }

  /** `b` keeps the `repCount` of every symbol of `a`, and the symbols it
      adds after them have none, as `sym_add` leaves them. */
  predicate RepCountsNew(a: seq<Symbol>, b: seq<Symbol>)
  {
    |a| <= |b| && forall t :: 0 <= t < |b| ==> b[t].repCount == if t < |a| then a[t].repCount else 0
  }

  lemma {:induction false} RepCountsNewTrans(a: seq<Symbol>, b: seq<Symbol>, c: seq<Symbol>)
    requires RepCountsNew(a, b) && RepCountsNew(b, c)
    ensures RepCountsNew(a, c)
  {
    forall t | 0 <= t < |c|
      ensures c[t].repCount == if t < |a| then a[t].repCount else 0
    {
      if t < |b| {
        assert b[t].repCount == if t < |a| then a[t].repCount else 0;
      }
    }
  }

  /** `b` keeps the definitions of `a` and may add symbols after them. */
  predicate Extends(a: seq<Symbol>, b: seq<Symbol>)
  {
    |a| <= |b| && forall s :: 0 <= s < |a| ==> SameDef(a[s], b[s])
  }

  /** Tables of terminals whose codes, offsets and sizes agree extend one
      another. */
  lemma {:induction false} TerminalsExtend(a: seq<Symbol>, b: seq<Symbol>)
    requires AllTerminals(a) && AllTerminals(b) && |a| <= |b|
    requires forall s :: 0 <= s < |a| ==> b[s].code == a[s].code && b[s].base == a[s].base && b[s].size == a[s].size
    ensures Extends(a, b)
  {
    forall s | 0 <= s < |a|
      ensures SameDef(a[s], b[s])
    {
      assert IsTerminal(a[s]) && IsTerminal(b[s]);
    }
  }

  /** A table extending the first `r` symbols of `a` keeps them in its own
      first `r`. */
  lemma {:induction false} ExtendsCut(a: seq<Symbol>, b: seq<Symbol>, r: nat)
    requires r <= |a| && Extends(a[..r], b)
    ensures Extends(a[..r], b[..r])
  {
    forall t | 0 <= t < r
      ensures SameDef(a[..r][t], b[..r][t])
    {
      assert SameDef(a[..r][t], b[t]);
    }
  }

  lemma {:induction false} ExtendsTrans(a: seq<Symbol>, b: seq<Symbol>, c: seq<Symbol>)
    requires Extends(a, b) && Extends(b, c)
    ensures Extends(a, c)
  {
    forall s | 0 <= s < |a|
      ensures SameDef(a[s], c[s])
    {
      assert SameDef(a[s], b[s]) && SameDef(b[s], c[s]);
    }
  }

  /** Acyclicity only looks at the definitions. */
  lemma {:induction false} AcyclicStable(a: seq<Symbol>, b: seq<Symbol>)
    requires Acyclic(a) && Extends(a, b) && |a| == |b|
    ensures Acyclic(b)
  {
    forall s | 0 <= s < |b|
      ensures ChildrenBelow(b[s], s)
    {
      assert SameDef(a[s], b[s]) && ChildrenBelow(a[s], s);
    }
  }

  /** Counter updates and appended symbols leave every expansion as it was. */
  lemma {:induction false} ExpandStable(a: seq<Symbol>, b: seq<Symbol>, s: nat)
    requires Acyclic(a) && Acyclic(b) && Extends(a, b) && s < |a|
    ensures Expand(a, s) == Expand(b, s)
    decreases s
  {
    assert SameDef(a[s], b[s]) && ChildrenBelow(a[s], s);
    match a[s].left
    case None =>
    case Some(l) =>
      ExpandStable(a, b, l);
      if a[s].right.Some? {
        ExpandStable(a, b, a[s].right.value);
      }
  }

  /** The symbols of the frame, in order. */
  function Syms(frame: seq<Position>): (fs: seq<nat>)
    ensures |fs| == |frame| && forall k :: 0 <= k < |frame| ==> fs[k] == frame[k].sym
  {
    seq(|frame|, k requires 0 <= k < |frame| => frame[k].sym)
  }

  /** Every symbol of `fs` is in the table. */
  predicate InTable(syms: seq<Symbol>, fs: seq<nat>)
  {
    forall k :: 0 <= k < |fs| ==> fs[k] < |syms|
  }

  /** The bytes a sequence of symbols stands for. */
  function Flat(syms: seq<Symbol>, fs: seq<nat>): (r: seq<uint8>)
    requires Acyclic(syms) && InTable(syms, fs)
  {
    if fs == [] then [] else Flat(syms, fs[..|fs| - 1]) + Expand(syms, fs[|fs| - 1])
  }

  lemma {:induction false} FlatAppend(syms: seq<Symbol>, a: seq<nat>, b: seq<nat>)
    requires Acyclic(syms) && InTable(syms, a) && InTable(syms, b)
    ensures InTable(syms, a + b)
    ensures Flat(syms, a + b) == Flat(syms, a) + Flat(syms, b)
  {
    assert InTable(syms, a + b) by {
      forall k | 0 <= k < |a + b|
        ensures (a + b)[k] < |syms|
      {
        if k < |a| {
          assert (a + b)[k] == a[k];
        } else {
          assert (a + b)[k] == b[k - |a|];
        }
      }
    }
    if b == [] {
      assert a + b == a;
    } else {
      var b1, y := b[..|b| - 1], b[|b| - 1];
      assert (a + b)[..|a + b| - 1] == a + b1;
      assert (a + b)[|a + b| - 1] == y;
      assert InTable(syms, b1) by {
        forall k | 0 <= k < |b1|
          ensures b1[k] < |syms|
        {
          assert b1[k] == b[k];
        }
      }
      FlatAppend(syms, a, b1);
      AppendAssoc(Flat(syms, a), Flat(syms, b1), Expand(syms, y));
    }
  }

  lemma {:induction false} FlatSingle(syms: seq<Symbol>, s: nat)
    requires Acyclic(syms) && s < |syms|
    ensures InTable(syms, [s]) && Flat(syms, [s]) == Expand(syms, s)
  {
    assert [s][..0] == [];
  }

  lemma {:induction false} FlatStable(a: seq<Symbol>, b: seq<Symbol>, fs: seq<nat>)
    requires Acyclic(a) && Acyclic(b) && Extends(a, b) && InTable(a, fs)
    ensures InTable(b, fs) && Flat(a, fs) == Flat(b, fs)
  {
    if fs != [] {
      var f1 := fs[..|fs| - 1];
      assert InTable(a, f1) by {
        forall k | 0 <= k < |f1|
          ensures f1[k] < |a|
        {
          assert f1[k] == fs[k];
        }
      }
      FlatStable(a, b, f1);
      ExpandStable(a, b, fs[|fs| - 1]);
    }
  }

  /** Appending a terminal to a frame, under a table that only grew. */
  lemma {:induction false} FlatPush(a: seq<Symbol>, b: seq<Symbol>, fs: seq<nat>, s: nat)
    requires Acyclic(a) && Acyclic(b) && Extends(a, b) && InTable(a, fs)
    requires s < |b| && b[s].left.None?
    ensures InTable(b, fs + [s]) && Flat(b, fs + [s]) == Flat(a, fs) + [b[s].code]
  {
    FlatStable(a, b, fs);
    FlatSingle(b, s);
    FlatAppend(b, fs, [s]);
  }

  /** Cutting a symbol sequence in three pieces cuts its expansion alike. */
  lemma {:induction false} FlatThree(syms: seq<Symbol>, fs: seq<nat>, i: nat, j: nat)
    requires Acyclic(syms) && InTable(syms, fs) && i <= j <= |fs|
    ensures InTable(syms, fs[..i]) && InTable(syms, fs[i..j]) && InTable(syms, fs[j..])
    ensures Flat(syms, fs) == Flat(syms, fs[..i]) + Flat(syms, fs[i..j]) + Flat(syms, fs[j..])
  {
    var a, b, c := fs[..i], fs[i..j], fs[j..];
    assert InTable(syms, a) by {
      forall k | 0 <= k < |a|
        ensures a[k] < |syms|
      {
        assert a[k] == fs[k];
      }
    }
    assert InTable(syms, b) by {
      forall k | 0 <= k < |b|
        ensures b[k] < |syms|
      {
        assert b[k] == fs[i + k];
      }
    }
    assert InTable(syms, c) by {
      forall k | 0 <= k < |c|
        ensures c[k] < |syms|
      {
        assert c[k] == fs[j + k];
      }
    }
    assert fs == a + b + c;
    FlatAppend(syms, a, b);
    FlatAppend(syms, a + b, c);
  }

  // ---------------------------------------------------------------------------
  // Occurrence bookkeeping

  /** The children every symbol names, in table order. */
  function Children(syms: seq<Symbol>): (r: seq<nat>)
  {
    if syms == [] then [] else Children(syms[..|syms| - 1]) + ChildList(syms[|syms| - 1])
  }

  function ChildList(x: Symbol): (r: seq<nat>)
    ensures |r| <= 2
  {
    (if x.left.Some? then [x.left.value] else []) + (if x.right.Some? then [x.right.value] else [])
  }

  lemma {:induction false} ChildrenLength(syms: seq<Symbol>)
    ensures |Children(syms)| <= 2 * |syms|
  {
    if syms != [] {
      ChildrenLength(syms[..|syms| - 1]);
    }
  }

  /** In an acyclic table every child is a symbol of the table. */
  lemma {:induction false} ChildrenBound(syms: seq<Symbol>)
    requires Acyclic(syms)
    ensures forall j :: 0 <= j < |Children(syms)| ==> Children(syms)[j] < |syms|
  {
    if syms != [] {
      var n := |syms| - 1;
      assert Acyclic(syms[..n]) by {
        forall t | 0 <= t < n
          ensures ChildrenBelow(syms[..n][t], t)
        {
          assert ChildrenBelow(syms[t], t);
        }
      }
      ChildrenBound(syms[..n]);
      assert ChildrenBelow(syms[n], n);
    }
  }

  /** Same-length tables with the same definitions name the same children. */
  lemma {:induction false} ChildrenStable(a: seq<Symbol>, b: seq<Symbol>)
    requires Extends(a, b) && |a| == |b|
    ensures Children(a) == Children(b)
  {
    if a != [] {
      var n := |a| - 1;
      assert Extends(a[..n], b[..n]) by {
        forall s | 0 <= s < n
          ensures SameDef(a[..n][s], b[..n][s])
        {
          assert SameDef(a[s], b[s]);
        }
      }
      ChildrenStable(a[..n], b[..n]);
      assert SameDef(a[n], b[n]);
    }
  }

  /** `symCount` of every symbol is its number of uses as a child. */
  predicate TreeCounts(syms: seq<Symbol>)
  {
    forall s :: 0 <= s < |syms| ==> syms[s].symCount == Occ(Children(syms), s)
  }

  /** `posCount` of every symbol is its number of positions in the frame. */
  predicate CountsMatch(syms: seq<Symbol>, fs: seq<nat>)
  {
    forall s :: 0 <= s < |syms| ==> syms[s].posCount == Occ(fs, s)
  }

  /** A repeat symbol covers at most one position (each run gets its own). */
  predicate RepeatsOnce(syms: seq<Symbol>, fs: seq<nat>)
  {
    forall s :: 0 <= s < |syms| && IsRepeat(syms[s]) ==> Occ(fs, s) <= 1
  }

  /** The pair of the position at `k` is the pair of symbols found there. */
  predicate PairAt(g: Grammar, k: nat)
    requires k < |g.frame| && g.frame[k].pair.Some?
  {
    var p := g.frame[k].pair.value;
    && k + 1 < |g.frame| && p < |g.pairs|
    && g.pairs[p].left == g.frame[k].sym && g.pairs[p].right == g.frame[k + 1].sym
  }

  predicate PairsMatch(g: Grammar)
  {
    forall k :: 0 <= k < |g.frame| && g.frame[k].pair.Some? ==> PairAt(g, k)
  }

  /** The pair handle of every position, in frame order. */
  function Refs(frame: seq<Position>): (rs: seq<Option<nat>>)
    ensures |rs| == |frame| && forall k :: 0 <= k < |frame| ==> rs[k] == frame[k].pair
  {
    seq(|frame|, k requires 0 <= k < |frame| => frame[k].pair)
  }

  /** Every handle in the state refers to something allocated. */
  predicate Indexed(g: Grammar)
  {
    && InTable(g.syms, Syms(g.frame))
    && (forall k :: 0 <= k < |g.frame| && g.frame[k].pair.Some? ==> g.frame[k].pair.value < |g.pairs|)
    && (forall p :: 0 <= p < |g.pairs| ==> g.pairs[p].left < |g.syms| && g.pairs[p].right < |g.syms|)
    && (forall j :: 0 <= j < |g.live| ==> g.live[j] < |g.pairs|)
  }

  /** `pair->count` is the number of positions the pair is found at, and a
      pair is on the pair list exactly while that number is not zero. */
  predicate Counted(g: Grammar)
  {
    forall p :: 0 <= p < |g.pairs| ==>
      && g.pairs[p].count == Occ(Refs(g.frame), Some(p))
      && (p in g.live <==> g.pairs[p].count != 0)
  }

  /** What every operation of the grammar keeps, bar the pairs' agreement
      with the frame (which `crunch_rep` gives up). */
  predicate Wf(g: Grammar)
  {
    && Indexed(g)
    && Acyclic(g.syms)
    && |g.syms| <= SYMBOL_MAX && |g.frame| <= FRAME_MAX
    && CountsMatch(g.syms, Syms(g.frame))
    && TreeCounts(g.syms)
    && RepeatsOnce(g.syms, Syms(g.frame))
    && Counted(g)
  }

  /** The state between `scan_base` and the end of `crunch_word`. */
  predicate Inv(g: Grammar)
  {
    Wf(g) && PairsMatch(g)
  }

  /** A position in the hole list has no pair. */
  predicate HolesFree(g: Grammar)
  {
    forall k :: 0 <= k < |g.frame| && g.frame[k].hole ==> g.frame[k].pair.None?
  }

  /** The last position is in the hole list: it has no successor to pair with. */
  predicate HoleAtEnd(g: Grammar)
  {
    |g.frame| > 0 && g.frame[|g.frame| - 1].hole
  }

  /** The hole discipline: a position waits in the hole list exactly when
      it has no pair yet but a right neighbour to form one with. */
  predicate HoleIff(g: Grammar)
  {
    forall k :: 0 <= k < |g.frame| ==> (g.frame[k].hole <==> g.frame[k].pair.None? && k + 1 < |g.frame|)
  }

  /** The bytes the frame stands for. */
  function Text(g: Grammar): (r: seq<uint8>)
    requires Acyclic(g.syms) && InTable(g.syms, Syms(g.frame))
  {
    Flat(g.syms, Syms(g.frame))
  }

  /** The sum of the `posCount` fields. */
  function SumPos(syms: seq<Symbol>): (r: nat)
  {
    if syms == [] then 0 else SumPos(syms[..|syms| - 1]) + syms[|syms| - 1].posCount
  }

  /** Summed over the table, the occurrences of its symbols number the
      positions that hold one. */
  lemma {:induction false} OccTotal(fs: seq<nat>, n: nat)
    requires forall k :: 0 <= k < |fs| ==> fs[k] < n
    ensures OccSum(fs, n) == |fs|
  {
    if fs == [] {
      OccSumEmpty(n);
    } else {
      var f1, y := fs[..|fs| - 1], fs[|fs| - 1];
      assert fs == f1 + [y];
      OccTotal(f1, n);
      OccSumStep(f1, y, n);
    }
  }

  lemma {:induction false} OccSumEmpty(n: nat)
    ensures OccSum([], n) == 0
  {
    if n > 0 {
      OccSumEmpty(n - 1);
    }
  }

  /** `Occ(fs, 0) + ... + Occ(fs, n - 1)`. */
  function OccSum(fs: seq<nat>, n: nat): (r: nat)
  {
    if n == 0 then 0 else OccSum(fs, n - 1) + Occ(fs, n - 1)
  }

  lemma {:induction false} OccSumStep(fs: seq<nat>, y: nat, n: nat)
    ensures OccSum(fs + [y], n) == OccSum(fs, n) + (if y < n then 1 else 0)
  {
    if n > 0 {
      OccSumStep(fs, y, n - 1);
      OccAppend(fs, [y], n - 1);
      OccSingle(y, n - 1);
    }
  }

  lemma {:induction false} SumPosIsOccSum(syms: seq<Symbol>, fs: seq<nat>, n: nat)
    requires n <= |syms| && forall s :: 0 <= s < n ==> syms[s].posCount == Occ(fs, s)
    ensures SumPos(syms[..n]) == OccSum(fs, n)
  {
    if n > 0 {
      assert syms[..n][..n - 1] == syms[..n - 1];
      SumPosIsOccSum(syms, fs, n - 1);
    }
  }

  /** `pos_count`, the frame length, is the sum of the symbols' `pos_count`. */
  lemma {:induction false} PosCountTotal(g: Grammar)
    requires Wf(g)
    ensures SumPos(g.syms) == |g.frame|
  {
    var fs := Syms(g.frame);
    SumPosIsOccSum(g.syms, fs, |g.syms|);
    assert g.syms[..|g.syms|] == g.syms;
    OccTotal(fs, |g.syms|);
  }

  /** Updating one index changes the count of the old and the new value only. */
  lemma {:induction false} OccUpdate<T>(s: seq<T>, j: nat, y: T, x: T)
    requires j < |s|
    ensures Occ(s[j := y], x) == Occ(s, x) - (if s[j] == x then 1 else 0) + (if y == x then 1 else 0)
  {
    assert s[j := y] == s[..j] + [y] + s[j + 1..];
    OccSplice(s, j, j + 1, [y], x);
    assert s[j..j + 1] == [s[j]];
    OccSingle(s[j], x);
    OccSingle(y, x);
  }

  /** Sequences that agree on where `x` and `y` occur count them alike. */
  lemma {:induction false} OccPointwise<T, U>(a: seq<T>, x: T, b: seq<U>, y: U)
    requires |a| == |b| && forall k :: 0 <= k < |a| ==> (a[k] == x <==> b[k] == y)
    ensures Occ(a, x) == Occ(b, y)
  {
    if a != [] {
      var n := |a| - 1;
      OccPointwise(a[..n], x, b[..n], y);
    }
  }

  // ---------------------------------------------------------------------------
  // sym_add, hole_add, dec_pair

  /** `sym_add`: a zero-filled symbol appended at the tail of the table,
      fatal once the table holds `SYMBOL_MAX` symbols. */
  function SymAdd(syms: seq<Symbol>): (r: Result<(seq<Symbol>, nat)>)
    ensures r.Err? <==> |syms| >= SYMBOL_MAX
    ensures r.Err? ==> r.error == TooManySymbols
    ensures r.Ok? ==> r.value == (syms + [Blank], |syms|)
  {
    if |syms| >= SYMBOL_MAX then Err(TooManySymbols) else Ok((syms + [Blank], |syms|))
  }

  /** `hole_add`: the position joins the hole list. */
  function HoleAdd(p: Position): (r: Position)
    ensures r.hole && r.(hole := p.hole) == p
  {
    p.(hole := true)
  }

  /** `s` without any occurrence of `x`, the rest in order. */
  function Without(s: seq<nat>, x: nat): (r: seq<nat>)
    ensures forall y :: y in r <==> y in s && y != x
    ensures |r| <= |s|
    ensures x !in s ==> r == s
  {
    if s == [] then []
    else if s[0] == x then Without(s[1..], x)
    else [s[0]] + Without(s[1..], x)
  }

  /** `list_remove` on a list holding `x` once: the nodes before it and the
      nodes after it, joined in order. */
  lemma {:induction false} WithoutSplit(a: seq<nat>, b: seq<nat>, x: nat)
    requires x !in a && x !in b
    ensures Without(a + [x] + b, x) == a + b
    decreases |a|
  {
    var s := a + [x] + b;
    if a == [] {
      assert s == [x] + b && s[1..] == b;
    } else {
      assert s[0] == a[0] && s[1..] == a[1..] + [x] + b;
      WithoutSplit(a[1..], b, x);
      assert a == [a[0]] + a[1..];
    }
  }

  /** The elements of `s` that occur in `t`, in the order of `s`. */
  function Retained(s: seq<nat>, t: seq<nat>): (r: seq<nat>)
    ensures |r| <= |s|
  {
    if s == [] then []
    else if s[0] in t then [s[0]] + Retained(s[1..], t)
    else Retained(s[1..], t)
  }

  /** `Retained` holds exactly the elements of `s` found in `t`. */
  lemma {:induction false} RetainedIn(s: seq<nat>, t: seq<nat>)
    ensures forall y :: y in Retained(s, t) <==> y in s && y in t
    decreases |s|
  {
    if s != [] {
      RetainedIn(s[1..], t);
      assert s == [s[0]] + s[1..];
    }
  }

  /** Keeping everything keeps the list as it is. */
  lemma {:induction false} RetainedAll(s: seq<nat>, t: seq<nat>)
    requires forall y :: y in s ==> y in t
    ensures Retained(s, t) == s
    decreases |s|
  {
    if s != [] {
      assert s[0] in s;
      assert forall y :: y in s[1..] ==> y in s;
      RetainedAll(s[1..], t);
      assert s == [s[0]] + s[1..];
    }
  }

  /** Keeping all but `x` is removing `x`. */
  lemma {:induction false} RetainedWithout(s: seq<nat>, t: seq<nat>, x: nat)
    requires forall y :: y in s ==> (y in t <==> y != x)
    ensures Retained(s, t) == Without(s, x)
    decreases |s|
  {
    if s != [] {
      assert s[0] in s;
      assert forall y :: y in s[1..] ==> y in s;
      RetainedWithout(s[1..], t, x);
    }
  }

  /** Two filterings in a row, the second finer than the first, are the
      second alone. */
  lemma {:induction false} RetainedTrans(a: seq<nat>, b: seq<nat>, c: seq<nat>)
    requires forall y :: y in c ==> y in b
    ensures Retained(Retained(a, b), c) == Retained(a, c)
    decreases |a|
  {
    if a != [] {
      RetainedTrans(a[1..], b, c);
      if a[0] in b {
        var r := Retained(a, b);
        assert r == [a[0]] + Retained(a[1..], b) && r[0] == a[0] && r[1..] == Retained(a[1..], b);
      }
    }
  }

  /** `dec_pair`: one occurrence fewer (in `uint_t` arithmetic); the pair
      leaves the pair list when its count reaches zero. A null pair is
      dereferenced, which is fatal. */
  function DecPair(g: Grammar, pair: Option<nat>): (r: Result<Grammar>)
    requires pair.Some? ==> pair.value < |g.pairs|
    ensures r.Err? <==> pair.None?
    ensures r.Err? ==> r.error == NullPair
    ensures r.Ok? ==>
              var p, h := pair.value, r.value;
              && h.syms == g.syms && h.frame == g.frame && |h.pairs| == |g.pairs|
              && (forall q :: 0 <= q < |g.pairs| && q != p ==> h.pairs[q] == g.pairs[q])
              && h.pairs[p].left == g.pairs[p].left && h.pairs[p].right == g.pairs[p].right
              && (1 <= g.pairs[p].count <= UINT_MOD ==> h.pairs[p].count == g.pairs[p].count - 1)
              && (p in h.live <==> p in g.live && h.pairs[p].count != 0)
              && (forall q :: q != p ==> (q in h.live <==> q in g.live))
              && (h.pairs[p].count == 0 ==> h.live == Without(g.live, p))
              && (h.pairs[p].count != 0 ==> h.live == g.live)
  {
    match pair
    case None => Err(NullPair)
    case Some(p) =>
      var c := Dec32(g.pairs[p].count);
      var pairs := g.pairs[p := g.pairs[p].(count := c)];
      Ok(g.(pairs := pairs, live := if c == 0 then Without(g.live, p) else g.live))
  }

  lemma {:induction false} DecPairIndexed(g: Grammar, pair: Option<nat>)
    requires Indexed(g) && (pair.Some? ==> pair.value < |g.pairs|)
    ensures DecPair(g, pair).Ok? ==> Indexed(DecPair(g, pair).value)
  {
    if pair.Some? {
      var h := DecPair(g, pair).value;
      forall j | 0 <= j < |h.live|
        ensures h.live[j] < |h.pairs|
      {
        assert h.live[j] in h.live;
      }
      forall p | 0 <= p < |h.pairs|
        ensures h.pairs[p].left < |h.syms| && h.pairs[p].right < |h.syms|
      {
        assert g.pairs[p].left < |g.syms| && g.pairs[p].right < |g.syms|;
      }
    }
  }
}

=== FILE: list.dfy ===
/** The circular doubly-linked list of list.c with a sentinel root node.
    Memory is a map from node addresses to their two links; a list is
    described by the sequence of its nodes after the root, and `Valid`
    couples the two: following `next` from the root visits the sequence
    and comes back to the root, and `prev` retraces the same ring. */
module CircularList {

  type Node = nat

  /** A `list_node_s`: the `prev` and `next` pointers. */
  datatype Link = Link(prev: Node, next: Node)

  /** Every allocated list node with its links. */
  type Heap = map<Node, Link>

  /** Index of the successor of index `i` on a ring of `n` nodes. */
  function Succ(i: nat, n: nat): (r: nat)
    requires i < n
  {
    if i + 1 == n then 0 else i + 1
  }

  /** The ring `c` is laid out in `h`: its nodes are allocated and
      distinct, each `next` leads to the following node and each `prev`
      of that node leads back, the last node closing the ring. */
  predicate Ring(h: Heap, c: seq<Node>)
  {
    && |c| >= 1
    && (forall i, j :: 0 <= i < j < |c| ==> c[i] != c[j])
    && (forall i :: 0 <= i < |c| ==> RingLink(h, c, i))
  }

  /** Index `i` of the ring is allocated, its `next` is index `i + 1`
      (cyclically) and that node's `prev` leads back. */
  predicate RingLink(h: Heap, c: seq<Node>, i: nat)
    requires i < |c|
  {
    && c[i] in h && c[Succ(i, |c|)] in h
    && h[c[i]].next == c[Succ(i, |c|)]
    && h[c[Succ(i, |c|)]].prev == c[i]
  }

  /** The list rooted at `root` holds `xs`, first to last. */
  predicate Valid(h: Heap, root: Node, xs: seq<Node>)
  {
    Ring(h, [root] + xs)
  }

  // ---------------------------------------------------------------------------
  // Operations

  function SetNext(h: Heap, n: Node, v: Node): (r: Heap)
    requires n in h
    ensures r.Keys == h.Keys
  {
    h[n := h[n].(next := v)]
  }

  function SetPrev(h: Heap, n: Node, v: Node): (r: Heap)
    requires n in h
    ensures r.Keys == h.Keys
  {
    h[n := h[n].(prev := v)]
  }

  /** `list_init`: the root points to itself both ways. */
  function ListInit(h: Heap, root: Node): (r: Heap)
    requires root in h
    ensures Valid(r, root, [])
    ensures r.Keys == h.Keys
    ensures forall n :: n in h && n != root ==> r[n] == h[n]
  {
    var r := SetNext(SetPrev(h, root, root), root, root);
    assert [root] + [] == [root];
    r
  }

  /** The `LIST_LINK` macro: its four stores, in their order. With `node`
      distinct from both neighbours, `node` ends up between them and
      nothing else changes. */
  function LinkNodes(h: Heap, prev: Node, node: Node, next: Node): (r: Heap)
    requires prev in h && node in h && next in h
    ensures r.Keys == h.Keys
    ensures node != prev && node != next ==>
              forall n :: n in h ==>
                && r[n].next == (if n == node then next else if n == prev then node else h[n].next)
                && r[n].prev == (if n == node then prev else if n == next then node else h[n].prev)
  {
    var h1 := SetNext(h, prev, node);
    var h2 := SetPrev(h1, node, prev);
    var h3 := SetPrev(h2, next, node);
    SetNext(h3, node, next)
  }

  /** `insert_before`: link `node` between `next` and its predecessor. */
  function InsertBefore(h: Heap, next: Node, node: Node): (r: Heap)
    requires next in h && h[next].prev in h && node in h
    ensures r.Keys == h.Keys
    ensures node != h[next].prev && node != next ==>
              forall n :: n in h && n != node && n != next && n != h[next].prev ==> r[n] == h[n]
  {
    LinkNodes(h, h[next].prev, node, next)
  }

  /** `insert_after`: link `node` between `prev` and its successor. */
  function InsertAfter(h: Heap, prev: Node, node: Node): (r: Heap)
    requires prev in h && h[prev].next in h && node in h
    ensures r.Keys == h.Keys
    ensures node != prev && node != h[prev].next ==>
              forall n :: n in h && n != node && n != prev && n != h[prev].next ==> r[n] == h[n]
  {
    LinkNodes(h, prev, node, h[prev].next)
  }

  /** `list_add_tail`: insert before the root, that is at the end. */
  function AddTail(h: Heap, root: Node, node: Node): (r: Heap)
    requires root in h && h[root].prev in h && node in h
    ensures r.Keys == h.Keys
  {
    InsertBefore(h, root, node)
  }

  /** `list_add_head`: insert after the root, that is at the front. */
  function AddHead(h: Heap, root: Node, node: Node): (r: Heap)
    requires root in h && h[root].next in h && node in h
    ensures r.Keys == h.Keys
  {
    InsertAfter(h, root, node)
  }

  /** `list_remove`: make the neighbours of `node` point to each other;
      `node` keeps its own links. */
  function Remove(h: Heap, node: Node): (r: Heap)
    requires node in h && h[node].prev in h && h[node].next in h
    ensures r.Keys == h.Keys
    ensures node != h[node].prev && node != h[node].next ==> r[node] == h[node]
    ensures forall n :: n in h && n != h[node].prev && n != h[node].next ==> r[n] == h[n]
  {
    var prev, next := h[node].prev, h[node].next;
    SetPrev(SetNext(h, prev, next), next, prev)
  }

  // ---------------------------------------------------------------------------
  // Refinement: the operations on the abstract sequence

  /** The node before abstract slot `j` of the list (the root for slot 0). */
  function Before(root: Node, xs: seq<Node>, j: nat): (n: Node)
    requires j <= |xs|
  {
    if j == 0 then root else xs[j - 1]
  }

  /** The node at abstract slot `j` (the root past the end). */
  function At(root: Node, xs: seq<Node>, j: nat): (n: Node)
    requires j <= |xs|
  {
    if j < |xs| then xs[j] else root
  }

  /** `xs` with `node` put in slot `j`. */
  function InsertAt(xs: seq<Node>, j: nat, node: Node): (r: seq<Node>)
    requires j <= |xs|
    ensures |r| == |xs| + 1
  {
    xs[..j] + [node] + xs[j..]
  }

  /** `xs` without slot `j`. */
  function RemoveAt(xs: seq<Node>, j: nat): (r: seq<Node>)
    requires j < |xs|
    ensures |r| == |xs| - 1
  {
    xs[..j] + xs[j + 1..]
  }

  /** In a valid list the links of slot `j` are those of the sequence. */
  lemma {:induction false} Neighbours(h: Heap, root: Node, xs: seq<Node>, j: nat)
    requires Valid(h, root, xs) && j <= |xs|
    ensures Before(root, xs, j) in h && At(root, xs, j) in h
    ensures h[Before(root, xs, j)].next == At(root, xs, j)
    ensures h[At(root, xs, j)].prev == Before(root, xs, j)
    ensures Before(root, xs, j) in [root] + xs && At(root, xs, j) in [root] + xs
  {
    var c := [root] + xs;
    assert c[j] == Before(root, xs, j);
    assert c[Succ(j, |c|)] == At(root, xs, j);
    assert RingLink(h, c, j);
  }

  /** `insert_before` on the node at slot `j` of a valid list puts the new
      node in slot `j`. */
  lemma {:induction false} InsertBeforeRefines(h: Heap, root: Node, xs: seq<Node>, j: nat, node: Node)
    requires Valid(h, root, xs) && j <= |xs| && node in h && node !in [root] + xs
    ensures At(root, xs, j) in h && h[At(root, xs, j)].prev in h
    ensures Valid(InsertBefore(h, At(root, xs, j), node), root, InsertAt(xs, j, node))
  {
    Neighbours(h, root, xs, j);
    LinkRefines(h, root, xs, j, node);
  }

  /** `insert_after` on the node before slot `j` puts the new node in
      slot `j`. */
  lemma {:induction false} InsertAfterRefines(h: Heap, root: Node, xs: seq<Node>, j: nat, node: Node)
    requires Valid(h, root, xs) && j <= |xs| && node in h && node !in [root] + xs
    ensures Before(root, xs, j) in h && h[Before(root, xs, j)].next in h
    ensures Valid(InsertAfter(h, Before(root, xs, j), node), root, InsertAt(xs, j, node))
  {
    Neighbours(h, root, xs, j);
    LinkRefines(h, root, xs, j, node);
  }

  /** `list_add_tail` appends. */
  lemma {:induction false} AddTailRefines(h: Heap, root: Node, xs: seq<Node>, node: Node)
    requires Valid(h, root, xs) && node in h && node !in [root] + xs
    ensures root in h && h[root].prev in h
    ensures Valid(AddTail(h, root, node), root, xs + [node])
  {
    InsertBeforeRefines(h, root, xs, |xs|, node);
    assert InsertAt(xs, |xs|, node) == xs + [node];
  }

  /** `list_add_head` prepends. */
  lemma {:induction false} AddHeadRefines(h: Heap, root: Node, xs: seq<Node>, node: Node)
    requires Valid(h, root, xs) && node in h && node !in [root] + xs
    ensures root in h && h[root].next in h
    ensures Valid(AddHead(h, root, node), root, [node] + xs)
  {
    InsertAfterRefines(h, root, xs, 0, node);
    assert InsertAt(xs, 0, node) == [node] + xs;
  }

  /** `list_remove` on the node in slot `j` deletes that slot and keeps
      the order of the others. */
  lemma {:induction false} RemoveRefines(h: Heap, root: Node, xs: seq<Node>, j: nat)
    requires Valid(h, root, xs) && j < |xs|
    ensures xs[j] in h && h[xs[j]].prev in h && h[xs[j]].next in h
    ensures Valid(Remove(h, xs[j]), root, RemoveAt(xs, j))
    ensures Remove(h, xs[j])[xs[j]] == h[xs[j]]
  {
    Neighbours(h, root, xs, j);
    Neighbours(h, root, xs, j + 1);
    var c := [root] + xs;
    assert xs[j] == c[j + 1] && root == c[0];
    UnlinkRefines(h, c, j + 1);
    assert [root] + RemoveAt(xs, j) == c[..j + 1] + c[j + 2..];
  }

  /** Removing a node just inserted gives back the links of every other
      node. */
  lemma {:induction false} InsertRemoveInverse(h: Heap, root: Node, xs: seq<Node>, j: nat, node: Node)
    requires Valid(h, root, xs) && j <= |xs| && node in h && node !in [root] + xs
    ensures At(root, xs, j) in h && h[At(root, xs, j)].prev in h
    ensures var h1 := InsertBefore(h, At(root, xs, j), node);
            && h1[node].prev in h1 && h1[node].next in h1
            && forall n :: n in h && n != node ==> Remove(h1, node)[n] == h[n]
  {
    InsertBeforeRefines(h, root, xs, j, node);
    Neighbours(h, root, xs, j);
    var p, q := Before(root, xs, j), At(root, xs, j);
    assert node != p && node != q;
    var h1 := InsertBefore(h, q, node);
    assert h1 == LinkNodes(h, p, node, q);
    assert h1[node].prev == p && h1[node].next == q;
    forall n | n in h && n != node
      ensures Remove(h1, node)[n] == h[n]
    {
      if n == p {
        assert Remove(h1, node)[n].next == q;
      }
      if n == q {
        assert Remove(h1, node)[n].prev == p;
      }
    }
  }

  /** The sequence a valid list describes is determined by the links. */
  lemma {:induction false} ValidUnique(h: Heap, root: Node, xs: seq<Node>, ys: seq<Node>)
    requires Valid(h, root, xs) && Valid(h, root, ys)
    ensures xs == ys
  {
    var c, d := [root] + xs, [root] + ys;
    var k := 0;
    while k < |c| && k < |d|
      invariant 0 <= k <= |c| && k <= |d|
      invariant c[..k] == d[..k]
    {
      if k > 0 {
        RingSuccessor(h, c, d, k - 1);
      }
      k := k + 1;
    }
    if |c| <= |d| {
      assert c == c[..k];
      RingClosed(h, c, d);
    } else {
      assert d == d[..k];
      RingClosed(h, d, c);
    }
    assert xs == c[1..] && ys == d[1..];
  }

  /** Two rings through the same node at the same index agree on the next
      index when both continue. */
  lemma {:induction false} RingSuccessor(h: Heap, c: seq<Node>, d: seq<Node>, i: nat)
    requires Ring(h, c) && Ring(h, d) && i + 1 < |c| && i + 1 < |d| && c[i] == d[i]
    ensures c[i + 1] == d[i + 1]
  {
    assert RingLink(h, c, i) && RingLink(h, d, i);
  }

  /** A ring that starts like another ring, and is no longer, is that
      ring: a shorter one would close early. */
  lemma {:induction false} RingClosed(h: Heap, c: seq<Node>, d: seq<Node>)
    requires Ring(h, c) && Ring(h, d) && |c| <= |d| && c == d[..|c|]
    ensures c == d
  {
    var n := |c| - 1;
    assert RingLink(h, c, n) && RingLink(h, d, n);
    assert d[0] == c[0] && d[n] == c[n];
  }

  // ---------------------------------------------------------------------------
  // Ring surgery

  lemma {:induction false} LinkRefines(h: Heap, root: Node, xs: seq<Node>, j: nat, node: Node)
    requires Valid(h, root, xs) && j <= |xs| && node in h && node !in [root] + xs
    requires Before(root, xs, j) in h && At(root, xs, j) in h
    ensures Valid(LinkNodes(h, Before(root, xs, j), node, At(root, xs, j)), root, InsertAt(xs, j, node))
  {
    var c := [root] + xs;
    assert c[j] == Before(root, xs, j);
    assert c[Succ(j, |c|)] == At(root, xs, j);
    RingInsert(h, c, j, node);
    assert [root] + InsertAt(xs, j, node) == c[..j + 1] + [node] + c[j + 1..];
  }

  /** Linking `node` after index `k` of a ring gives the ring with `node`
      in index `k + 1`. */
  lemma {:induction false} RingInsert(h: Heap, c: seq<Node>, k: nat, node: Node)
    requires Ring(h, c) && k < |c| && node in h && node !in c
    requires c[k] in h && c[Succ(k, |c|)] in h
    ensures Ring(LinkNodes(h, c[k], node, c[Succ(k, |c|)]), c[..k + 1] + [node] + c[k + 1..])
  {
    var r := LinkNodes(h, c[k], node, c[Succ(k, |c|)]);
    var d := c[..k + 1] + [node] + c[k + 1..];
    forall i | 0 <= i < |d|
      ensures RingLink(r, d, i)
    {
      InsertedLink(h, c, k, node, i);
    }
    forall i, j | 0 <= i < j < |d|
      ensures d[i] != d[j]
    {
      InsertedIndex(c, k, node, i);
      InsertedIndex(c, k, node, j);
    }
  }

  lemma {:induction false} InsertedLink(h: Heap, c: seq<Node>, k: nat, node: Node, i: nat)
    requires Ring(h, c) && k < |c| && node in h && node !in c && i <= |c|
    requires c[k] in h && c[Succ(k, |c|)] in h
    ensures RingLink(LinkNodes(h, c[k], node, c[Succ(k, |c|)]), c[..k + 1] + [node] + c[k + 1..], i)
  {
    var n := |c|;
    var p, q := c[k], c[Succ(k, n)];
    assert RingLink(h, c, k);
    var r := LinkNodes(h, p, node, q);
    var d := c[..k + 1] + [node] + c[k + 1..];
    var s := Succ(i, n + 1);
    InsertedIndex(c, k, node, i);
    InsertedIndex(c, k, node, s);
    if i == k {
      assert d[i] == p && d[s] == node;
    } else if i == k + 1 {
      assert d[i] == node;
      assert d[s] == q;
    } else {
      var i1 := if i < k then i else i - 1;
      assert d[i] == c[i1];
      assert RingLink(h, c, i1);
      assert d[s] == c[Succ(i1, n)];
      assert c[i1] != p;
      assert Succ(i1, n) != Succ(k, n);
    }
  }

  lemma {:induction false} InsertedIndex(c: seq<Node>, k: nat, node: Node, i: nat)
    requires k < |c| && i < |c| + 1
    ensures var d := c[..k + 1] + [node] + c[k + 1..];
            && (i <= k ==> d[i] == c[i])
            && (i == k + 1 ==> d[i] == node)
            && (i > k + 1 ==> d[i] == c[i - 1])
  {
  }

  /** Unlinking index `k` (not the root) of a ring closes the gap. */
  lemma {:induction false} UnlinkRefines(h: Heap, c: seq<Node>, k: nat)
    requires Ring(h, c) && 0 < k < |c|
    ensures c[k] in h && h[c[k]].prev in h && h[c[k]].next in h
    ensures Ring(Remove(h, c[k]), c[..k] + c[k + 1..])
    ensures Remove(h, c[k])[c[k]] == h[c[k]]
  {
    assert RingLink(h, c, k - 1) && RingLink(h, c, k);
    var r := Remove(h, c[k]);
    var d := c[..k] + c[k + 1..];
    forall i | 0 <= i < |d|
      ensures RingLink(r, d, i)
    {
      UnlinkedLink(h, c, k, i);
    }
    forall i, j | 0 <= i < j < |d|
      ensures d[i] != d[j]
    {
      RemovedIndex(c, k, i);
      RemovedIndex(c, k, j);
    }
  }

  lemma {:induction false} UnlinkedLink(h: Heap, c: seq<Node>, k: nat, i: nat)
    requires Ring(h, c) && 0 < k < |c| && i < |c| - 1
    ensures c[k] in h && h[c[k]].prev in h && h[c[k]].next in h
    ensures RingLink(Remove(h, c[k]), c[..k] + c[k + 1..], i)
  {
    var n := |c|;
    assert RingLink(h, c, k - 1) && RingLink(h, c, k);
    var p, q := c[k - 1], c[Succ(k, n)];
    var d := c[..k] + c[k + 1..];
    var s := Succ(i, n - 1);
    RemovedIndex(c, k, i);
    RemovedIndex(c, k, s);
    if i == k - 1 {
      assert d[i] == p && d[s] == q;
    } else {
      var i1 := if i < k - 1 then i else i + 1;
      assert d[i] == c[i1];
      assert RingLink(h, c, i1);
      assert d[s] == c[Succ(i1, n)];
      assert c[i1] != p;
      assert Succ(i1, n) != Succ(k, n);
    }
  }

  lemma {:induction false} RemovedIndex(c: seq<Node>, k: nat, i: nat)
    requires k < |c| && i < |c| - 1
    ensures var d := c[..k] + c[k + 1..];
            && (i < k ==> d[i] == c[i])
            && (i >= k ==> d[i] == c[i + 1])
  {
  }
}

=== FILE: scan.dfy ===
/** `scan_base` and `scan_pair` of symbol.c: building the terminals and the
    positions of a frame, and grouping the holes into pairs. */
module Scan {
  import opened Common
  import opened Grammar

  // ---------------------------------------------------------------------------
  // scan_base

  /** `index_sym` as `scan_base` uses it: the terminal of each byte code. */
  type Table = t: seq<Option<nat>> | |t| == CODE_MAX witness seq(CODE_MAX, _ => None)

  predicate Has(t: Table, b: uint8)
  {
    t[b].Some?
  }

  /** The terminal recorded for `b`. */
  function At(t: Table, b: uint8): (s: nat)
    requires Has(t, b)
  {
    t[b].value
  }

  /** Every terminal recorded in `t` is in a table of `n` symbols. */
  predicate Below(t: Table, n: nat)
  {
    forall c :: 0 <= c < CODE_MAX && t[c].Some? ==> t[c].value < n
  }

  /** `scan_base` over the first `n` bytes of `data`: the terminals met so
      far, one position per byte, and the byte-to-terminal table the C code
      keeps in `index_sym`. */
  function BaseUpTo(data: seq<uint8>, n: nat): (r: (Grammar, Table))
    requires n <= |data| <= FRAME_MAX
    ensures |r.0.syms| <= n && |r.0.frame| == n && r.0.pairs == [] && r.0.live == []
    ensures Below(r.1, |r.0.syms|)
    decreases n
  {
    if n == 0 then (Grammar([], [], [], []), seq(CODE_MAX, _ => None))
    else
      var (g, t) := BaseUpTo(data, n - 1);
      AddByte(g, t, n - 1, data[n - 1], n < |data|)
  }

  /** One turn of `scan_base`'s loop: byte `b` at offset `i`, with a hole
      unless it is the last byte. A byte met for the first time gets a new
      terminal. */
  function AddByte(g: Grammar, t: Table, i: nat, b: uint8, hole: bool): (r: (Grammar, Table))
    requires |g.syms| < SYMBOL_MAX && Below(t, |g.syms|)
    ensures |r.0.syms| == |g.syms| + (if Has(t, b) then 0 else 1)
    ensures r.0.pairs == g.pairs && r.0.live == g.live
    ensures Below(r.1, |r.0.syms|)
    ensures Has(r.1, b) && r.0.frame == g.frame + [Position(i, At(r.1, b), None, hole)]
    ensures Has(t, b) ==> r.1 == t && r.0.syms == Count(g.syms, At(t, b))
    ensures !Has(t, b) ==> && r.1 == t[b := Some(|g.syms|)]
                           && r.0.syms == Count(g.syms + [Terminal(b, i)], |g.syms|)
  {
    if Has(t, b) then
      var s := At(t, b);
      (g.(syms := Count(g.syms, s), frame := g.frame + [Position(i, s, None, hole)]), t)
    else
      var added := SymAdd(g.syms).value;
      var s := added.1;
      var syms2 := added.0[s := Terminal(b, i)];
      assert syms2 == g.syms + [Terminal(b, i)];
      (g.(syms := Count(syms2, s), frame := g.frame + [Position(i, s, None, hole)]), t[b := Some(s)])
  }

  /** The fields `scan_base` fills in a new terminal. */
  function Terminal(b: uint8, i: nat): (x: Symbol)
    ensures x.left.None? && x.right.None? && x.code == b && x.base == i && x.size == 1
    ensures x.posCount == 0 && x.symCount == 0 && x.repCount == 0 && x.index == 0
  {
    Blank.(code := b, base := i, size := 1)
  }

  /** `sym->pos_count++`. */
  function Count(syms: seq<Symbol>, s: nat): (r: seq<Symbol>)
    requires s < |syms|
    ensures r == syms[s := syms[s].(posCount := Inc32(syms[s].posCount))]
  {
    syms[s := syms[s].(posCount := Inc32(syms[s].posCount))]
  }

  /** `scan_base`: the state for a fresh input frame. */
  function ScanBase(data: seq<uint8>): (g: Grammar)
    requires |data| <= FRAME_MAX
  {
    BaseUpTo(data, |data|).0
  }

  /** A terminal for byte `b`, first met at offset `i`, holding `c` positions. */
  predicate TerminalOf(x: Symbol, data: seq<uint8>, n: nat)
    requires n <= |data|
  {
    && IsTerminal(x) && x.size == 1
    && x.symCount == 0 && x.repCount == 0 && x.index == 0
    && x.base < n && data[x.base] == x.code
    && (forall k :: 0 <= k < x.base ==> data[k] != x.code)
    && x.posCount == Occ(data[..n], x.code)
  }

  /** What `BaseUpTo(data, n)` has built. */
  predicate BaseInv(data: seq<uint8>, n: nat, g: Grammar, t: Table)
    requires n <= |data|
  {
    && |g.frame| == n && g.pairs == [] && g.live == []
    && (forall s :: 0 <= s < |g.syms| ==> TerminalOf(g.syms[s], data, n))
    && TableOk(g.syms, t)
    && FrameOk(data, n, g.frame, t)
    && Acyclic(g.syms) && InTable(g.syms, Syms(g.frame))
    && Flat(g.syms, Syms(g.frame)) == data[..n]
  }

  /** `t` maps each byte with a terminal to that terminal. */
  predicate TableOk(syms: seq<Symbol>, t: Table)
  {
    && (forall s :: 0 <= s < |syms| ==> Has(t, syms[s].code) && At(t, syms[s].code) == s)
    && (forall c :: 0 <= c < CODE_MAX && t[c].Some? ==> t[c].value < |syms| && syms[t[c].value].code == c)
  }

  /** One position per byte, holding the byte's terminal. */
  predicate FrameOk(data: seq<uint8>, n: nat, frame: seq<Position>, t: Table)
    requires n <= |data|
  {
    && |frame| == n
    && forall k :: 0 <= k < n ==> Has(t, data[k]) && frame[k] == Position(k, At(t, data[k]), None, k + 1 < |data|)
  }

  lemma {:induction false} BaseStep(data: seq<uint8>, n: nat, g: Grammar, t: Table)
    requires 0 < n <= |data| <= FRAME_MAX && BaseInv(data, n - 1, g, t) && |g.syms| < n
    ensures |g.syms| < SYMBOL_MAX && Below(t, |g.syms|)
    ensures var (g', t') := AddByte(g, t, n - 1, data[n - 1], n < |data|);
            BaseInv(data, n, g', t')
  {
    var (g', t') := AddByte(g, t, n - 1, data[n - 1], n < |data|);
    TermsStep(data, n, g, t);
    TableStep(data, n, g, t);
    FrameStep(data, n, g, t);
    TerminalsOf(data, n - 1, g.syms);
    TerminalsOf(data, n, g'.syms);
    BaseStepText(data, n, g, t);
  }

  lemma {:induction false} TermsStep(data: seq<uint8>, n: nat, g: Grammar, t: Table)
    requires 0 < n <= |data| && |g.syms| < n <= FRAME_MAX && Below(t, |g.syms|)
    requires forall s :: 0 <= s < |g.syms| ==> TerminalOf(g.syms[s], data, n - 1)
    requires TableOk(g.syms, t) && FrameOk(data, n - 1, g.frame, t)
    ensures var g' := AddByte(g, t, n - 1, data[n - 1], n < |data|).0;
            forall s :: 0 <= s < |g'.syms| ==> TerminalOf(g'.syms[s], data, n)
  {
    var i, b := n - 1, data[n - 1];
    var g' := AddByte(g, t, i, b, n < |data|).0;
    assert data[..n][..i] == data[..i];
    forall s | 0 <= s < |g'.syms|
      ensures TerminalOf(g'.syms[s], data, n)
    {
      var x := g'.syms[s];
      OccAppendLast(data, n, x.code);
      if s < |g.syms| {
        assert TerminalOf(g.syms[s], data, i);
        assert x.code == g.syms[s].code;
        assert Has(t, b) && s == At(t, b) ==> x.code == b;
      } else {
        assert !Has(t, b);
        forall k | 0 <= k < i
          ensures data[k] != b
        {
          assert Has(t, data[k]);
        }
        Occ0(data[..i], b);
      }
    }
  }

  lemma {:induction false} TableStep(data: seq<uint8>, n: nat, g: Grammar, t: Table)
    requires 0 < n <= |data| && |g.syms| < n <= FRAME_MAX && Below(t, |g.syms|)
    requires TableOk(g.syms, t)
    ensures var r := AddByte(g, t, n - 1, data[n - 1], n < |data|);
            TableOk(r.0.syms, r.1)
  {
    var b := data[n - 1];
    var r := AddByte(g, t, n - 1, b, n < |data|);
    var syms, t' := r.0.syms, r.1;
    if Has(t, b) {
      var s0 := At(t, b);
      assert t' == t && syms == g.syms[s0 := g.syms[s0].(posCount := Inc32(g.syms[s0].posCount))];
      assert forall x :: 0 <= x < |syms| ==> syms[x].code == g.syms[x].code;
      TableOkCodes(g.syms, syms, t);
    } else {
      var N := |g.syms|;
      assert t' == t[b := Some(N)];
      var ext := g.syms + [Terminal(b, n - 1)];
      assert syms == ext[N := ext[N].(posCount := Inc32(ext[N].posCount))];
      assert forall x :: 0 <= x < N ==> syms[x].code == g.syms[x].code;
      assert syms[N].code == b;
      TableOkNew(g.syms, syms, t, b);
    }
  }

  lemma {:induction false} TableOkCodes(syms: seq<Symbol>, syms': seq<Symbol>, t: Table)
    requires TableOk(syms, t) && |syms'| == |syms|
    requires forall x :: 0 <= x < |syms| ==> syms'[x].code == syms[x].code
    ensures TableOk(syms', t)
  {
    forall c | 0 <= c < CODE_MAX && t[c].Some?
      ensures t[c].value < |syms'| && syms'[t[c].value].code == c
    {
      assert syms[t[c].value].code == c;
    }
    forall x | 0 <= x < |syms'|
      ensures Has(t, syms'[x].code) && At(t, syms'[x].code) == x
    {
      assert Has(t, syms[x].code) && At(t, syms[x].code) == x;
    }
  }

  lemma {:induction false} TableOkNew(syms: seq<Symbol>, syms': seq<Symbol>, t: Table, b: uint8)
    requires TableOk(syms, t) && |syms'| == |syms| + 1 && !Has(t, b)
    requires forall x :: 0 <= x < |syms| ==> syms'[x].code == syms[x].code
    requires syms'[|syms|].code == b
    ensures TableOk(syms', t[b := Some(|syms|)])
  {
    var t' := t[b := Some(|syms|)];
    forall c | 0 <= c < CODE_MAX && t'[c].Some?
      ensures t'[c].value < |syms'| && syms'[t'[c].value].code == c
    {
      if c != b {
        assert syms[t[c].value].code == c;
      }
    }
    forall x | 0 <= x < |syms'|
      ensures Has(t', syms'[x].code) && At(t', syms'[x].code) == x
    {
      if x < |syms| {
        assert Has(t, syms[x].code) && At(t, syms[x].code) == x;
      }
    }
  }

  lemma {:induction false} FrameStep(data: seq<uint8>, n: nat, g: Grammar, t: Table)
    requires 0 < n <= |data| && |g.syms| < n <= FRAME_MAX && Below(t, |g.syms|)
    requires TableOk(g.syms, t) && FrameOk(data, n - 1, g.frame, t)
    ensures var (g', t') := AddByte(g, t, n - 1, data[n - 1], n < |data|);
            FrameOk(data, n, g'.frame, t')
  {
    var (g', t') := AddByte(g, t, n - 1, data[n - 1], n < |data|);
    forall k | 0 <= k < n - 1
      ensures Has(t', data[k]) && At(t', data[k]) == At(t, data[k])
    {
      assert Has(t, data[k]);
    }
  }

  lemma {:induction false} BaseStepText(data: seq<uint8>, n: nat, g: Grammar, t: Table)
    requires 0 < n <= |data| && |g.syms| < n <= FRAME_MAX && Below(t, |g.syms|)
    requires AllTerminals(g.syms) && InTable(g.syms, Syms(g.frame)) && |g.frame| == n - 1
    requires Acyclic(g.syms)
    requires Flat(g.syms, Syms(g.frame)) == data[..n - 1]
    requires TableOk(g.syms, t)
    requires AllTerminals(AddByte(g, t, n - 1, data[n - 1], n < |data|).0.syms)
    ensures var g' := AddByte(g, t, n - 1, data[n - 1], n < |data|).0;
            && Acyclic(g'.syms) && InTable(g'.syms, Syms(g'.frame))
            && Flat(g'.syms, Syms(g'.frame)) == data[..n]
  {
    var b := data[n - 1];
    var r := AddByte(g, t, n - 1, b, n < |data|);
    var syms := r.0.syms;
    var s := At(r.1, b);
    TableStep(data, n, g, t);
    assert syms[s].code == b;
    TerminalsAcyclic(syms);
    assert forall x :: 0 <= x < |g.syms| ==>
             syms[x].code == g.syms[x].code && syms[x].base == g.syms[x].base && syms[x].size == g.syms[x].size;
    TerminalsExtend(g.syms, syms);
    assert r.0.frame == g.frame + [Position(n - 1, s, None, n < |data|)];
    assert data[..n] == data[..n - 1] + [b];
    assert IsTerminal(syms[s]);
    TextPush(g.syms, syms, g.frame, r.0.frame, s);
  }

  /** The text of a frame that gained one terminal's position. */
  lemma {:induction false} TextPush(a: seq<Symbol>, b: seq<Symbol>, f: seq<Position>, f': seq<Position>, s: nat)
    requires Acyclic(a) && Acyclic(b) && Extends(a, b) && InTable(a, Syms(f))
    requires s < |b| && b[s].left.None? && |f'| == |f| + 1 && f'[..|f|] == f && f'[|f|].sym == s
    ensures InTable(b, Syms(f')) && Flat(b, Syms(f')) == Flat(a, Syms(f)) + [b[s].code]
  {
    assert Syms(f') == Syms(f) + [s];
    FlatPush(a, b, Syms(f), s);
  }

  lemma {:induction false} TerminalsOf(data: seq<uint8>, n: nat, syms: seq<Symbol>)
    requires n <= |data|
    requires forall s :: 0 <= s < |syms| ==> TerminalOf(syms[s], data, n)
    ensures AllTerminals(syms)
  {
    forall s | 0 <= s < |syms|
      ensures IsTerminal(syms[s])
    {
      assert TerminalOf(syms[s], data, n);
    }
  }

  /** `scan_base` yields a well-formed state whose frame reads back as the
      input: one terminal per distinct byte, first met at its `base`, its
      `posCount` the byte's number of occurrences; one position per byte,
      in a hole unless it is the last. */
  lemma {:induction false} ScanBaseSpec(data: seq<uint8>)
    requires |data| <= FRAME_MAX
    ensures var g := ScanBase(data);
            && Inv(g) && HoleIff(g) && g.pairs == [] && g.live == []
            && Text(g) == data
            && |g.frame| == |data|
            && (forall k :: 0 <= k < |data| ==> g.frame[k].base == k && g.syms[g.frame[k].sym].code == data[k])
            && (forall s :: 0 <= s < |g.syms| ==> TerminalOf(g.syms[s], data, |data|))
            && (forall s, s' :: 0 <= s < s' < |g.syms| ==> g.syms[s].code != g.syms[s'].code)
  {
    var n := |data|;
    BaseUpToInv(data, n);
    var r := BaseUpTo(data, n);
    var g, t := r.0, r.1;
    assert data[..n] == data;
    TerminalsOf(data, n, g.syms);
    BaseFrame(data, g, t);
    BaseCounts(data, g, t);
    BaseTree(data, g);
    assert Indexed(g);
    forall s, s' | 0 <= s < s' < |g.syms|
      ensures g.syms[s].code != g.syms[s'].code
    {
      assert At(t, g.syms[s].code) == s && At(t, g.syms[s'].code) == s';
    }
  }

  /** The frame `scan_base` builds: positions in order, pairless, each a hole
      but the last, each holding its byte's terminal. */
  lemma {:induction false} BaseFrame(data: seq<uint8>, g: Grammar, t: Table)
    requires |data| <= FRAME_MAX && BaseInv(data, |data|, g, t)
    ensures HoleIff(g) && PairsMatch(g)
    ensures forall k :: 0 <= k < |g.frame| ==> g.frame[k].pair.None?
    ensures forall k :: 0 <= k < |data| ==> g.frame[k].base == k && g.syms[g.frame[k].sym].code == data[k]
  {
    forall k | 0 <= k < |data|
      ensures g.frame[k].base == k && g.frame[k].pair.None? && g.syms[g.frame[k].sym].code == data[k]
      ensures g.frame[k].hole <==> k + 1 < |g.frame|
    {
      assert Has(t, data[k]) && g.frame[k] == Position(k, At(t, data[k]), None, k + 1 < |data|);
    }
  }

  /** Each terminal's `posCount` counts its positions. */
  lemma {:induction false} BaseCounts(data: seq<uint8>, g: Grammar, t: Table)
    requires |data| <= FRAME_MAX && BaseInv(data, |data|, g, t)
    ensures CountsMatch(g.syms, Syms(g.frame))
  {
    var fs := Syms(g.frame);
    assert data[..|data|] == data;
    forall s | 0 <= s < |g.syms|
      ensures g.syms[s].posCount == Occ(fs, s)
    {
      var c := g.syms[s].code;
      assert TerminalOf(g.syms[s], data, |data|);
      assert At(t, c) == s;
      forall k | 0 <= k < |fs|
        ensures fs[k] == s <==> data[k] == c
      {
        assert Has(t, data[k]) && fs[k] == At(t, data[k]);
      }
      OccPointwise(fs, s, data, c);
    }
  }

  /** Terminals have no children and no repeats. */
  lemma {:induction false} BaseTree(data: seq<uint8>, g: Grammar)
    requires AllTerminals(g.syms) && forall s :: 0 <= s < |g.syms| ==> TerminalOf(g.syms[s], data, |data|)
    ensures TreeCounts(g.syms)
    ensures RepeatsOnce(g.syms, Syms(g.frame))
  {
    TerminalChildren(g.syms);
    forall s | 0 <= s < |g.syms|
      ensures !IsRepeat(g.syms[s]) && g.syms[s].symCount == Occ(Children(g.syms), s)
    {
      assert TerminalOf(g.syms[s], data, |data|);
    }
  }

  lemma {:induction false} OccAppendLast(data: seq<uint8>, n: nat, c: uint8)
    requires 0 < n <= |data|
    ensures Occ(data[..n], c) == Occ(data[..n - 1], c) + (if data[n - 1] == c then 1 else 0)
  {
    assert data[..n][..n - 1] == data[..n - 1];
  }

  lemma {:induction false} BaseUpToInv(data: seq<uint8>, n: nat)
    requires n <= |data| <= FRAME_MAX
    ensures BaseInv(data, n, BaseUpTo(data, n).0, BaseUpTo(data, n).1)
  {
    if n > 0 {
      BaseUpToInv(data, n - 1);
      var (g, t) := BaseUpTo(data, n - 1);
      BaseStep(data, n, g, t);
    }
  }

  /** A table of terminals names no children. */
  lemma {:induction false} TerminalChildren(syms: seq<Symbol>)
    requires AllTerminals(syms)
    ensures Children(syms) == []
  {
    if syms != [] {
      var n := |syms| - 1;
      assert AllTerminals(syms[..n]) by {
        forall s | 0 <= s < n
          ensures IsTerminal(syms[..n][s])
        {
          assert syms[..n][s] == syms[s];
        }
      }
      TerminalChildren(syms[..n]);
      assert IsTerminal(syms[n]);
    }
  }

  // ---------------------------------------------------------------------------
  // scan_pair

  /** The position leaves the hole list, pair `q` now found there. */
  function Take(x: Position, q: nat): (r: Position)
  {
    x.(pair := Some(q), hole := false)
  }

  /** The two symbols a pair stands for. */
  function Key(p: Pair): (nat, nat)
  {
    (p.left, p.right)
  }

  /** The two symbols starting at position `k`. */
  function KeyAt(frame: seq<Position>, k: nat): (nat, nat)
    requires k + 1 < |frame|
  {
    (frame[k].sym, frame[k + 1].sym)
  }

  /** The position at `k` waits in the hole list and starts the symbols of
      pair `q`. */
  predicate Matches(g: Grammar, q: nat, k: nat)
    requires q < |g.pairs|
  {
    k + 1 < |g.frame| && g.frame[k].hole && KeyAt(g.frame, k) == Key(g.pairs[q])
  }

  /** The inner loop of `scan_pair`: every hole from `j` on that starts the
      symbols of pair `q` takes that pair, which counts one more occurrence
      for each. */
  function Claim(g: Grammar, q: nat, j: nat): (r: Grammar)
    requires q < |g.pairs| && g.pairs[q].count <= j <= |g.frame| <= FRAME_MAX
    ensures r.syms == g.syms && r.live == g.live && |r.frame| == |g.frame| && |r.pairs| == |g.pairs|
    ensures forall p :: 0 <= p < |g.pairs| && p != q ==> r.pairs[p] == g.pairs[p]
    ensures Key(r.pairs[q]) == Key(g.pairs[q]) && r.pairs[q].count <= |g.frame|
    ensures forall k :: 0 <= k < |g.frame| ==>
              r.frame[k] == if j <= k && Matches(g, q, k) then Take(g.frame[k], q) else g.frame[k]
    ensures HolesFree(g) ==>
              && HolesFree(r)
              && r.pairs[q].count + Occ(Refs(g.frame), Some(q)) == g.pairs[q].count + Occ(Refs(r.frame), Some(q))
    decreases |g.frame| - j
  {
    if j == |g.frame| then g
    else if Matches(g, q, j) then
      var pairs := g.pairs[q := g.pairs[q].(count := Inc32(g.pairs[q].count))];
      var g' := g.(frame := g.frame[j := Take(g.frame[j], q)], pairs := pairs);
      assert Refs(g'.frame) == Refs(g.frame)[j := Some(q)];
      OccUpdate(Refs(g.frame), j, Some(q), Some(q));
      Claim(g', q, j + 1)
    else
      Claim(g, q, j + 1)
  }

  /** One turn of `scan_pair`'s outer loop, at position `i`: a hole there
      gets a new pair of its two symbols, appended to the pair list, and
      the later holes with the same symbols join it. */
  function ScanStep(g: Grammar, i: nat): (r: Grammar)
    requires i < |g.frame| <= FRAME_MAX && !HoleAtEnd(g)
    ensures r.syms == g.syms && |r.frame| == |g.frame| && !HoleAtEnd(r) && !r.frame[i].hole
    ensures forall k :: 0 <= k < i ==> r.frame[k] == g.frame[k]
    ensures forall k :: i < k < |g.frame| && r.frame[k].hole ==> r.frame[k] == g.frame[k]
  {
    if !g.frame[i].hole then g
    else
      var q := |g.pairs|;
      var pair := Pair(1, g.frame[i].sym, g.frame[i + 1].sym);
      var g1 := g.(frame := g.frame[i := Take(g.frame[i], q)], pairs := g.pairs + [pair], live := g.live + [q]);
      Claim(g1, q, i + 1)
  }

  /** `scan_pair` from position `i` on. */
  function ScanFrom(g: Grammar, i: nat): (r: Grammar)
    requires i <= |g.frame| <= FRAME_MAX && !HoleAtEnd(g)
    ensures r.syms == g.syms && |r.frame| == |g.frame|
    ensures forall k :: 0 <= k < i ==> r.frame[k] == g.frame[k]
    ensures forall k :: i <= k < |r.frame| ==> !r.frame[k].hole
    decreases |g.frame| - i
  {
    if i == |g.frame| then g else ScanFrom(ScanStep(g, i), i + 1)
  }

  /** `scan_pair`: every hole gets a pair, new pairs being shared by the holes
      that start the same two symbols. A hole at the last position has no
      successor: the C code reads the list head as a position there. */
  function ScanPair(g: Grammar): (r: Result<Grammar>)
    requires |g.frame| <= FRAME_MAX
    ensures r.Err? <==> HoleAtEnd(g)
    ensures r.Err? ==> r.error == NoSuccessor
    ensures r.Ok? ==> && r.value.syms == g.syms && |r.value.frame| == |g.frame|
                      && forall k :: 0 <= k < |g.frame| ==> !r.value.frame[k].hole
  {
    if HoleAtEnd(g) then Err(NoSuccessor) else Ok(ScanFrom(g, 0))
  }

  // Invariant of the outer loop, relating the state `g` reached at `i` to
  // the state `g0` the scan started from.

  /** Pair `q` was allocated by this scan. */
  ghost predicate Fresh(g0: Grammar, g: Grammar, q: nat)
  {
    |g0.pairs| <= q < |g.pairs|
  }

  /** The former hole at `k` has been given a fresh pair of its symbols. */
  ghost predicate Filled(g0: Grammar, g: Grammar, k: nat)
    requires k < |g0.frame| && k < |g.frame|
  {
    && k + 1 < |g0.frame| && g.frame[k].pair.Some? && Fresh(g0, g, g.frame[k].pair.value)
    && g.frame[k] == Take(g0.frame[k], g.frame[k].pair.value)
    && Key(g.pairs[g.frame[k].pair.value]) == KeyAt(g0.frame, k)
  }

  /** What the scan leaves alone: the symbols, the old pairs, and the pair
      list but for the fresh pairs appended in order. */
  ghost predicate ScanShape(g0: Grammar, g: Grammar, i: nat)
  {
    && g.syms == g0.syms && |g.frame| == |g0.frame| && i <= |g.frame| <= FRAME_MAX
    && |g0.pairs| <= |g.pairs| && g.pairs[..|g0.pairs|] == g0.pairs
    && g.live == g0.live + Range(|g0.pairs|, |g.pairs|)
    && !HoleAtEnd(g0) && HolesFree(g0) && Indexed(g0)
    && (forall p :: 0 <= p < |g.pairs| ==> g.pairs[p].left < |g.syms| && g.pairs[p].right < |g.syms|)
  }

  /** Positions that were no hole are untouched; holes before `i` are
      filled, holes from `i` on are filled or still waiting. */
  ghost predicate ScanFrame(g0: Grammar, g: Grammar, i: nat)
    requires |g.frame| == |g0.frame|
  {
    forall k :: 0 <= k < |g.frame| ==>
      if g0.frame[k].hole then Filled(g0, g, k) || (i <= k && g.frame[k] == g0.frame[k])
      else g.frame[k] == g0.frame[k]
  }

  /** A fresh pair counts the positions it is found at. */
  ghost predicate ScanCounts(g0: Grammar, g: Grammar)
  {
    forall q: nat :: Fresh(g0, g, q) ==> 1 <= g.pairs[q].count == Occ(Refs(g.frame), Some(q))
  }

  /** No waiting hole starts the symbols of a fresh pair. */
  ghost predicate ScanDone(g0: Grammar, g: Grammar, i: nat)
    requires |g.frame| == |g0.frame|
  {
    forall q: nat, k :: Fresh(g0, g, q) && i <= k && k + 1 < |g.frame| && g.frame[k].hole ==>
      KeyAt(g0.frame, k) != Key(g.pairs[q])
  }

  /** Fresh pairs stand for distinct pairs of symbols. */
  ghost predicate ScanDistinct(g0: Grammar, g: Grammar)
  {
    forall q: nat, q': nat :: Fresh(g0, g, q) && Fresh(g0, g, q') && q < q' ==> Key(g.pairs[q]) != Key(g.pairs[q'])
  }

  ghost predicate ScanInv(g0: Grammar, g: Grammar, i: nat)
  {
    && ScanShape(g0, g, i) && ScanFrame(g0, g, i) && ScanCounts(g0, g)
    && ScanDone(g0, g, i) && ScanDistinct(g0, g)
  }

  /** Consequences of the scan invariant: symbols stay where they were, a
      waiting hole is untouched, every handle is allocated. */
  lemma {:induction false} ScanFacts(g0: Grammar, g: Grammar, i: nat)
    requires ScanShape(g0, g, i) && ScanFrame(g0, g, i)
    ensures forall k :: 0 <= k < |g.frame| ==> g.frame[k].sym == g0.frame[k].sym && g.frame[k].base == g0.frame[k].base
    ensures forall k :: 0 <= k < |g.frame| && g.frame[k].hole ==> g.frame[k] == g0.frame[k]
    ensures forall k :: 0 <= k < |g.frame| && g.frame[k].pair.Some? ==> g.frame[k].pair.value < |g.pairs|
    ensures HolesFree(g) && !HoleAtEnd(g) && Syms(g.frame) == Syms(g0.frame)
  {
    forall k | 0 <= k < |g.frame|
      ensures g.frame[k].sym == g0.frame[k].sym && g.frame[k].base == g0.frame[k].base
      ensures g.frame[k].hole ==> g.frame[k] == g0.frame[k]
      ensures g.frame[k].pair.Some? ==> g.frame[k].pair.value < |g.pairs|
    {
      if g0.frame[k].hole && Filled(g0, g, k) {
        assert g.frame[k] == Take(g0.frame[k], g.frame[k].pair.value);
      } else {
        assert g.frame[k] == g0.frame[k];
      }
    }
  }

  /** The scan invariant holds at the start. */
  lemma {:induction false} ScanInit(g: Grammar)
    requires Indexed(g) && |g.frame| <= FRAME_MAX && !HoleAtEnd(g) && HolesFree(g)
    ensures ScanInv(g, g, 0)
  {
    assert forall p :: 0 <= p < |g.pairs| ==> g.pairs[p].left < |g.syms| && g.pairs[p].right < |g.syms|;
    assert g.pairs[..|g.pairs|] == g.pairs;
    assert g.live + Range(|g.pairs|, |g.pairs|) == g.live;
  }

  /** A turn at a position that is no hole keeps the invariant. */
  lemma {:induction false} ScanSkip(g0: Grammar, g: Grammar, i: nat)
    requires ScanInv(g0, g, i) && i < |g.frame| && !g.frame[i].hole
    ensures ScanInv(g0, g, i + 1)
  {
    forall k | 0 <= k < |g.frame|
      ensures if g0.frame[k].hole then Filled(g0, g, k) || (i + 1 <= k && g.frame[k] == g0.frame[k])
              else g.frame[k] == g0.frame[k]
    {
      if k == i && g0.frame[k].hole {
        assert g.frame[k] != g0.frame[k];
      }
    }
  }

  /** The state after the turn at hole `i`, before its duplicates are
      claimed. */
  function Opened(g: Grammar, i: nat): (g1: Grammar)
    requires i + 1 < |g.frame| <= FRAME_MAX
    ensures |g1.pairs| == |g.pairs| + 1 && g1.pairs[|g.pairs|].count == 1 && |g1.frame| == |g.frame|
  {
    var q := |g.pairs|;
    g.(frame := g.frame[i := Take(g.frame[i], q)], pairs := g.pairs + [Pair(1, g.frame[i].sym, g.frame[i + 1].sym)], live := g.live + [q])
  }

  lemma {:induction false} ScanOpened(g: Grammar, i: nat)
    requires i < |g.frame| <= FRAME_MAX && !HoleAtEnd(g) && g.frame[i].hole
    ensures i + 1 < |g.frame| && ScanStep(g, i) == Claim(Opened(g, i), |g.pairs|, i + 1)
  {
  }

  /** The pairs after the turn at hole `i`: the old ones untouched, one
      fresh pair of the symbols at `i`, appended to the pair list. */
  lemma {:induction false} OpenedPairs(g: Grammar, i: nat)
    requires i < |g.frame| <= FRAME_MAX && !HoleAtEnd(g) && g.frame[i].hole
    ensures var r := ScanStep(g, i);
            && |r.pairs| == |g.pairs| + 1 && r.pairs[..|g.pairs|] == g.pairs
            && Key(r.pairs[|g.pairs|]) == KeyAt(g.frame, i)
            && r.live == g.live + [|g.pairs|]
  {
    ScanOpened(g, i);
    var q, g1 := |g.pairs|, Opened(g, i);
    var r := Claim(g1, q, i + 1);
    forall p | 0 <= p < q
      ensures r.pairs[p] == g.pairs[p]
    {
      assert r.pairs[p] == g1.pairs[p];
    }
  }

  /** The positions the turn at hole `i` changes held no pair and now hold
      the fresh one; its count is the number of them. */
  lemma {:induction false} OpenedRefs(g: Grammar, i: nat)
    requires i < |g.frame| <= FRAME_MAX && !HoleAtEnd(g) && g.frame[i].hole && HolesFree(g)
    requires forall k :: 0 <= k < |g.frame| && g.frame[k].pair.Some? ==> g.frame[k].pair.value < |g.pairs|
    ensures var r, q := ScanStep(g, i), |g.pairs|;
            && (forall k :: 0 <= k < |g.frame| && r.frame[k].pair != g.frame[k].pair ==>
                  g.frame[k].pair.None? && r.frame[k].pair == Some(q))
            && r.frame[i].pair == Some(q)
            && r.pairs[q].count == Occ(Refs(r.frame), Some(q))
  {
    ScanOpened(g, i);
    var q, g1 := |g.pairs|, Opened(g, i);
    var r := Claim(g1, q, i + 1);
    var rs := Refs(g.frame);
    Occ0(rs, Some(q));
    assert Refs(g1.frame) == rs[i := Some(q)];
    OccUpdate(rs, i, Some(q), Some(q));
    assert HolesFree(g1);
  }

  /** Where two frames differ only by positions gaining pair `q`, every
      other pair is found as often. */
  lemma {:induction false} RefsGained(f: seq<Position>, f': seq<Position>, q: nat, p: nat)
    requires |f'| == |f| && p != q
    requires forall k :: 0 <= k < |f| && f'[k].pair != f[k].pair ==> f[k].pair.None? && f'[k].pair == Some(q)
    ensures Occ(Refs(f'), Some(p)) == Occ(Refs(f), Some(p))
  {
    OccPointwise(Refs(f'), Some(p), Refs(f), Some(p));
  }

  lemma {:induction false} RangeSnoc(a: nat, b: nat)
    requires a <= b
    ensures Range(a, b + 1) == Range(a, b) + [b]
  {
  }

  lemma {:induction false} ScanHoleShape(g0: Grammar, g: Grammar, i: nat)
    requires ScanInv(g0, g, i) && i < |g.frame| && g.frame[i].hole
    ensures ScanShape(g0, ScanStep(g, i), i + 1)
  {
    ScanFacts(g0, g, i);
    OpenedPairs(g, i);
    var r, a := ScanStep(g, i), |g0.pairs|;
    assert r.pairs[..a] == r.pairs[..|g.pairs|][..a];
    RangeSnoc(a, |g.pairs|);
    assert g0.frame[i].sym < |g.syms| && g0.frame[i + 1].sym < |g.syms|;
    forall p | 0 <= p < |r.pairs|
      ensures r.pairs[p].left < |r.syms| && r.pairs[p].right < |r.syms|
    {
      if p < |g.pairs| {
        assert r.pairs[p] == r.pairs[..|g.pairs|][p];
      }
    }
  }

  lemma {:induction false} ScanHoleFrame(g0: Grammar, g: Grammar, i: nat)
    requires ScanInv(g0, g, i) && i < |g.frame| && g.frame[i].hole
    ensures ScanFrame(g0, ScanStep(g, i), i + 1)
  {
    ScanFacts(g0, g, i);
    ScanOpened(g, i);
    var q, g1 := |g.pairs|, Opened(g, i);
    var r := Claim(g1, q, i + 1);
    forall k | 0 <= k < |r.frame|
      ensures if g0.frame[k].hole then Filled(g0, r, k) || (i + 1 <= k && r.frame[k] == g0.frame[k])
              else r.frame[k] == g0.frame[k]
    {
      if k == i {
        assert r.frame[k] == Take(g0.frame[k], q);
        assert Key(r.pairs[q]) == KeyAt(g0.frame, k);
        assert Filled(g0, r, k);
      } else if i + 1 <= k && Matches(g1, q, k) {
        assert g.frame[k].hole && g.frame[k] == g0.frame[k];
        assert r.frame[k] == Take(g0.frame[k], q);
        assert KeyAt(g1.frame, k) == KeyAt(g0.frame, k);
        assert Filled(g0, r, k);
      } else {
        assert r.frame[k] == g.frame[k];
        if g0.frame[k].hole && Filled(g0, g, k) {
          var p := g.frame[k].pair.value;
          assert r.pairs[p] == g.pairs[p];
          assert Filled(g0, r, k);
        }
      }
    }
  }

  lemma {:induction false} ScanHoleCounts(g0: Grammar, g: Grammar, i: nat)
    requires ScanInv(g0, g, i) && i < |g.frame| && g.frame[i].hole
    ensures ScanCounts(g0, ScanStep(g, i))
  {
    ScanFacts(g0, g, i);
    OpenedPairs(g, i);
    OpenedRefs(g, i);
    var r, q := ScanStep(g, i), |g.pairs|;
    forall p: nat | Fresh(g0, r, p)
      ensures 1 <= r.pairs[p].count == Occ(Refs(r.frame), Some(p))
    {
      if p < q {
        assert Fresh(g0, g, p) && r.pairs[p] == g.pairs[..q][p];
        RefsGained(g.frame, r.frame, q, p);
      } else {
        OccFound(Refs(r.frame), i);
      }
    }
  }

  lemma {:induction false} ScanHoleDone(g0: Grammar, g: Grammar, i: nat)
    requires ScanInv(g0, g, i) && i < |g.frame| && g.frame[i].hole
    ensures ScanDone(g0, ScanStep(g, i), i + 1)
  {
    ScanFacts(g0, g, i);
    ScanOpened(g, i);
    var q, g1 := |g.pairs|, Opened(g, i);
    var r := Claim(g1, q, i + 1);
    forall p: nat, k | Fresh(g0, r, p) && i + 1 <= k && k + 1 < |r.frame| && r.frame[k].hole
      ensures KeyAt(g0.frame, k) != Key(r.pairs[p])
    {
      assert r.frame[k] == g1.frame[k] == g.frame[k];
      assert KeyAt(g1.frame, k) == KeyAt(g0.frame, k);
      if p < q {
        assert Fresh(g0, g, p) && r.pairs[p] == g.pairs[p];
      } else {
        assert !Matches(g1, q, k);
      }
    }
  }

  lemma {:induction false} ScanHoleDistinct(g0: Grammar, g: Grammar, i: nat)
    requires ScanInv(g0, g, i) && i < |g.frame| && g.frame[i].hole
    ensures ScanDistinct(g0, ScanStep(g, i))
  {
    ScanFacts(g0, g, i);
    ScanOpened(g, i);
    var q, g1 := |g.pairs|, Opened(g, i);
    var r := Claim(g1, q, i + 1);
    assert Key(r.pairs[q]) == KeyAt(g0.frame, i);
    forall p: nat, p': nat | Fresh(g0, r, p) && Fresh(g0, r, p') && p < p'
      ensures Key(r.pairs[p]) != Key(r.pairs[p'])
    {
      assert Fresh(g0, g, p) && r.pairs[p] == g.pairs[p];
      if p' < q {
        assert Fresh(g0, g, p') && r.pairs[p'] == g.pairs[p'];
      }
    }
  }

  lemma {:induction false} ScanFromInv(g0: Grammar, g: Grammar, i: nat)
    requires ScanInv(g0, g, i)
    ensures ScanInv(g0, ScanFrom(g, i), |g.frame|)
    decreases |g.frame| - i
  {
    ScanFacts(g0, g, i);
    if i < |g.frame| {
      if g.frame[i].hole {
        ScanHoleShape(g0, g, i);
        ScanHoleFrame(g0, g, i);
        ScanHoleCounts(g0, g, i);
        ScanHoleDone(g0, g, i);
        ScanHoleDistinct(g0, g, i);
      } else {
        ScanSkip(g0, g, i);
      }
      ScanFromInv(g0, ScanStep(g, i), i + 1);
    }
  }

  /** The holes of a frame, each standing for the two symbols it starts. */
  function HoleKeys(frame: seq<Position>): (ks: seq<Option<(nat, nat)>>)
    ensures |ks| == |frame|
    ensures forall k :: 0 <= k < |frame| ==>
              ks[k] == if frame[k].hole && k + 1 < |frame| then Some(KeyAt(frame, k)) else None
  {
    seq(|frame|, k requires 0 <= k < |frame| => if frame[k].hole && k + 1 < |frame| then Some(KeyAt(frame, k)) else None)
  }

  /** `scan_pair` gives every hole a pair of the two symbols it starts: one
      fresh pair per distinct pair of symbols, appended to the pair list,
      counting the holes that start those symbols. Nothing else changes. */
  lemma {:induction false} ScanPairSpec(g: Grammar)
    requires Indexed(g) && |g.frame| <= FRAME_MAX && HolesFree(g) && !HoleAtEnd(g)
    ensures ScanPair(g).Ok?
    ensures var h := ScanPair(g).value;
            && h.syms == g.syms && Syms(h.frame) == Syms(g.frame)
            && (forall k :: 0 <= k < |g.frame| && !g.frame[k].hole ==> h.frame[k] == g.frame[k])
            && (forall k :: 0 <= k < |g.frame| && g.frame[k].hole ==> Filled(g, h, k))
            && |g.pairs| <= |h.pairs| && h.pairs[..|g.pairs|] == g.pairs
            && h.live == g.live + Range(|g.pairs|, |h.pairs|)
            && (forall q: nat :: Fresh(g, h, q) ==> 1 <= h.pairs[q].count == Occ(HoleKeys(g.frame), Some(Key(h.pairs[q]))))
            && ScanDistinct(g, h) && ScanCounts(g, h)
  {
    ScanInit(g);
    ScanFromInv(g, g, 0);
    var h := ScanFrom(g, 0);
    ScanFacts(g, h, |g.frame|);
    forall q: nat | Fresh(g, h, q)
      ensures h.pairs[q].count == Occ(HoleKeys(g.frame), Some(Key(h.pairs[q])))
    {
      var rs, ks := Refs(h.frame), HoleKeys(g.frame);
      forall k | 0 <= k < |g.frame|
        ensures rs[k] == Some(q) <==> ks[k] == Some(Key(h.pairs[q]))
      {
        if g.frame[k].hole {
          var q' := h.frame[k].pair.value;
          assert Filled(g, h, k);
          assert Fresh(g, h, q');
          if q' < q {
            assert Key(h.pairs[q']) != Key(h.pairs[q]);
          } else if q < q' {
            assert Key(h.pairs[q]) != Key(h.pairs[q']);
          }
        } else {
          assert h.frame[k] == g.frame[k];
        }
      }
      OccPointwise(rs, Some(q), ks, Some(Key(h.pairs[q])));
    }
  }

  /** `scan_pair` keeps the grammar invariant, and after it every position
      but the last has a pair. */
  lemma {:induction false} ScanPairInv(g: Grammar)
    requires Inv(g) && HolesFree(g) && !HoleAtEnd(g)
    ensures ScanPair(g).Ok? && Inv(ScanPair(g).value)
    ensures HoleIff(g) ==> HoleIff(ScanPair(g).value)
  {
    ScanPairSpec(g);
    var h := ScanPair(g).value;
    ScanFromInv(g, g, 0) by { ScanInit(g); }
    ScanFacts(g, h, |g.frame|);
    ScanKeepsOld(g, h);
    assert PairsMatch(h) by {
      forall k | 0 <= k < |h.frame| && h.frame[k].pair.Some?
        ensures PairAt(h, k)
      {
        if g.frame[k].hole {
          assert Filled(g, h, k);
        } else {
          assert h.frame[k] == g.frame[k] && PairAt(g, k);
          assert h.pairs[g.frame[k].pair.value] == h.pairs[..|g.pairs|][g.frame[k].pair.value];
        }
      }
    }
    if HoleIff(g) {
      forall k | 0 <= k < |h.frame|
        ensures !(h.frame[k].pair.None? && k + 1 < |h.frame|)
      {
        if g.frame[k].hole {
          assert Filled(g, h, k);
        } else {
          assert h.frame[k] == g.frame[k];
        }
      }
    }
  }

  /** Old pairs keep their counts and their place on the pair list. */
  lemma {:induction false} ScanKeepsOld(g: Grammar, h: Grammar)
    requires Inv(g) && ScanInv(g, h, |g.frame|)
    ensures Wf(h)
  {
    ScanFacts(g, h, |g.frame|);
    ScanCounted(g, h);
    ScanIndexed(g, h);
  }

  /** After the scan every pair's count is its number of positions, and
      the live list holds exactly the pairs found. */
  lemma {:induction false} ScanCounted(g: Grammar, h: Grammar)
    requires Inv(g) && ScanInv(g, h, |g.frame|)
    ensures Counted(h)
  {
    ScanFacts(g, h, |g.frame|);
    var n := |g.pairs|;
    assert forall k :: 0 <= k < |g.frame| && h.frame[k].pair != g.frame[k].pair ==>
             g.frame[k].pair.None? && h.frame[k].pair.Some? && h.frame[k].pair.value >= n by {
      forall k | 0 <= k < |g.frame| && h.frame[k].pair != g.frame[k].pair
        ensures g.frame[k].pair.None? && h.frame[k].pair.Some? && h.frame[k].pair.value >= n
      {
        assert g.frame[k].hole && Filled(g, h, k);
      }
    }
    forall p | 0 <= p < |h.pairs|
      ensures h.pairs[p].count == Occ(Refs(h.frame), Some(p))
      ensures p in h.live <==> h.pairs[p].count != 0
    {
      if p < n {
        assert h.pairs[p] == h.pairs[..n][p];
        OccPointwise(Refs(h.frame), Some(p), Refs(g.frame), Some(p));
        assert p !in Range(n, |h.pairs|);
      } else {
        assert Fresh(g, h, p);
        assert p == Range(n, |h.pairs|)[p - n];
      }
    }
  }

  /** After the scan every handle of the grammar is in range. */
  lemma {:induction false} ScanIndexed(g: Grammar, h: Grammar)
    requires Inv(g) && ScanInv(g, h, |g.frame|)
    ensures Indexed(h)
  {
    ScanFacts(g, h, |g.frame|);
    var n := |g.pairs|;
    forall j | 0 <= j < |h.live|
      ensures h.live[j] < |h.pairs|
    {
      if j >= |g.live| {
        assert h.live[j] == Range(n, |h.pairs|)[j - |g.live|];
      } else {
        assert h.live[j] == g.live[j];
      }
    }
  }

}

=== FILE: sort.dfy ===
/** `sym_sort`: every symbol gets a key, the table is ranked by decreasing
    key into `index_sym`, each symbol learns its rank, and the symbols the
    filter keeps are counted. */
module Sort {
  import opened Common
  import opened Grammar

  /** The three orderings of symbol.h: `SORT_ALL` (by occurrences times
      size), `SORT_REP` (repeats filtered out) and `SORT_DUP` (by
      occurrences, single bytes and once-used symbols filtered out). */
  datatype Filter = SortAll | SortRep | SortDup

  /** Occurrences of a symbol, in the frame and in the tree, in `uint_t`
      arithmetic. */
  function Dup(x: Symbol): (d: nat)
    ensures d < UINT_MOD
  {
    WrapAdd(x.posCount, x.symCount)
  }

  /** Whether `sym_sort` counts the symbol under filter `f`. */
  predicate Counted(x: Symbol, f: Filter)
  {
    match f
    case SortAll => true
    case SortRep => x.repCount <= 1
    case SortDup => !(x.size == 1 || (Dup(x) == 1 && x.repCount != 1))
  }

  /** The sort key of a symbol: zero for one the filter drops, its
      occurrences for one it keeps, and for `SORT_ALL` its occurrences (its
      run length added when it is a repeat) times its size, in `uint_t`
      arithmetic. */
  function Key(x: Symbol, f: Filter): (k: nat)
    ensures k < UINT_MOD
    ensures !Counted(x, f) ==> k == 0
    ensures f != SortAll && Counted(x, f) ==> k == Dup(x)
  {
    match f
    case SortAll => WrapMul(WrapAdd(Dup(x), if x.repCount > 1 then x.repCount else 0), x.size)
    case _ => if Counted(x, f) then Dup(x) else 0
  }

  /** Every handle of `order` addresses one of `n` symbols. */
  predicate Within(order: seq<nat>, n: nat)
  {
    forall j :: 0 <= j < |order| ==> order[j] < n
  }

  /** No handle appears twice in `order`. */
  predicate Distinct(order: seq<nat>)
  {
    forall a, b :: 0 <= a < b < |order| ==> order[a] != order[b]
  }

  /** `sym_comp`'s order: the keys of the symbols ranked by `order` do not
      increase. */
  predicate Descending(keys: seq<nat>, order: seq<nat>)
    requires Within(order, |keys|)
  {
    forall a, b :: 0 <= a < b < |order| ==> keys[order[a]] >= keys[order[b]]
  }

  /** `t` placed into the ranking `order`, after every handle whose key is
      at least its own. */
  function Insert(keys: seq<nat>, order: seq<nat>, t: nat): (r: seq<nat>)
    requires Within(order, |keys|) && t < |keys|
    ensures |r| == |order| + 1 && multiset(r) == multiset(order) + multiset{t} && Within(r, |keys|)
    decreases |order|
  {
    if order == [] || keys[order[0]] < keys[t] then [t] + order
    else
      assert order == [order[0]] + order[1..];
      [order[0]] + Insert(keys, order[1..], t)
  }

  /** Every handle of an insertion is `t` or comes from `order`. */
  lemma {:induction false} InsertFrom(keys: seq<nat>, order: seq<nat>, t: nat, b: nat)
    requires Within(order, |keys|) && t < |keys| && b < |order| + 1
    ensures Insert(keys, order, t)[b] == t || exists k :: 0 <= k < |order| && order[k] == Insert(keys, order, t)[b]
  {
    var r := Insert(keys, order, t);
    assert r[b] in multiset(r);
    if r[b] != t {
      assert r[b] in multiset(order);
    }
  }

  /** Inserting keeps the handles of a ranking below a bound. */
  lemma {:induction false} InsertWithin(keys: seq<nat>, order: seq<nat>, t: nat, n: nat)
    requires Within(order, |keys|) && t < |keys| && Within(order, n) && t < n
    ensures Within(Insert(keys, order, t), n)
  {
    var r := Insert(keys, order, t);
    forall b | 0 <= b < |r|
      ensures r[b] < n
    {
      InsertFrom(keys, order, t, b);
    }
  }

  /** Inserting keeps a ranking descending. */
  lemma {:induction false} InsertDescending(keys: seq<nat>, order: seq<nat>, t: nat)
    requires Within(order, |keys|) && t < |keys| && Descending(keys, order)
    ensures Descending(keys, Insert(keys, order, t))
    decreases |order|
  {
    var r := Insert(keys, order, t);
    if order == [] || keys[order[0]] < keys[t] {
      assert r[1..] == order;
    } else {
      var tail := order[1..];
      InsertDescending(keys, tail, t);
      var rest := Insert(keys, tail, t);
      assert r == [order[0]] + rest;
      forall a, b | 0 <= a < b < |r|
        ensures keys[r[a]] >= keys[r[b]]
      {
        if a == 0 {
          InsertFrom(keys, tail, t, b - 1);
          if r[b] != t {
            var k :| 0 <= k < |tail| && tail[k] == rest[b - 1];
            assert tail[k] == order[k + 1];
          }
        } else {
          assert r[a] == rest[a - 1] && r[b] == rest[b - 1];
        }
      }
    }
  }

  /** Inserting a handle not yet ranked keeps a ranking free of repeats. */
  lemma {:induction false} InsertDistinct(keys: seq<nat>, order: seq<nat>, t: nat)
    requires Within(order, |keys|) && t < |keys| && Distinct(order) && t !in order
    ensures Distinct(Insert(keys, order, t))
    decreases |order|
  {
    var r := Insert(keys, order, t);
    if order == [] || keys[order[0]] < keys[t] {
      assert r[1..] == order;
    } else {
      var tail := order[1..];
      assert Distinct(tail) by {
        forall a, b | 0 <= a < b < |tail|
          ensures tail[a] != tail[b]
        {
          assert tail[a] == order[a + 1] && tail[b] == order[b + 1];
        }
      }
      InsertDistinct(keys, tail, t);
      var rest := Insert(keys, tail, t);
      assert r == [order[0]] + rest;
      forall a, b | 0 <= a < b < |r|
        ensures r[a] != r[b]
      {
        if a == 0 {
          InsertFrom(keys, tail, t, b - 1);
          if r[b] != t {
            var k :| 0 <= k < |tail| && tail[k] == rest[b - 1];
            assert tail[k] == order[k + 1];
          }
        } else {
          assert r[a] == rest[a - 1] && r[b] == rest[b - 1];
        }
      }
    }
  }

  /** Every symbol's key, in table order. */
  function Keys(syms: seq<Symbol>, f: Filter): (keys: seq<nat>)
    ensures |keys| == |syms| && forall t :: 0 <= t < |syms| ==> keys[t] == Key(syms[t], f)
  {
    seq(|syms|, t requires 0 <= t < |syms| => Key(syms[t], f))
  }

  /** One more symbol looked at: the number kept grows by one exactly when
      the filter keeps it. */
  lemma {:induction false} KeptStep(syms: seq<Symbol>, f: Filter, i: nat)
    requires i < |syms|
    ensures |set t | 0 <= t < i + 1 && Counted(syms[t], f)|
         == |set t | 0 <= t < i && Counted(syms[t], f)| + if Counted(syms[i], f) then 1 else 0
  {
    var before := set t | 0 <= t < i && Counted(syms[t], f);
    var after := set t | 0 <= t < i + 1 && Counted(syms[t], f);
    if Counted(syms[i], f) {
      assert after == before + {i};
    } else {
      assert after == before;
    }
  }

  /** The first loop of `sym_sort`: `filt_count`, the number of symbols the
      filter keeps. */
  method Tally(syms: seq<Symbol>, f: Filter) returns (count: nat)
    ensures count == |set t | 0 <= t < |syms| && Counted(syms[t], f)|
  {
    count := 0;
    var i := 0;
    while i < |syms|
      invariant i <= |syms|
      invariant count == |set t | 0 <= t < i && Counted(syms[t], f)|
    {
      KeptStep(syms, f, i);
      if Counted(syms[i], f) {
        count := count + 1;
      }
      i := i + 1;
    }
  }

  /** `qsort (index_sym, sym_count, ...)` with `sym_comp`: a ranking of
      every symbol by decreasing key. */
  method Rank(keys: seq<nat>) returns (order: seq<nat>)
    ensures |order| == |keys| && multiset(order) == multiset(Range(0, |keys|))
    ensures Within(order, |keys|) && Distinct(order) && Descending(keys, order)
  {
    order := [];
    var i := 0;
    while i < |keys|
      invariant i <= |keys| && |order| == i
      invariant Within(order, i) && Distinct(order) && Descending(keys, order)
      invariant multiset(order) == multiset(Range(0, i))
    {
      InsertDescending(keys, order, i);
      InsertDistinct(keys, order, i);
      assert Range(0, i + 1) == Range(0, i) + [i];
      assert forall j :: 0 <= j < |order| ==> order[j] != i;
      InsertWithin(keys, order, i, i + 1);
      order := Insert(keys, order, i);
      i := i + 1;
    }
  }

  /** The last loop of `sym_sort`: `sym->index = i` for the symbol ranked
      `i`. */
  method SetIndex(syms: seq<Symbol>, order: seq<nat>) returns (r: seq<Symbol>)
    requires |order| == |syms| && Within(order, |syms|) && Distinct(order)
    ensures |r| == |syms| && forall j :: 0 <= j < |order| ==> r[order[j]].index == j
    ensures forall t :: 0 <= t < |syms| ==> r[t] == syms[t].(index := r[t].index)
  {
    r := syms;
    var i := 0;
    while i < |order|
      invariant i <= |order| && |r| == |syms|
      invariant forall j :: 0 <= j < i ==> r[order[j]].index == j
      invariant forall t :: 0 <= t < |syms| ==> r[t] == syms[t].(index := r[t].index)
    {
      r := r[order[i] := r[order[i]].(index := i)];
      i := i + 1;
    }
  }

  /** `sym_sort` on the symbol table `syms`: `order` is the sorted
      `index_sym` array (a ranking of every symbol, keys not increasing),
      each symbol's `index` is its rank and nothing else of it changes, and
      `count` is the number of symbols the filter keeps. Symbols of equal
      key may come in any order (the C library's `qsort` is not stable), so
      nothing is promised about them. */
  method SymSort(syms: seq<Symbol>, f: Filter) returns (r: seq<Symbol>, order: seq<nat>, count: nat)
    ensures |r| == |syms| && |order| == |syms|
    ensures multiset(order) == multiset(Range(0, |syms|)) && Distinct(order) && Within(order, |syms|)
    ensures forall a, b :: 0 <= a < b < |order| ==> Key(syms[order[a]], f) >= Key(syms[order[b]], f)
    ensures forall j :: 0 <= j < |order| ==> r[order[j]].index == j
    ensures forall t :: 0 <= t < |syms| ==> r[t].index < |syms| && order[r[t].index] == t
    ensures forall t :: 0 <= t < |syms| ==> r[t] == syms[t].(index := r[t].index)
    ensures count == |set t | 0 <= t < |syms| && Counted(syms[t], f)|
  {
    count := Tally(syms, f);
    order := Rank(Keys(syms, f));
    r := SetIndex(syms, order);
    forall t | 0 <= t < |syms|
      ensures r[t].index < |syms| && order[r[t].index] == t
    {
      assert Range(0, |syms|)[t] == t;
      assert t in multiset(order);
      var j :| 0 <= j < |syms| && order[j] == t;
    }
  }
}

=== FILE: stream.dfy ===
/** The bit stream of stream.c: a writer that packs bits into bytes of
    `frame_out` and a reader that unpacks bytes of `frame_in`, both least
    significant bit first, with fixed-width codes and the prefix code built
    on top. The static state of the C file (`byte_out`, `shift_out`,
    `pos_in`, `byte_in`, `shift_in`, `size_out`) is carried explicitly in
    `Writer` and `Reader`; each fatal `error` call becomes an `Err`. */
module Stream {
  import opened Common
  import opened Bits

  // ---------------------------------------------------------------------------
  // Single-bit facts about bytes

  lemma {:induction false} BitOfOrTop(b: byte, val: bool, i: nat)
    requires b < 128 && i < 8
    ensures BitOf(b | (if val then 128 else 0), i) == if i == 7 then val else BitOf(b, i)
  {
  }

  lemma {:induction false} BitOfShift(b: byte, s: nat, i: nat)
    requires s < 8 && i < 8
    ensures BitOf(ShiftDown(b, s), i) == (i + s < 8 && BitOf(b, i + s))
  {
  }

  lemma {:induction false} BitOfLow(b: byte)
    ensures BitOf(b, 0) == (b & 1 == 1)
    ensures b >> 1 < 128
  {
  }

  lemma {:induction false} TopClear(b: byte, i: nat)
    requires b < 128 && i == 7
    ensures !BitOf(b, i)
  {
  }

  // ---------------------------------------------------------------------------
  // Writer

  /** `frameOut` is `frame_out [0 .. size_out)`; `byteOut` and `shiftOut`
      hold the bits of the byte being filled. */
  datatype Writer = Writer(frameOut: seq<byte>, byteOut: byte, shiftOut: nat)

  const EmptyWriter := Writer([], 0, 0)

  /** Between calls at most seven bits are pending and the top bit of
      `byteOut` is clear (it has just been shifted down). */
  predicate WriterOk(w: Writer)
  {
    w.shiftOut < 8 && w.byteOut < 128 && |w.frameOut| <= FRAME_MAX
  }

  /** The pending bits, oldest first: after `k` calls the first one sits at
      bit `7 - k` of `byteOut` and the last one at bit 6. */
  function Pending(w: Writer): (r: seq<bool>)
    requires w.shiftOut < 8
    ensures |r| == w.shiftOut
  {
    seq(w.shiftOut, j requires 0 <= j < w.shiftOut => BitOf(w.byteOut, 7 - w.shiftOut + j))
  }

  /** Every bit written so far, flushed or pending. */
  function Written(w: Writer): (r: seq<bool>)
    requires w.shiftOut < 8
    ensures |r| == 8 * |w.frameOut| + w.shiftOut
  {
    BytesBits(w.frameOut) + Pending(w)
  }

  /** How many more bits fit: the frame takes `FRAME_MAX` bytes and seven
      more bits may then still wait in `byteOut`. */
  function Room(w: Writer): (r: nat)
    requires WriterOk(w)
  {
    8 * FRAME_MAX + 7 - |Written(w)|
  }

  /** `out_byte`: append one byte, or fail once the frame is full. */
  function OutByte(w: Writer, val: byte): (r: Result<Writer>)
    ensures r.Ok? <==> |w.frameOut| < FRAME_MAX
    ensures r.Err? ==> r.error == OutOverflow
    ensures r.Ok? ==> |r.value.frameOut| == |w.frameOut| + 1
    ensures r.Ok? ==> r.value.frameOut == w.frameOut + [val]
    ensures r.Ok? ==> r.value.byteOut == w.byteOut && r.value.shiftOut == w.shiftOut
  {
    if |w.frameOut| >= FRAME_MAX then Err(OutOverflow)
    else Ok(w.(frameOut := w.frameOut + [val]))
  }

  /** `out_bit`: the bit enters at the top of `byteOut`; the eighth bit
      completes the byte, which is flushed with `out_byte`. */
  function OutBit(w: Writer, val: bool): (r: Result<Writer>)
    requires WriterOk(w)
    ensures r.Ok? <==> Room(w) >= 1
    ensures r.Err? ==> r.error == OutOverflow
    ensures r.Ok? ==> WriterOk(r.value) && Written(r.value) == Written(w) + [val]
  {
    var b := w.byteOut | (if val then 128 else 0);
    if w.shiftOut + 1 == 8 then
      FlushedByte(w, val);
      Flush(w, b)
    else
      ShiftedWritten(w, val);
      Ok(Writer(w.frameOut, b >> 1, w.shiftOut + 1))
  }

  /** The flush at the eighth bit: `out_byte (byte_out)`, then clear
      `byte_out` and `shift_out`. */
  function Flush(w: Writer, b: byte): (r: Result<Writer>)
    requires WriterOk(w)
    ensures r.Ok? <==> |w.frameOut| < FRAME_MAX
    ensures r.Err? ==> r.error == OutOverflow
    ensures r.Ok? ==> WriterOk(r.value) && r.value.shiftOut == 0 && r.value.byteOut == 0
    ensures r.Ok? ==> r.value.frameOut == w.frameOut + [b]
    ensures r.Ok? ==> Written(r.value) == BytesBits(w.frameOut) + ByteBits(b)
  {
    var w1 :- OutByte(w, b);
    BytesBitsSnoc(w.frameOut, b);
    var w2 := w1.(byteOut := 0, shiftOut := 0);
    assert Written(w2) == BytesBits(w.frameOut + [b]) + [];
    Ok(w2)
  }

  /** The eighth bit: `byteOut` with its top bit set holds the pending bits
      followed by the new one. */
  lemma {:induction false} FlushedByte(w: Writer, val: bool)
    requires WriterOk(w) && w.shiftOut == 7
    ensures ByteBits(w.byteOut | (if val then 128 else 0)) == Pending(w) + [val]
    ensures BytesBits(w.frameOut) + ByteBits(w.byteOut | (if val then 128 else 0)) == Written(w) + [val]
  {
    var b := w.byteOut | (if val then 128 else 0);
    forall i | 0 <= i < 8
      ensures ByteBits(b)[i] == (Pending(w) + [val])[i]
    {
      BitOfOrTop(w.byteOut, val, i);
    }
  }

  /** Bits one to seven: after the shift the new bit is the last pending one. */
  lemma {:induction false} ShiftedPending(w: Writer, val: bool)
    requires WriterOk(w) && w.shiftOut < 7
    ensures var b := w.byteOut | (if val then 128 else 0);
            b >> 1 < 128
            && Pending(Writer(w.frameOut, b >> 1, w.shiftOut + 1)) == Pending(w) + [val]
  {
    var b := w.byteOut | (if val then 128 else 0);
    BitOfLow(b);
    forall j | 0 <= j < w.shiftOut + 1
      ensures Pending(Writer(w.frameOut, b >> 1, w.shiftOut + 1))[j] == (Pending(w) + [val])[j]
    {
      ShiftedBit(w, val, j);
    }
  }

  lemma {:induction false} ShiftedBit(w: Writer, val: bool, j: nat)
    requires WriterOk(w) && w.shiftOut < 7 && j < w.shiftOut + 1
    ensures var b := w.byteOut | (if val then 128 else 0);
            BitOf(b >> 1, 7 - (w.shiftOut + 1) + j) == (Pending(w) + [val])[j]
  {
    var b := w.byteOut | (if val then 128 else 0);
    var k := w.shiftOut;
    BitOfShift(b, 1, 6 - k + j);
    assert ShiftDown(b, 1) == b >> 1;
    BitOfOrTop(w.byteOut, val, 7 - k + j);
  }

  lemma {:induction false} ShiftedWritten(w: Writer, val: bool)
    requires WriterOk(w) && w.shiftOut < 7
    ensures var b := w.byteOut | (if val then 128 else 0);
            b >> 1 < 128
            && Written(Writer(w.frameOut, b >> 1, w.shiftOut + 1)) == Written(w) + [val]
  {
    ShiftedPending(w, val);
  }

  /** Writes `bits` one after the other with `out_bit`. */
  function OutBits(w: Writer, bits: seq<bool>): (r: Result<Writer>)
    requires WriterOk(w)
    ensures r.Ok? <==> |bits| <= Room(w)
    ensures r.Err? ==> r.error == OutOverflow
    ensures r.Ok? ==> WriterOk(r.value) && Written(r.value) == Written(w) + bits
    decreases |bits|
  {
    if bits == [] then Ok(w)
    else
      var w1 :- OutBit(w, bits[0]);
      assert Written(w) + bits == Written(w1) + bits[1..];
      OutBits(w1, bits[1..])
  }

  /** Eight bits written from a byte boundary append exactly one byte, whose
      bit `i` is the `i`-th bit written. */
  lemma {:induction false} EightBitsMakeOneByte(w: Writer, bits: seq<bool>)
    requires WriterOk(w) && w.shiftOut == 0 && |bits| == 8
    requires |w.frameOut| < FRAME_MAX
    ensures OutBits(w, bits).Ok?
    ensures var w' := OutBits(w, bits).value;
            w'.shiftOut == 0 && |w'.frameOut| == |w.frameOut| + 1
            && w'.frameOut[..|w.frameOut|] == w.frameOut
            && ByteBits(w'.frameOut[|w.frameOut|]) == bits
  {
    var w' := OutBits(w, bits).value;
    assert Written(w') == BytesBits(w.frameOut) + bits;
    var f := w'.frameOut[..|w.frameOut|];
    var b := w'.frameOut[|w.frameOut|];
    assert w'.frameOut == f + [b];
    BytesBitsSnoc(f, b);
    BytesBitsPrefix(f, w.frameOut, ByteBits(b), bits);
  }

  /** Byte buffers of equal length with equal bits are equal, and so are the
      bits that follow them. */
  lemma {:induction false} BytesBitsPrefix(a: seq<byte>, b: seq<byte>, x: seq<bool>, y: seq<bool>)
    requires |a| == |b| && BytesBits(a) + x == BytesBits(b) + y
    ensures a == b && x == y
  {
    assert BytesBits(a) == (BytesBits(b) + y)[..8 * |a|];
    assert BytesBits(a) == BytesBits(b);
    BytesBitsInjective(a, b);
    assert x == (BytesBits(a) + x)[8 * |a|..];
  }

  lemma {:induction false} BytesBitsInjective(a: seq<byte>, b: seq<byte>)
    requires |a| == |b| && BytesBits(a) == BytesBits(b)
    ensures a == b
  {
    if a != [] {
      var n := |a| - 1;
      var pa, pb := BytesBits(a[..n]), BytesBits(b[..n]);
      assert pa + ByteBits(a[n]) == pb + ByteBits(b[n]);
      assert pa == (pa + ByteBits(a[n]))[..8 * n];
      assert pb == (pb + ByteBits(b[n]))[..8 * n];
      BytesBitsInjective(a[..n], b[..n]);
      assert ByteBits(a[n]) == (pa + ByteBits(a[n]))[8 * n..];
      assert ByteBits(b[n]) == (pb + ByteBits(b[n]))[8 * n..];
      ByteBitsInjective(a[n], b[n]);
      assert a == a[..n] + [a[n]];
      assert b == b[..n] + [b[n]];
    }
  }

  lemma {:induction false} ByteBitsInjective(x: byte, y: byte)
    requires ByteBits(x) == ByteBits(y)
    ensures x == y
  {
    assert ByteBits(x)[0] == ByteBits(y)[0] && ByteBits(x)[1] == ByteBits(y)[1];
    assert ByteBits(x)[2] == ByteBits(y)[2] && ByteBits(x)[3] == ByteBits(y)[3];
    assert ByteBits(x)[4] == ByteBits(y)[4] && ByteBits(x)[5] == ByteBits(y)[5];
    assert ByteBits(x)[6] == ByteBits(y)[6] && ByteBits(x)[7] == ByteBits(y)[7];
  }

  /** `out_pad`: with `k` pending bits (0 < k < 8), shift them down to bits
      `0 .. k-1` and append that byte; with none pending, do nothing. */
  function OutPad(w: Writer): (r: Result<Writer>)
    requires WriterOk(w)
    ensures w.shiftOut == 0 ==> r == Ok(w)
    ensures w.shiftOut > 0 ==> (r.Ok? <==> |w.frameOut| < FRAME_MAX)
    ensures r.Err? ==> r.error == OutOverflow
    ensures r.Ok? ==> WriterOk(r.value) && r.value.shiftOut == 0
    ensures r.Ok? && w.shiftOut > 0 ==>
              |r.value.frameOut| == |w.frameOut| + 1
              && r.value.frameOut[..|w.frameOut|] == w.frameOut
              && ByteBits(r.value.frameOut[|w.frameOut|]) == Pending(w) + Zeros(8 - w.shiftOut)
    ensures r.Ok? ==> Written(r.value) == Written(w) + Zeros(PadLength(w))
  {
    if w.shiftOut > 0 then
      var b := ShiftDown(w.byteOut, 7 - w.shiftOut);
      PaddedByte(w);
      var w1 :- OutByte(w, b);
      Ok(w1.(byteOut := 0, shiftOut := 0))
    else Ok(w)
  }

  /** The number of zero bits `out_pad` adds. */
  function PadLength(w: Writer): (r: nat)
    requires w.shiftOut < 8
  {
    if w.shiftOut == 0 then 0 else 8 - w.shiftOut
  }

  lemma {:induction false} PaddedByte(w: Writer)
    requires WriterOk(w) && w.shiftOut > 0
    ensures ByteBits(ShiftDown(w.byteOut, 7 - w.shiftOut)) == Pending(w) + Zeros(8 - w.shiftOut)
  {
    var bits := ByteBits(ShiftDown(w.byteOut, 7 - w.shiftOut));
    var expected := Pending(w) + Zeros(8 - w.shiftOut);
    forall i | 0 <= i < 8
      ensures bits[i] == expected[i]
    {
      PaddedBit(w, i);
    }
  }

  lemma {:induction false} PaddedBit(w: Writer, i: nat)
    requires WriterOk(w) && w.shiftOut > 0 && i < 8
    ensures BitOf(ShiftDown(w.byteOut, 7 - w.shiftOut), i) == (Pending(w) + Zeros(8 - w.shiftOut))[i]
  {
    var k := w.shiftOut;
    BitOfShift(w.byteOut, 7 - k, i);
    if i < k {
      assert (Pending(w) + Zeros(8 - k))[i] == Pending(w)[i];
    } else {
      assert (Pending(w) + Zeros(8 - k))[i] == false;
      if i + 7 - k == 7 {
        TopClear(w.byteOut, i + 7 - k);
      }
    }
  }

  /** The loop of `out_code`: write the low bit of `code`, stop when the
      counter reaches `len`, else shift `code` down. With `len == 0` the
      counter never meets `len` before the frame overflows (the frame holds
      far fewer than 2^32 bits), so the loop is bounded by the room left. */
  function OutCodeLoop(w: Writer, code: nat, len: nat, i: nat): (r: Result<Writer>)
    requires WriterOk(w)
    ensures CodeWritePost(w, code, len, i, r)
    decreases Room(w)
  {
    var w1 :- OutBit(w, code % 2 == 1);
    if i + 1 == len then
      var r := Ok(w1);
      WriteLastPost(w, w1, code, len, i, r);
      r
    else
      var r := OutCodeLoop(w1, code / 2, len, i + 1);
      WriteStepPost(w, w1, code, len, i, r);
      r
  }

  /** What a run of the `out_code` loop from pass `i` achieves: the
      `len - i` low bits of `code` are appended when there is room, and
      "out overflow" is the only failure. */
  predicate CodeWritePost(w: Writer, code: nat, len: nat, i: nat, r: Result<Writer>)
    requires WriterOk(w)
  {
    && (r.Err? ==> r.error == OutOverflow)
    && (i < len ==> (r.Ok? <==> len - i <= Room(w)))
    && (i < len && r.Ok? ==> WriterOk(r.value) && Written(r.value) == Written(w) + CodeBits(code, len - i))
    && (i >= len ==> r.Err?)
  }

  lemma {:induction false} WriteLastPost(w: Writer, w1: Writer, code: nat, len: nat, i: nat, r: Result<Writer>)
    requires WriterOk(w) && WriterOk(w1) && i + 1 == len && r == Ok(w1)
    requires Room(w) >= 1 && Written(w1) == Written(w) + [code % 2 == 1]
    ensures CodeWritePost(w, code, len, i, r)
  {
    assert CodeBits(code, 1) == [code % 2 == 1];
  }

  lemma {:induction false} WriteStepPost(w: Writer, w1: Writer, code: nat, len: nat, i: nat, r: Result<Writer>)
    requires WriterOk(w) && WriterOk(w1) && i + 1 != len
    requires Room(w) >= 1 && Written(w1) == Written(w) + [code % 2 == 1]
    requires CodeWritePost(w1, code / 2, len, i + 1, r)
    ensures CodeWritePost(w, code, len, i, r)
  {
    if i < len && r.Ok? {
      assert CodeBits(code, len - i) == [code % 2 == 1] + CodeBits(code / 2, len - (i + 1));
    }
  }

  /** `out_code`: a fixed-width code of `len` bits, least significant first. */
  function OutCode(w: Writer, code: uint32, len: uint8): (r: Result<Writer>)
    requires WriterOk(w)
    ensures len > 16 ==> r == Err(CodeTooLong)
    ensures len == 0 ==> r == Err(OutOverflow)
    ensures 1 <= len <= 16 ==> (r.Ok? <==> len <= Room(w))
    ensures 1 <= len <= 16 && r.Err? ==> r.error == OutOverflow
    ensures r.Ok? ==> WriterOk(r.value) && Written(r.value) == Written(w) + CodeBits(code, len)
  {
    if len > 16 then Err(CodeTooLong)
    else OutCodeLoop(w, code, len, 0)
  }

  /** The grade loop of `out_prefix` in unbounded arithmetic: `base1` runs
      through 1, 3, 7, ... until it exceeds `val`; `base0` trails it. */
  function GradeLoop(val: nat, base0: nat, base1: nat, prefix: nat): (r: (nat, nat))
    requires base0 == GradeBase(prefix) && base1 == GradeBase(prefix + 1)
    requires base0 <= val
    ensures r.0 == Grade(val) && r.1 == GradeBase(Grade(val))
    decreases val - base0
  {
    if val >= base1 then GradeLoop(val, base1, 2 * base1 + 1, prefix + 1)
    else
      GradeUnique(val, prefix);
      (prefix, base0)
  }

  /** `while (prefix-- > 0) out_bit (1);` */
  function OutOnes(w: Writer, n: nat): (r: Result<Writer>)
    requires WriterOk(w)
    ensures r.Ok? <==> n <= Room(w)
    ensures r.Err? ==> r.error == OutOverflow
    ensures r.Ok? ==> WriterOk(r.value) && Written(r.value) == Written(w) + Ones(n)
    decreases n
  {
    if n == 0 then Ok(w)
    else
      var w1 :- OutBit(w, true);
      assert Written(w) + Ones(n) == Written(w1) + Ones(n - 1);
      OutOnes(w1, n - 1)
  }

  lemma {:induction false} Pow2Below(a: nat, b: nat)
    requires Pow2(a) <= Pow2(b)
    ensures a <= b
  {
    if a > 0 && b > 0 {
      Pow2Below(a - 1, b - 1);
    }
  }

  /** Grades of 32-bit values stay below 33. */
  lemma {:induction false} GradeOfUint(val: uint32)
    ensures Grade(val) <= 32
  {
    GradeBounds(val);
    Pow2Table();
    Pow2Below(Grade(val), 32);
  }

  /** `out_prefix`: the grade `p` of `val` in unary, a stop bit, then the
      offset from the grade base in `p` bits. Grades above 16 exceed the
      widest fixed code and end in "code too long". */
  function OutPrefix(w: Writer, val: uint32): (r: Result<Writer>)
    requires WriterOk(w)
    ensures Grade(val) <= 16 ==> (r.Ok? <==> |PrefixBits(val)| <= Room(w))
    ensures Grade(val) <= 16 && r.Ok? ==> WriterOk(r.value) && Written(r.value) == Written(w) + PrefixBits(val)
    ensures Grade(val) > 16 ==> r.Err?
    ensures r.Err? ==> r.error == OutOverflow || r.error == CodeTooLong
  {
    var (prefix, base0) := GradeLoop(val, 0, 1, 0);
    GradeOfUint(val);
    GradeBounds(val);
    var w1 :- OutOnes(w, prefix);
    var r := OutStopAndSuffix(w1, val, prefix, base0);
    PrefixWritten(w, w1, r, val, base0);
    r
  }

  /** The end of `out_prefix`: the stop bit, then the offset `val - base0`
      as a `suffix`-bit code when `suffix` is not zero. */
  function OutStopAndSuffix(w: Writer, val: uint32, suffix: nat, base0: nat): (r: Result<Writer>)
    requires WriterOk(w) && suffix <= 32 && base0 <= val
    ensures suffix <= 16 ==> (r.Ok? <==> 1 + suffix <= Room(w))
    ensures suffix <= 16 && r.Ok? ==>
              WriterOk(r.value) && Written(r.value) == Written(w) + [false] + CodeBits(val - base0, suffix)
    ensures suffix > 16 ==> r.Err?
    ensures r.Err? ==> r.error == OutOverflow || r.error == CodeTooLong
  {
    var w2 :- OutBit(w, false);
    if suffix > 0 then
      var r := OutCode(w2, val - base0, suffix);
      AppendAfterStop(w, w2, r, val - base0, suffix);
      r
    else
      AppendAfterStop(w, w2, Ok(w2), val - base0, 0);
      Ok(w2)
  }

  lemma {:induction false} AppendAfterStop(w: Writer, w2: Writer, r: Result<Writer>, code: nat, len: nat)
    requires WriterOk(w) && WriterOk(w2)
    requires Written(w2) == Written(w) + [false]
    requires r.Ok? ==> r.value.shiftOut < 8
    requires r.Ok? && len > 0 ==> Written(r.value) == Written(w2) + CodeBits(code, len)
    requires len == 0 ==> r == Ok(w2)
    ensures r.Ok? ==> Written(r.value) == Written(w) + [false] + CodeBits(code, len)
  {
    if len == 0 {
      assert CodeBits(code, len) == [];
    }
  }

  lemma {:induction false} PrefixWritten(w: Writer, w1: Writer, r: Result<Writer>, val: nat, base0: nat)
    requires WriterOk(w) && WriterOk(w1) && base0 == GradeBase(Grade(val)) <= val
    requires Written(w1) == Written(w) + Ones(Grade(val))
    requires r.Ok? ==> WriterOk(r.value)
    requires r.Ok? ==> Written(r.value) == Written(w1) + [false] + CodeBits(val - base0, Grade(val))
    ensures r.Ok? ==> Written(r.value) == Written(w) + PrefixBits(val)
    ensures Room(w1) == Room(w) - Grade(val)
  {
    var p := Grade(val);
    var x, y := Ones(p), CodeBits(GradeOffset(val), p);
    assert GradeOffset(val) == val - base0;
    assert PrefixBits(val) == x + [false] + y;
  }

  /** `log2u`: the number of significant bits of `val`, at least 1. */
  function Log2u(val: uint32): (r: nat)
    ensures r >= 1 && val < Pow2(r)
    ensures r > 1 ==> Pow2(r - 1) <= val
  {
    Log2uLoop(val, 1)
  }

  /** `while (val >>= 1) log++;` */
  function Log2uLoop(val: nat, log: nat): (r: nat)
    requires log >= 1
    ensures r >= log
    ensures val < Pow2(r - log + 1)
    ensures r > log ==> Pow2(r - log) <= val
    decreases val
  {
    if val / 2 == 0 then log else Log2uLoop(val / 2, log + 1)
  }

  // ---------------------------------------------------------------------------
  // Reader

  /** `frameIn` is the loaded input `frame_in [0 .. size_in)`; the rest of
      the `FRAME_MAX`-byte buffer reads as zero. `byteIn` holds, from its
      lowest bit up, the `shiftIn` bits of the current byte not yet
      returned. */
  datatype Reader = Reader(frameIn: seq<byte>, posIn: nat, byteIn: byte, shiftIn: nat)

  function StartReader(frame: seq<byte>): (r: Reader)
  {
    Reader(frame, 0, 0, 0)
  }

  predicate ReaderOk(r: Reader)
  {
    r.shiftIn < 8 && r.posIn <= FRAME_MAX && |r.frameIn| <= FRAME_MAX
  }

  function BufferAt(frame: seq<byte>, i: nat): (r: byte)
  {
    if i < |frame| then frame[i] else 0
  }

  /** Every bit `in_bit` can still deliver, in order: the rest of the current
      byte from its lowest bit up, then each later byte of the buffer. */
  function Remaining(r: Reader): (bits: seq<bool>)
    requires r.shiftIn <= 8
    ensures |bits| == r.shiftIn + (if r.posIn < FRAME_MAX then 8 * (FRAME_MAX - r.posIn) else 0)
    decreases FRAME_MAX - r.posIn, r.shiftIn
  {
    if r.shiftIn > 0 then [BitOf(r.byteIn, 0)] + Remaining(r.(byteIn := r.byteIn >> 1, shiftIn := r.shiftIn - 1))
    else if r.posIn < FRAME_MAX then Remaining(r.(posIn := r.posIn + 1, byteIn := BufferAt(r.frameIn, r.posIn), shiftIn := 8))
    else []
  }

  /** The bits of buffer bytes `p .. FRAME_MAX - 1`. */
  function BufferBits(frame: seq<byte>, p: nat): (r: seq<bool>)
    ensures |r| == if p < FRAME_MAX then 8 * (FRAME_MAX - p) else 0
    decreases FRAME_MAX - p
  {
    if p >= FRAME_MAX then [] else ByteBits(BufferAt(frame, p)) + BufferBits(frame, p + 1)
  }

  /** The low `k` bits of `b`, lowest first. */
  function LowBits(b: byte, k: nat): (r: seq<bool>)
    requires k <= 8
    ensures |r| == k
  {
    seq(k, j requires 0 <= j < k => BitOf(b, j))
  }

  /** What the reader still holds is the unread low bits of the current byte
      followed by the bits of the unread bytes of the buffer. */
  lemma {:induction false} RemainingView(r: Reader)
    requires r.shiftIn <= 8 && r.posIn <= FRAME_MAX
    ensures Remaining(r) == LowBits(r.byteIn, r.shiftIn) + BufferBits(r.frameIn, r.posIn)
    decreases FRAME_MAX - r.posIn, r.shiftIn
  {
    if r.shiftIn > 0 {
      RemainingView(r.(byteIn := r.byteIn >> 1, shiftIn := r.shiftIn - 1));
      ViewShift(r);
    } else if r.posIn < FRAME_MAX {
      RemainingView(r.(posIn := r.posIn + 1, byteIn := BufferAt(r.frameIn, r.posIn), shiftIn := 8));
      ViewLoad(r);
    } else {
      assert LowBits(r.byteIn, 0) == [];
    }
  }

  lemma {:induction false} ViewShift(r: Reader)
    requires 0 < r.shiftIn <= 8 && r.posIn <= FRAME_MAX
    requires var r1 := r.(byteIn := r.byteIn >> 1, shiftIn := r.shiftIn - 1);
             Remaining(r1) == LowBits(r1.byteIn, r1.shiftIn) + BufferBits(r1.frameIn, r1.posIn)
    ensures Remaining(r) == LowBits(r.byteIn, r.shiftIn) + BufferBits(r.frameIn, r.posIn)
  {
    LowBitsShift(r.byteIn, r.shiftIn);
    BitOfLow(r.byteIn);
  }

  lemma {:induction false} ViewLoad(r: Reader)
    requires r.shiftIn == 0 && r.posIn < FRAME_MAX
    requires var r1 := r.(posIn := r.posIn + 1, byteIn := BufferAt(r.frameIn, r.posIn), shiftIn := 8);
             Remaining(r1) == LowBits(r1.byteIn, r1.shiftIn) + BufferBits(r1.frameIn, r1.posIn)
    ensures Remaining(r) == LowBits(r.byteIn, r.shiftIn) + BufferBits(r.frameIn, r.posIn)
  {
    var b := BufferAt(r.frameIn, r.posIn);
    assert LowBits(b, 8) == ByteBits(b);
    assert LowBits(r.byteIn, 0) == [];
  }

  lemma {:induction false} LowBitsShift(b: byte, k: nat)
    requires 0 < k <= 8
    ensures LowBits(b, k) == [b & 1 == 1] + LowBits(b >> 1, k - 1)
  {
    BitOfLow(b);
    forall j | 1 <= j < k
      ensures LowBits(b >> 1, k - 1)[j - 1] == LowBits(b, k)[j]
    {
      BitOfShift(b, 1, j - 1);
      assert ShiftDown(b, 1) == b >> 1;
    }
  }

  /** `in_byte`: the next buffer byte, or "in overflow" past `FRAME_MAX`. */
  function InByte(r: Reader): (res: Result<(byte, Reader)>)
    ensures res.Ok? <==> r.posIn < FRAME_MAX
    ensures res.Err? ==> res.error == InOverflow
    ensures res.Ok? ==> res.value.0 == BufferAt(r.frameIn, r.posIn)
                        && res.value.1 == r.(posIn := r.posIn + 1)
  {
    if r.posIn >= FRAME_MAX then Err(InOverflow)
    else Ok((BufferAt(r.frameIn, r.posIn), r.(posIn := r.posIn + 1)))
  }

  /** `in_bit`: fetch a byte only when the previous one is used up, then
      hand out its bits from the least significant one. */
  function InBit(r: Reader): (res: Result<(bool, Reader)>)
    requires ReaderOk(r)
    ensures res.Ok? <==> Remaining(r) != []
    ensures res.Err? ==> res.error == InOverflow
    ensures res.Ok? ==> ReaderOk(res.value.1) && Remaining(r) == [res.value.0] + Remaining(res.value.1)
    ensures res.Ok? && r.shiftIn > 0 ==> res.value.1.posIn == r.posIn
    ensures res.Ok? && r.shiftIn == 0 ==> res.value.1.posIn == r.posIn + 1
  {
    var r1 :- Refill(r);
    var r2 := r1.(byteIn := r1.byteIn >> 1, shiftIn := r1.shiftIn - 1);
    BitOfLow(r1.byteIn);
    Ok((r1.byteIn & 1 == 1, r2))
  }

  /** The `if (!shift_in)` block of `in_bit`. */
  function Refill(r: Reader): (res: Result<Reader>)
    requires ReaderOk(r)
    ensures res.Ok? <==> Remaining(r) != []
    ensures res.Err? ==> res.error == InOverflow
    ensures res.Ok? ==> 0 < res.value.shiftIn <= 8 && res.value.posIn <= FRAME_MAX
                        && res.value.frameIn == r.frameIn
                        && Remaining(res.value) == Remaining(r)
    ensures res.Ok? && r.shiftIn > 0 ==> res.value == r
    ensures res.Ok? && r.shiftIn == 0 ==> res.value.posIn == r.posIn + 1
  {
    if r.shiftIn == 0 then
      var (b, r1) :- InByte(r);
      Ok(r1.(byteIn := b, shiftIn := 8))
    else Ok(r)
  }

  /** The loop of `in_code`: each bit enters at bit 15 of the register
      `code`, which shifts down by one between bits. Seen as a 16-bit string,
      least significant bit first, the register ends up holding the bits it
      held at the start minus the ones shifted out below, followed by the
      bits read. As in `out_code`, `len == 0` never stops the counter and the
      loop runs until the input overflows. */
  function InCodeLoop(r: Reader, code: nat, len: nat, i: nat): (res: Result<(nat, Reader)>)
    requires ReaderOk(r) && code < 32768
    ensures res.Err? ==> res.error == InOverflow
    ensures res.Ok? ==> ReaderOk(res.value.1)
    decreases |Remaining(r)|
  {
    var (bit, r1) :- InBit(r);
    var code1 := code + (if bit then 32768 else 0);
    RegisterHalf(code, bit);
    if i + 1 == len then Ok((code1, r1))
    else InCodeLoop(r1, code1 / 2, len, i + 1)
  }

  /** A run of the `in_code` loop from pass `i` reads `len - i` bits into
      the top of the register. */
  lemma {:induction false} InCodeLoopReads(r: Reader, code: nat, len: nat, i: nat)
    requires ReaderOk(r) && code < 32768
    ensures CodeLoopPost(r, code, len, i, InCodeLoop(r, code, len, i))
    decreases |Remaining(r)|
  {
    var res := InCodeLoop(r, code, len, i);
    var rb := InBit(r);
    if rb.Ok? {
      var bit, r1 := rb.value.0, rb.value.1;
      var code1 := code + (if bit then 32768 else 0);
      RegisterHalf(code, bit);
      if i + 1 == len {
        assert res == Ok((code1, r1));
        LastPost(r, r1, bit, code, len, i, res);
      } else {
        assert res == InCodeLoop(r1, code1 / 2, len, i + 1);
        InCodeLoopReads(r1, code1 / 2, len, i + 1);
        LoopPost(r, r1, bit, code, len, i, res);
      }
    }
  }

  /** What a run of the `in_code` loop from pass `i` achieves. */
  predicate CodeLoopPost(r: Reader, code: nat, len: nat, i: nat, res: Result<(nat, Reader)>)
    requires ReaderOk(r)
  {
    && (i < len <= 16 ==> (res.Ok? <==> len - i <= |Remaining(r)|))
    && (i < len <= 16 && res.Ok? ==>
          ReaderOk(res.value.1)
          && res.value.0 < 65536
          && Remaining(r) == Remaining(r)[..len - i] + Remaining(res.value.1)
          && CodeBits(res.value.0, 16) == CodeBits(code, 15)[len - i - 1..] + Remaining(r)[..len - i])
    && (i >= len ==> res.Err?)
  }

  /** The contract of one pass of `InCodeLoop` from that of the next. */
  lemma {:induction false} LoopPost(r: Reader, r1: Reader, bit: bool, code: nat, len: nat, i: nat, res: Result<(nat, Reader)>)
    requires ReaderOk(r) && ReaderOk(r1) && code < 32768 && i + 1 != len
    requires Remaining(r) == [bit] + Remaining(r1)
    requires res.Err? ==> res.error == InOverflow
    requires CodeLoopPost(r1, (code + (if bit then 32768 else 0)) / 2, len, i + 1, res)
    ensures CodeLoopPost(r, code, len, i, res)
  {
    if i < len <= 16 && res.Ok? {
      RegisterStep(code, bit, Remaining(r), Remaining(r1), Remaining(res.value.1), res.value.0, len, i);
    }
  }

  /** Setting bit 15 of the register appends the bit read; the shift then
      drops the lowest bit. */
  lemma {:induction false} RegisterPush(code: nat, bit: bool)
    requires code < 32768
    ensures code + (if bit then 32768 else 0) < 65536
    ensures CodeBits(code + (if bit then 32768 else 0), 16) == CodeBits(code, 15) + [bit]
    ensures (code + (if bit then 32768 else 0)) / 2 < 32768
    ensures CodeBits((code + (if bit then 32768 else 0)) / 2, 15) == (CodeBits(code, 15) + [bit])[1..]
  {
    Pow2Table();
    var code1 := code + (if bit then 32768 else 0);
    CodeBitsTop(code, 15, bit);
    assert CodeBits(code1, 16)[1..] == CodeBits(code1 / 2, 15);
  }

  lemma {:induction false} RegisterHalf(code: nat, bit: bool)
    requires code < 32768
    ensures (code + (if bit then 32768 else 0)) / 2 < 32768
  {
    RegisterPush(code, bit);
  }

  /** The contract of the last pass of `InCodeLoop`. */
  lemma {:induction false} LastPost(r: Reader, r1: Reader, bit: bool, code: nat, len: nat, i: nat, res: Result<(nat, Reader)>)
    requires ReaderOk(r) && ReaderOk(r1) && code < 32768 && i + 1 == len
    requires Remaining(r) == [bit] + Remaining(r1)
    requires res == Ok((code + (if bit then 32768 else 0), r1))
    ensures CodeLoopPost(r, code, len, i, res)
  {
    RegisterPush(code, bit);
    assert Remaining(r)[..len - i] == [bit];
  }

  /** The bookkeeping of one pass of the `in_code` loop on bit strings. */
  lemma {:induction false} RegisterStep(code: nat, bit: bool, s: seq<bool>, s1: seq<bool>, s2: seq<bool>, out: nat, len: nat, i: nat)
    requires code < 32768 && i + 1 < len <= 16 && len - i <= |s| && s == [bit] + s1
    requires s1 == s1[..len - (i + 1)] + s2
    requires CodeBits(out, 16) == CodeBits((code + (if bit then 32768 else 0)) / 2, 15)[len - (i + 1) - 1..] + s1[..len - (i + 1)]
    ensures s == s[..len - i] + s2
    ensures CodeBits(out, 16) == CodeBits(code, 15)[len - i - 1..] + s[..len - i]
  {
    RegisterPush(code, bit);
    ShiftedWindow(CodeBits(code, 15), bit, s, s1, s2, len, i);
  }

  lemma {:induction false} ShiftedWindow(t: seq<bool>, bit: bool, s: seq<bool>, s1: seq<bool>, s2: seq<bool>, len: nat, i: nat)
    requires |t| == 15 && i + 1 < len <= 16 && len - i <= |s| && s == [bit] + s1
    requires s1 == s1[..len - (i + 1)] + s2
    ensures s == s[..len - i] + s2
    ensures (t + [bit])[1..][len - (i + 1) - 1..] + s1[..len - (i + 1)] == t[len - i - 1..] + s[..len - i]
  {
    assert s[..len - i] == [bit] + s1[..len - (i + 1)];
    assert (t + [bit])[1..][len - (i + 1) - 1..] == t[len - i - 1..] + [bit];
  }

  /** After the final shift by `16 - len` the register holds exactly the
      value of the `len` bits read. */
  lemma {:induction false} RegisterValue(code: nat, len: nat, bits: seq<bool>)
    requires 1 <= len <= 16 && code < 65536 && |bits| == len
    requires CodeBits(code, 16) == CodeBits(0, 15)[len - 1..] + bits
    ensures code / Pow2(16 - len) == LsbValue(bits)
  {
    ZeroRegister(len);
    CodeOfRegister(code);
    LsbValueZeros(16 - len, bits);
    DivModUnique(code, Pow2(16 - len), LsbValue(bits), 0);
  }

  lemma {:induction false} ZeroRegister(len: nat)
    requires 1 <= len <= 16
    ensures CodeBits(0, 15)[len - 1..] == Zeros(16 - len)
  {
    CodeBitsZero(15);
  }

  lemma {:induction false} CodeOfRegister(code: nat)
    requires code < 65536
    ensures LsbValue(CodeBits(code, 16)) == code
  {
    CodeBitsValue(code, 16);
    Pow2Table();
    SmallMod(code, Pow2(16));
  }

  /** `in_code`: read `len` bits, least significant first. */
  function InCode(r: Reader, len: uint8): (res: Result<(nat, Reader)>)
    requires ReaderOk(r)
    ensures len > 16 ==> res == Err(CodeTooLong)
    ensures len == 0 ==> res == Err(InOverflow)
    ensures 1 <= len <= 16 ==> (res.Ok? <==> len <= |Remaining(r)|)
    ensures 1 <= len <= 16 && res.Err? ==> res.error == InOverflow
    ensures res.Ok? ==> ReaderOk(res.value.1)
                        && Remaining(r) == Remaining(r)[..len] + Remaining(res.value.1)
                        && res.value.0 == LsbValue(Remaining(r)[..len])
  {
    if len > 16 then Err(CodeTooLong)
    else
      InCodeLoopReads(r, 0, len, 0);
      var (code, r1) :- InCodeLoop(r, 0, len, 0);
      RegisterValue(code, len, Remaining(r)[..len]);
      Ok((code / Pow2(16 - len), r1))
  }

  /** `(base << 1) | 1` on a 32-bit `base`: the shifted value is even, so
      setting bit 0 adds one without carry. */
  function ShiftInOne(base: nat): (r: nat)
    ensures r == (2 * base + 1) % UINT_MOD
  {
    ShiftInOneMod(base);
    (2 * base) % UINT_MOD + 1
  }

  lemma {:induction false} ShiftInOneMod(x: nat)
    ensures (2 * x) % UINT_MOD + 1 == (2 * x + 1) % UINT_MOD
  {
    var M := UINT_MOD;
    var q, t := x / M, x % M;
    assert 2 * x == M * (2 * q) + 2 * t;
    var c := if 2 * t < M then 0 else 1;
    var u := 2 * t - c * M;
    assert 2 * x == M * (2 * q + c) + u;
    DivModUnique(2 * x, M, 2 * q + c, u);
    DivModUnique(2 * x + 1, M, 2 * q + c, u + 1);
  }

  /** After `n` passes of the loop of `in_prefix` the 32-bit `base` holds
      `2^n - 1` reduced modulo `2^32`. */
  lemma {:induction false} BaseStep(n: nat)
    ensures ShiftInOne(GradeBase(n) % UINT_MOD) == GradeBase(n + 1) % UINT_MOD
  {
    var M, g := UINT_MOD, GradeBase(n);
    assert GradeBase(n + 1) == 2 * g + 1;
    ShiftInOneMod(g % M);
    ShiftInOneMod(g);
    var q, t := g / M, g % M;
    assert 2 * g + 1 == M * (2 * q) + (2 * t + 1);
    ModShift(2 * t + 1, 2 * q);
  }

  lemma {:induction false} ModShift(a: nat, k: nat)
    ensures (UINT_MOD * k + a) % UINT_MOD == a % UINT_MOD
  {
    var M := UINT_MOD;
    assert a == M * (a / M) + a % M;
    assert M * k + a == M * (k + a / M) + a % M;
    DivModUnique(M * k + a, M, k + a / M, a % M);
  }

  /** What the unary loop of `in_prefix` has done once it returns: it
      consumed the run of ones and the stop bit, and counted the ones.
      Without a stop bit before the end of the buffer it fails with
      "in overflow". */
  predicate UnaryPost(r: Reader, res: Result<(nat, Reader)>)
    requires ReaderOk(r)
  {
    && (res.Ok? <==> LeadingOnes(Remaining(r)) < |Remaining(r)|)
    && (res.Err? ==> res.error == InOverflow)
    && (res.Ok? ==>
          ReaderOk(res.value.1)
          && res.value.0 == LeadingOnes(Remaining(r))
          && Remaining(r) == Remaining(r)[..res.value.0 + 1] + Remaining(res.value.1))
  }

  /** `while (in_bit ()) ...`: the number of passes, unbounded. The 8-bit
      `suffix` and the 32-bit `base` the loop maintains are functions of
      that number (`InPrefix`, `BaseStep`). */
  function InUnary(r: Reader): (res: Result<(nat, Reader)>)
    requires ReaderOk(r)
    ensures UnaryPost(r, res)
    decreases |Remaining(r)|
  {
    var (bit, r1) :- InBit(r);
    if bit then
      var rest := InUnary(r1);
      var res := if rest.Ok? then Ok((rest.value.0 + 1, rest.value.1)) else rest;
      OneBitPost(r, r1, rest, res);
      res
    else
      var res := Ok((0, r1));
      StopBitPost(r, r1, res);
      res
  }

  lemma {:induction false} OneBitPost(r: Reader, r1: Reader, rest: Result<(nat, Reader)>, res: Result<(nat, Reader)>)
    requires ReaderOk(r) && ReaderOk(r1) && Remaining(r) == [true] + Remaining(r1)
    requires UnaryPost(r1, rest)
    requires res == if rest.Ok? then Ok((rest.value.0 + 1, rest.value.1)) else rest
    ensures UnaryPost(r, res)
  {
    var bits, bits1 := Remaining(r), Remaining(r1);
    LeadingOnesCons(bits1);
    if rest.Ok? {
      SplitTwice(bits, 1, bits1, LeadingOnes(bits1) + 1, Remaining(rest.value.1));
    }
  }

  lemma {:induction false} StopBitPost(r: Reader, r1: Reader, res: Result<(nat, Reader)>)
    requires ReaderOk(r) && ReaderOk(r1) && Remaining(r) == [false] + Remaining(r1)
    requires res == Ok((0, r1))
    ensures UnaryPost(r, res)
  {
    var bits := Remaining(r);
    assert LeadingOnes(bits) == 0;
    assert bits[..1] == [false];
  }

  /** The 8-bit `suffix` after `n` passes of the loop: `suffix++` on an
      unsigned char. */
  function Suffix(n: nat): (r: uint8)
  {
    if n == 0 then 0 else (Suffix(n - 1) + 1) % 256
  }

  /** The 32-bit `base` after `n` passes: 0, then `(base << 1) | 1`. */
  function Base(n: nat): (r: nat)
    ensures r < UINT_MOD
  {
    if n == 0 then 0 else ShiftInOne(Base(n - 1))
  }

  /** The counter is the number of ones modulo 256. */
  lemma {:induction false} SuffixCount(n: nat)
    ensures Suffix(n) == n % 256
  {
    if n > 0 {
      SuffixCount(n - 1);
      var q, t := (n - 1) / 256, (n - 1) % 256;
      if t < 255 {
        DivModUnique(n, 256, q, t + 1);
      } else {
        DivModUnique(n, 256, q + 1, 0);
      }
    }
  }

  /** The base is `2^n - 1` modulo `2^32`: all ones once `n` reaches 32. */
  lemma {:induction false} BaseCount(n: nat)
    ensures Base(n) == GradeBase(n) % UINT_MOD
  {
    if n > 0 {
      BaseCount(n - 1);
      BaseStep(n - 1);
    }
  }

  /** `val = base + in_code (suffix)` in 32-bit arithmetic, for a counter
      that is not zero. */
  function InOffset(r: Reader, suffix: nat, base: nat): (res: Result<(nat, Reader)>)
    requires ReaderOk(r) && 0 < suffix < 256
    ensures suffix > 16 ==> res == Err(CodeTooLong)
    ensures suffix <= 16 ==> (res.Ok? <==> suffix <= |Remaining(r)|)
    ensures suffix <= 16 && res.Err? ==> res.error == InOverflow
    ensures res.Ok? ==> ReaderOk(res.value.1)
                        && Remaining(r) == Remaining(r)[..suffix] + Remaining(res.value.1)
                        && res.value.0 == WrapAdd(base, LsbValue(Remaining(r)[..suffix]))
  {
    var (code, r1) :- InCode(r, suffix);
    Ok((WrapAdd(base, code), r1))
  }

  /** `in_prefix`: the unary grade, then (unless the 8-bit counter is 0)
      the offset added to the base. It reads exactly what `PrefixDecode`
      describes on the bits the reader still holds. */
  function InPrefix(r: Reader): (res: Result<(nat, Reader)>)
    requires ReaderOk(r)
    ensures PrefixReadPost(r, res)
  {
    DecodeOverflow(Remaining(r));
    var (k, r1) :- InUnary(r);
    var suffix, base := Suffix(k), Base(k);
    var res := if suffix == 0 then Ok((0, r1)) else InOffset(r1, suffix, base);
    PrefixPost(r, k, r1, res);
    res
  }

  lemma {:induction false} DecodeOverflow(bits: seq<bool>)
    ensures LeadingOnes(bits) == |bits| ==> PrefixDecode(bits) == Err(InOverflow)
  {
  }

  /** The result of `in_prefix` against the reference decoder. */
  predicate PrefixReadPost(r: Reader, res: Result<(nat, Reader)>)
    requires ReaderOk(r)
  {
    var d := PrefixDecode(Remaining(r));
    && (res.Ok? <==> d.Ok?)
    && (res.Err? ==> res.error == d.error)
    && (res.Ok? ==> ReaderOk(res.value.1) && res.value.0 == d.value.0
                    && Remaining(r) == Remaining(r)[..d.value.1] + Remaining(res.value.1))
  }

  lemma {:induction false} PrefixPost(r: Reader, k: nat, r1: Reader, res: Result<(nat, Reader)>)
    requires ReaderOk(r) && ReaderOk(r1)
    requires k == LeadingOnes(Remaining(r)) < |Remaining(r)|
    requires Remaining(r) == Remaining(r)[..k + 1] + Remaining(r1)
    requires Suffix(k) == 0 ==> res == Ok((0, r1))
    requires Suffix(k) != 0 ==> res == InOffset(r1, Suffix(k), Base(k))
    ensures PrefixReadPost(r, res)
  {
    SuffixCount(k);
    BaseCount(k);
    DecodeAfterRun(Remaining(r), k, Remaining(r1));
    if Suffix(k) == 0 {
      WrappedPost(r, k, r1, res);
    } else {
      OffsetPost(r, k, r1, res);
    }
  }

  lemma {:induction false} WrappedPost(r: Reader, k: nat, r1: Reader, res: Result<(nat, Reader)>)
    requires ReaderOk(r) && ReaderOk(r1)
    requires k < |Remaining(r)| && Remaining(r) == Remaining(r)[..k + 1] + Remaining(r1)
    requires PrefixDecode(Remaining(r)) == Ok((0, k + 1))
    requires res == Ok((0, r1))
    ensures PrefixReadPost(r, res)
  {
  }

  lemma {:induction false} OffsetPost(r: Reader, k: nat, r1: Reader, res: Result<(nat, Reader)>)
    requires ReaderOk(r) && ReaderOk(r1) && 0 < k % 256
    requires k == LeadingOnes(Remaining(r)) < |Remaining(r)|
    requires Remaining(r) == Remaining(r)[..k + 1] + Remaining(r1)
    requires res == InOffset(r1, k % 256, GradeBase(k) % UINT_MOD)
    requires var bits, bits1 := Remaining(r), Remaining(r1);
             && (k % 256 > 16 ==> PrefixDecode(bits) == Err(CodeTooLong))
             && (0 < k % 256 <= 16 ==> (PrefixDecode(bits).Ok? <==> k % 256 <= |bits1|))
             && (0 < k % 256 <= 16 && PrefixDecode(bits).Err? ==> PrefixDecode(bits).error == InOverflow)
             && (0 < k % 256 <= 16 && k % 256 <= |bits1| ==>
                   PrefixDecode(bits) == Ok((WrapAdd(GradeBase(k) % UINT_MOD, LsbValue(bits1[..k % 256])), k + 1 + k % 256)))
    ensures PrefixReadPost(r, res)
  {
    if res.Ok? {
      SplitTwice(Remaining(r), k + 1, Remaining(r1), k % 256, Remaining(res.value.1));
    }
  }

  lemma {:induction false} SplitTwice<T>(a: seq<T>, i: nat, b: seq<T>, j: nat, c: seq<T>)
    requires i <= |a| && a == a[..i] + b && j <= |b| && b == b[..j] + c
    ensures a == a[..i + j] + c
  {
    assert a[..i + j] == a[..i] + b[..j];
  }

  /** `PrefixDecode` once the run of `k` ones and the stop bit are split
      off, leaving `bits1`. */
  lemma {:induction false} DecodeAfterRun(bits: seq<bool>, k: nat, bits1: seq<bool>)
    requires k == LeadingOnes(bits) < |bits| && bits == bits[..k + 1] + bits1
    ensures k % 256 == 0 ==> PrefixDecode(bits) == Ok((0, k + 1))
    ensures k % 256 > 16 ==> PrefixDecode(bits) == Err(CodeTooLong)
    ensures 0 < k % 256 <= 16 ==> (PrefixDecode(bits).Ok? <==> k % 256 <= |bits1|)
    ensures 0 < k % 256 <= 16 && PrefixDecode(bits).Err? ==> PrefixDecode(bits).error == InOverflow
    ensures 0 < k % 256 <= 16 && k % 256 <= |bits1| ==>
              PrefixDecode(bits) == Ok((WrapAdd(GradeBase(k) % UINT_MOD, LsbValue(bits1[..k % 256])), k + 1 + k % 256))
  {
    var s := k % 256;
    if 0 < s <= 16 && s <= |bits1| {
      assert bits[k + 1..k + 1 + s] == bits1[..s];
    }
  }

  // ---------------------------------------------------------------------------
  // The grade loop of `out_prefix` in 32-bit arithmetic

  /** The first loop of `out_prefix` as the machine runs it: `base1` is
      shifted in 32 bits and `prefix` counts in 8 bits. The loop has no
      bound of its own, so at most `fuel` passes are run and `None` means
      they all ran without the loop ending. */
  function GradeLoop32(val: uint32, base0: uint32, base1: uint32, prefix: uint8, fuel: nat): (r: Option<(uint8, uint32)>)
    decreases fuel
  {
    if val < base1 then Some((prefix, base0))
    else if fuel == 0 then None
    else GradeLoop32(val, base1, ShiftInOne(base1), (prefix + 1) % 256, fuel - 1)
  }

  /** Below `2^32 - 1` the 32-bit loop ends within 32 passes, where the
      unbounded one does. */
  lemma {:induction false} GradeLoop32Agrees(val: uint32, fuel: nat)
    requires val < UINT_MAX && fuel >= 32
    ensures GradeLoop32(val, 0, 1, 0, fuel) == Some((Grade(val), GradeBase(Grade(val))))
  {
    GradeLoop32From(val, 0, fuel);
  }

  lemma {:induction false} GradeLoop32From(val: uint32, n: nat, fuel: nat)
    requires val < UINT_MAX && n < 32 && GradeBase(n) <= val && n + fuel >= 32
    ensures GradeBase(n) < UINT_MOD && GradeBase(n + 1) < UINT_MOD
    ensures GradeLoop32(val, GradeBase(n), GradeBase(n + 1), n, fuel) == Some((Grade(val), GradeBase(Grade(val))))
    decreases fuel
  {
    SmallBase(n);
    if val < GradeBase(n + 1) {
      GradeUnique(val, n);
    } else {
      if n == 31 {
        assert false;
      }
      SmallBase(n + 1);
      var b0, b1, b2 := GradeBase(n), GradeBase(n + 1), GradeBase(n + 2);
      assert (n + 1) % 256 == n + 1;
      assert GradeLoop32(val, b0, b1, n, fuel) == GradeLoop32(val, b1, b2, n + 1, fuel - 1);
      GradeLoop32From(val, n + 1, fuel - 1);
    }
  }

  /** Grade bases up to `2^32 - 1` fit in 32 bits, and below that one the
      32-bit `(base << 1) | 1` steps to the next base. */
  lemma {:induction false} SmallBase(n: nat)
    requires n < 32
    ensures GradeBase(n) < UINT_MAX && GradeBase(n + 1) <= UINT_MAX
    ensures n == 31 <==> GradeBase(n + 1) == UINT_MAX
    ensures ShiftInOne(GradeBase(n)) == GradeBase(n + 1)
  {
    Pow2Table();
    var b, b1 := GradeBase(n), GradeBase(n + 1);
    assert b1 == 2 * b + 1;
    if n < 31 {
      Pow2Monotone(n + 2, 32);
    }
    DivModUnique(b1, UINT_MOD, 0, b1);
  }

  /** For `val == 2^32 - 1` the loop never ends: once `base1` is all ones,
      `(base1 << 1) | 1` is all ones again and never exceeds `val`. */
  lemma {:induction false} GradeLoop32NeverEnds(fuel: nat)
    ensures GradeLoop32(UINT_MAX, 0, 1, 0, fuel) == None
  {
    GradeLoop32Climbs(0, fuel);
  }

  lemma {:induction false} GradeLoop32Climbs(n: nat, fuel: nat)
    requires n < 32
    ensures GradeBase(n) < UINT_MOD && GradeBase(n + 1) < UINT_MOD
    ensures GradeLoop32(UINT_MAX, GradeBase(n), GradeBase(n + 1), n, fuel) == None
    decreases 32 - n, fuel
  {
    SmallBase(n);
    if n == 31 {
      assert GradeBase(n + 1) == UINT_MAX;
      GradeLoop32Stuck(GradeBase(n), n, fuel);
    } else if fuel == 0 {
      assert UINT_MAX >= GradeBase(n + 1);
    } else {
      SmallBase(n + 1);
      var b0, b1, b2 := GradeBase(n), GradeBase(n + 1), GradeBase(n + 2);
      assert (n + 1) % 256 == n + 1;
      assert GradeLoop32(UINT_MAX, b0, b1, n, fuel) == GradeLoop32(UINT_MAX, b1, b2, n + 1, fuel - 1);
      GradeLoop32Climbs(n + 1, fuel - 1);
    }
  }

  lemma {:induction false} GradeLoop32Stuck(base0: uint32, prefix: uint8, fuel: nat)
    ensures GradeLoop32(UINT_MAX, base0, UINT_MAX, prefix, fuel) == None
    decreases fuel
  {
    if fuel > 0 {
      assert ShiftInOne(UINT_MAX) == UINT_MAX;
      GradeLoop32Stuck(UINT_MAX, (prefix + 1) % 256, fuel - 1);
    }
  }
}
